=== FILE: README.md ===
# Spinal_NET spike-sorting pipeline: a Dafny model of its data rules

This project models the pure data rules of the `spksorting` scripts. These
scripts turn Intan RHD and Open Ephys recordings of the spinal cord into NWB
files and then gather chronic statistics after spike sorting. Every HDF5,
NWB, pandas and numpy object is replaced by plain sequences, maps and
records. Every Python exception becomes an `Err` carrying its exception
kind (`Wrappers.PyError`). What is modelled:

- **Streaming append** (`Dataset`, `RhdIo`): growing one axis of a dataset
  and writing a chunk into its tail. File-by-file appending to the temporary
  HDF5 store or to the NWB acquisition builds the concatenation of the
  files. The write follows h5py: a selection of no cells is skipped, a
  chunk axis of extent 1 is broadcast, and any other mismatch is a shape
  error. An empty chunk writes to the slice `-0:`, which is the whole axis,
  so it is a shape error unless the dataset holds no cell.
- **Channel selection and electrode table** (`Channels`, `Nwb`, `RhdIo`,
  `NwbUtils`):
  - mask defaulting and validation;
  - the 32-on-64 hot-fix mask and the `native - 16` channel-map row;
  - coordinate channel-map lookup;
  - shank groups;
  - the `native{n}_ovr{i}_shank{s}` electrode label and its parse back.
- **Intan session folders** (`RhdNames`, `RhdFolder`, `RhdCat`, `RhdImp`):
  - folder and file-name recognisers and the timestamp fields;
  - mode selection and identifier derivation;
  - the raw-code microvolt conversion;
  - the sample offsets of concatenated sessions;
  - attaching impedances by parsing electrode labels.
- **Open Ephys and NWB rewrites** (`OeConvert`, `NwbConvert`):
  - nested-dict descent, date and file-name parsing, headstage choice and
    shape bookkeeping;
  - metadata precedence, identifier resolution, electrode renumbering and
    series copying of the NWB-to-NWB rewrite.
- **Post-sorting statistics** (`Templates`, `Sessions`, `Counting`,
  `CountingV1`, `Impedance`, `Scatters`, `Periods`):
  - peak-to-peak amplitudes and unit acceptance;
  - skipping failed sessions while keeping every per-session list aligned;
  - valid-session selection and the impedance band filter;
  - reading saved animals, day truncation, datapoint removal and curation;
  - grouping by period and the pooled per-period datasets.

Decoding and formatting of dates (`strptime`/`strftime`), file readers and
directory listings are function parameters. Times are integer seconds.
Amplitudes, impedances and times are `real`: the scripts only compare,
subtract, take maxima and minima of them, or divide them by constants.

## Model

| member | source | states |
|---|---|---|
| Dataset.SliceStart | spksorting/preprocess_rhd/utils/rhd_io_utils.py:83 | a normalised slice start never lies past the end of the axis |
| Dataset.AppendVec | spksorting/preprocess_rhd/utils/rhd_io_utils.py:72-86 | appending a non-empty chunk to a vector gives the old data followed by the chunk; an empty chunk selects the whole axis (`-0 == 0`), so it succeeds only on an empty dataset and is a shape error otherwise |
| Dataset.AppendRows | spksorting/preprocess_rhd/utils/rhd_io_utils.py:288-296 | growing axis 0 keeps the old rows and adds one row per chunk row; a dataset without columns takes any chunk, and otherwise the write fails exactly when an empty chunk (which selects every row) meets stored rows or the chunk's width is neither the dataset's nor 1; each new cell is the chunk's cell in that column, or its single column repeated, so a chunk of the dataset's width is stacked under the old rows |
| Dataset.AppendCols | spksorting/preprocess_rhd/utils/rhd_io_utils.py:72-86 | growing axis 1 keeps every old row as the start of its new row; a dataset without rows takes any chunk, and otherwise the write fails exactly when an empty chunk (which selects every column) meets stored columns or the chunk's row count is neither the dataset's nor 1; each new cell is the matching chunk row's cell, or the single chunk row's, so a chunk of matching rows extends each row by its own |
| Dataset.OneRowChunkRepeats | spksorting/preprocess_rhd/utils/rhd_io_utils.py:85-86 | writing a one-row chunk along the columns stores the same grid as writing that row once per stored row |
| Dataset.OneColumnChunkRepeats | spksorting/preprocess_rhd/utils/rhd_io_utils.py:295-296 | writing a one-column chunk along the rows stores the same grid as writing each of its values across every column |
| Dataset.StreamingVecIsConcat | spksorting/preprocess_rhd/utils/rhd_io_utils.py:96 | appending non-empty chunks one call at a time builds the old data followed by the concatenation of the chunks in order |
| Dataset.StreamingRowsIsConcat | spksorting/preprocess_rhd/utils/rhd_io_utils.py:288-296 | appending row chunks of the dataset's width one call at a time keeps the width, adds up the row counts and stacks every chunk's rows in order |
| Dataset.Transpose | spksorting/preprocess_rhd/utils/rhd_io_utils.py:275 | `.T` swaps the extents and puts cell (j, i) at (i, j) |
| Dataset.TransposeTwice | spksorting/preprocess_rhd/utils/rhd_io_utils.py:275 | transposing twice gives the array back |
| Dataset.SelectRows | spksorting/preprocess_rhd/utils/rhd_io_utils.py:47 | `a[mask, :]` keeps the rows whose mask entry is true, in order, one per true entry, at full width |
| Dataset.SelectCols | spksorting/preprocess_rhd/utils/nwb_utils.py:148 | `a[:, mask]` keeps in every row the columns whose mask entry is true |
| Dataset.SelectColsIsTransposedSelectRows | spksorting/preprocess_rhd/utils/rhd_io_utils.py:275 | selecting columns of a samples-by-channels array equals selecting rows of its channels-by-samples transpose and transposing back |
| Dataset.AppendColsIsTransposedAppendRows | spksorting/preprocess_rhd/utils/rhd_io_utils.py:95 | growing a channels-by-samples store along samples and growing its transpose along axis 0 (as the NWB file is grown) store the same data |
| Channels.ResolveMask | spksorting/preprocess_rhd/utils/rhd_io_utils.py:88-92 | a missing mask keeps every channel; a given mask is accepted exactly when it is boolean and has one entry per channel, and is then used as given; otherwise the call fails with the caller's error kind |
| Channels.MissingMaskKeepsAll | spksorting/preprocess_rhd/utils/rhd_io_utils.py:22-28 | without a mask every channel's data is kept, in order |
| Channels.DefaultMask | spksorting/preprocess_rhd/utils/rhd_io_utils.py:178-184 | with no mask, fewer than 33 or more than 64 channels keep all; 33 to 64 channels keep exactly the native orders 16..47 |
| Channels.HotfixKeepsMiddleBlock | spksorting/preprocess_rhd/utils/rhd_io_utils.py:181-184 | for 33 to 64 channels the default mask keeps exactly the channels whose native order lies in 16..47, in their original order |
| Channels.MapIds | spksorting/preprocess_rhd/utils/rhd_io_utils.py:230-233 | with the 32-on-64 hot-fix switched on, every kept channel looks up map row native order minus 16 |
| Channels.LookupCorstyle | spksorting/preprocess_rhd/utils/rhd_io_utils.py:133-148 | a non-1-D id array is a ValueError; otherwise the lookup succeeds exactly when the map is 2-D and every id designates a map row (negative ids count from the end), and a map of fewer dimensions is an IndexError; then each id gets that row's x, y and, for a three-column map, the shank in column 2, else shank 0 |
| Channels.NegativeIdReadsFromEnd | spksorting/preprocess_rhd/utils/rhd_io_utils.py:231-237 | a kept channel with native order below 16 gets a negative map id and silently reads a row counted from the end of the map |
| Channels.InsertUnique | spksorting/preprocess_rhd/utils/rhd_io_utils.py:245 | inserting into a strictly increasing list keeps it strictly increasing and adds exactly the new value |
| Channels.SortedUnique | spksorting/preprocess_rhd/utils/rhd_io_utils.py:245 | `np.sort(np.unique(shankids))` is strictly increasing and holds exactly the shank ids that occur |
| Channels.GroupFor | spksorting/preprocess_rhd/utils/rhd_io_utils.py:245-256 | the intended group of a shank id is the group created for that id, present exactly when the id occurs |
| Channels.GroupAsWrittenAgrees | spksorting/preprocess_rhd/utils/rhd_io_utils.py:245-256 | when the shank ids in use are exactly 0..k-1, indexing the group list by shank id finds the group of that shank |
| Channels.GroupAsWrittenMisplaces | spksorting/preprocess_rhd/utils/rhd_io_utils.py:245-256 | with shank ids {1, 2}, indexing the group list by shank id puts shank 1 in the shank-2 group and finds no group for shank 2 |
| Channels.ParseOfSignedNative | spksorting/preprocess_rhd/utils/rhd_folder.py:305 | a label whose native field carries a minus sign does not match the `native([0-9]+)_ovr([0-9]+)_shank([0-9]+)` pattern |
| Channels.ParseOfFields | spksorting/preprocess_rhd/utils/rhd_folder.py:305 | a label assembled from digit-or-signed fields matches the label pattern exactly when the native and shank fields are plain digits, and then yields the native field's value |
| Channels.LabelRoundTrip | spksorting/preprocess_rhd/utils/rhd_io_utils.py:258 | parsing a written `native{n}_ovr{i}_shank{s}` label gives back n exactly when n and s are non-negative |
| Nwb.OrElse | spksorting/preprocess_rhd/utils/rhd_io_utils.py:199 | `dict.get(key, default)`: a present value wins, an absent one gives the default |
| Nwb.MakeHeader | spksorting/preprocess_rhd/utils/rhd_io_utils.py:199-220 | every header field takes the supplied metadata value when there is one; an absent identifier or start time becomes the "TODO MANDATORY" placeholder; the other fields get the variant's defaults; the subject is passed through |
| Nwb.HeaderDefaultsOnlyFillGaps | spksorting/preprocess_rhd/utils/nwb_utils.py:82-90 | the RHD and the spinal-cord variants write the same header whenever the metadata supplies description, experimenter, lab and institution |
| Nwb.CoordinateMap | spksorting/preprocess_rhd/utils/rhd_io_utils.py:236-242 | only a dict map with style "coordinates" and map data is accepted; "map_by_shank" is NotImplementedError, another style is ValueError, and a bare array (wrapped in a list) is a TypeError |
| Nwb.ConvOrDefault | spksorting/preprocess_rhd/utils/rhd_io_utils.py:189-190 | a missing data conversion means conversion 1.0 and offset 0.0 |
| Nwb.Range | spksorting/preprocess_rhd/utils/rhd_io_utils.py:268 | the table region lists the row indices 0..n-1 |
| Nwb.ElectrodeRows | spksorting/preprocess_rhd/utils/rhd_io_utils.py:254-266 | electrode k has the k-th native order as id, the `native{n}_ovr{k}_shank{s}` label, the given group and the k-th looked-up x and y |
| Nwb.BuildElectrodes | spksorting/preprocess_rhd/utils/rhd_io_utils.py:243-266 | the table builds exactly when the map is 2-D, every map id is in range and the map has two columns; the groups are ascending and are exactly the shanks in use; electrode k sits in the group of its own shank with its id, label and location |
| Nwb.BuildElectrodesAsWritten | spksorting/preprocess_rhd/utils/rhd_io_utils.py:254-256 | as written, electrode k goes to the group at list position `shank[k]`, whatever shank that group was made for |
| Nwb.GroupsAsWritten | spksorting/preprocess_rhd/utils/rhd_io_utils.py:256 | the list position the loop as written reads for each electrode's shank |
| Nwb.AsWrittenAgreesOnDenseShanks | spksorting/preprocess_rhd/utils/rhd_io_utils.py:245-256 | when the shank ids in use are exactly 0..g-1 the loop as written builds the same table as the corrected one |
| Nwb.ShankGroupsMisassigned | spksorting/preprocess_rhd/utils/rhd_io_utils.py:243-256 | a map whose two rows sit on shanks 1 and 2 makes the loop as written fail with IndexError, while every channel has a group |
| Nwb.LabelsRecoverIds | spksorting/preprocess_rhd/utils/rhd_folder.py:300-305 | with non-negative native orders and shank ids, every label in a built table parses back to its electrode's id |
| RhdIo.NativeOrders | spksorting/preprocess_rhd/utils/rhd_io_utils.py:26-28 | one native order per amplifier channel, in channel order |
| RhdIo.Impedances | spksorting/preprocess_rhd/utils/rhd_io_utils.py:29-31 | one impedance magnitude per amplifier channel, in channel order |
| RhdIo.InitiateTemp | spksorting/preprocess_rhd/utils/rhd_io_utils.py:10-70 | the store is created exactly when the mask resolves (else AssertionError); row k holds the k-th kept channel's native order, impedance and samples, and the times and sample rate are the chunk's |
| RhdIo.AppendTemp | spksorting/preprocess_rhd/utils/rhd_io_utils.py:88-96 | appending succeeds exactly when the mask resolves, the kept channel count suits the stored rows (no stored rows, the same count, or a single channel) or the chunk has no samples and the store none either, and a chunk without samples meets no stored times; the channel information is kept, the chunk's times follow the old ones, and every stored row is extended by its channel's new samples (the single kept channel's when only one is kept) |
| RhdIo.TempStreamingIsConcat | spksorting/preprocess_rhd/utils/rhd_folder.py:154-158 | streaming files of one channel count into the store succeeds, and every kept row and the time vector become the concatenation of all files' pieces, in order |
| RhdIo.InitialMask | spksorting/preprocess_rhd/utils/rhd_io_utils.py:178-188 | `initiate_nwb` uses the 32-on-64 hot-fix default when no mask is given, and otherwise accepts a mask exactly when it is boolean with one entry per channel (ValueError otherwise) |
| RhdIo.NwbChunk | spksorting/preprocess_rhd/utils/rhd_io_utils.py:275 | the stored data of a chunk has one row per sample and one column per kept channel, cell (s, c) being sample s of the c-th kept channel |
| RhdIo.InitiateNwb | spksorting/preprocess_rhd/utils/rhd_io_utils.py:150-285 | a bad mask is its own error and, after it, a start time that is not a date and time is a TypeError; the file is created exactly when the mask, the start time, the map style and the electrode table all succeed; it holds the metadata header with the RHD defaults, the electrode table of the kept channels looked up at native order minus 16, no impedances, and the kept data starting at time 0 with the given or identity conversion |
| RhdIo.InitiatedElectrodesMatchColumns | spksorting/preprocess_rhd/utils/rhd_io_utils.py:254-275 | electrode k of a new file is the k-th kept channel: its id is that channel's native order and data column k is that channel's samples |
| RhdIo.AppendNwb | spksorting/preprocess_rhd/utils/rhd_io_utils.py:298-307 | appending succeeds exactly when the mask resolves and either the file has no channel column or, when the chunk has samples, the kept channel count is the file's width or 1, and, when it has none, the file holds no rows; the stored rows stay in front, one row per sample follows holding the kept channels (a single kept channel repeated across the width), and nothing else in the file changes |
| RhdIo.NwbStreamingIsConcat | spksorting/preprocess_rhd/utils/rhd_folder.py:154-162 | streaming files of one channel count into an NWB file with one valid mask succeeds; the stored rows are the old rows followed by every file's kept data in order, the width is unchanged, and nothing else in the file changes |
| RhdIo.TempAndNwbAgree | spksorting/preprocess_rhd/utils/rhd_io_utils.py:95 | one chunk appended to a temporary store and to an NWB file holding its transpose leaves the file holding the transpose of the new store |
| RhdIo.DefaultMasksDisagree | spksorting/preprocess_rhd/utils/rhd_io_utils.py:300-301 | with no mask, a 33..64-channel recording with channels both inside and outside native orders 16..47 initiates with the hot-fix mask but the next chunk is appended with every channel, so the append fails once that chunk has samples |
| NwbUtils.Arange | spksorting/preprocess_rhd/utils/nwb_utils.py:107 | `np.arange(n)` lists 0..n-1 |
| NwbUtils.KeptColumnsAscending | spksorting/preprocess_rhd/utils/nwb_utils.py:107 | `np.arange(n)[mask]` lists the positions of the true entries, strictly ascending and in range |
| NwbUtils.InitiateNwbFromArray | spksorting/preprocess_rhd/utils/nwb_utils.py:34-159 | a bad mask is ValueError, then a missing sample rate KeyError, then a start time that is not a date and time TypeError; otherwise the file is created exactly when the map style and the electrode table succeed, with the spinal-cord defaults, the kept column positions as electrode ids and map rows, and the array's kept columns as data |
| NwbUtils.ArrayElectrodesMatchColumns | spksorting/preprocess_rhd/utils/nwb_utils.py:107-148 | electrode k is the k-th kept column: its id is that column's position and data column k is that column |
| NwbUtils.VariantsStoreSameData | spksorting/preprocess_rhd/utils/nwb_utils.py:148 | given an RHD chunk as a samples-by-channels array, `data_array[:, mask]` stores the same data as the RHD variant's `amplifier_data[mask, :].T` |
| RhdFolder.RawCodesReadAsMicrovolts | spksorting/preprocess_rhd/utils/rhd_folder.py:41-44 | with the Intan conversion a raw code reads back as 0.195 uV per step from code 32768, which reads as zero; the identity conversion reads the stored value back unchanged |
| RhdFolder.ConvFor | spksorting/preprocess_rhd/utils/rhd_folder.py:138-141 | the Intan conversion is recorded exactly when the amplifier data are raw codes |
| RhdFolder.SelectMode | spksorting/preprocess_rhd/utils/rhd_folder.py:96-101 | exposing to RAM with a memory map loads the temporary store, exposing without one loads into RAM, and otherwise the folder is only converted |
| RhdFolder.DeriveIdentifier | spksorting/preprocess_rhd/utils/rhd_folder.py:129-134 | the start time becomes the session start; a given identifier is kept; a missing one is `identifier_top` plus "_" plus the formatted start; with neither only `identifier_top` is set to "data_" plus the start; a missing metadata dict is a TypeError; no other key changes |
| RhdFolder.ConvertedHeaderIdentifier | spksorting/preprocess_rhd/utils/rhd_folder.py:129-142 | the written header starts at the session start and its identifier is the given one, else the derived one, else the "TODO MANDATORY" placeholder |
| RhdFolder.ReadMapCsv | spksorting/preprocess_rhd/utils/rhd_folder.py:126-128 | a file with no fields is a ValueError; otherwise the map keeps the file's shape, every cell truncated toward zero, and is 2-D exactly when the file has at least two rows and two columns (`squeeze` drops an axis of extent 1) |
| RhdFolder.ReadMapCsvIdempotent | spksorting/preprocess_rhd/utils/rhd_folder.py:126-128 | every loaded cell is a whole number: reading a loaded map back gives the same map |
| RhdFolder.WholeTableLoadsUnchanged | spksorting/preprocess_rhd/utils/rhd_folder.py:126-128 | a file of whole numbers with at least two rows and two columns loads as exactly that 2-D table |
| RhdFolder.SqueezedMapFailsLookup | spksorting/preprocess_rhd/utils/rhd_io_utils.py:143-145 | a map file of one row or one column squeezes below two dimensions, so every lookup of a 1-D id array into it is an IndexError |
| RhdFolder.LoadMapData | spksorting/preprocess_rhd/utils/rhd_folder.py:124-128 | a map dict without map data gets the map read from its file: a KeyError when there is no file, the reader's ValueError for a file with no fields, otherwise the squeezed, truncated table; any other map argument is passed on unchanged |
| RhdFolder.ReadAll | spksorting/preprocess_rhd/utils/rhd_folder.py:154-156 | one parsed chunk per file name, in the order given |
| RhdFolder.ConvertFilesAsWritten | spksorting/preprocess_rhd/utils/rhd_folder.py:142-162 | as written, the first file initiates the NWB file with the caller's mask argument and every later file is appended with that same argument |
| RhdFolder.UnmaskedHotfixBreaksAppend | spksorting/preprocess_rhd/utils/rhd_folder.py:142-162 | with no mask, a 33..64-channel recording whose first file has channels both inside and outside native orders 16..47 fails to convert as soon as it spans two files and the second has samples |
| RhdFolder.FileSamples | spksorting/preprocess_rhd/utils/rhd_folder.py:259 | one sample count per file |
| RhdFolder.AppendAllRowCount | spksorting/preprocess_rhd/utils/rhd_io_utils.py:288-296 | each successful append adds one stored row per sample of the file |
| RhdFolder.RowCountAfterFirst | spksorting/preprocess_rhd/utils/rhd_folder.py:154-162 | a file holding the first file's samples with the others appended holds the total sample count of all files |
| RhdFolder.ConvertFiles | spksorting/preprocess_rhd/utils/rhd_folder.py:142-162 | with the mask the first file was initiated with passed to every append: an initiation error is the result; on success only the stored data differ from the initiated file, and they hold one row per sample of every file |
| RhdFolder.AppendAllKeepsRest | spksorting/preprocess_rhd/utils/rhd_io_utils.py:298-307 | a series of appends changes only the stored data |
| RhdFolder.ConvertFilesIsConcat | spksorting/preprocess_rhd/utils/rhd_folder.py:142-162 | a recording whose files agree on the channel count converts whenever its first file initiates; the data are every file's kept channels, transposed, one file after another, under the first file's header and electrode table |
| RhdFolder.AppendAllSameMask | spksorting/preprocess_rhd/utils/rhd_io_utils.py:300-303 | two mask arguments that resolve to the same mask append every file alike |
| RhdFolder.ConvertFilesAgreesOutsideHotfix | spksorting/preprocess_rhd/utils/rhd_folder.py:142-162 | the as-written and the corrected conversion give the same result whenever a mask is given or the channel count is outside 33..64 |
| RhdFolder.FolderPaths | spksorting/preprocess_rhd/utils/rhd_folder.py:90-92 | each file name joined onto the folder, in order |
| RhdFolder.LoadToStore | spksorting/preprocess_rhd/utils/rhd_folder.py:105-158 | the memory-mapped mode needs a temporary folder (AssertionError otherwise) and then streams every file into the store with the caller's mask |
| RhdFolder.ConvertFolder | spksorting/preprocess_rhd/utils/rhd_folder.py:121-162 | the conversion mode needs an export path and a channel map (AssertionError otherwise); the written file starts at the session start and records the conversion chosen by `amplifier_rawbits` |
| RhdFolder.LoadSorted | spksorting/preprocess_rhd/utils/rhd_folder.py:94-182 | the RAM mode always fails; a memory-mapped result needs that mode and a temporary folder; a converted result reports the earliest file time as session start, the sorted names and their joined paths, and the file written from them |
| RhdFolder.ReadRhdFolder | spksorting/preprocess_rhd/utils/rhd_folder.py:68-182 | a listing error is the result; a folder without `.rhd` files is an IndexError; otherwise the folder is loaded from its time-ordered files |
| RhdNames.MatchEphysFolder | spksorting/preprocess_rhd/utils/rhd_folder.py:46-47 | true exactly when a name-class run is followed by `_` six ASCII digits `_` six ASCII digits at the start of the name, whatever follows |
| RhdNames.EphysFolderExample | spksorting/preprocess_rhd/utils/rhd_folder.py:46-47 | a session prefix, date and time followed by more text is still recognised |
| RhdNames.NameRun | spksorting/preprocess_rhd/utils/rhd_folder.py:60 | the longest prefix of the name drawn from `[a-zA-Z0-9_\-]` |
| RhdNames.RhdTimestampTextIsMatch | spksorting/preprocess_rhd/utils/rhd_folder.py:59-62 | the timestamp text is taken exactly when the file-name pattern matches, and then it is the second group |
| RhdNames.TimestampComplete | spksorting/preprocess_rhd/utils/rhd_folder.py:60-62 | every match of the pattern yields its second group as the timestamp text |
| RhdNames.TimestampSound | spksorting/preprocess_rhd/utils/rhd_folder.py:60-62 | every timestamp text taken comes from a match of the pattern |
| RhdNames.FileStamp | spksorting/preprocess_rhd/utils/rhd_folder.py:59-64 | a name the pattern rejects is a TypeError, a text the time parser rejects a ValueError; otherwise the key is the decoded time |
| RhdNames.StampAll | spksorting/preprocess_rhd/utils/rhd_folder.py:86-89 | every file gets its own key in list order, and the keying fails exactly when some file's key fails |
| RhdNames.SortedRhdFiles | spksorting/preprocess_rhd/utils/rhd_folder.py:86-89 | the `.rhd` entries of the listing, ordered by decoded time and a permutation of the keyed entries |
| RhdNames.SortedRhdFilesFromListing | spksorting/preprocess_rhd/utils/rhd_folder.py:86-89 | every sorted entry is an `.rhd` entry of the listing carrying its own decoded time |
| RhdNames.SessionStartIsEarliest | spksorting/preprocess_rhd/utils/rhd_folder.py:94 | the session start, the first sorted file's time, is the earliest file time |
| RhdCat.Keys | spksorting/preprocess_rhd/utils/rhd_folder.py:235 | the folder names of the offsets dict, in insertion order |
| RhdCat.Assign | spksorting/preprocess_rhd/utils/rhd_folder.py:241 | after `d[k] = v`, k maps to v and every other key keeps its value |
| RhdCat.AssignKeepsOrder | spksorting/preprocess_rhd/utils/rhd_folder.py:241 | assigning a new key appends it last; assigning a present key keeps the key order |
| RhdCat.ListSession | spksorting/preprocess_rhd/utils/rhd_folder.py:225-231 | a folder's listing error is the result and a folder without `.rhd` files is an IndexError; otherwise its files are read in time order and its start is the earliest file time |
| RhdCat.SessionListings | spksorting/preprocess_rhd/utils/rhd_folder.py:225 | the listing outcome of every folder, in the order given |
| RhdCat.ListSessions | spksorting/preprocess_rhd/utils/rhd_folder.py:225-231 | the loop lists every folder in order and fails exactly when some folder fails, with the error of the first failing folder |
| RhdCat.ListedSessionsValid | spksorting/preprocess_rhd/utils/rhd_folder.py:225-231 | every listed session has at least one file |
| RhdCat.OrderSessions | spksorting/preprocess_rhd/utils/rhd_folder.py:232-234 | with `sort_by_time` the sessions are a permutation ordered by start time; without it they keep the given order |
| RhdCat.OrderedSessionsValid | spksorting/preprocess_rhd/utils/rhd_folder.py:232-234 | ordering keeps every session non-empty |
| RhdCat.MaskAt | spksorting/preprocess_rhd/utils/rhd_folder.py:242 | `channel_masks[i]`: no list is a TypeError, a list too short an IndexError, else the i-th mask |
| RhdCat.SessionMask | spksorting/preprocess_rhd/utils/rhd_folder.py:255-257 | the selection a later session uses for all its files is the one `initiate_nwb` would apply to its first file |
| RhdCat.CatSession | spksorting/preprocess_rhd/utils/rhd_folder.py:239-261 | one session records the counter before it as its offset and adds its sample count; the first session creates the file at its own start time (missing metadata is a TypeError); a mask error is the result |
| RhdCat.CatAll | spksorting/preprocess_rhd/utils/rhd_folder.py:239-261 | processing sessions in order keeps the counter equal to the number of stored rows |
| RhdCat.SessionCounts | spksorting/preprocess_rhd/utils/rhd_folder.py:259 | one total sample count per session |
| RhdCat.CatTotal | spksorting/preprocess_rhd/utils/rhd_folder.py:236-262 | the counter ends at the total sample count of all sessions, and a file exists once any session was processed |
| RhdCat.CatBegins | spksorting/preprocess_rhd/utils/rhd_folder.py:241 | the offsets after the loop are those recorded session by session |
| RhdCat.BeginsKeepOthers | spksorting/preprocess_rhd/utils/rhd_folder.py:241 | the offset of a folder no session names is left alone |
| RhdCat.BeginsAreSampleOffsets | spksorting/preprocess_rhd/utils/rhd_folder.py:235-262 | when the folder names are distinct, each folder begins at the total samples of all sessions before it |
| RhdCat.ShiftOffsets | spksorting/preprocess_rhd/utils/rhd_folder.py:259 | the offsets of a session list follow from those of its tail shifted by the first session's count |
| RhdCat.IntansToNwbCat | spksorting/preprocess_rhd/utils/rhd_folder.py:203-262 | a map-loading error (KeyError without a map file, ValueError for an empty one) is the result; on success every folder listed, a file exists exactly when a folder was given, the total is the sum of the session counts and equals the stored rows, the conversion follows `amplifier_rawbits`, and with distinct folder names each begins at the samples of the sessions ordered before it |
| RhdCat.CatKeepsConv | spksorting/preprocess_rhd/utils/rhd_folder.py:251-257 | the conversion factor set by the first session is never changed by later appends |
| RhdImp.CsvChannelName | spksorting/preprocess_rhd/utils/rhd_folder.py:273 | an exported channel name is a port letter, a dash and three digits |
| RhdImp.CsvChannelRoundTrip | spksorting/preprocess_rhd/utils/rhd_folder.py:273 | `[ABCD]-([0-9][0-9][0-9])` reads the channel number back from an exported name, whatever follows; the port letter is dropped |
| RhdImp.CsvNatives | spksorting/preprocess_rhd/utils/rhd_folder.py:273 | every row's channel number is parsed in order; the parse fails with TypeError exactly when some row's name does not match |
| RhdImp.CsvOhms | spksorting/preprocess_rhd/utils/rhd_folder.py:274 | one impedance per CSV row, in order |
| RhdImp.FromHeader | spksorting/preprocess_rhd/utils/rhd_folder.py:285-288 | a header's impedances are accepted exactly when some impedance is non-zero (ValueError otherwise), paired position by position with the native orders |
| RhdImp.ReadImpedances | spksorting/preprocess_rhd/utils/rhd_folder.py:270-288 | a ".csv" path is read as the CSV export, an ".rhd" path or a header object through the header rule, anything else is a ValueError |
| RhdImp.FirstIndex | spksorting/preprocess_rhd/utils/rhd_folder.py:306 | `list.index`: the first position holding the value, absent exactly when the value is not in the list |
| RhdImp.ElectrodeImpedance | spksorting/preprocess_rhd/utils/rhd_folder.py:304-306 | a label that does not match is a TypeError, a native id missing from the table a ValueError; otherwise the impedance at the id's first position |
| RhdImp.FirstFailure | spksorting/preprocess_rhd/utils/rhd_folder.py:300-307 | no failure is reported exactly when every electrode has an impedance |
| RhdImp.ElectrodeImpedances | spksorting/preprocess_rhd/utils/rhd_folder.py:300-307 | the loop succeeds exactly when every electrode has an impedance, and then lists them in electrode order; otherwise it fails with the first electrode's error |
| RhdImp.AddImpToNwb | spksorting/preprocess_rhd/utils/rhd_folder.py:265-312 | a reading error is the result; a file that already has an `imp` column is refused with AssertionError; on success every electrode gets its impedance and header, table and series are unchanged |
| RhdImp.FirstIndexOfDistinct | spksorting/preprocess_rhd/utils/rhd_folder.py:306 | with distinct ids, the first position of an id is its only one |
| RhdImp.ImpedancesByLabel | spksorting/preprocess_rhd/utils/rhd_folder.py:300-307 | electrodes whose labels carry ids present in the table all get the impedance of their id's first entry |
| RhdImp.ImpedancesFromOwnHeader | spksorting/preprocess_rhd/utils/rhd_folder.py:280-307 | electrodes labelled with distinct native orders of a header's channels get those channels' impedances |
| RhdImp.InitiatedLabels | spksorting/preprocess_rhd/utils/rhd_io_utils.py:254-258 | every electrode of a file initiated from non-negative native orders and shanks is labelled with its kept channel's native order, which parses back |
| RhdImp.ImpedanceOfOwnChannel | spksorting/preprocess_rhd/utils/rhd_folder.py:265-309 | a file initiated from an RHD chunk and given that chunk's own header gets, for every electrode, the impedance of its own channel |
| OeConvert.GetData | spksorting/preprocess_rhd/convert_oe2nwb.py:31-36 | descending the first entry of each level returns the first non-dictionary value; an empty dictionary on the way is an IndexError |
| OeConvert.Chain | spksorting/preprocess_rhd/convert_oe2nwb.py:31-36 | a nested dictionary whose first entries lead to a given end, with arbitrary further entries at every level |
| OeConvert.GetDataFollowsFirstEntries | spksorting/preprocess_rhd/convert_oe2nwb.py:31-36 | whatever the keys and the other entries, the descent reaches the end of the first-entry chain: its value when it is data, an IndexError when it is an empty dictionary |
| OeConvert.MatchOeName | spksorting/preprocess_rhd/convert_oe2nwb.py:79-81 | a name matches exactly when it starts with three digits and `_` and its remainder holds no newline except possibly one final one, which is left out; no match is a TypeError |
| OeConvert.GetOeDatestr | spksorting/preprocess_rhd/convert_oe2nwb.py:74-81 | the date string comes from the last path part after one trailing `/` is stripped, so it holds no `/` |
| OeConvert.MatchOfOeName | spksorting/preprocess_rhd/convert_oe2nwb.py:79-81 | three digits, `_` and a newline-free stamp match, and the stamp is returned |
| OeConvert.OeDatestrOfLastPart | spksorting/preprocess_rhd/convert_oe2nwb.py:76-79 | with or without a trailing `/`, only the folder's last part is matched |
| OeConvert.OeDatestrOfFolder | spksorting/preprocess_rhd/convert_oe2nwb.py:74-81 | a folder `<parent>/<ddd>_<stamp>`, with or without a trailing `/`, gives back the stamp when it holds no `/` and no newline |
| OeConvert.InnerNewlineDoesNotMatch | spksorting/preprocess_rhd/convert_oe2nwb.py:79 | a name with a newline before its last character does not match |
| OeConvert.Magnitudes | spksorting/preprocess_rhd/convert_oe2nwb.py:89 | the magnitudes of a headstage's channels in order; a channel without the attribute is a KeyError |
| OeConvert.ReadImpedanceXml | spksorting/preprocess_rhd/convert_oe2nwb.py:83-91 | the result is ValueError exactly when every child is passed over; a success is the magnitudes of the first HEADSTAGE with the wanted name, all children before it passed over |
| OeConvert.ImpedanceOfFirstWanted | spksorting/preprocess_rhd/convert_oe2nwb.py:85-90 | children passed over before the wanted headstage and anything after it do not change the result |
| OeConvert.FirstColumns | spksorting/preprocess_rhd/convert_oe2nwb.py:46 | `data[:, :k]` keeps every row and its first k columns, all of them when there are fewer |
| OeConvert.ConvertOneSessionAsWritten | spksorting/preprocess_rhd/convert_oe2nwb.py:38-72 | as written, an existing output skips the session and the reported `n_samples` is the number of kept channels |
| OeConvert.ConvertOneSession | spksorting/preprocess_rhd/convert_oe2nwb.py:38-72 | an existing output skips the session; an empty loader dictionary is an IndexError; otherwise the reported sample rate and sample count are the recording's, and the stored data are all samples of the first 32 channels |
| OeConvert.ReportedSamplesAreChannels | spksorting/preprocess_rhd/convert_oe2nwb.py:53-54 | a 1000-sample, 40-channel recording is reported as 32 samples as written and as 1000 samples when corrected |
| OeConvert.NwbFileName | spksorting/preprocess_rhd/convert_oe2nwb.py:170-173 | the output name ends in ".nwb" and holds no `/` |
| OeConvert.NwbFileNameOfFolder | spksorting/preprocess_rhd/convert_oe2nwb.py:170-173 | the output is named after the session folder, whether or not it is given with a trailing `/` |
| OeConvert.AddImpColumn | spksorting/preprocess_rhd/convert_oe2nwb.py:196-200 | afterwards there is an `imp` column; an existing one is left as it is, otherwise the impedances are added as a new last column |
| OeConvert.AddImpIdempotent | spksorting/preprocess_rhd/convert_oe2nwb.py:196-200 | adding impedances a second time changes nothing |
| OeConvert.AttachImpedances | spksorting/preprocess_rhd/convert_oe2nwb.py:192-201 | without an XML file nothing changes; with one, the step succeeds exactly when the XML yields impedances, and then the table has an `imp` column, unchanged if it already had one |
| NwbConvert.ResolveStart | spksorting/preprocess_rhd/convert_nwb2nwb.py:36 | the start time is the metadata's when it has one and the input file's otherwise |
| NwbConvert.ResolveIdentifier | spksorting/preprocess_rhd/convert_nwb2nwb.py:38-43 | a metadata identifier wins; else the identifier top, an underscore and the formatted start time; else the input file's identifier; a placeholder start time with only an identifier top is an AttributeError, and that is the only failure |
| NwbConvert.ResolveHeader | spksorting/preprocess_rhd/convert_nwb2nwb.py:35-60 | the header succeeds exactly when the resolved start time is a datetime; each field is the metadata's value when present and the input file's otherwise, and the error kind tells which check failed |
| NwbConvert.EmptyMetadataKeepsHeader | spksorting/preprocess_rhd/convert_nwb2nwb.py:35-60 | with an empty metadata dict the input header is written back unchanged |
| NwbConvert.AsMetadata | spksorting/preprocess_rhd/convert_nwb2nwb.py:35-49 | a header read as metadata supplies its own identifier and start time |
| NwbConvert.HeaderFromItsMetadata | spksorting/preprocess_rhd/convert_nwb2nwb.py:35-60 | a header passed as metadata is reproduced exactly, whatever the input file held |
| NwbConvert.ResolveHeaderIdempotent | spksorting/preprocess_rhd/convert_nwb2nwb.py:35-60 | resolving the resolved header again with the same metadata gives the same header |
| NwbConvert.ScriptHeader | spksorting/preprocess_rhd/convert_nwb2nwb.py:183-192 | under the script's metadata the identifier is the animal's top string joined to the input start time, start time and session id are the input's, the rest is the script's constants |
| NwbConvert.CopyGroups | spksorting/preprocess_rhd/convert_nwb2nwb.py:66-75 | the groups are copied unchanged exactly when every group's device is among the input devices, else KeyError |
| NwbConvert.CopyRow | spksorting/preprocess_rhd/convert_nwb2nwb.py:84-102 | a copied electrode gets its loop index as id and the fixed location "Spinal cord" |
| NwbConvert.SourceRow | spksorting/preprocess_rhd/convert_nwb2nwb.py:84-102 | recovering the input row from a copy given the overwritten location |
| NwbConvert.CopyElectrodes | spksorting/preprocess_rhd/convert_nwb2nwb.py:84-103 | the copy succeeds exactly when every row's group exists; then one output row per input row, numbered 0..n-1, in a copied group, and everything except id and location recoverable from the input row |
| NwbConvert.ImpedanceCopiedWhenPresent | spksorting/preprocess_rhd/convert_nwb2nwb.py:100-101 | a copied row has an impedance exactly when its input row had one, with the same value |
| NwbConvert.IdentityMap | spksorting/preprocess_rhd/convert_nwb2nwb.py:84-103 | the index map after the loop holds exactly the indices 0..n-1, each mapped to itself |
| NwbConvert.RemapRegion | spksorting/preprocess_rhd/convert_nwb2nwb.py:121 | remapping succeeds exactly when every region index is a key of the map, and then maps each element through it; otherwise KeyError |
| NwbConvert.RegionUnchanged | spksorting/preprocess_rhd/convert_nwb2nwb.py:119-123 | through the identity map a region survives exactly when it names rows of the table, and then it is unchanged |
| NwbConvert.CastData | spksorting/preprocess_rhd/convert_nwb2nwb.py:112 | the cast keeps the shape and applies the per-sample cast at every position |
| NwbConvert.CopySeries | spksorting/preprocess_rhd/convert_nwb2nwb.py:105-133 | at most one output series per acquisition entry; the only failure is KeyError |
| NwbConvert.ElectricalOnly | spksorting/preprocess_rhd/convert_nwb2nwb.py:105-107 | the entries kept are exactly the electrical series of the input, no others |
| NwbConvert.SeriesCarriedOver | spksorting/preprocess_rhd/convert_nwb2nwb.py:105-133 | with regions inside the table, the copy succeeds and yields exactly the electrical series in order, each with the same name, timing, scaling and region and cast samples |
| NwbConvert.RegionBeyondTableFails | spksorting/preprocess_rhd/convert_nwb2nwb.py:119-123 | a single series region naming an electrode beyond the table makes the whole copy fail with KeyError |
| NwbConvert.UpdateAndResize | spksorting/preprocess_rhd/convert_nwb2nwb.py:26-139 | a successful rewrite carries the resolved header, the input devices and groups, and one electrode per input electrode |
| NwbConvert.ConsistentFilesConvert | spksorting/preprocess_rhd/convert_nwb2nwb.py:26-139 | the rewrite succeeds exactly when the start time is a datetime and the file's group, device and region references are consistent; electrodes are then renumbered 0..n-1 and every electrical series is carried over in order |
| NwbConvert.SessionIdentifier | spksorting/preprocess_rhd/convert_nwb2nwb.py:161 | the identifier is the prefix plus the second-to-last slash-separated part; a path with no slash is an IndexError |
| NwbConvert.ExportPath | spksorting/preprocess_rhd/convert_nwb2nwb.py:193-196 | a path not ending in ".nwb" is an AssertionError; otherwise the output is the session identifier plus ".nwb" joined onto the output folder |
| NwbConvert.ExportPathOfSessionFile | spksorting/preprocess_rhd/convert_nwb2nwb.py:193-196 | a file inside a dated folder is exported as ChronicImplant2-<date>.nwb in the output folder |
| NwbConvert.BareFileHasNoSession | spksorting/preprocess_rhd/convert_nwb2nwb.py:161 | a bare file name has no parent folder and fails with IndexError |
| Impedance.OccursAtChars | spksorting/preprocess_rhd/gather_impedance_info_nwb.py:23 | a substring occurs at a position exactly when every character of it matches the text from that position on |
| Impedance.ContainsChar | spksorting/preprocess_rhd/gather_impedance_info_nwb.py:23 | a one-character substring test is the same as the character occurring in the text |
| Impedance.ContainsPair | spksorting/preprocess_rhd/gather_impedance_info_nwb.py:23 | a two-character substring test holds exactly when the two characters stand adjacent somewhere |
| Impedance.ContainsBad | spksorting/preprocess_rhd/gather_impedance_info_nwb.py:23 | the "bad" substring test holds exactly when the three letters stand adjacent somewhere |
| Impedance.ValidSessionNameChars | spksorting/preprocess_rhd/gather_impedance_info_nwb.py:23 | a session name is valid exactly when it has an underscore, no dot, no two adjacent underscores and no "bad" anywhere |
| Impedance.BandMask | spksorting/preprocess_rhd/gather_impedance_info_nwb.py:57 | one flag per impedance, set exactly when the value lies strictly between 1e5 and 6e6 ohms |
| Impedance.KeepInBand | spksorting/preprocess_rhd/gather_impedance_info_nwb.py:57 | the filtered impedances are no more than the input |
| Impedance.KeepInBandExactly | spksorting/preprocess_rhd/gather_impedance_info_nwb.py:57 | the kept impedances are the in-band ones at strictly increasing positions, in input order; a value is kept exactly when it occurs in the input and is in band |
| Impedance.KeptAreInBand | spksorting/preprocess_rhd/gather_impedance_info_nwb.py:57 | every kept value is an in-band value of the input |
| Impedance.InBandAreKept | spksorting/preprocess_rhd/gather_impedance_info_nwb.py:57 | every in-band value of the input is kept |
| Impedance.KeepInBandIdempotent | spksorting/preprocess_rhd/gather_impedance_info_nwb.py:57 | filtering the kept values again changes nothing |
| Impedance.FirstNwb | spksorting/preprocess_rhd/gather_impedance_info_nwb.py:51 | the first listed name ending in ".nwb", with no earlier one; StopIteration exactly when there is none |
| Impedance.GetSessionStat | spksorting/preprocess_rhd/gather_impedance_info_nwb.py:45-58 | succeeds exactly when the folder lists an NWB file whose electrodes have an impedance column; the result is that column filtered to the band, so every value is in band |
| Impedance.ProcessSession | spksorting/preprocess_rhd/gather_impedance_info_nwb.py:67-77 | a folder without a date-shaped name fails with TypeError; on success the date text is the folder's, the seconds decode that text, and the impedances are the stripped folder's session statistics |
| Impedance.SessionOutcomes | spksorting/preprocess_rhd/gather_impedance_info_nwb.py:61-81 | one outcome per folder of the sorted list, each the folder's session result or the exception that skipped it |
| Impedance.Summarise | spksorting/preprocess_rhd/gather_impedance_info_nwb.py:85-92 | the time, impedance, date, mean and count lists all have one entry per kept session |
| Impedance.SummariseEntry | spksorting/preprocess_rhd/gather_impedance_info_nwb.py:85-92 | entry k of the lists reassembles session k: its impedances, its seconds relative to surgery and its date text, with the count being the number of impedances and the mean their mean |
| Impedance.ProcessOneAnimal | spksorting/preprocess_rhd/gather_impedance_info_nwb.py:60-92 | an unparsable surgery date is a ValueError, and that is the only failure; otherwise every list has one entry per session that did not raise |
| Impedance.SummaryOfOutcomes | spksorting/preprocess_rhd/gather_impedance_info_nwb.py:67-92 | entry k of the lists comes from the k-th successful outcome; the mean is undefined exactly when that session kept no channel |
| Impedance.ImpedanceListsAligned | spksorting/preprocess_rhd/gather_impedance_info_nwb.py:60-92 | entry k of every list describes the k-th sorted folder that did not raise, with seconds relative to surgery and the valid count equal to its number of kept impedances |
| Impedance.KeptImpedancesInBand | spksorting/preprocess_rhd/gather_impedance_info_nwb.py:57-92 | every impedance an animal's lists keep is strictly between 1e5 and 6e6 ohms |
| Impedance.DaysAfterSurgery | spksorting/preprocess_rhd/gather_impedance_info_nwb.py:118 | one day value per kept session |
| Impedance.SessionDayAfterSurgery | spksorting/preprocess_rhd/gather_impedance_info_nwb.py:84-118 | the saved day of the k-th session that did not raise is its distance from the surgery in whole days truncated toward zero: a later session lies within that day, an earlier one within the day counted back, and a session a whole number of days away gets exactly that number |
| Impedance.SessionKey | spksorting/preprocess_rhd/gather_impedance_info_nwb.py:110 | a key is "session" followed by decimal digits |
| Impedance.SessionKeyRoundTrip | spksorting/preprocess_rhd/gather_impedance_info_nwb.py:110 | the digits after "session" read back as the index |
| Impedance.SessionKeysDistinct | spksorting/preprocess_rhd/gather_impedance_info_nwb.py:110 | different indices give different keys |
| Impedance.Zip | spksorting/preprocess_rhd/gather_impedance_info_nwb.py:110 | the dictionary's keys are exactly the keys of the sequence |
| Impedance.ZipDistinct | spksorting/preprocess_rhd/gather_impedance_info_nwb.py:110 | with distinct keys each key maps to the value beside it |
| Impedance.SessionKeys | spksorting/preprocess_rhd/gather_impedance_info_nwb.py:110 | one key per index, in order |
| Impedance.ImpedanceDict | spksorting/preprocess_rhd/gather_impedance_info_nwb.py:110 | the saved keys are exactly session0 to session(n-1) |
| Impedance.ImpedanceDictKeys | spksorting/preprocess_rhd/gather_impedance_info_nwb.py:110-116 | the i-th impedance set is saved under session<i>, and no other key is saved |
| Counting.TryLoad | spksorting/post_msort_processing/chronic_counting_si_formats2.py:51-59 | one pass of the try: the reads assign in order and stop at the first that raises, so metrics change only when all four reads succeed |
| Counting.FirstComplete | spksorting/post_msort_processing/chronic_counting_si_formats2.py:49-59 | the first sub-directory where all four reads succeed, with no earlier one; none exactly when no sub-directory is complete |
| Counting.LoadLoopOutcome | spksorting/post_msort_processing/chronic_counting_si_formats2.py:48-61 | after the loop the first complete sub-directory supplies all four values; with none, metrics are unassigned and the templates stay None exactly when no templates file ever loaded |
| Counting.ClearWhere | spksorting/post_msort_processing/chronic_counting_si_formats2.py:70-73 | clearing mask entries keeps the mask's length |
| Counting.ClearWhereShrinks | spksorting/post_msort_processing/chronic_counting_si_formats2.py:70-73 | clearing entries never adds to the number of accepted units |
| Counting.AcceptMask | spksorting/post_msort_processing/chronic_counting_si_formats2.py:70-73 | a unit stays accepted exactly when it was accepted, its amplitude is at most 500 uV and its firing rate at least 0.5 Hz |
| Counting.StatFromFiles | spksorting/post_msort_processing/chronic_counting_si_formats2.py:62-85 | succeeds exactly when the amplitudes exist, both masks and the metrics have one entry per cluster and there is not exactly one cluster (a one-cell mask file squeezes to a 0-d array that boolean indexing rejects); otherwise ValueError or IndexError; the counts are the accepted units, never more than the masks accepted, and the amplitudes are those of the accepted single-or-multi units, in order |
| Counting.KeptAmplitudesPassFilter | spksorting/post_msort_processing/chronic_counting_si_formats2.py:70-74 | every kept amplitude is non-negative, at most 500 uV, and belongs to a unit the single-or-multi mask accepted with firing rate at least 0.5 Hz |
| Counting.GetSessionStat | spksorting/post_msort_processing/chronic_counting_si_formats2.py:47-85 | no templates anywhere is a ValueError; templates but no complete sub-directory is an UnboundLocalError; otherwise the statistics come from the first complete sub-directory |
| Counting.ProcessSession | spksorting/post_msort_processing/chronic_counting_si_formats2.py:101-116 | a folder without a date-shaped name fails with TypeError; on success the date text is the folder's, the seconds decode it, and the statistics are those of the stripped folder's sorting outputs |
| Counting.UnitsPerChannel | spksorting/post_msort_processing/chronic_counting_si_formats2.py:129 | the ratio exists exactly when the session has channels, and times the channel count gives back the unit count |
| Counting.SingMultCounts | spksorting/post_msort_processing/chronic_counting_si_formats2.py:138 | one single-or-multi count per kept session, in order |
| Counting.ValidSummary | spksorting/post_msort_processing/chronic_counting_si_formats2.py:138-142 | the valid lists have one entry per session with a positive single-or-multi count, each the time and the amplitude, SNR and firing-rate means of that session |
| Counting.Timedeltas | spksorting/post_msort_processing/chronic_counting_si_formats2.py:125 | one time per session, its seconds minus the surgery's |
| Counting.PerSession | spksorting/post_msort_processing/chronic_counting_si_formats2.py:109-158 | every per-session list has one entry per kept session, and the k-th entries all describe session k |
| Counting.SessionOutcomes | spksorting/post_msort_processing/chronic_counting_si_formats2.py:88-121 | one outcome per folder of the sorted list, each the folder's result or the exception that skipped it |
| Counting.ProcessOneAnimal | spksorting/post_msort_processing/chronic_counting_si_formats2.py:87-160 | an unparsable surgery date is a ValueError, the only failure; otherwise the per-session and valid lists summarise exactly the sessions that did not raise |
| Counting.SessionListsAligned | spksorting/post_msort_processing/chronic_counting_si_formats2.py:100-160 | entry k of each per-session list describes the k-th sorted folder that did not raise; skipped folders leave no entry |
| Counting.StatCountsAmplitudes | spksorting/post_msort_processing/chronic_counting_si_formats2.py:74-76 | a session's statistics keep one amplitude per accepted single-or-multi unit |
| Counting.SessionCountsAmplitudes | spksorting/post_msort_processing/chronic_counting_si_formats2.py:74-76 | a folder that did not raise keeps one amplitude per accepted single-or-multi unit |
| Counting.ValidMeansDefined | spksorting/post_msort_processing/chronic_counting_si_formats2.py:138-139 | every valid session has at least one amplitude, so its mean amplitude is a number and never the NaN of an empty vector |
| CountingV1.TryLoad | spksorting/post_msort_processing/chronic_counting_si_formats.py:52-59 | one pass of the try: the reads assign in order and stop at the first that raises, so the with-multi mask changes only when all three reads succeed |
| CountingV1.FirstComplete | spksorting/post_msort_processing/chronic_counting_si_formats.py:50-59 | the first sub-directory where all three reads succeed, with no earlier one; none exactly when no sub-directory is complete |
| CountingV1.LoadLoopOutcome | spksorting/post_msort_processing/chronic_counting_si_formats.py:50-59 | after the loop the first complete sub-directory supplies all three values; with none, the with-multi mask is never assigned and the templates stay unbound exactly when no templates file ever loaded |
| CountingV1.AmpAcceptMask | spksorting/post_msort_processing/chronic_counting_si_formats.py:66-67 | a unit stays accepted exactly when it was accepted and its amplitude is at most 500 uV; never more accepted than before |
| CountingV1.GetSessionStat | spksorting/post_msort_processing/chronic_counting_si_formats.py:49-77 | no templates anywhere is an UnboundLocalError and so is a missing complete sub-directory; from the first complete one it succeeds exactly when the amplitudes exist, both masks have one entry per cluster and there is not exactly one cluster (IndexError on the squeezed 0-d mask), counting the accepted units and keeping their amplitudes in order |
| CountingV1.NewerFilterIsStricter | spksorting/post_msort_processing/chronic_counting_si_formats.py:66-67 | a unit the newer script accepts is accepted here too, and when every unit fires at least 0.5 Hz both scripts accept the same units |
| CountingV1.ProcessSession | spksorting/post_msort_processing/chronic_counting_si_formats.py:91-101 | a folder whose base name is not date-shaped fails with TypeError; on success the date text is the base name's, the seconds decode it, and the statistics are the folder's |
| CountingV1.TrailingSlashSkipped | spksorting/post_msort_processing/chronic_counting_si_formats.py:92-93 | a folder given with a trailing slash is always skipped with TypeError, since its base name is empty |
| CountingV1.SingMultCounts | spksorting/post_msort_processing/chronic_counting_si_formats.py:123 | one single-or-multi count per kept session, in order |
| CountingV1.PerSession | spksorting/post_msort_processing/chronic_counting_si_formats.py:96-136 | every per-session list has one entry per kept session, and the k-th entries all describe session k |
| CountingV1.ValidSummary | spksorting/post_msort_processing/chronic_counting_si_formats.py:123-125 | one valid entry per session with a positive single-or-multi count, each that session's time and mean amplitude |
| CountingV1.SessionOutcomes | spksorting/post_msort_processing/chronic_counting_si_formats.py:80-106 | one outcome per folder of the sorted list, each the folder's result or the exception that skipped it |
| CountingV1.ProcessOneAnimal | spksorting/post_msort_processing/chronic_counting_si_formats.py:79-137 | an unparsable surgery date is a ValueError, the only failure; otherwise the per-session and valid lists summarise exactly the sessions that did not raise |
| CountingV1.SessionListsAligned | spksorting/post_msort_processing/chronic_counting_si_formats.py:90-137 | entry k of each per-session list describes the k-th sorted folder that did not raise; skipped folders leave no entry |
| Templates.Trace | spksorting/post_msort_processing/chronic_counting_si_formats2.py:62-67 | a cluster's trace on one channel has one value per sample, each that sample's value |
| Templates.ChannelP2P | spksorting/post_msort_processing/chronic_counting_si_formats2.py:66-68 | a channel's peak-to-peak value is never negative |
| Templates.ChannelSwing | spksorting/post_msort_processing/chronic_counting_si_formats2.py:66-68 | one channel's peak-to-peak value bounds every difference between two of its samples, and some pair of samples attains it |
| Templates.ChannelP2Ps | spksorting/post_msort_processing/chronic_counting_si_formats2.py:68 | one peak-to-peak value per channel of the cluster |
| Templates.ClusterP2P | spksorting/post_msort_processing/chronic_counting_si_formats2.py:69 | a cluster's amplitude is at least every channel's peak-to-peak value and equals one of them |
| Templates.P2PAmplitudes | spksorting/post_msort_processing/chronic_counting_si_formats2.py:66-69 | a ValueError exactly when the sample or the channel axis is empty, whatever the cluster count, since numpy does not reduce an empty axis without an identity; otherwise one non-negative amplitude per cluster |
| Templates.P2PIsLargestSwing | spksorting/post_msort_processing/chronic_counting_si_formats2.py:66-69 | a cluster's amplitude bounds every swing between two samples on one channel, and some channel and pair of samples attains it |
| Sessions.SortedFolders | spksorting/post_msort_processing/chronic_counting_si_formats2.py:88 | the sorted folders are a permutation of the input, ascending in Python's string order |
| Sessions.SessionDateText | spksorting/post_msort_processing/chronic_counting_si_formats2.py:106 | the date text exists exactly when the name starts with eight digits, and is then those eight digits; otherwise indexing the failed match is a TypeError |
| Sessions.DateTextOfName | spksorting/post_msort_processing/chronic_counting_si_formats2.py:106 | eight digits followed by anything are read back as those digits |
| Sessions.SessionName | spksorting/post_msort_processing/chronic_counting_si_formats2.py:102-104 | the session name has no slash and ends the folder path once one trailing slash is stripped |
| Sessions.TrailingSlashIgnored | spksorting/post_msort_processing/chronic_counting_si_formats2.py:102-104 | a folder given with a trailing slash has the same session name as without it |
| Sessions.UnstrippedTrailingSlashHasNoDate | spksorting/post_msort_processing/chronic_counting_si_formats.py:92-93 | without the strip, a trailing slash leaves an empty base name, whose date cannot be read |
| Sessions.DatedEntries | spksorting/post_msort_processing/chronic_counting_si_formats.py:156 | the listed session folders are no more than the listing |
| Sessions.DatedEntriesIsSelect | spksorting/post_msort_processing/chronic_counting_si_formats.py:156 | the session folders are the listing joined onto the animal folder and filtered by the date pattern |
| Sessions.DatedEntriesAreDated | spksorting/post_msort_processing/chronic_counting_si_formats.py:156 | exactly the entries starting with eight digits are kept, in listing order, each joined onto the animal folder |
| Sessions.BasenameOfJoin | spksorting/post_msort_processing/chronic_counting_si_formats.py:156 | the base name of an entry joined onto a folder is the entry |
| Sessions.BasenameOfSlashSuffix | spksorting/post_msort_processing/chronic_counting_si_formats.py:92 | a slash-free suffix that starts the path or follows a slash is its base name |
| Sessions.DatedEntriesHaveDates | spksorting/post_msort_processing/chronic_counting_si_formats.py:92-93 | every folder the listing filter keeps has a readable date when the loop takes its base name |
| Sessions.Successes | spksorting/post_msort_processing/chronic_counting_si_formats2.py:100-121 | the values kept from the sessions that did not raise are no more than the sessions |
| Sessions.OkMask | spksorting/post_msort_processing/chronic_counting_si_formats2.py:100-121 | one flag per session, set exactly when it did not raise |
| Sessions.SuccessesAreTheOkSessions | spksorting/post_msort_processing/chronic_counting_si_formats2.py:100-121 | the k-th kept value is the value of the k-th session that did not raise, and there are as many kept values as such sessions |
| Sessions.ValidIds | spksorting/post_msort_processing/chronic_counting_si_formats2.py:138 | the valid ids are ascending positions of positive counts, and every positive count's position is among them |
| Sessions.Pick | spksorting/post_msort_processing/chronic_counting_si_formats2.py:139-142 | picking by ids gives one element per id, each the element at that id |
| Scatters.KeyIndexAppend | spksorting/post_msort_processing/plotcurve_chronic_scatters.py:86 | adding a key to the dictionary does not move the keys already present; a new key goes last |
| Scatters.Get | spksorting/post_msort_processing/plotcurve_chronic_scatters.py:80 | a key is found exactly when it is among the dictionary's keys, giving the column stored at its place |
| Scatters.Lookup | spksorting/post_msort_processing/plotcurve_chronic_scatters.py:84-99 | indexing the dictionary fails with KeyError exactly when the key is absent, and otherwise gives the stored column |
| Scatters.Put | spksorting/post_msort_processing/plotcurve_chronic_scatters.py:86-89 | after storing, the key gives the new column; an existing key keeps its place and a new key is appended |
| Scatters.GetPutOther | spksorting/post_msort_processing/plotcurve_chronic_scatters.py:86-89 | storing under one key leaves every other key's column unchanged |
| Scatters.RealsOf | spksorting/post_msort_processing/plotcurve_chronic_scatters.py:84-86 | a column reads as a float vector exactly when no cell is itself a vector, each cell giving its value |
| Scatters.IntsOf | spksorting/post_msort_processing/plotcurve_chronic_scatters.py:86 | a column reads as an integer vector exactly when every cell is an integer |
| Scatters.NumericColumn | spksorting/post_msort_processing/plotcurve_chronic_scatters.py:84-92 | a missing key is a KeyError, a column holding vectors is a TypeError, otherwise the column's float values |
| Scatters.MapColumns | spksorting/post_msort_processing/plotcurve_chronic_scatters.py:102-103 | mapping every column succeeds exactly when each column's step does, keeping keys and order; a failure is one column's exception |
| Scatters.DayOf | spksorting/post_msort_processing/plotcurve_chronic_scatters.py:86-92 | the day count is the quotient by 86400 seconds truncated toward zero, for negative times too |
| Scatters.DayOfMonotone | spksorting/post_msort_processing/plotcurve_chronic_scatters.py:86-92 | later times never give earlier days |
| Scatters.DayColumn | spksorting/post_msort_processing/plotcurve_chronic_scatters.py:86-92 | one integer day per time, in order, as an array |
| Scatters.DaysNonDecreasing | spksorting/post_msort_processing/plotcurve_chronic_scatters.py:84-92 | strictly increasing times give non-decreasing day counts |
| Scatters.KeepValid | spksorting/post_msort_processing/plotcurve_chronic_scatters.py:88-89 | a column no longer than the valid ids is left alone; a longer array becomes its entries at the ids, an out-of-range id being an IndexError and a list a TypeError |
| Scatters.KeepValidSessions | spksorting/post_msort_processing/plotcurve_chronic_scatters.py:87-89 | the filter succeeds exactly when it succeeds on every column, keeping keys and order |
| Scatters.PositiveIds | spksorting/post_msort_processing/plotcurve_chronic_scatters.py:85 | the ascending positions of every positive units-per-channel value, and no others |
| Scatters.WithDays | spksorting/post_msort_processing/plotcurve_chronic_scatters.py:86-92 | the day column is stored as the days of the given times |
| Scatters.ReadChronicAnimal | spksorting/post_msort_processing/plotcurve_chronic_scatters.py:77-96 | a missing or non-numeric time column fails with its error; times not strictly increasing fail the assertion; a successful read has a day column; in the valid-only mode a bad units-per-channel column fails with its error |
| Scatters.ReadValidUnfolds | spksorting/post_msort_processing/plotcurve_chronic_scatters.py:83-89 | a successful valid-only read adds the day column of the valid times and then filters every column by the sessions with a positive yield |
| Scatters.TrueIndicesFull | spksorting/post_msort_processing/plotcurve_chronic_scatters.py:85-88 | the positions of true entries are no more than the mask, and as many only when every entry is true |
| Scatters.KeptYieldsPositive | spksorting/post_msort_processing/plotcurve_chronic_scatters.py:85-89 | filtering a units-per-channel column by its positive positions keeps one entry per positive position, every one positive, and those entries in order when the column was cut |
| Scatters.ValidSessionsHavePositiveYield | spksorting/post_msort_processing/plotcurve_chronic_scatters.py:83-89 | after a valid-only read the units-per-channel column holds one positive value per valid session, the valid sessions' values when it was filtered |
| Scatters.ReadDaysNonDecreasing | spksorting/post_msort_processing/plotcurve_chronic_scatters.py:77-96 | in either mode the day column of a read animal holds whole days in non-decreasing order |
| Scatters.ValidDaysNonDecreasing | spksorting/post_msort_processing/plotcurve_chronic_scatters.py:83-89 | after a valid-only read the day column is still non-decreasing |
| Scatters.KeepValidNonDecreasing | spksorting/post_msort_processing/plotcurve_chronic_scatters.py:88-89 | filtering a non-decreasing integer column by ascending ids keeps it non-decreasing |
| Scatters.InWindow | spksorting/post_msort_processing/plotcurve_chronic_scatters.py:100 | a session is in the window exactly when its day lies between the first and last day inclusive |
| Scatters.MaskColumn | spksorting/post_msort_processing/plotcurve_chronic_scatters.py:103 | masking succeeds exactly when the column is an array as long as the mask, keeping the selected cells; otherwise IndexError or, for a list, TypeError |
| Scatters.MaskAll | spksorting/post_msort_processing/plotcurve_chronic_scatters.py:101-104 | masking every column succeeds exactly when all are arrays of one entry per session, keeping keys and order |
| Scatters.DayValues | spksorting/post_msort_processing/plotcurve_chronic_scatters.py:99 | a missing day column is a KeyError, a non-numeric one a TypeError, otherwise the days as floats |
| Scatters.TruncateTimeseries | spksorting/post_msort_processing/plotcurve_chronic_scatters.py:98-104 | truncation fails as reading the days does; otherwise it succeeds exactly when every column is an array of one entry per session, keeping the keys |
| Scatters.TruncateKeepsWindow | spksorting/post_msort_processing/plotcurve_chronic_scatters.py:98-104 | every truncated column holds exactly the in-window sessions, in order, and every day left lies in the window |
| Scatters.TruncateIdempotent | spksorting/post_msort_processing/plotcurve_chronic_scatters.py:98-104 | truncating twice to the same window is truncating once |
| Scatters.ListedMeansNamed | spksorting/post_msort_processing/plotcurve_chronic_scatters.py:109 | a position is cleared exactly when some listed index, counting from the end when negative, names it |
| Scatters.ListedAppend | spksorting/post_msort_processing/plotcurve_chronic_scatters.py:109 | clearing with two index lists joined clears what either list clears |
| Scatters.KeepMask | spksorting/post_msort_processing/plotcurve_chronic_scatters.py:107-109 | one flag per session, set exactly when no listed index names it |
| Scatters.DropFromColumn | spksorting/post_msort_processing/plotcurve_chronic_scatters.py:111-115 | an array must be as long as the mask and a list no longer, else IndexError; the result keeps the cells the mask keeps |
| Scatters.RemoveDatapoints | spksorting/post_msort_processing/plotcurve_chronic_scatters.py:106-116 | a missing day column is a KeyError; otherwise removal succeeds exactly when every index names a session and every column fits the session count, failing with IndexError |
| Scatters.RemoveDropsListed | spksorting/post_msort_processing/plotcurve_chronic_scatters.py:106-116 | every column loses exactly the listed sessions and keeps the others in order, a short list being cut by the mask's leading part |
| Scatters.DropAll | spksorting/post_msort_processing/plotcurve_chronic_scatters.py:110-116 | dropping from every column succeeds exactly when it succeeds on each, keeping keys and order; otherwise IndexError |
| Scatters.RemoveIgnoresDuplicates | spksorting/post_msort_processing/plotcurve_chronic_scatters.py:109 | listing the indices twice removes the same sessions as listing them once |
| Scatters.FromStart | spksorting/post_msort_processing/plotcurve_chronic_scatters.py:109 | each index rewritten as a count from the start, in range |
| Scatters.ListedFromStart | spksorting/post_msort_processing/plotcurve_chronic_scatters.py:109 | counting the indices from the start clears the same positions |
| Scatters.RemoveCountsFromTheEnd | spksorting/post_msort_processing/plotcurve_chronic_scatters.py:106-116 | a negative index removes the same session as its count from the start |
| Scatters.RemoveIsDropAll | spksorting/post_msort_processing/plotcurve_chronic_scatters.py:106-116 | with indices in range, removal is dropping by the keep mask from every column |
| Scatters.SelectPrefix | spksorting/post_msort_processing/plotcurve_chronic_scatters.py:113 | masking with a mask true exactly below m keeps the first m items |
| Scatters.CuratedTail | spksorting/post_msort_processing/plotcurve_chronic_scatters.py:119-125 | curation drops no session, one, or three |
| Scatters.TailIndices | spksorting/post_msort_processing/plotcurve_chronic_scatters.py:122-124 | the index list -1, -2, ..., -k |
| Scatters.TailIndicesOfCuratedAnimals | spksorting/post_msort_processing/plotcurve_chronic_scatters.py:122-124 | the two lists curation passes are [-1] and [-1, -2, -3] |
| Scatters.CustomCuration | spksorting/post_msort_processing/plotcurve_chronic_scatters.py:119-125 | an animal curation does not name is returned unchanged |
| Scatters.ListedTail | spksorting/post_msort_processing/plotcurve_chronic_scatters.py:109-124 | [-1, ..., -k] clears exactly the last k of at least k sessions |
| Scatters.RemoveTail | spksorting/post_msort_processing/plotcurve_chronic_scatters.py:106-116 | removing [-1, ..., -k] from aligned array columns drops the last k sessions of every column, and with fewer than k sessions raises IndexError |
| Scatters.CurationDropsTail | spksorting/post_msort_processing/plotcurve_chronic_scatters.py:119-125 | a curated animal loses its last one or three sessions in every column, and with fewer sessions the curation raises IndexError |
| Periods.FloorDiv | spksorting/post_msort_processing/plotcurve_chronic_scatters.py:133 | Python's floor division: the quotient times the divisor lies at or below the dividend, within one divisor, for either sign |
| Periods.CeilDiv | spksorting/post_msort_processing/plotcurve_chronic_scatters.py:132 | the ceiling of the quotient: the smallest multiple of the divisor at or above the dividend, for either sign |
| Periods.NGroups | spksorting/post_msort_processing/plotcurve_chronic_scatters.py:132 | the number of periods is the fewest periods that cover the duration, and none for a non-positive duration |
| Periods.PeriodOfDayInRange | spksorting/post_msort_processing/plotcurve_chronic_scatters.py:128-134 | a day inside the duration falls into one of the period slots |
| Periods.CellKey | spksorting/post_msort_processing/plotcurve_chronic_scatters.py:133 | a session has a usable period key exactly when its day is an integer |
| Periods.CellKeys | spksorting/post_msort_processing/plotcurve_chronic_scatters.py:133 | one key per session, in order |
| Periods.EmptySlots | spksorting/post_msort_processing/plotcurve_chronic_scatters.py:132 | g slots, each empty |
| Periods.GroupIndices | spksorting/post_msort_processing/plotcurve_chronic_scatters.py:131-134 | the slots are as many as the periods and hold session positions only; a key that is not an integer or not a slot fails with TypeError or IndexError |
| Periods.IndicesWith | spksorting/post_msort_processing/plotcurve_chronic_scatters.py:133-134 | the reference grouping: the ascending positions of exactly the sessions whose key is p |
| Periods.IndicesWithAbsent | spksorting/post_msort_processing/plotcurve_chronic_scatters.py:133-134 | a key above every session's key has no sessions |
| Periods.GroupIndicesStep | spksorting/post_msort_processing/plotcurve_chronic_scatters.py:133-134 | one more session either opens its slot afresh, replacing what was there, or extends the run already in it |
| Periods.IndicesWithStep | spksorting/post_msort_processing/plotcurve_chronic_scatters.py:133-134 | one more session joins the reference slot of its key and no other |
| Periods.SortedGroupStep | spksorting/post_msort_processing/plotcurve_chronic_scatters.py:133-134 | with non-decreasing keys, one more session keeps the groupby slots equal to the reference grouping |
| Periods.GroupIndicesOfSortedKeys | spksorting/post_msort_processing/plotcurve_chronic_scatters.py:131-134 | for non-decreasing keys that all name a slot, each slot holds exactly the sessions with that key, in order, and unused slots stay empty |
| Periods.UnsortedKeysLoseSessions | spksorting/post_msort_processing/plotcurve_chronic_scatters.py:133-134 | with keys 0, 1, 0 the later run of key 0 overwrites the earlier one, so the first session is in no slot |
| Periods.IndexColumn | spksorting/post_msort_processing/plotcurve_chronic_scatters.py:144 | indexing succeeds exactly when the column is an array and every index lies inside it, giving the cells at the indices; otherwise IndexError or, for a list, TypeError |
| Periods.GroupColumn | spksorting/post_msort_processing/plotcurve_chronic_scatters.py:144 | a column is cut into one part per slot, succeeding exactly when every slot's indexing does |
| Periods.GroupAll | spksorting/post_msort_processing/plotcurve_chronic_scatters.py:140-146 | every column is cut by the same slots, keeping keys and order, succeeding exactly when each column's cut does |
| Periods.GroupByPeriod | spksorting/post_msort_processing/plotcurve_chronic_scatters.py:127-146 | a failing truncation fails the grouping with its error; a zero period is a ZeroDivisionError; a grouping keeps every key and cuts each column into one part per period |
| Periods.PeriodKeys | spksorting/post_msort_processing/plotcurve_chronic_scatters.py:133 | each session's key is its day floor-divided by the period |
| Periods.FloorDivMonotone | spksorting/post_msort_processing/plotcurve_chronic_scatters.py:133 | later days never get earlier period keys |
| Periods.PickedNonDecreasing | spksorting/post_msort_processing/plotcurve_chronic_scatters.py:128-133 | values picked at ascending positions of a non-decreasing sequence never decrease |
| Periods.TruncatedDaysSorted | spksorting/post_msort_processing/plotcurve_chronic_scatters.py:98-104 | truncating an animal with whole, non-decreasing days leaves whole, non-decreasing days inside the window, every column aligned with them |
| Periods.GroupByPeriodOfSortedDays | spksorting/post_msort_processing/plotcurve_chronic_scatters.py:127-146 | with a positive period and whole, non-decreasing days the grouping succeeds, and each period of each column holds exactly the in-window sessions whose day falls in that period, in order |
| Periods.SortedDaysGiveSortedKeys | spksorting/post_msort_processing/plotcurve_chronic_scatters.py:128-134 | non-decreasing days inside the duration give non-decreasing period keys, each naming a slot |
| Periods.GroupColumnOfGroups | spksorting/post_msort_processing/plotcurve_chronic_scatters.py:144 | an array column cut by slots of in-range positions succeeds, each part being the cells at that slot's positions |
| Periods.GroupByPeriodUnfolds | spksorting/post_msort_processing/plotcurve_chronic_scatters.py:127-146 | grouping is truncating, computing the slots from the truncated days, then cutting every column by them |
| Periods.GroupedLookup | spksorting/post_msort_processing/plotcurve_chronic_scatters.py:161 | looking up a grouped column fails with KeyError exactly when no entry has that key, and otherwise gives that entry's periods |
| Periods.VecTotalAppend | spksorting/post_msort_processing/plotcurve_chronic_scatters.py:163-164 | the values of two runs of sessions add up |
| Periods.ConcatVecs | spksorting/post_msort_processing/plotcurve_chronic_scatters.py:164 | concatenation succeeds exactly when every session is a vector, else ValueError, holding as many values as the vectors together |
| Periods.ConcatVecsAppend | spksorting/post_msort_processing/plotcurve_chronic_scatters.py:163-164 | concatenating two runs of sessions concatenates their values |
| Periods.PeriodParts | spksorting/post_msort_processing/plotcurve_chronic_scatters.py:159-161 | period p of every animal's feature column, in animal order |
| Periods.Dataset | spksorting/post_msort_processing/plotcurve_chronic_scatters.py:158-164 | an animal with too few periods fails with IndexError; the only other failure is a scalar session's ValueError |
| Periods.Totals | spksorting/post_msort_processing/plotcurve_chronic_scatters.py:163-164 | one value count per animal part |
| Periods.VecTotalFlatten | spksorting/post_msort_processing/plotcurve_chronic_scatters.py:163-164 | the values of all parts together are the sum of each part's values |
| Periods.DatasetSize | spksorting/post_msort_processing/plotcurve_chronic_scatters.py:158-164 | a period's dataset holds as many values as the animals' sessions in that period hold together |
| Periods.DaysApprox | spksorting/post_msort_processing/plotcurve_chronic_scatters.py:169 | one approximate day per period |
| Periods.DaysApproxAreMultiplesBelow | spksorting/post_msort_processing/plotcurve_chronic_scatters.py:169 | the approximate days are the multiples of the period below the duration, and enough of them to cover it |
| Periods.Summarise | spksorting/post_msort_processing/plotcurve_chronic_scatters.py:166-169 | the datasets are returned as they are, each period's mean is undefined exactly when its dataset is empty, and its standard error is defined exactly when the dataset holds more than one value |
| Periods.PeriodDatasets | spksorting/post_msort_processing/plotcurve_chronic_scatters.py:156-164 | one pooled dataset per period |
| Periods.Groupings | spksorting/post_msort_processing/plotcurve_chronic_scatters.py:153-154 | one grouping per animal, in the dictionary's order |
| Periods.FeatureLookups | spksorting/post_msort_processing/plotcurve_chronic_scatters.py:161 | each grouped animal's feature column, in order |
| Periods.StatDatapointsByPeriod | spksorting/post_msort_processing/plotcurve_chronic_scatters.py:148-171 | a result has one dataset, mean, error flag and approximate day per period, the mean undefined exactly for an empty dataset and the error defined exactly above one value; a zero period is a ZeroDivisionError; with no periods only a grouping can fail |
| Periods.AnimalTotals | spksorting/post_msort_processing/plotcurve_chronic_scatters.py:159-163 | per animal, the number of feature values it has in period p |
| Periods.PartsAreSessions | spksorting/post_msort_processing/plotcurve_chronic_scatters.py:153-164 | period p's parts taken from the looked-up feature columns count the feature values each animal has in that period |
| Periods.PooledDatasetSize | spksorting/post_msort_processing/plotcurve_chronic_scatters.py:148-164 | each period's pooled dataset holds exactly as many values as all the animals' sessions in that period together |
| Seqs.PyIndex | spksorting/preprocess_rhd/convert_nwb2nwb.py:161 | Python indexing: an index names an element exactly when it lies in [-n, n), a negative one counting from the end |
| Seqs.Trunc | spksorting/post_msort_processing/plotcurve_chronic_scatters.py:86 | a float cast to int truncates toward zero, for negative values too |
| Seqs.Collect | spksorting/post_msort_processing/plotcurve_chronic_scatters.py:153-154 | a loop over steps that may raise succeeds exactly when every step does, and otherwise stops with the first step's exception |
| Seqs.SortBy | spksorting/preprocess_rhd/utils/rhd_folder.py:86-89 | sorting gives a permutation of the input, in order under the key |
| Text.Basename | spksorting/post_msort_processing/chronic_counting_si_formats.py:92 | the base name is the slash-free end of the path, starting the path or following a slash |
| Text.PathJoin | spksorting/post_msort_processing/chronic_counting_si_formats.py:156 | an absolute name (starting with `/`) is the result on its own; otherwise joining puts the name after the folder with exactly one slash between them unless the folder is empty or already ends in one |
| Text.StripOneSlash | spksorting/post_msort_processing/chronic_counting_si_formats2.py:102-103 | one trailing slash is removed, and a path without one is left alone |
| Text.StrLeTotalOrder | spksorting/post_msort_processing/chronic_counting_si_formats2.py:88 | Python's string order is total, transitive and antisymmetric |

## Left out

- File I/O: opening, reading, writing and closing HDF5/NWB files, `np.load`, `np.savez`, CSV output, `os.makedirs`. Datasets, electrode tables and saved dictionaries are plain values.
- The order of `os.listdir`: listings are parameters, and every place that sorts them is modelled.
- `pynwb`/`hdmf` object construction: columns, regions and series are records. The only library checks kept are those the scripts rely on: the `TypeError` for a start time that is not a datetime (in both `initiate_nwb` functions and the NWB-to-NWB rewrite), `imp` already being a column, and h5py's rules for writing an appended chunk (a selection of no cells is skipped, an axis of extent 1 is broadcast, any other mismatch is a `TypeError`).
- The Intan RHD reader, `openEphys.Binary.Load`, `utils.read_mda` and `read_channel_info_script_oe` are not part of this model. Their results are parameters, and `HEADSTAGE_NAME` is a parameter.
- `strptime` and `strftime`: decoding is a partial function parameter (`string -> Option<int>`, with `None` for a `ValueError`), and formatting is a function parameter.
- Floating point: the values of means and standard errors, float division and the `int16` casts. The cast is a parameter in `NwbConvert.CastData`. The Open Ephys data are kept as reals.
- Seqs.Mean: states only that the mean is undefined exactly for an empty vector, not its value, because only the NaN condition is used downstream.
- Periods.Summarise: states when the mean and the standard error are defined, not their values, for the same reason.
- Plotting, tick computation, `savefig`, axis labels, printing, `gc`, `tqdm` and the silencing of stdout.
- The `load_ram` mode of `read_rhd_folder` is modelled only as far as the source goes: it raises `NotImplementedError`.
- RhdIo.InitiateNwb: puts each electrode in the group of its own shank (`Nwb.BuildElectrodes`), so it does not promise the source's grouping by list position or the `IndexError` that grouping raises (first finding).
- NwbUtils.InitiateNwbFromArray: the same corrected grouping; the source indexes its group list by shank id in the same way (fourth finding).
- RhdFolder.ConvertFolder: converts through the corrected `RhdFolder.ConvertFiles`, which appends every file with the mask the first file was initiated with, so it does not promise the source's failure on an unmasked 33..64-channel folder (second finding).
- RhdFolder.LoadSorted: inherits that correction through `RhdFolder.ConvertFolder`.
- RhdFolder.ReadRhdFolder: inherits that correction through `RhdFolder.LoadSorted`.
- RhdCat.CatSession: appends every file with the session's initiate mask, the same correction; as written an unmasked session's later files are appended with every channel.
- RhdCat.CatAll: inherits that correction through `RhdCat.CatSession`.
- RhdCat.CatTotal: the counter equals the stored row count for the corrected `RhdCat.CatSession` only.
- RhdCat.IntansToNwbCat: inherits that correction through `RhdCat.CatAll`.
- Seqs.SortBy: is a stable insertion sort, as Python's `sorted` is, but its contract does not state stability; `RhdNames.SortedRhdFiles` and `RhdCat.OrderSessions` break ties as the source does only through it.
- OeConvert.ConvertOneSession: the sample rate is taken as a real, so the `ValueError` of `float(sample_freq)` on a loaded value that is not a number is not modelled.
- RhdFolder.ReadMapCsv: the map file is taken as a rectangular table of numbers. A line with more fields than the first is a parser error and a non-numeric field a cast error, and neither is modelled. A shorter line padded with NaN is not modelled either.
- Channels.LookupCorstyle: a map passed directly as an array is taken to have at most two dimensions. Indexing a higher-dimensional array by `[ids, :2]` would not fail.
- RhdImp.CsvNatives: the impedance table is taken to have its "Channel Number" and "Impedance Magnitude at 1000 Hz (ohms)" columns (spksorting/preprocess_rhd/utils/rhd_folder.py:273-274), so the `KeyError` of a file without one of them is not modelled; RhdImp.CsvOhms takes the same columns as given.
- RhdNames.MatchEphysFolder: `\d` is read as an ASCII digit, while Python's `\d` in a `str` pattern also matches other Unicode decimal digits; folder names are taken to be ASCII.
- Counting.Metrics: `metrics.csv` is read as its two columns, so the `KeyError` of `m["firing_rate"]` or `m["snr"]` on a file without one of them (spksorting/post_msort_processing/chronic_counting_si_formats2.py:64-65) is not modelled.
- OeConvert.Magnitudes: a magnitude attribute is taken as a real, so the `ValueError` of `float(...)` on a value that is not a number (spksorting/preprocess_rhd/convert_oe2nwb.py:89) is not modelled; only the missing attribute's `KeyError` is.
- `OeConvert.ConvertOneSession` stops at the shape bookkeeping. The NWB file it writes through `initiate_nwb` is the one `NwbUtils.InitiateNwbFromArray` models.
- `VALID_SESSION_LAMBDA` is defined but never called in `gather_impedance_info_nwb.py`. It is modelled on its own (`Impedance.ValidSessionNameChars`).
- spksorting/post_msort_processing/cfg_counting.py is not part of this model: it holds configuration data only.
- spksorting/preprocess_rhd/convert_rhd2nwb.py is not part of this model: it is a driver with fixed paths, and its output name repeats the Open Ephys one (`OeConvert.NwbFileName`).
- spksorting/preprocess_rhd/load_mda_demo.py is not part of this model: it is a demo over an external reader, filtering and plots.

## Findings

| source | as written | input that shows it | evidently intended | confidence | as-written member | corrected member |
|---|---|---|---|---|---|---|
| spksorting/preprocess_rhd/utils/rhd_io_utils.py:245-256 | the electrode of shank `s` is put in `electrode_groups[s]`, but that list holds one group per distinct shank in ascending order, so it is indexed by position, not by shank id | a map whose channels sit on shanks 1 and 2: the two groups sit at positions 0 and 1, so the shank-1 electrodes go to the shank-2 group and shank 2 indexes past the list (`IndexError`) | each electrode goes into the group named after its own shank | not executed | Nwb.BuildElectrodesAsWritten, Nwb.ShankGroupsMisassigned | Nwb.BuildElectrodes |
| spksorting/preprocess_rhd/utils/rhd_folder.py:142-162 | with no channel mask, `initiate_nwb` applies the 32-on-64 hot-fix mask (rhd_io_utils.py:178-184) but `append_nwb` keeps every channel (rhd_io_utils.py:300-301), so the second file's rows are wider than the stored series and neither matches nor broadcasts | a two-file folder of a 64-channel board recorded without a mask, the second file holding samples | every file of a folder is stored with the mask the first file was initiated with | not executed | RhdFolder.ConvertFilesAsWritten, RhdFolder.UnmaskedHotfixBreaksAppend, RhdIo.DefaultMasksDisagree | RhdFolder.ConvertFiles |
| spksorting/preprocess_rhd/convert_oe2nwb.py:53-54 | `n_ch` and `n_samples` are read as `shape[0]` and `shape[1]` of a (samples, channels) array, so the reported sample count is the kept channel count | a 1000-sample, 40-channel recording is reported with `n_samples` 32 | `n_samples` is the number of samples, `shape[0]` | not executed | OeConvert.ConvertOneSessionAsWritten, OeConvert.ReportedSamplesAreChannels | OeConvert.ConvertOneSession |
| spksorting/preprocess_rhd/utils/nwb_utils.py:118-129 | as in `rhd_io_utils.py`, the electrode of shank `s` is put in `electrode_groups[s]`, a list holding one group per distinct shank in ascending order | an array whose kept columns sit on shanks 1 and 2 of the coordinate map | each electrode goes into the group named after its own shank | not executed | Nwb.BuildElectrodesAsWritten, Nwb.ShankGroupsMisassigned | Nwb.BuildElectrodes |

`RhdCat.CatSession` carries the same correction. It appends every file of a session with the mask that `initiate_nwb` would resolve for the session's first file. `intans2nwb_cat` passes the session's own mask to its appends (spksorting/preprocess_rhd/utils/rhd_folder.py:242-257), so it hits the second finding only when that mask is `None`.


=== FILE: channels.dfy ===
/** Channel selection and the electrode-table vocabulary shared by the two
    `initiate_nwb` variants (rhd_io_utils.py and nwb_utils.py): the channel
    mask, the 32-on-64 hot-fix, the coordinate-style channel-map lookup, the
    per-shank electrode groups and the `native{n}_ovr{i}_shank{s}` label. */
module Channels {
  import opened Wrappers
  import opened Text
  import opened Seqs

  /** The `mask` argument: absent (`None`), or an array with a dtype. Only a
      boolean array carries meaningful values. */
  datatype MaskArg = NoMask | GivenMask(isBool: bool, values: seq<bool>)

  /** Mask defaulting and validation for `n` channels. A missing mask keeps
      every channel; a supplied one must be boolean and of length `n`, else the
      call fails with `onBad` (an assertion on the append paths, `ValueError`
      in `initiate_nwb`). */
  function ResolveMask(arg: MaskArg, n: nat, onBad: PyError): (r: Result<seq<bool>>)
    ensures arg.NoMask? ==> r == Ok(AllTrue(n))
    ensures arg.GivenMask? ==> (r.Ok? <==> arg.isBool && |arg.values| == n)
    ensures arg.GivenMask? && r.Ok? ==> r.value == arg.values
    ensures r.Ok? ==> |r.value| == n
    ensures r.Err? ==> r.error == onBad
  {
    match arg
    case NoMask => Ok(AllTrue(n))
    case GivenMask(isBool, values) =>
      if isBool && |values| == n then Ok(values) else Err(onBad)
  }

  /** Without a mask, every channel's data is kept, in order. */
  lemma MissingMaskKeepsAll<T>(xs: seq<T>, onBad: PyError)
    ensures ResolveMask(NoMask, |xs|, onBad).Ok?
    ensures Select(xs, ResolveMask(NoMask, |xs|, onBad).value) == xs
  {
    SelectAll(xs, AllTrue(|xs|));
  }

  /** Offset between an Intan native order and a channel-map row under the
      hot-fix for 32-channel probes recorded on 64-channel boards, which the
      RHD path always applies. */
  const HOTFIX_MAP_OFFSET: int := 16

  /** A native order the hot-fix keeps. */
  predicate InHotfixBlock(o: int) {
    16 <= o < 48
  }

  /** The default mask of rhd_io_utils.py `initiate_nwb` for `n` channels with
      the given native orders: with the hot-fix on and 32 < n <= 64, only the
      channels whose native order is in [16, 48) stay; otherwise all stay.
      The mask write indexes with the native-order array, so its length must
      be `n`. */
  function DefaultMask(n: nat, nativeOrders: seq<int>): (r: Result<seq<bool>>)
    ensures r.Ok? ==> |r.value| == n
    ensures !(32 < n <= 64) ==> r == Ok(AllTrue(n))
    ensures 32 < n <= 64 ==> (r.Ok? <==> |nativeOrders| == n)
    ensures 32 < n <= 64 && r.Ok? ==>
              forall i :: 0 <= i < n ==> (r.value[i] <==> 16 <= nativeOrders[i] < 48)
    ensures r.Err? ==> r.error == IndexError
  {
    if 32 < n <= 64 then
      if |nativeOrders| != n then Err(IndexError)
      else Ok(seq(n, i requires 0 <= i < n => InHotfixBlock(nativeOrders[i])))
    else Ok(AllTrue(n))
  }

  /** With 32 < n <= 64 channels and no mask, the kept native orders are
      exactly those in [16, 48), in their original order. */
  lemma HotfixKeepsMiddleBlock(nativeOrders: seq<int>)
    requires 32 < |nativeOrders| <= 64
    ensures DefaultMask(|nativeOrders|, nativeOrders).Ok?
    ensures Select(nativeOrders, DefaultMask(|nativeOrders|, nativeOrders).value)
         == Filter(nativeOrders, InHotfixBlock)
  {
    var m := DefaultMask(|nativeOrders|, nativeOrders).value;
    SelectByPredicate(nativeOrders, m, InHotfixBlock);
  }

  /** The channel-map row ids of rhd_io_utils.py: native order minus 16,
      whether or not the hot-fix mask was applied. */
  function MapIds(nativeKept: seq<int>): (ids: seq<int>)
    ensures |ids| == |nativeKept|
    ensures forall i :: 0 <= i < |ids| ==>
              ids[i] == nativeKept[i] - HOTFIX_MAP_OFFSET
  {
    seq(|nativeKept|, i requires 0 <= i < |nativeKept| => nativeKept[i] - HOTFIX_MAP_OFFSET)
  }

  /** `ch_ids` as given to the lookup: its number of dimensions and its items. */
  datatype IdArray = IdArray(ndim: nat, items: seq<int>)

  /** A coordinate-style channel map: a numeric array of `ndim` dimensions,
      at most two. `rows` holds its cells, one row per map channel with
      columns (X, Y[, shank]); a table squeezed below two dimensions keeps
      its cells there but can no longer be indexed by row and column. */
  datatype ChannelMapData = ChannelMapData(ndim: nat, width: nat, rows: seq<seq<real>>) {
    predicate Valid() {
      && ndim <= 2
      && forall i :: 0 <= i < |rows| ==> |rows[i]| == width
    }
  }

  datatype Lookup = Lookup(shanks: seq<int>, locations: seq<seq<real>>)

  /** The map row an id designates, with Python's count-from-the-end rule. */
  function MapRow(id: int, m: ChannelMapData): Option<nat> {
    PyIndex(id, |m.rows|)
  }

  predicate AllIdsInRange(ids: seq<int>, m: ChannelMapData) {
    forall k :: 0 <= k < |ids| ==> MapRow(ids[k], m).Some?
  }

  /** `lookup_channel_map_corstyle`: a non-1-D id array is a `ValueError`; a
      map that is not 2-D has too few axes for `[ids, :2]` and an id outside
      the map is out of range, both an `IndexError`; otherwise every id yields
      the first two columns of its row as location, and its shank is the
      third column (truncated to an integer) when the map has exactly three
      columns, else 0. */
  function LookupCorstyle(ids: IdArray, m: ChannelMapData): (r: Result<Lookup>)
    requires m.Valid()
    ensures ids.ndim != 1 ==> r == Err(ValueError)
    ensures ids.ndim == 1 ==> (r.Ok? <==> m.ndim == 2 && AllIdsInRange(ids.items, m))
    ensures ids.ndim == 1 && m.ndim != 2 ==> r == Err(IndexError)
    ensures r.Ok? ==> |r.value.shanks| == |ids.items| && |r.value.locations| == |ids.items|
    ensures r.Ok? ==> forall k :: 0 <= k < |ids.items| ==>
              var row := m.rows[MapRow(ids.items[k], m).value];
              && r.value.locations[k] == row[..if m.width < 2 then m.width else 2]
              && r.value.shanks[k] == (if m.width == 3 then Trunc(row[2]) else 0)
  {
    if ids.ndim != 1 then Err(ValueError)
    else if m.ndim != 2 || !AllIdsInRange(ids.items, m) then Err(IndexError)
    else
      var rowOf := (k: int) requires 0 <= k < |ids.items| => m.rows[MapRow(ids.items[k], m).value];
      var n := |ids.items|;
      Ok(Lookup(
        seq(n, k requires 0 <= k < n => if m.width == 3 then Trunc(rowOf(k)[2]) else 0),
        seq(n, k requires 0 <= k < n => rowOf(k)[..if m.width < 2 then m.width else 2])))
  }

  /** A kept channel whose native order is below 16 gets a negative map id, so
      the lookup reads the map counting from the end (row count + id). */
  lemma NegativeIdReadsFromEnd(native: int, m: ChannelMapData)
    requires native < HOTFIX_MAP_OFFSET
    requires |m.rows| >= HOTFIX_MAP_OFFSET - native
    ensures MapIds([native])[0] < 0
    ensures MapRow(MapIds([native])[0], m) == Some(|m.rows| + native - HOTFIX_MAP_OFFSET)
  {
  }

  predicate StrictlyIncreasing(xs: seq<int>) {
    forall i, j :: 0 <= i < j < |xs| ==> xs[i] < xs[j]
  }

  /** An id below every id of a strictly increasing sequence can go in front. */
  lemma ConsIncreasing(y: int, rest: seq<int>)
    requires StrictlyIncreasing(rest) && forall k :: 0 <= k < |rest| ==> y < rest[k]
    ensures StrictlyIncreasing([y] + rest)
  {
    var r := [y] + rest;
    forall i, j | 0 <= i < j < |r| ensures r[i] < r[j] {
      assert r[j] == rest[j - 1];
      if i > 0 {
        assert r[i] == rest[i - 1];
      }
    }
  }

  function InsertUnique(x: int, xs: seq<int>): (r: seq<int>)
    requires StrictlyIncreasing(xs)
    ensures StrictlyIncreasing(r)
    ensures forall y :: y in r <==> y == x || y in xs
    decreases |xs|
  {
    if |xs| == 0 then [x]
    else
      var tail := xs[1..];
      assert xs == [xs[0]] + tail;
      assert forall k :: 0 <= k < |tail| ==> xs[0] < tail[k] by {
        forall k | 0 <= k < |tail| ensures xs[0] < tail[k] {
          assert tail[k] == xs[k + 1];
        }
      }
      if x == xs[0] then xs
      else if x < xs[0] then
        assert forall k :: 0 <= k < |xs| ==> x < xs[k];
        ConsIncreasing(x, xs);
        [x] + xs
      else
        var rest := InsertUnique(x, tail);
        assert forall k :: 0 <= k < |rest| ==> xs[0] < rest[k] by {
          forall k | 0 <= k < |rest| ensures xs[0] < rest[k] {
            assert rest[k] in rest;
          }
        }
        ConsIncreasing(xs[0], rest);
        [xs[0]] + rest
  }

  /** `np.sort(np.unique(shanks))`: one entry per distinct shank id, ascending. */
  function SortedUnique(xs: seq<int>): (r: seq<int>)
    ensures StrictlyIncreasing(r)
    ensures forall y :: y in r <==> y in xs
    decreases |xs|
  {
    if |xs| == 0 then []
    else
      var rest := SortedUnique(xs[..|xs| - 1]);
      assert xs == xs[..|xs| - 1] + [xs[|xs| - 1]];
      InsertUnique(xs[|xs| - 1], rest)
  }

  /** The group an electrode of shank `s` is placed in, as written:
      `electrode_groups[s]`, a position in the ascending list of distinct
      shank ids (negative `s` counts from the end; out of range is `None`).
      The result is the shank id of the group at that position. */
  function GroupAsWritten(groups: seq<int>, s: int): Option<int> {
    match PyIndex(s, |groups|)
    case None => None
    case Some(p) => Some(groups[p])
  }

  /** The group an electrode of shank `s` evidently belongs to: the one
      created for shank `s`, which always exists. */
  function GroupFor(groups: seq<int>, s: int): (g: Option<int>)
    ensures g.Some? <==> s in groups
    ensures g.Some? ==> g.value == s
  {
    if s in groups then Some(s) else None
  }

  /** When the shank ids are exactly 0..k-1, indexing the group list by shank
      id finds the shank's own group. */
  lemma GroupAsWrittenAgrees(shanks: seq<int>, k: nat)
    requires forall s :: s in shanks <==> 0 <= s < k
    ensures forall i :: 0 <= i < |shanks| ==>
              GroupAsWritten(SortedUnique(shanks), shanks[i]) == GroupFor(SortedUnique(shanks), shanks[i])
  {
    var g := SortedUnique(shanks);
    forall i | 0 <= i < |shanks|
      ensures GroupAsWritten(g, shanks[i]) == GroupFor(g, shanks[i])
    {
      var s := shanks[i];
      assert s in g;
      var q :| 0 <= q < |g| && g[q] == s;
      IdentityAt(g, k, q);
    }
  }

  /** In an ascending list holding exactly the values 0..k-1, position `p`
      holds `p`. */
  lemma {:induction false} IdentityAt(g: seq<int>, k: nat, p: nat)
    requires StrictlyIncreasing(g)
    requires forall s :: s in g <==> 0 <= s < k
    requires p < |g|
    ensures g[p] == p
    decreases p
  {
    if p > 0 {
      IdentityAt(g, k, p - 1);
    }
    assert g[p] in g;
    assert p in g;
    var q :| 0 <= q < |g| && g[q] == p;
    if q < p {
      IdentityAt(g, k, q);
    }
  }

  /** Shank ids {1, 2}: the shank-1 electrode lands in the shank-2 group and the
      shank-2 electrode has no group at all (an `IndexError`). */
  lemma GroupAsWrittenMisplaces()
    ensures SortedUnique([1, 2]) == [1, 2]
    ensures GroupAsWritten([1, 2], 1) == Some(2) && GroupFor([1, 2], 1) == Some(1)
    ensures GroupAsWritten([1, 2], 2) == None && GroupFor([1, 2], 2) == Some(2)
  {
    assert SortedUnique([1]) == [1] by {
      assert [1][..0] == [];
    }
    assert [1, 2][..1] == [1];
  }

  /** The electrode label `native{n}_ovr{i}_shank{s}`. */
  function ElectrodeLabel(native: int, ovr: nat, shank: int): string {
    "native" + (IntToDecimal(native) + ("_ovr" + (NatToDecimal(ovr) + ("_shank" + IntToDecimal(shank)))))
  }

  /** One `([0-9]+)` group followed by the literal `lit`: the rest of `s`
      after both, or `None` where the match fails. The group is followed by a
      non-digit, so the greedy maximal digit run is the only way it can match. */
  function GroupThen(s: string, lit: string): (r: Option<string>)
    ensures r.Some? ==> |r.value| < |s|
  {
    var d := DigitRun(s);
    if |d| == 0 || !StartsWith(s[|d|..], lit) then None
    else Some(s[|d|..][|lit|..])
  }

  /** `int(re.match("native([0-9]+)_ovr([0-9]+)_shank([0-9]+)", label)[1])`,
      with `None` where the match fails. */
  function ParseLabelNative(text: string): Option<nat> {
    if !StartsWith(text, "native") then None
    else
      var r0 := text[6..];
      match GroupThen(r0, "_ovr")
      case None => None
      case Some(r2) =>
        match GroupThen(r2, "_shank")
        case None => None
        case Some(r4) =>
          if |DigitRun(r4)| == 0 then None else Some(DecimalValue(DigitRun(r0)))
  }

  lemma GroupThenOf(a: string, lit: string, rest: string)
    requires AllDigits(a) && |a| > 0
    requires |lit| > 0 && !IsDigit(lit[0])
    ensures DigitRun(a + (lit + rest)) == a
    ensures GroupThen(a + (lit + rest), lit) == Some(rest)
  {
    DigitRunOfDigits(a, lit + rest);
    assert (a + (lit + rest))[|a|..] == lit + rest;
    assert (lit + rest)[..|lit|] == lit;
    assert (lit + rest)[|lit|..] == rest;
  }

  lemma GroupThenOfSigned(s: string, lit: string)
    requires |s| > 0 && s[0] == '-'
    ensures GroupThen(s, lit) == None && DigitRun(s) == []
  {
  }

  /** Past the "native" prefix the parse works on the rest of the label. */
  lemma ParseAfterPrefix(rest: string)
    ensures ParseLabelNative("native" + rest) ==
              match GroupThen(rest, "_ovr")
              case None => None
              case Some(r2) =>
                match GroupThen(r2, "_shank")
                case None => None
                case Some(r4) => if |DigitRun(r4)| == 0 then None else Some(DecimalValue(DigitRun(rest)))
  {
    var text := "native" + rest;
    assert StartsWith(text, "native");
    assert text[6..] == rest;
  }

  /** A signed native field defeats the first group. */
  lemma ParseOfSignedNative(a: string, tail: string)
    requires |a| > 0 && a[0] == '-'
    ensures ParseLabelNative("native" + (a + tail)) == None
  {
    ParseAfterPrefix(a + tail);
    GroupThenOfSigned(a + tail, "_ovr");
  }

  /** With digit native and `ovr` fields, the parse succeeds exactly when the
      shank field is all digits. */
  lemma ParseOfDigitFields(a: string, b: string, c: string)
    requires |a| > 0 && AllDigits(a) && |b| > 0 && AllDigits(b)
    requires |c| > 0 && (AllDigits(c) || c[0] == '-')
    ensures ParseLabelNative("native" + (a + ("_ovr" + (b + ("_shank" + c)))))
         == if AllDigits(c) then Some(DecimalValue(a)) else None
  {
    ParseAfterPrefix(a + ("_ovr" + (b + ("_shank" + c))));
    GroupThenOf(a, "_ovr", b + ("_shank" + c));
    GroupThenOf(b, "_shank", c);
    if !AllDigits(c) {
      assert DigitRun(c) == [];
    } else {
      assert DigitRun(c) != [];
    }
  }

  /** The parse of a label assembled from a native field `a`, an `ovr` field
      `b` and a shank field `c`, each either all digits or signed. */
  lemma ParseOfFields(a: string, b: string, c: string)
    requires |a| > 0 && (AllDigits(a) || a[0] == '-')
    requires |b| > 0 && AllDigits(b)
    requires |c| > 0 && (AllDigits(c) || c[0] == '-')
    ensures ParseLabelNative("native" + (a + ("_ovr" + (b + ("_shank" + c)))))
         == if AllDigits(a) && AllDigits(c) then Some(DecimalValue(a)) else None
  {
    if !AllDigits(a) {
      ParseOfSignedNative(a, "_ovr" + (b + ("_shank" + c)));
    } else {
      ParseOfDigitFields(a, b, c);
    }
  }

  /** Parsing a written label gives back its native order exactly when the
      native order and the shank id are non-negative; a '-' sign defeats the
      `[0-9]+` groups. */
  lemma LabelRoundTrip(native: int, ovr: nat, shank: int)
    ensures ParseLabelNative(ElectrodeLabel(native, ovr, shank))
         == if native >= 0 && shank >= 0 then Some(native) else None
  {
    ParseOfFields(IntToDecimal(native), NatToDecimal(ovr), IntToDecimal(shank));
    if native >= 0 {
      DecimalRoundTrip(native);
    }
  }
}

=== FILE: counting.dfy ===
/** chronic_counting_si_formats2.py: per-session unit counts and amplitudes
    after sorting, with an amplitude and a firing-rate acceptance filter,
    and the per-animal bookkeeping over session folders. Reading the
    sorting outputs, `strptime` and the plots are outside the model: the
    reads are a parameter and dates arrive decoded to seconds. */
module Counting {
  import opened Wrappers
  import opened Text
  import opened Seqs
  import opened Templates
  import opened Sessions

  const AMP_LIMIT_UV: real := 500.0
  const FR_LIMIT_HZ: real := 0.5

  /** Tried in this order; the first one where every read succeeds wins. */
  const SORTING_SUBDIRS: seq<string> := [
    "spksort_allday/mountainsort4",
    "spksort_allday/ms4_whiten_bothpeaks_thr4d5",
    "spksort_allday/ms4_whiten_ebl128-18",
    "spksort_allday/ms4_whiten_conventional",
    "spksort_allday/ms4_whiten_bothpeaks_thr4d5_upto1100"
  ]

  /** The `firing_rate` and `snr` columns of `metrics.csv`. */
  datatype Metrics = Metrics(firingRates: seq<real>, snrs: seq<real>)

  /** The four reads in one sorting sub-directory, in the order they are
      attempted; `None` where the read raises. */
  datatype SubdirFiles = SubdirFiles(templates: Option<ValidWaveforms>, single: Option<seq<bool>>,
                                     sinmul: Option<seq<bool>>, metrics: Option<Metrics>)

  predicate Complete(d: SubdirFiles) {
    d.templates.Some? && d.single.Some? && d.sinmul.Some? && d.metrics.Some?
  }

  /** The four local variables after the loop; `None` for `None` or never
      assigned. */
  datatype Locals = Locals(templates: Option<ValidWaveforms>, single: Option<seq<bool>>,
                           sinmul: Option<seq<bool>>, metrics: Option<Metrics>)

  const UNSET := Locals(None, None, None, None)

  /** One pass of the `try`: the reads assign in order until one raises. */
  function TryLoad(cur: Locals, d: SubdirFiles): (r: Locals)
    ensures d.templates.None? ==> r == cur
    ensures d.templates.Some? ==> r.templates == d.templates
    ensures d.templates.Some? && d.single.Some? ==> r.single == d.single
    ensures d.templates.Some? && d.single.Some? && d.sinmul.Some? ==> r.sinmul == d.sinmul
    ensures r.metrics == (if Complete(d) then d.metrics else cur.metrics)
  {
    match d.templates
    case None => cur
    case Some(t) =>
      match d.single
      case None => cur.(templates := Some(t))
      case Some(a) =>
        match d.sinmul
        case None => cur.(templates := Some(t), single := Some(a))
        case Some(b) =>
          match d.metrics
          case None => cur.(templates := Some(t), single := Some(a), sinmul := Some(b))
          case Some(m) => Locals(Some(t), Some(a), Some(b), Some(m))
  }

  /** The position of the first sub-directory where all four reads succeed. */
  function FirstComplete(ds: seq<SubdirFiles>): (r: Option<nat>)
    ensures r.Some? ==> r.value < |ds| && Complete(ds[r.value]) && forall j :: 0 <= j < r.value ==> !Complete(ds[j])
    ensures r.None? <==> forall j :: 0 <= j < |ds| ==> !Complete(ds[j])
    decreases |ds|
  {
    if |ds| == 0 then None
    else if Complete(ds[0]) then Some(0)
    else match FirstComplete(ds[1..])
      case None => None
      case Some(k) => Some(k + 1)
  }

  /** The loop over the sub-directories, leaving it at the first complete one. */
  function LoadLoop(cur: Locals, ds: seq<SubdirFiles>): Locals
    decreases |ds|
  {
    if |ds| == 0 then cur
    else if Complete(ds[0]) then TryLoad(cur, ds[0])
    else LoadLoop(TryLoad(cur, ds[0]), ds[1..])
  }

  /** After the loop: the first complete sub-directory supplies all four
      values. Without one, `m` is never assigned, and the template stays
      `None` exactly when no template file was ever read. */
  lemma {:induction false} LoadLoopOutcome(cur: Locals, ds: seq<SubdirFiles>)
    ensures var r := LoadLoop(cur, ds);
            && (FirstComplete(ds).Some? ==>
                  var d := ds[FirstComplete(ds).value];
                  r == Locals(d.templates, d.single, d.sinmul, d.metrics))
            && (FirstComplete(ds).None? ==> r.metrics == cur.metrics)
            && (FirstComplete(ds).None? ==>
                  (r.templates.None? <==> cur.templates.None? && forall j :: 0 <= j < |ds| ==> ds[j].templates.None?))
    decreases |ds|
  {
    if |ds| > 0 && !Complete(ds[0]) {
      LoadLoopOutcome(TryLoad(cur, ds[0]), ds[1..]);
      assert forall j :: 1 <= j < |ds| ==> ds[j] == ds[1..][j - 1];
    }
  }

  /** What the session contributes to the per-animal lists. */
  datatype SessionStat = SessionStat(nSingle: nat, nSingMult: nat, nCh: nat, amplitudes: seq<real>,
                                     snrs: seq<real>, firingRates: seq<real>)

  /** `mask[cond] = False`. */
  function ClearWhere(mask: seq<bool>, cond: seq<bool>): (r: seq<bool>)
    requires |mask| == |cond|
    ensures |r| == |mask|
  {
    seq(|mask|, i requires 0 <= i < |mask| => mask[i] && !cond[i])
  }

  /** Clearing entries never adds to the true-count. */
  lemma {:induction false} ClearWhereShrinks(mask: seq<bool>, cond: seq<bool>)
    requires |mask| == |cond|
    ensures CountTrue(ClearWhere(mask, cond)) <= CountTrue(mask)
    decreases |mask|
  {
    if |mask| > 0 {
      assert ClearWhere(mask, cond)[1..] == ClearWhere(mask[1..], cond[1..]);
      ClearWhereShrinks(mask[1..], cond[1..]);
    }
  }

  /** Lines 70-73 on one mask: the amplitude test, then the firing-rate
      test. A cluster stays accepted iff it was accepted, its amplitude is
      at most 500 uV and it fires at least 0.5 Hz (the limits themselves
      pass). */
  function AcceptMask(mask: seq<bool>, p2p: seq<real>, fr: seq<real>): (r: seq<bool>)
    requires |mask| == |p2p| == |fr|
    ensures |r| == |mask|
    ensures forall i :: 0 <= i < |mask| ==> (r[i] <==> mask[i] && p2p[i] <= AMP_LIMIT_UV && fr[i] >= FR_LIMIT_HZ)
    ensures CountTrue(r) <= CountTrue(mask)
  {
    var m1 := ClearWhere(mask, seq(|p2p|, i requires 0 <= i < |p2p| => p2p[i] > AMP_LIMIT_UV));
    var m2 := ClearWhere(m1, seq(|fr|, i requires 0 <= i < |fr| => fr[i] < FR_LIMIT_HZ));
    ClearWhereShrinks(mask, seq(|p2p|, i requires 0 <= i < |p2p| => p2p[i] > AMP_LIMIT_UV));
    ClearWhereShrinks(m1, seq(|fr|, i requires 0 <= i < |fr| => fr[i] < FR_LIMIT_HZ));
    m2
  }

  /** The statistics once the four files are read: the amplitudes, the two
      filtered masks and their counts. A mask or rate column whose length is
      not the cluster count fails the boolean indexing (`IndexError`), and so
      does a single cluster: `.values.squeeze()` turns a one-cell mask file
      into a 0-d array, which a one-entry boolean index cannot index. */
  function StatFromFiles(t: Waveforms, single: seq<bool>, sinmul: seq<bool>, m: Metrics): (r: Result<SessionStat>)
    requires t.Valid()
    ensures r.Ok? <==> P2PAmplitudes(t).Ok? && |single| == |sinmul| == |m.firingRates| == t.nClus && t.nClus != 1
    ensures P2PAmplitudes(t).Err? ==> r == Err(ValueError)
    ensures P2PAmplitudes(t).Ok? && !(|single| == |sinmul| == |m.firingRates| == t.nClus) ==> r == Err(IndexError)
    ensures P2PAmplitudes(t).Ok? && t.nClus == 1 ==> r == Err(IndexError)
    ensures r.Ok? ==>
              var p2p := P2PAmplitudes(t).value;
              var acc := AcceptMask(sinmul, p2p, m.firingRates);
              && r.value.nCh == t.nCh
              && r.value.snrs == m.snrs && r.value.firingRates == m.firingRates
              && r.value.nSingle == CountTrue(AcceptMask(single, p2p, m.firingRates)) <= CountTrue(single)
              && r.value.nSingMult == CountTrue(acc) <= CountTrue(sinmul)
              && |r.value.amplitudes| == r.value.nSingMult == |TrueIndices(acc)|
              && forall k :: 0 <= k < |r.value.amplitudes| ==> r.value.amplitudes[k] == p2p[TrueIndices(acc)[k]]
  {
    var p2p :- P2PAmplitudes(t);
    var _ :- Need(|single| == |sinmul| == |m.firingRates| == t.nClus && t.nClus != 1, IndexError);
    var s1 := AcceptMask(single, p2p, m.firingRates);
    var s2 := AcceptMask(sinmul, p2p, m.firingRates);
    SelectIsIndexed(p2p, s2);
    Ok(SessionStat(CountTrue(s1), CountTrue(s2), t.nCh, Select(p2p, s2), m.snrs, m.firingRates))
  }

  /** Every kept amplitude is that of an accepted single-or-multi unit: at
      most 500 uV, non-negative, and firing at least 0.5 Hz. */
  lemma KeptAmplitudesPassFilter(t: Waveforms, single: seq<bool>, sinmul: seq<bool>, m: Metrics)
    requires t.Valid()
    ensures StatFromFiles(t, single, sinmul, m).Ok? ==>
              var st := StatFromFiles(t, single, sinmul, m).value;
              var acc := AcceptMask(sinmul, P2PAmplitudes(t).value, m.firingRates);
              forall k :: 0 <= k < |st.amplitudes| ==>
                && 0.0 <= st.amplitudes[k] <= AMP_LIMIT_UV
                && sinmul[TrueIndices(acc)[k]]
                && m.firingRates[TrueIndices(acc)[k]] >= FR_LIMIT_HZ
  {
  }

  /** `get_session_stat`, given the reads of the session's sub-directories
      in `SORTING_SUBDIRS` order. */
  function GetSessionStat(ds: seq<SubdirFiles>): (r: Result<SessionStat>)
    ensures (forall j :: 0 <= j < |ds| ==> ds[j].templates.None?) ==> r == Err(ValueError)
    ensures FirstComplete(ds).None? && (exists j :: 0 <= j < |ds| && ds[j].templates.Some?) ==> r == Err(UnboundLocalError)
    ensures FirstComplete(ds).Some? ==>
              var d := ds[FirstComplete(ds).value];
              r == StatFromFiles(d.templates.value, d.single.value, d.sinmul.value, d.metrics.value)
  {
    var loc := LoadLoop(UNSET, ds);
    LoadLoopOutcome(UNSET, ds);
    if loc.templates.None? then Err(ValueError)
    else if loc.metrics.None? || loc.single.None? || loc.sinmul.None? then Err(UnboundLocalError)
    else StatFromFiles(loc.templates.value, loc.single.value, loc.sinmul.value, loc.metrics.value)
  }

  /** One session folder's entry in the per-animal lists. */
  datatype SessionRecord = SessionRecord(stat: SessionStat, seconds: int, dateText: string)

  /** The body of the `try` for one folder: strip one '/', read the date
      from the base name, decode it (`ValueError` when `strptime` refuses),
      then the statistics from the folder's sorting outputs. */
  function ProcessSession(folder: string, decode: string -> Option<int>,
                          read: (string, string) -> SubdirFiles): (r: Result<SessionRecord>)
    ensures SessionDateText(SessionName(folder)).Err? ==> r == Err(TypeError)
    ensures r.Ok? ==>
              && SessionDateText(SessionName(folder)) == Ok(r.value.dateText)
              && decode(r.value.dateText) == Some(r.value.seconds)
              && var ds := seq(|SORTING_SUBDIRS|, i requires 0 <= i < |SORTING_SUBDIRS| => read(StripOneSlash(folder), SORTING_SUBDIRS[i]));
                 GetSessionStat(ds) == Ok(r.value.stat)
  {
    var f := StripOneSlash(folder);
    var date :- SessionDateText(SessionName(folder));
    var seconds :- if decode(date).Some? then Ok(decode(date).value) else Err(ValueError);
    var ds := seq(|SORTING_SUBDIRS|, i requires 0 <= i < |SORTING_SUBDIRS| => read(f, SORTING_SUBDIRS[i]));
    var st :- GetSessionStat(ds);
    Ok(SessionRecord(st, seconds, date))
  }

  /** `n_sing_or_mult / n_ch` as numpy computes it; `None` stands for the
      non-finite quotient of a session without channels. */
  function UnitsPerChannel(n: nat, ch: nat): (r: Option<real>)
    ensures r.Some? <==> ch > 0
    ensures r.Some? ==> r.value * ch as real == n as real
  {
    if ch == 0 then None else Some(n as real / ch as real)
  }

  function SingMultCounts(recs: seq<SessionRecord>): (r: seq<nat>)
    ensures |r| == |recs| && forall k :: 0 <= k < |recs| ==> r[k] == recs[k].stat.nSingMult
  {
    seq(|recs|, k requires 0 <= k < |recs| => recs[k].stat.nSingMult)
  }

  /** The lists kept for the valid sessions only. */
  datatype ValidLists = ValidLists(timedeltas: seq<int>, p2pMeans: seq<Option<real>>, snrsMeans: seq<Option<real>>,
                                   firingRatesMeans: seq<Option<real>>)

  /** `valid_session_ids` picks the sessions with a positive
      single-or-multi count; each valid list has one entry per valid
      session, in order. */
  function ValidSummary(recs: seq<SessionRecord>, timedeltas: seq<int>): (v: ValidLists)
    requires |timedeltas| == |recs|
    ensures var valid := ValidIds(SingMultCounts(recs));
            && |v.timedeltas| == |v.p2pMeans| == |v.snrsMeans| == |v.firingRatesMeans| == |valid|
            && forall k :: 0 <= k < |valid| ==>
                 && v.timedeltas[k] == timedeltas[valid[k]]
                 && v.p2pMeans[k] == Mean(recs[valid[k]].stat.amplitudes)
                 && v.snrsMeans[k] == Mean(recs[valid[k]].stat.snrs)
                 && v.firingRatesMeans[k] == Mean(recs[valid[k]].stat.firingRates)
  {
    var valid := ValidIds(SingMultCounts(recs));
    var chosen := Pick(recs, valid);
    var nv := |valid|;
    ValidLists(
      Pick(timedeltas, valid),
      seq(nv, k requires 0 <= k < nv => Mean(chosen[k].stat.amplitudes)),
      seq(nv, k requires 0 <= k < nv => Mean(chosen[k].stat.snrs)),
      seq(nv, k requires 0 <= k < nv => Mean(chosen[k].stat.firingRates)))
  }

  /** The per-session lists of the dictionary `process_one_animal`
      returns. */
  datatype SessionLists = SessionLists(timedeltas: seq<int>, unitsPerChannel: seq<Option<real>>, p2pAll: seq<seq<real>>,
                                       snrsAll: seq<seq<real>>, firingRatesAll: seq<seq<real>>, dateTexts: seq<string>,
                                       nCh: seq<nat>)

  /** The whole dictionary; `None` stands for the NaN mean of an empty
      vector. */
  datatype AnimalStats = AnimalStats(sessions: SessionLists, valid: ValidLists)

  function Timedeltas(recs: seq<SessionRecord>, surgery: int): (r: seq<int>)
    ensures |r| == |recs| && forall k :: 0 <= k < |recs| ==> r[k] == recs[k].seconds - surgery
  {
    seq(|recs|, k requires 0 <= k < |recs| => recs[k].seconds - surgery)
  }

  /** Every per-session list has one entry per session that did not raise,
      the `k`-th entries all describing the same session. */
  function PerSession(recs: seq<SessionRecord>, surgery: int): (r: SessionLists)
    ensures var n := |recs|;
            && |r.timedeltas| == |r.unitsPerChannel| == |r.p2pAll| == |r.snrsAll| == |r.firingRatesAll| == |r.dateTexts| == |r.nCh| == n
            && forall k :: 0 <= k < n ==>
                 && r.timedeltas[k] == recs[k].seconds - surgery
                 && r.unitsPerChannel[k] == UnitsPerChannel(recs[k].stat.nSingMult, recs[k].stat.nCh)
                 && r.p2pAll[k] == recs[k].stat.amplitudes && r.snrsAll[k] == recs[k].stat.snrs
                 && r.firingRatesAll[k] == recs[k].stat.firingRates
                 && r.dateTexts[k] == recs[k].dateText && r.nCh[k] == recs[k].stat.nCh
  {
    var n := |recs|;
    SessionLists(
      Timedeltas(recs, surgery),
      seq(n, k requires 0 <= k < n => UnitsPerChannel(recs[k].stat.nSingMult, recs[k].stat.nCh)),
      seq(n, k requires 0 <= k < n => recs[k].stat.amplitudes),
      seq(n, k requires 0 <= k < n => recs[k].stat.snrs),
      seq(n, k requires 0 <= k < n => recs[k].stat.firingRates),
      seq(n, k requires 0 <= k < n => recs[k].dateText),
      seq(n, k requires 0 <= k < n => recs[k].stat.nCh))
  }

  /** The sessions of the folders in sorted order, each `Ok` or the
      exception that skipped it. */
  function SessionOutcomes(folders: seq<string>, decode: string -> Option<int>,
                           read: (string, string) -> SubdirFiles): (rs: seq<Result<SessionRecord>>)
    ensures var sorted := SortedFolders(folders);
            |rs| == |sorted| && forall i :: 0 <= i < |sorted| ==> rs[i] == ProcessSession(sorted[i], decode, read)
  {
    var sorted := SortedFolders(folders);
    seq(|sorted|, i requires 0 <= i < |sorted| => ProcessSession(sorted[i], decode, read))
  }

  /** `process_one_animal` without the plots: the surgery date is decoded
      first (outside the `try`, so its failure propagates); failing sessions
      are skipped. */
  function ProcessOneAnimal(folders: seq<string>, surgery: Option<int>, decode: string -> Option<int>,
                            read: (string, string) -> SubdirFiles): (r: Result<AnimalStats>)
    ensures surgery.None? <==> r.Err?
    ensures r.Err? ==> r.error == ValueError
    ensures r.Ok? ==>
              var recs := Successes(SessionOutcomes(folders, decode, read));
              && r.value.sessions == PerSession(recs, surgery.value)
              && r.value.valid == ValidSummary(recs, Timedeltas(recs, surgery.value))
  {
    var s :- if surgery.Some? then Ok(surgery.value) else Err(ValueError);
    var recs := Successes(SessionOutcomes(folders, decode, read));
    Ok(AnimalStats(PerSession(recs, s), ValidSummary(recs, Timedeltas(recs, s))))
  }

  /** Entry `k` of every per-session list describes the `k`-th sorted
      folder that did not raise; the skipped ones leave no entry anywhere. */
  lemma SessionListsAligned(folders: seq<string>, surgery: int, decode: string -> Option<int>,
                            read: (string, string) -> SubdirFiles)
    ensures var rs := SessionOutcomes(folders, decode, read);
            var r := ProcessOneAnimal(folders, Some(surgery), decode, read).value.sessions;
            var ok := TrueIndices(OkMask(rs));
            && |r.timedeltas| == |r.dateTexts| == |r.nCh| == |r.p2pAll| == CountTrue(OkMask(rs)) == |ok|
            && forall k :: 0 <= k < |ok| ==>
                 && rs[ok[k]].Ok?
                 && r.timedeltas[k] == rs[ok[k]].value.seconds - surgery
                 && r.dateTexts[k] == rs[ok[k]].value.dateText
                 && r.p2pAll[k] == rs[ok[k]].value.stat.amplitudes
                 && r.nCh[k] == rs[ok[k]].value.stat.nCh
  {
    SuccessesAreTheOkSessions(SessionOutcomes(folders, decode, read));
  }

  /** A session's statistics keep one amplitude per accepted
      single-or-multi unit. */
  lemma StatCountsAmplitudes(ds: seq<SubdirFiles>)
    ensures GetSessionStat(ds).Ok? ==> |GetSessionStat(ds).value.amplitudes| == GetSessionStat(ds).value.nSingMult
  {
  }

  /** A folder that did not raise keeps one amplitude per accepted
      single-or-multi unit. */
  lemma SessionCountsAmplitudes(folder: string, decode: string -> Option<int>, read: (string, string) -> SubdirFiles)
    ensures ProcessSession(folder, decode, read).Ok? ==>
              var st := ProcessSession(folder, decode, read).value.stat;
              |st.amplitudes| == st.nSingMult
  {
    var f := StripOneSlash(folder);
    var ds := seq(|SORTING_SUBDIRS|, j requires 0 <= j < |SORTING_SUBDIRS| => read(f, SORTING_SUBDIRS[j]));
    StatCountsAmplitudes(ds);
  }

  /** Every valid session has at least one kept amplitude, so its mean
      amplitude is a number, never the NaN of an empty vector. */
  lemma ValidMeansDefined(folders: seq<string>, surgery: int, decode: string -> Option<int>,
                          read: (string, string) -> SubdirFiles)
    ensures var v := ProcessOneAnimal(folders, Some(surgery), decode, read).value.valid;
            forall k :: 0 <= k < |v.p2pMeans| ==> v.p2pMeans[k].Some?
  {
    var rs := SessionOutcomes(folders, decode, read);
    var recs := Successes(rs);
    var sorted := SortedFolders(folders);
    SuccessesAreTheOkSessions(rs);
    forall k | 0 <= k < |recs|
      ensures |recs[k].stat.amplitudes| == recs[k].stat.nSingMult
    {
      var i := TrueIndices(OkMask(rs))[k];
      SessionCountsAmplitudes(sorted[i], decode, read);
    }
  }
}

=== FILE: counting_v1.dfy ===
/** chronic_counting_si_formats.py, the earlier counting script: three
    reads per sorting sub-directory, an amplitude-only acceptance filter,
    no trailing-'/' strip, and session folders found by listing the animal
    folder. */
module CountingV1 {
  import opened Wrappers
  import opened Text
  import opened Seqs
  import opened Templates
  import opened Sessions
  import Counting

  /** The three reads in one sorting sub-directory, in order; `None` where
      the read raises. */
  datatype SubdirFiles = SubdirFiles(templates: Option<ValidWaveforms>, single: Option<seq<bool>>, sinmul: Option<seq<bool>>)

  predicate Complete(d: SubdirFiles) {
    d.templates.Some? && d.single.Some? && d.sinmul.Some?
  }

  /** The three local variables after the loop; `None` for never assigned
      (there is no `None` initialisation in this version). */
  datatype Locals = Locals(templates: Option<ValidWaveforms>, single: Option<seq<bool>>, sinmul: Option<seq<bool>>)

  function TryLoad(cur: Locals, d: SubdirFiles): (r: Locals)
    ensures d.templates.None? ==> r == cur
    ensures d.templates.Some? ==> r.templates == d.templates
    ensures d.templates.Some? && d.single.Some? ==> r.single == d.single
    ensures r.sinmul == (if Complete(d) then d.sinmul else cur.sinmul)
  {
    match d.templates
    case None => cur
    case Some(t) =>
      match d.single
      case None => cur.(templates := Some(t))
      case Some(a) =>
        match d.sinmul
        case None => cur.(templates := Some(t), single := Some(a))
        case Some(b) => Locals(Some(t), Some(a), Some(b))
  }

  function FirstComplete(ds: seq<SubdirFiles>): (r: Option<nat>)
    ensures r.Some? ==> r.value < |ds| && Complete(ds[r.value]) && forall j :: 0 <= j < r.value ==> !Complete(ds[j])
    ensures r.None? <==> forall j :: 0 <= j < |ds| ==> !Complete(ds[j])
    decreases |ds|
  {
    if |ds| == 0 then None
    else if Complete(ds[0]) then Some(0)
    else match FirstComplete(ds[1..])
      case None => None
      case Some(k) => Some(k + 1)
  }

  function LoadLoop(cur: Locals, ds: seq<SubdirFiles>): Locals
    decreases |ds|
  {
    if |ds| == 0 then cur
    else if Complete(ds[0]) then TryLoad(cur, ds[0])
    else LoadLoop(TryLoad(cur, ds[0]), ds[1..])
  }

  /** After the loop: the first complete sub-directory supplies all three
      values; without one, the with-multi mask is never assigned. */
  lemma {:induction false} LoadLoopOutcome(cur: Locals, ds: seq<SubdirFiles>)
    ensures var r := LoadLoop(cur, ds);
            && (FirstComplete(ds).Some? ==>
                  var d := ds[FirstComplete(ds).value];
                  r == Locals(d.templates, d.single, d.sinmul))
            && (FirstComplete(ds).None? ==> r.sinmul == cur.sinmul)
            && (FirstComplete(ds).None? ==>
                  (r.templates.None? <==> cur.templates.None? && forall j :: 0 <= j < |ds| ==> ds[j].templates.None?))
    decreases |ds|
  {
    if |ds| > 0 && !Complete(ds[0]) {
      LoadLoopOutcome(TryLoad(cur, ds[0]), ds[1..]);
      assert forall j :: 1 <= j < |ds| ==> ds[j] == ds[1..][j - 1];
    }
  }

  datatype SessionStat = SessionStat(nSingle: nat, nSingMult: nat, nCh: nat, amplitudes: seq<real>)

  /** Line 66 or 67: only the amplitude test. A cluster stays accepted iff
      it was accepted and its amplitude is at most 500 uV. */
  function AmpAcceptMask(mask: seq<bool>, p2p: seq<real>): (r: seq<bool>)
    requires |mask| == |p2p|
    ensures |r| == |mask|
    ensures forall i :: 0 <= i < |mask| ==> (r[i] <==> mask[i] && p2p[i] <= Counting.AMP_LIMIT_UV)
    ensures CountTrue(r) <= CountTrue(mask)
  {
    var cond := seq(|p2p|, i requires 0 <= i < |p2p| => p2p[i] > Counting.AMP_LIMIT_UV);
    Counting.ClearWhereShrinks(mask, cond);
    Counting.ClearWhere(mask, cond)
  }

  /** `get_session_stat` of this version, in the order its statements
      fail: with no template ever read, `template_waveforms` is unbound at
      line 60 (`UnboundLocalError`, no explicit `ValueError`); the amplitude
      reduction can raise; then each mask is unbound, of the wrong length, or
      a one-cell file that `.values.squeeze()` turned into a 0-d array, which
      a boolean index cannot index (`IndexError`). */
  function GetSessionStat(ds: seq<SubdirFiles>): (r: Result<SessionStat>)
    ensures (forall j :: 0 <= j < |ds| ==> ds[j].templates.None?) ==> r == Err(UnboundLocalError)
    ensures FirstComplete(ds).Some? ==>
              var d := ds[FirstComplete(ds).value];
              var t := d.templates.value;
              && (r.Ok? <==> P2PAmplitudes(t).Ok? && |d.single.value| == |d.sinmul.value| == t.nClus && t.nClus != 1)
              && (P2PAmplitudes(t).Ok? && t.nClus == 1 ==> r == Err(IndexError))
              && (r.Ok? ==>
                    var p2p := P2PAmplitudes(t).value;
                    var acc := AmpAcceptMask(d.sinmul.value, p2p);
                    && r.value.nCh == t.nCh
                    && r.value.nSingle == CountTrue(AmpAcceptMask(d.single.value, p2p)) <= CountTrue(d.single.value)
                    && r.value.nSingMult == CountTrue(acc) == |r.value.amplitudes| == |TrueIndices(acc)|
                    && forall k :: 0 <= k < |r.value.amplitudes| ==> r.value.amplitudes[k] == p2p[TrueIndices(acc)[k]])
    ensures FirstComplete(ds).None? ==> r.Err?
  {
    var loc := LoadLoop(Locals(None, None, None), ds);
    LoadLoopOutcome(Locals(None, None, None), ds);
    if loc.templates.None? then Err(UnboundLocalError)
    else
      var t := loc.templates.value;
      var p2p :- P2PAmplitudes(t);
      if loc.single.None? then Err(UnboundLocalError)
      else if |loc.single.value| != t.nClus || |loc.single.value| == 1 then Err(IndexError)
      else if loc.sinmul.None? then Err(UnboundLocalError)
      else if |loc.sinmul.value| != t.nClus || |loc.sinmul.value| == 1 then Err(IndexError)
      else
        var s1 := AmpAcceptMask(loc.single.value, p2p);
        var s2 := AmpAcceptMask(loc.sinmul.value, p2p);
        SelectIsIndexed(p2p, s2);
        Ok(SessionStat(CountTrue(s1), CountTrue(s2), t.nCh, Select(p2p, s2)))
  }

  /** The newer script adds the firing-rate test: from the same files it
      accepts a subset of what this one accepts, and the same clusters when
      every unit fires at least 0.5 Hz. */
  lemma NewerFilterIsStricter(mask: seq<bool>, p2p: seq<real>, fr: seq<real>)
    requires |mask| == |p2p| == |fr|
    ensures forall i :: 0 <= i < |mask| ==> Counting.AcceptMask(mask, p2p, fr)[i] ==> AmpAcceptMask(mask, p2p)[i]
    ensures (forall i :: 0 <= i < |fr| ==> fr[i] >= Counting.FR_LIMIT_HZ) ==> Counting.AcceptMask(mask, p2p, fr) == AmpAcceptMask(mask, p2p)
  {
  }

  datatype SessionRecord = SessionRecord(stat: SessionStat, seconds: int, dateText: string)

  /** The body of the `try` for one folder, without stripping a trailing
      '/': the base name of such a path is empty. */
  function ProcessSession(folder: string, decode: string -> Option<int>,
                          read: (string, string) -> SubdirFiles): (r: Result<SessionRecord>)
    ensures SessionDateText(Basename(folder)).Err? ==> r == Err(TypeError)
    ensures r.Ok? ==>
              && SessionDateText(Basename(folder)) == Ok(r.value.dateText)
              && decode(r.value.dateText) == Some(r.value.seconds)
              && var ds := seq(|Counting.SORTING_SUBDIRS|, i requires 0 <= i < |Counting.SORTING_SUBDIRS| =>
                                 read(folder, Counting.SORTING_SUBDIRS[i]));
                 GetSessionStat(ds) == Ok(r.value.stat)
  {
    var date :- SessionDateText(Basename(folder));
    var seconds :- if decode(date).Some? then Ok(decode(date).value) else Err(ValueError);
    var ds := seq(|Counting.SORTING_SUBDIRS|, i requires 0 <= i < |Counting.SORTING_SUBDIRS| =>
                    read(folder, Counting.SORTING_SUBDIRS[i]));
    var st :- GetSessionStat(ds);
    Ok(SessionRecord(st, seconds, date))
  }

  /** A folder given with a trailing '/' is always skipped here, whereas the
      newer version reads it like the same folder without the '/'. */
  lemma TrailingSlashSkipped(folder: string, decode: string -> Option<int>, read: (string, string) -> SubdirFiles)
    requires EndsWith(folder, "/")
    ensures ProcessSession(folder, decode, read) == Err(TypeError)
  {
    UnstrippedTrailingSlashHasNoDate(folder);
  }

  datatype SessionLists = SessionLists(timedeltas: seq<int>, unitsPerChannel: seq<Option<real>>, p2pAll: seq<seq<real>>,
                                       dateTexts: seq<string>, nCh: seq<nat>)

  datatype ValidLists = ValidLists(timedeltas: seq<int>, p2pMeans: seq<Option<real>>)

  datatype AnimalStats = AnimalStats(sessions: SessionLists, valid: ValidLists)

  function SingMultCounts(recs: seq<SessionRecord>): (r: seq<nat>)
    ensures |r| == |recs| && forall k :: 0 <= k < |recs| ==> r[k] == recs[k].stat.nSingMult
  {
    seq(|recs|, k requires 0 <= k < |recs| => recs[k].stat.nSingMult)
  }

  function PerSession(recs: seq<SessionRecord>, surgery: int): (r: SessionLists)
    ensures var n := |recs|;
            && |r.timedeltas| == |r.unitsPerChannel| == |r.p2pAll| == |r.dateTexts| == |r.nCh| == n
            && forall k :: 0 <= k < n ==>
                 && r.timedeltas[k] == recs[k].seconds - surgery
                 && r.unitsPerChannel[k] == Counting.UnitsPerChannel(recs[k].stat.nSingMult, recs[k].stat.nCh)
                 && r.p2pAll[k] == recs[k].stat.amplitudes
                 && r.dateTexts[k] == recs[k].dateText && r.nCh[k] == recs[k].stat.nCh
  {
    var n := |recs|;
    SessionLists(
      seq(n, k requires 0 <= k < n => recs[k].seconds - surgery),
      seq(n, k requires 0 <= k < n => Counting.UnitsPerChannel(recs[k].stat.nSingMult, recs[k].stat.nCh)),
      seq(n, k requires 0 <= k < n => recs[k].stat.amplitudes),
      seq(n, k requires 0 <= k < n => recs[k].dateText),
      seq(n, k requires 0 <= k < n => recs[k].stat.nCh))
  }

  /** One entry per session with a positive single-or-multi count, in
      order. */
  function ValidSummary(recs: seq<SessionRecord>, timedeltas: seq<int>): (v: ValidLists)
    requires |timedeltas| == |recs|
    ensures var valid := ValidIds(SingMultCounts(recs));
            && |v.timedeltas| == |v.p2pMeans| == |valid|
            && forall k :: 0 <= k < |valid| ==>
                 && v.timedeltas[k] == timedeltas[valid[k]]
                 && v.p2pMeans[k] == Mean(recs[valid[k]].stat.amplitudes)
  {
    var valid := ValidIds(SingMultCounts(recs));
    var chosen := Pick(recs, valid);
    ValidLists(Pick(timedeltas, valid), seq(|valid|, k requires 0 <= k < |valid| => Mean(chosen[k].stat.amplitudes)))
  }

  function SessionOutcomes(folders: seq<string>, decode: string -> Option<int>,
                           read: (string, string) -> SubdirFiles): (rs: seq<Result<SessionRecord>>)
    ensures var sorted := SortedFolders(folders);
            |rs| == |sorted| && forall i :: 0 <= i < |sorted| ==> rs[i] == ProcessSession(sorted[i], decode, read)
  {
    var sorted := SortedFolders(folders);
    seq(|sorted|, i requires 0 <= i < |sorted| => ProcessSession(sorted[i], decode, read))
  }

  /** `process_one_animal` of this version. */
  function ProcessOneAnimal(folders: seq<string>, surgery: Option<int>, decode: string -> Option<int>,
                            read: (string, string) -> SubdirFiles): (r: Result<AnimalStats>)
    ensures surgery.None? <==> r.Err?
    ensures r.Err? ==> r.error == ValueError
    ensures r.Ok? ==>
              var recs := Successes(SessionOutcomes(folders, decode, read));
              && r.value.sessions == PerSession(recs, surgery.value)
              && r.value.valid == ValidSummary(recs, r.value.sessions.timedeltas)
  {
    var s :- if surgery.Some? then Ok(surgery.value) else Err(ValueError);
    var recs := Successes(SessionOutcomes(folders, decode, read));
    var lists := PerSession(recs, s);
    Ok(AnimalStats(lists, ValidSummary(recs, lists.timedeltas)))
  }

  /** `process_multi_animals` for one animal: the session folders are the
      dated entries of the animal folder's listing. */
  function ProcessAnimalFolder(animalFolder: string, listing: seq<string>, surgery: Option<int>,
                               decode: string -> Option<int>, read: (string, string) -> SubdirFiles): (r: Result<AnimalStats>)
    ensures r == ProcessOneAnimal(DatedEntries(animalFolder, listing), surgery, decode, read)
  {
    ProcessOneAnimal(DatedEntries(animalFolder, listing), surgery, decode, read)
  }

  /** Entry `k` of every per-session list describes the `k`-th sorted
      folder that did not raise. */
  lemma SessionListsAligned(folders: seq<string>, surgery: int, decode: string -> Option<int>,
                            read: (string, string) -> SubdirFiles)
    ensures var rs := SessionOutcomes(folders, decode, read);
            var r := ProcessOneAnimal(folders, Some(surgery), decode, read).value.sessions;
            var ok := TrueIndices(OkMask(rs));
            && |r.timedeltas| == |r.dateTexts| == |r.nCh| == |r.p2pAll| == CountTrue(OkMask(rs)) == |ok|
            && forall k :: 0 <= k < |ok| ==>
                 && rs[ok[k]].Ok?
                 && r.timedeltas[k] == rs[ok[k]].value.seconds - surgery
                 && r.dateTexts[k] == rs[ok[k]].value.dateText
                 && r.p2pAll[k] == rs[ok[k]].value.stat.amplitudes
  {
    SuccessesAreTheOkSessions(SessionOutcomes(folders, decode, read));
  }
}

=== FILE: dataset.dfy ===
/** Growing an on-disk dataset by one chunk: resize one axis by the chunk's
    extent, then write the chunk into the slice `[-app_len:]` of that axis
    (rhd_io_utils.py `_append_hdf5_dataset` and `_append_nwb_dset`), with
    h5py's rules for that write: a selection of no cells returns at once, and
    otherwise every axis of the chunk must equal the selection's or be 1.

    A dataset is a vector (`seq<T>`) or a `Grid` with explicit extents, so that
    an array with zero rows still knows how many columns it has. */
module Dataset {
  import opened Wrappers
  import opened Seqs

  datatype Grid<T> = Grid(nRows: nat, nCols: nat, cells: seq<seq<T>>) {
    predicate Valid() {
      |cells| == nRows && forall i :: 0 <= i < nRows ==> |cells[i]| == nCols
    }
  }

  /** Python's normalisation of a slice start `start` on an axis of length `n`. */
  function SliceStart(start: int, n: nat): (lo: nat)
    ensures lo <= n
  {
    if start < 0 then (if start + n < 0 then 0 else start + n)
    else if start > n then n
    else start
  }

  /** Resize a vector by `|chunk|` (new cells hold the fill value) and write
      `chunk` into `[-|chunk|:]`. A write whose selection and data differ in
      length is a shape error. Because `-0 == 0`, an empty chunk selects the
      whole axis: it is a no-op on an empty dataset and a shape error otherwise. */
  function AppendVec<T>(dset: seq<T>, chunk: seq<T>, fill: T): (r: Result<seq<T>>)
    ensures |chunk| > 0 ==> r == Ok(dset + chunk)
    ensures |chunk| == 0 ==> (r.Ok? <==> |dset| == 0)
    ensures r.Ok? ==> r.value == dset + chunk
  {
    var resized := dset + seq(|chunk|, _ => fill);
    var lo := SliceStart(-|chunk|, |resized|);
    if |resized| - lo != |chunk| then Err(TypeError)
    else Ok(resized[..lo] + chunk)
  }

  /** numpy's broadcasting rule for one axis: a source extent fits a target
      extent when the two are equal or the source extent is 1. */
  predicate Broadcasts(src: nat, target: nat) {
    src == target || src == 1
  }

  /** A row written into `width` cells: as is when it has that width, its one
      value repeated when it has a single cell. */
  function Broadcast<T>(row: seq<T>, width: nat): (b: seq<T>)
    requires Broadcasts(|row|, width)
    ensures |b| == width
    ensures forall j :: 0 <= j < width ==> b[j] == row[if |row| == width then j else 0]
  {
    if |row| == width then row else seq(width, _ => row[0])
  }

  /** Append along axis 0 of a grid: resize by the chunk's row count, then
      write the chunk into the last rows. A write that selects no cell does
      nothing; otherwise the chunk must broadcast to the selection, so a
      one-column chunk fills every column and an empty chunk (which selects
      every row, `-0 == 0`) is a shape error. */
  function AppendRows<T>(g: Grid<T>, chunk: Grid<T>, fill: T): (r: Result<Grid<T>>)
    requires g.Valid() && chunk.Valid()
    ensures r.Ok? <==> g.nCols == 0 || (if chunk.nRows > 0 then Broadcasts(chunk.nCols, g.nCols) else g.nRows == 0)
    ensures r.Ok? ==> && r.value.Valid() && r.value.nRows == g.nRows + chunk.nRows && r.value.nCols == g.nCols
                      && r.value.cells[..g.nRows] == g.cells
    ensures r.Ok? ==> forall i, j :: g.nRows <= i < r.value.nRows && 0 <= j < g.nCols ==>
              r.value.cells[i][j] == chunk.cells[i - g.nRows][if chunk.nCols == g.nCols then j else 0]
    ensures chunk.nCols == g.nCols && chunk.nRows > 0 ==>
              r == Ok(Grid(g.nRows + chunk.nRows, g.nCols, g.cells + chunk.cells))
  {
    var n := g.nRows + chunk.nRows;
    var fillRows := seq(chunk.nRows, _ => seq(g.nCols, _ => fill));
    var resized := g.cells + fillRows;
    var lo := SliceStart(-(chunk.nRows as int), n);
    var selRows := n - lo;
    if selRows == 0 || g.nCols == 0 then
      StackedRows(g, chunk, fillRows);
      Ok(Grid(n, g.nCols, resized))
    else if !(Broadcasts(chunk.nRows, selRows) && Broadcasts(chunk.nCols, g.nCols)) then Err(TypeError)
    else
      assert lo == g.nRows && selRows == chunk.nRows && resized[..lo] == g.cells;
      var tail := seq(selRows, i requires 0 <= i < selRows => Broadcast(chunk.cells[i], g.nCols));
      StackedRows(g, chunk, tail);
      Ok(Grid(n, g.nCols, resized[..lo] + tail))
  }

  /** The rows of `g` followed by rows written from `chunk` (each cell the
      chunk's cell in that column, or its single column): a valid grid that
      starts with `g`, and `g` stacked on `chunk` when the widths agree. */
  lemma StackedRows<T>(g: Grid<T>, chunk: Grid<T>, tail: seq<seq<T>>)
    requires g.Valid() && chunk.Valid() && |tail| == chunk.nRows
    requires chunk.nRows > 0 && g.nCols > 0 ==> Broadcasts(chunk.nCols, g.nCols)
    requires forall i :: 0 <= i < |tail| ==> |tail[i]| == g.nCols
    requires forall i, j :: 0 <= i < |tail| && 0 <= j < g.nCols ==>
               tail[i][j] == chunk.cells[i][if chunk.nCols == g.nCols then j else 0]
    ensures Grid(g.nRows + chunk.nRows, g.nCols, g.cells + tail).Valid()
    ensures (g.cells + tail)[..g.nRows] == g.cells
    ensures forall i, j :: g.nRows <= i < g.nRows + chunk.nRows && 0 <= j < g.nCols ==>
              (g.cells + tail)[i][j] == chunk.cells[i - g.nRows][if chunk.nCols == g.nCols then j else 0]
    ensures chunk.nCols == g.nCols ==> g.cells + tail == g.cells + chunk.cells
  {
    var rows := g.cells + tail;
    assert forall i :: g.nRows <= i < |rows| ==> rows[i] == tail[i - g.nRows];
    if chunk.nCols == g.nCols {
      forall i | 0 <= i < |tail| ensures tail[i] == chunk.cells[i] {
        assert forall j :: 0 <= j < g.nCols ==> tail[i][j] == chunk.cells[i][j];
      }
      assert tail == chunk.cells;
    }
  }

  /** Append along axis 1 of a grid: resize by the chunk's column count, then
      write the chunk into the last columns of every row. A write that selects
      no cell does nothing; otherwise the chunk must broadcast to the
      selection, so a one-row chunk extends every row and an empty chunk
      (which selects every column) is a shape error. */
  function AppendCols<T>(g: Grid<T>, chunk: Grid<T>, fill: T): (r: Result<Grid<T>>)
    requires g.Valid() && chunk.Valid()
    ensures r.Ok? <==> g.nRows == 0 || (if chunk.nCols > 0 then Broadcasts(chunk.nRows, g.nRows) else g.nCols == 0)
    ensures r.Ok? ==> && r.value.Valid() && r.value.nRows == g.nRows && r.value.nCols == g.nCols + chunk.nCols
                      && forall i :: 0 <= i < g.nRows ==> r.value.cells[i][..g.nCols] == g.cells[i]
    ensures r.Ok? ==> forall i, j :: 0 <= i < g.nRows && g.nCols <= j < r.value.nCols ==>
              r.value.cells[i][j] == chunk.cells[if chunk.nRows == g.nRows then i else 0][j - g.nCols]
    ensures chunk.nRows == g.nRows && chunk.nCols > 0 ==>
              r.Ok? && r.value.nRows == g.nRows && r.value.nCols == g.nCols + chunk.nCols &&
              forall i :: 0 <= i < g.nRows ==> r.value.cells[i] == g.cells[i] + chunk.cells[i]
  {
    var m := g.nCols + chunk.nCols;
    var resized := seq(g.nRows, i requires 0 <= i < g.nRows => g.cells[i] + seq(chunk.nCols, _ => fill));
    var lo := SliceStart(-(chunk.nCols as int), m);
    var selCols := m - lo;
    if g.nRows == 0 || selCols == 0 then
      assert forall i :: 0 <= i < g.nRows ==> resized[i][..g.nCols] == g.cells[i];
      Ok(Grid(g.nRows, m, resized))
    else if !(Broadcasts(chunk.nRows, g.nRows) && Broadcasts(chunk.nCols, selCols)) then Err(TypeError)
    else
      assert lo == g.nCols && selCols == chunk.nCols;
      var rows := seq(g.nRows, i requires 0 <= i < g.nRows =>
        resized[i][..lo] + chunk.cells[if chunk.nRows == g.nRows then i else 0]);
      assert forall i :: 0 <= i < g.nRows ==> resized[i][..lo] == g.cells[i];
      Ok(Grid(g.nRows, m, rows))
  }

  /** Writing a one-row chunk along axis 1 stores the same grid as writing
      that row repeated once per row of the dataset. */
  lemma OneRowChunkRepeats<T>(g: Grid<T>, row: seq<T>, fill: T)
    requires g.Valid() && |row| > 0
    ensures AppendCols(g, Grid(1, |row|, [row]), fill).Ok?
    ensures AppendCols(g, Grid(1, |row|, [row]), fill)
         == AppendCols(g, Grid(g.nRows, |row|, seq(g.nRows, _ => row)), fill)
  {
    var one := Grid(1, |row|, [row]);
    var full := Grid(g.nRows, |row|, seq(g.nRows, _ => row));
    var a := AppendCols(g, one, fill).value;
    var b := AppendCols(g, full, fill).value;
    forall i | 0 <= i < g.nRows ensures a.cells[i] == b.cells[i] {
      forall j | g.nCols <= j < a.nCols ensures a.cells[i][j] == b.cells[i][j] {
        assert a.cells[i][j] == one.cells[0][j - g.nCols];
        assert b.cells[i][j] == full.cells[i][j - g.nCols];
      }
      assert a.cells[i] == a.cells[i][..g.nCols] + a.cells[i][g.nCols..];
      assert b.cells[i] == b.cells[i][..g.nCols] + b.cells[i][g.nCols..];
    }
    assert a.cells == b.cells;
  }

  /** Writing a one-column chunk along axis 0 stores the same grid as writing
      each of its values repeated across the dataset's columns. */
  lemma OneColumnChunkRepeats<T>(g: Grid<T>, chunk: Grid<T>, fill: T)
    requires g.Valid() && chunk.Valid() && chunk.nCols == 1 && chunk.nRows > 0
    ensures AppendRows(g, chunk, fill).Ok?
    ensures AppendRows(g, chunk, fill) == AppendRows(g, Widen(chunk, g.nCols), fill)
  {
    var wide := Widen(chunk, g.nCols);
    var a := AppendRows(g, chunk, fill).value;
    var b := AppendRows(g, wide, fill).value;
    forall i | 0 <= i < a.nRows ensures a.cells[i] == b.cells[i] {
      if i < g.nRows {
        assert a.cells[i] == a.cells[..g.nRows][i];
        assert b.cells[i] == b.cells[..g.nRows][i];
      } else {
        forall j | 0 <= j < g.nCols ensures a.cells[i][j] == b.cells[i][j] {
          assert a.cells[i][j] == chunk.cells[i - g.nRows][0];
          assert b.cells[i][j] == wide.cells[i - g.nRows][j];
        }
      }
    }
    assert a.cells == b.cells;
  }

  /** A one-column grid with each value repeated across `width` columns. */
  function Widen<T>(chunk: Grid<T>, width: nat): (w: Grid<T>)
    requires chunk.Valid() && chunk.nCols == 1
    ensures w.Valid() && w.nRows == chunk.nRows && w.nCols == width
    ensures forall i, j :: 0 <= i < w.nRows && 0 <= j < width ==> w.cells[i][j] == chunk.cells[i][0]
  {
    Grid(chunk.nRows, width, seq(chunk.nRows, i requires 0 <= i < chunk.nRows => seq(width, _ => chunk.cells[i][0])))
  }

  /** Appending a series of chunks, one call per chunk. */
  function AppendAllVec<T>(dset: seq<T>, chunks: seq<seq<T>>, fill: T): Result<seq<T>>
    decreases |chunks|
  {
    if |chunks| == 0 then Ok(dset)
    else
      var d :- AppendVec(dset, chunks[0], fill);
      AppendAllVec(d, chunks[1..], fill)
  }

  function AppendAllRows<T>(g: Grid<T>, chunks: seq<Grid<T>>, fill: T): Result<Grid<T>>
    requires g.Valid() && forall k :: 0 <= k < |chunks| ==> chunks[k].Valid()
    decreases |chunks|
  {
    if |chunks| == 0 then Ok(g)
    else
      var g' :- AppendRows(g, chunks[0], fill);
      AppendAllRows(g', chunks[1..], fill)
  }

  predicate NonEmpty<T>(chunks: seq<seq<T>>) {
    forall k :: 0 <= k < |chunks| ==> |chunks[k]| > 0
  }

  /** Streaming non-empty chunks into a vector builds their in-order concatenation. */
  lemma {:induction false} StreamingVecIsConcat<T>(dset: seq<T>, chunks: seq<seq<T>>, fill: T)
    requires NonEmpty(chunks)
    ensures AppendAllVec(dset, chunks, fill) == Ok(dset + Flatten(chunks))
    decreases |chunks|
  {
    if |chunks| > 0 {
      assert AppendVec(dset, chunks[0], fill) == Ok(dset + chunks[0]);
      assert NonEmpty(chunks[1..]) by {
        forall k | 0 <= k < |chunks[1..]| ensures |chunks[1..][k]| > 0 {
          assert chunks[1..][k] == chunks[k + 1];
        }
      }
      StreamingVecIsConcat(dset + chunks[0], chunks[1..], fill);
      assert dset + chunks[0] + Flatten(chunks[1..]) == dset + Flatten(chunks);
    } else {
      assert dset + Flatten(chunks) == dset;
    }
  }

  function CellsOf<T>(chunks: seq<Grid<T>>): (r: seq<seq<seq<T>>>)
    ensures |r| == |chunks| && forall k :: 0 <= k < |chunks| ==> r[k] == chunks[k].cells
  {
    seq(|chunks|, k requires 0 <= k < |chunks| => chunks[k].cells)
  }

  function RowCounts<T>(chunks: seq<Grid<T>>): (r: seq<nat>)
    ensures |r| == |chunks| && forall k :: 0 <= k < |chunks| ==> r[k] == chunks[k].nRows
  {
    seq(|chunks|, k requires 0 <= k < |chunks| => chunks[k].nRows)
  }

  /** Streaming row chunks of the dataset's width: the rows of the result are
      the old rows followed by every chunk's rows in order, and the row count
      grows by the sum of the chunks' row counts. */
  lemma {:induction false} StreamingRowsIsConcat<T>(g: Grid<T>, chunks: seq<Grid<T>>, fill: T)
    requires g.Valid() && forall k :: 0 <= k < |chunks| ==> chunks[k].Valid()
    requires forall k :: 0 <= k < |chunks| ==> chunks[k].nRows > 0 && chunks[k].nCols == g.nCols
    ensures AppendAllRows(g, chunks, fill)
         == Ok(Grid(g.nRows + Sum(RowCounts(chunks)), g.nCols, g.cells + Flatten(CellsOf(chunks))))
    decreases |chunks|
  {
    if |chunks| > 0 {
      var g' := Grid(g.nRows + chunks[0].nRows, g.nCols, g.cells + chunks[0].cells);
      assert AppendRows(g, chunks[0], fill) == Ok(g');
      StreamingRowsIsConcat(g', chunks[1..], fill);
      assert CellsOf(chunks)[1..] == CellsOf(chunks[1..]);
      assert RowCounts(chunks)[1..] == RowCounts(chunks[1..]);
      assert Flatten(CellsOf(chunks)) == chunks[0].cells + Flatten(CellsOf(chunks[1..]));
      assert Sum(RowCounts(chunks)) == chunks[0].nRows + Sum(RowCounts(chunks[1..]));
      assert g'.cells + Flatten(CellsOf(chunks[1..])) == g.cells + Flatten(CellsOf(chunks));
    } else {
      assert g.cells + Flatten(CellsOf(chunks)) == g.cells;
    }
  }

  /** `a.T` */
  function Transpose<T>(g: Grid<T>): (t: Grid<T>)
    requires g.Valid()
    ensures t.Valid() && t.nRows == g.nCols && t.nCols == g.nRows
    ensures forall i, j :: 0 <= i < t.nRows && 0 <= j < t.nCols ==> t.cells[i][j] == g.cells[j][i]
  {
    Grid(g.nCols, g.nRows,
      seq(g.nCols, i requires 0 <= i < g.nCols =>
        seq(g.nRows, j requires 0 <= j < g.nRows => g.cells[j][i])))
  }

  /** Transposing twice gives the grid back. */
  lemma TransposeTwice<T>(g: Grid<T>)
    requires g.Valid()
    ensures Transpose(Transpose(g)) == g
  {
    var t2 := Transpose(Transpose(g));
    forall i | 0 <= i < g.nRows ensures t2.cells[i] == g.cells[i] {
    }
  }

  /** `a[mask, :]`: the rows whose mask entry is true, in order. */
  function SelectRows<T>(g: Grid<T>, mask: seq<bool>): (r: Grid<T>)
    requires g.Valid() && |mask| == g.nRows
    ensures r.Valid() && r.nRows == CountTrue(mask) && r.nCols == g.nCols
    ensures r.cells == Select(g.cells, mask)
  {
    SelectIsIndexed(g.cells, mask);
    Grid(CountTrue(mask), g.nCols, Select(g.cells, mask))
  }

  /** `a[:, mask]`: every row keeps the columns whose mask entry is true. */
  function SelectCols<T>(g: Grid<T>, mask: seq<bool>): (r: Grid<T>)
    requires g.Valid() && |mask| == g.nCols
    ensures r.Valid() && r.nRows == g.nRows && r.nCols == CountTrue(mask)
    ensures forall i :: 0 <= i < g.nRows ==> r.cells[i] == Select(g.cells[i], mask)
  {
    var rows := seq(g.nRows, i requires 0 <= i < g.nRows => Select(g.cells[i], mask));
    assert forall i :: 0 <= i < g.nRows ==> |rows[i]| == CountTrue(mask) by {
      forall i | 0 <= i < g.nRows ensures |rows[i]| == CountTrue(mask) {
        SelectIsIndexed(g.cells[i], mask);
      }
    }
    Grid(g.nRows, CountTrue(mask), rows)
  }

  /** Selecting columns of a (samples x channels) array is selecting rows of
      its (channels x samples) transpose: `a[:, mask] == a.T[mask, :].T`. */
  lemma SelectColsIsTransposedSelectRows<T>(g: Grid<T>, mask: seq<bool>)
    requires g.Valid() && |mask| == g.nCols
    ensures SelectCols(g, mask) == Transpose(SelectRows(Transpose(g), mask))
  {
    var a := SelectCols(g, mask);
    var t := Transpose(g);
    var b := Transpose(SelectRows(t, mask));
    SelectIsIndexed(t.cells, mask);
    var idx := TrueIndices(mask);
    forall i | 0 <= i < g.nRows ensures a.cells[i] == b.cells[i] {
      SelectIsIndexed(g.cells[i], mask);
      forall j | 0 <= j < a.nCols ensures a.cells[i][j] == b.cells[i][j] {
        assert a.cells[i][j] == g.cells[i][idx[j]];
        assert b.cells[i][j] == Select(t.cells, mask)[j][i];
        assert Select(t.cells, mask)[j] == t.cells[idx[j]];
      }
    }
  }

  /** Growing a (channels x samples) array along its sample axis and growing
      its (samples x channels) transpose along the first axis store the same
      data: the temporary store and the NWB file agree. */
  lemma AppendColsIsTransposedAppendRows<T>(g: Grid<T>, chunk: Grid<T>, fill: T)
    requires g.Valid() && chunk.Valid()
    requires chunk.nRows == g.nRows && chunk.nCols > 0
    ensures AppendCols(g, chunk, fill).Ok? && AppendRows(Transpose(g), Transpose(chunk), fill).Ok?
    ensures Transpose(AppendCols(g, chunk, fill).value) == AppendRows(Transpose(g), Transpose(chunk), fill).value
  {
    var c := AppendCols(g, chunk, fill).value;
    var b := AppendRows(Transpose(g), Transpose(chunk), fill).value;
    TransposedColumnAppend(g, chunk, c, b);
  }

  /** The transpose of rows extended by a chunk's rows is the transpose of
      the old rows stacked on the transpose of the chunk. */
  lemma TransposedColumnAppend<T>(g: Grid<T>, chunk: Grid<T>, c: Grid<T>, b: Grid<T>)
    requires g.Valid() && chunk.Valid() && chunk.nRows == g.nRows
    requires c.Valid() && c.nRows == g.nRows && c.nCols == g.nCols + chunk.nCols
    requires forall j :: 0 <= j < g.nRows ==> c.cells[j] == g.cells[j] + chunk.cells[j]
    requires b.nRows == g.nCols + chunk.nCols && b.nCols == g.nRows
    requires b.cells == Transpose(g).cells + Transpose(chunk).cells
    ensures Transpose(c) == b
  {
    var tg, tc := Transpose(g), Transpose(chunk);
    var a := Transpose(c);
    forall i | 0 <= i < a.nRows ensures a.cells[i] == b.cells[i] {
      forall j | 0 <= j < a.nCols ensures a.cells[i][j] == b.cells[i][j] {
        assert a.cells[i][j] == c.cells[j][i];
        assert c.cells[j] == g.cells[j] + chunk.cells[j];
        if i < g.nCols {
          assert b.cells[i] == tg.cells[i];
        } else {
          assert b.cells[i] == tc.cells[i - g.nCols];
        }
      }
    }
    assert a.cells == b.cells;
  }


}

=== FILE: impedance.dfy ===
/** Gathering electrode impedances per session from converted NWB files: the
    session-name filter, the impedance band, the per-animal session loop
    (sorted folders, failing sessions skipped, lists kept aligned) and the
    `session<i>` keys under which the impedance sets are saved. Directory
    listings, reading the `imp` column, `strptime` and the plots are
    parameters or left out. */
module Impedance {
  import opened Wrappers
  import opened Text
  import opened Seqs
  import opened Sessions
  import Scatters

  // ---------------------------------------------------------------------
  // Session-name filter

  /** `VALID_SESSION_LAMBDA`: an underscore, and no '.', no "__", no "bad". */
  predicate ValidSessionName(x: string) {
    Contains(x, "_") && !Contains(x, ".") && !Contains(x, "__") && !Contains(x, "bad")
  }

  /** An occurrence is a run of equal characters. */
  lemma OccursAtChars(s: string, sub: string, i: int)
    ensures OccursAt(s, sub, i) <==>
              0 <= i && i + |sub| <= |s| && forall j :: 0 <= j < |sub| ==> s[i + j] == sub[j]
  {
    if 0 <= i && i + |sub| <= |s| {
      var w := s[i..i + |sub|];
      assert forall j :: 0 <= j < |sub| ==> w[j] == s[i + j];
      if forall j :: 0 <= j < |sub| ==> s[i + j] == sub[j] {
        assert w == sub;
      }
    }
  }

  lemma ContainsChar(s: string, c: char)
    ensures Contains(s, [c]) <==> !Free(s, c)
  {
    if Contains(s, [c]) {
      var i :| 0 <= i <= |s| - 1 && OccursAt(s, [c], i);
      OccursAtChars(s, [c], i);
      assert s[i] == c;
    }
    if !Free(s, c) {
      var i :| 0 <= i < |s| && s[i] == c;
      OccursAtChars(s, [c], i);
      assert OccursAt(s, [c], i);
    }
  }

  predicate PairAt(s: string, a: char, b: char, i: int) {
    0 <= i && i + 1 < |s| && s[i] == a && s[i + 1] == b
  }

  lemma ContainsPair(s: string, a: char, b: char)
    ensures Contains(s, [a, b]) <==> exists i :: PairAt(s, a, b, i)
  {
    if Contains(s, [a, b]) {
      var i :| 0 <= i <= |s| - 2 && OccursAt(s, [a, b], i);
      OccursAtChars(s, [a, b], i);
      assert PairAt(s, a, b, i);
    }
    if exists i :: PairAt(s, a, b, i) {
      var i :| PairAt(s, a, b, i);
      OccursAtChars(s, [a, b], i);
      assert OccursAt(s, [a, b], i);
    }
  }

  predicate BadAt(s: string, i: int) {
    0 <= i && i + 2 < |s| && s[i] == 'b' && s[i + 1] == 'a' && s[i + 2] == 'd'
  }

  lemma ContainsBad(s: string)
    ensures Contains(s, "bad") <==> exists i :: BadAt(s, i)
  {
    if Contains(s, "bad") {
      var i :| 0 <= i <= |s| - 3 && OccursAt(s, "bad", i);
      OccursAtChars(s, "bad", i);
      assert BadAt(s, i);
    }
    if exists i :: BadAt(s, i) {
      var i :| BadAt(s, i);
      OccursAtChars(s, "bad", i);
      assert OccursAt(s, "bad", i);
    }
  }

  /** The filter character by character: some '_', no '.', no two adjacent
      '_', and no 'b', 'a', 'd' in a row. */
  lemma ValidSessionNameChars(x: string)
    ensures ValidSessionName(x) <==>
              && !Free(x, '_')
              && Free(x, '.')
              && (forall i :: !PairAt(x, '_', '_', i))
              && (forall i :: !BadAt(x, i))
  {
    ContainsChar(x, '_');
    ContainsChar(x, '.');
    ContainsPair(x, '_', '_');
    ContainsBad(x);
  }

  // ---------------------------------------------------------------------
  // Impedance band

  const IMP_LOW: real := 100000.0
  const IMP_HIGH: real := 6000000.0

  /** `(imps > 1e5) & (imps < 6e6)`, both bounds strict. */
  predicate InBand(x: real) {
    IMP_LOW < x < IMP_HIGH
  }

  function BandMask(imps: seq<real>): (m: seq<bool>)
    ensures |m| == |imps| && forall i :: 0 <= i < |imps| ==> m[i] == InBand(imps[i])
  {
    seq(|imps|, i requires 0 <= i < |imps| => InBand(imps[i]))
  }

  /** `imps[(imps > 1e5) & (imps < 6e6)]`. */
  function KeepInBand(imps: seq<real>): (r: seq<real>)
    ensures |r| <= |imps|
  {
    Select(imps, BandMask(imps))
  }

  /** The kept impedances are the in-band ones, in their original order: the
      `k`-th kept value is the input at the `k`-th in-band position, and a
      value is kept exactly when it occurs in the input and is in band. */
  lemma KeepInBandExactly(imps: seq<real>)
    ensures var r := KeepInBand(imps);
            var at := TrueIndices(BandMask(imps));
            && |r| == |at| == CountTrue(BandMask(imps))
            && (forall k :: 0 <= k < |r| ==> r[k] == imps[at[k]])
            && (forall k, l :: 0 <= k < l < |at| ==> at[k] < at[l])
            && (forall x :: x in r <==> x in imps && InBand(x))
  {
    SelectIsIndexed(imps, BandMask(imps));
    KeptAreInBand(imps);
    InBandAreKept(imps);
  }

  lemma KeptAreInBand(imps: seq<real>)
    ensures forall x :: x in KeepInBand(imps) ==> x in imps && InBand(x)
  {
    SelectByPredicate(imps, BandMask(imps), InBand);
  }

  lemma InBandAreKept(imps: seq<real>)
    ensures forall x :: x in imps && InBand(x) ==> x in KeepInBand(imps)
  {
    var m := BandMask(imps);
    var r := KeepInBand(imps);
    var at := TrueIndices(m);
    SelectIsIndexed(imps, m);
    forall x | x in imps && InBand(x)
      ensures x in r
    {
      var i :| 0 <= i < |imps| && imps[i] == x;
      assert m[i];
      var k :| 0 <= k < |at| && at[k] == i;
      assert r[k] == x;
    }
  }

  /** Filtering an already filtered set changes nothing. */
  lemma KeepInBandIdempotent(imps: seq<real>)
    ensures KeepInBand(KeepInBand(imps)) == KeepInBand(imps)
  {
    var r := KeepInBand(imps);
    KeepInBandExactly(imps);
    assert forall k :: 0 <= k < |r| ==> r[k] in r;
    SelectAll(r, BandMask(r));
  }

  // ---------------------------------------------------------------------
  // get_session_stat

  /** `next(filter(lambda x: x.endswith(".nwb"), listing))`: the first NWB
      file, or `StopIteration` when there is none. */
  function FirstNwb(listing: seq<string>): (r: Result<string>)
    ensures r.Err? <==> forall i :: 0 <= i < |listing| ==> !EndsWith(listing[i], ".nwb")
    ensures r.Err? ==> r.error == StopIteration
    ensures r.Ok? ==> exists i :: 0 <= i < |listing| && listing[i] == r.value && EndsWith(r.value, ".nwb") &&
                                  forall j :: 0 <= j < i ==> !EndsWith(listing[j], ".nwb")
    decreases |listing|
  {
    if |listing| == 0 then Err(StopIteration)
    else if EndsWith(listing[0], ".nwb") then Ok(listing[0])
    else
      var r := FirstNwb(listing[1..]);
      assert forall i :: 1 <= i < |listing| ==> listing[i] == listing[1..][i - 1];
      assert r.Ok? ==> exists i :: 0 <= i < |listing| && listing[i] == r.value && EndsWith(r.value, ".nwb") &&
                                    forall j :: 0 <= j < i ==> !EndsWith(listing[j], ".nwb") by {
        if r.Ok? {
          var i :| 0 <= i < |listing[1..]| && listing[1..][i] == r.value && EndsWith(r.value, ".nwb") &&
                   forall j :: 0 <= j < i ==> !EndsWith(listing[1..][j], ".nwb");
          assert listing[i + 1] == r.value;
        }
      }
      r
  }

  /** `get_session_stat(folder)`: the in-band impedances of the first NWB
      file in the folder. `listDir` stands for `os.listdir`; `readImp` for
      reading the electrode table's `imp` column, `None` when the column is
      missing (a `KeyError`). */
  function GetSessionStat(folder: string, listDir: string -> seq<string>,
                          readImp: string -> Option<seq<real>>): (r: Result<seq<real>>)
    ensures r.Ok? ==> forall k :: 0 <= k < |r.value| ==> InBand(r.value[k])
    ensures r.Ok? <==> FirstNwb(listDir(folder)).Ok? && readImp(PathJoin(folder, FirstNwb(listDir(folder)).value)).Some?
    ensures r.Ok? ==> r.value == KeepInBand(readImp(PathJoin(folder, FirstNwb(listDir(folder)).value)).value)
  {
    var name :- FirstNwb(listDir(folder));
    var path := PathJoin(folder, name);
    var imps :- if readImp(path).Some? then Ok(readImp(path).value) else Err(KeyError);
    KeepInBandExactly(imps);
    assert forall k :: 0 <= k < |KeepInBand(imps)| ==> KeepInBand(imps)[k] in KeepInBand(imps);
    Ok(KeepInBand(imps))
  }

  // ---------------------------------------------------------------------
  // process_one_animal

  /** One session folder's entry in the per-animal lists. */
  datatype ImpSession = ImpSession(imps: seq<real>, seconds: int, dateText: string)

  /** The body of the `try` for one folder: strip one '/', read the date
      from the base name, decode it (`ValueError` when `strptime` refuses),
      then the session's impedances from the stripped folder. */
  function ProcessSession(folder: string, decode: string -> Option<int>, listDir: string -> seq<string>,
                          readImp: string -> Option<seq<real>>): (r: Result<ImpSession>)
    ensures SessionDateText(SessionName(folder)).Err? ==> r == Err(TypeError)
    ensures r.Ok? ==>
              && SessionDateText(SessionName(folder)) == Ok(r.value.dateText)
              && decode(r.value.dateText) == Some(r.value.seconds)
              && GetSessionStat(StripOneSlash(folder), listDir, readImp) == Ok(r.value.imps)
  {
    var date :- SessionDateText(SessionName(folder));
    var seconds :- if decode(date).Some? then Ok(decode(date).value) else Err(ValueError);
    var imps :- GetSessionStat(StripOneSlash(folder), listDir, readImp);
    Ok(ImpSession(imps, seconds, date))
  }

  /** The sessions of the folders in sorted order, each `Ok` or the
      exception that skipped it. */
  function SessionOutcomes(folders: seq<string>, decode: string -> Option<int>, listDir: string -> seq<string>,
                           readImp: string -> Option<seq<real>>): (rs: seq<Result<ImpSession>>)
    ensures var sorted := SortedFolders(folders);
            |rs| == |sorted| && forall i :: 0 <= i < |sorted| ==> rs[i] == ProcessSession(sorted[i], decode, listDir, readImp)
  {
    var sorted := SortedFolders(folders);
    seq(|sorted|, i requires 0 <= i < |sorted| => ProcessSession(sorted[i], decode, listDir, readImp))
  }

  /** What `process_one_animal` computes: seconds since surgery, the
      impedance sets and date strings it returns, and the plotted means and
      valid-channel counts. */
  datatype AnimalImpedances = AnimalImpedances(
    timedeltas: seq<int>,
    impSets: seq<seq<real>>,
    dateTexts: seq<string>,
    means: seq<Option<real>>,
    validCounts: seq<nat>)

  function Summarise(recs: seq<ImpSession>, surgery: int): (a: AnimalImpedances)
    ensures var n := |recs|;
            |a.timedeltas| == |a.impSets| == |a.dateTexts| == |a.means| == |a.validCounts| == n
  {
    var n := |recs|;
    AnimalImpedances(
      seq(n, k requires 0 <= k < n => recs[k].seconds - surgery),
      seq(n, k requires 0 <= k < n => recs[k].imps),
      seq(n, k requires 0 <= k < n => recs[k].dateText),
      seq(n, k requires 0 <= k < n => Mean(recs[k].imps)),
      seq(n, k requires 0 <= k < n => |recs[k].imps|))
  }

  lemma SummariseEntry(recs: seq<ImpSession>, surgery: int, k: nat)
    requires k < |recs|
    ensures var a := Summarise(recs, surgery);
            && ImpSession(a.impSets[k], a.timedeltas[k] + surgery, a.dateTexts[k]) == recs[k]
            && a.validCounts[k] == |a.impSets[k]| && a.means[k] == Mean(a.impSets[k])
  {
  }

  /** `process_one_animal` without the plots: the folders are sorted, the
      surgery date is decoded outside the `try` (so its failure propagates),
      and a session that raises is skipped. */
  function ProcessOneAnimal(folders: seq<string>, surgery: Option<int>, decode: string -> Option<int>,
                            listDir: string -> seq<string>, readImp: string -> Option<seq<real>>): (r: Result<AnimalImpedances>)
    ensures surgery.None? <==> r.Err?
    ensures r.Err? ==> r.error == ValueError
    ensures r.Ok? ==> var n := |Successes(SessionOutcomes(folders, decode, listDir, readImp))|;
            |r.value.timedeltas| == |r.value.impSets| == |r.value.dateTexts| == |r.value.means| == |r.value.validCounts| == n
  {
    var s :- if surgery.Some? then Ok(surgery.value) else Err(ValueError);
    Ok(Summarise(Successes(SessionOutcomes(folders, decode, listDir, readImp)), s))
  }

  /** Summarising the sessions that did not raise: entry `k` of every list
      comes from the `k`-th `Ok` outcome. */
  lemma SummaryOfOutcomes(rs: seq<Result<ImpSession>>, surgery: int)
    ensures var a := Summarise(Successes(rs), surgery);
            var ok := TrueIndices(OkMask(rs));
            && |a.impSets| == CountTrue(OkMask(rs)) == |ok|
            && forall k :: 0 <= k < |ok| ==>
                 && rs[ok[k]].Ok?
                 && a.impSets[k] == rs[ok[k]].value.imps && a.timedeltas[k] == rs[ok[k]].value.seconds - surgery
                 && a.dateTexts[k] == rs[ok[k]].value.dateText
                 && a.validCounts[k] == |a.impSets[k]|
                 && (a.means[k].None? <==> a.validCounts[k] == 0)
  {
    var recs := Successes(rs);
    var ok := TrueIndices(OkMask(rs));
    SuccessesAreTheOkSessions(rs);
    forall k | 0 <= k < |ok|
      ensures var a := Summarise(recs, surgery);
              && rs[ok[k]].Ok?
              && a.impSets[k] == rs[ok[k]].value.imps && a.timedeltas[k] == rs[ok[k]].value.seconds - surgery
              && a.dateTexts[k] == rs[ok[k]].value.dateText
              && a.validCounts[k] == |a.impSets[k]|
              && (a.means[k].None? <==> a.validCounts[k] == 0)
    {
      SummariseEntry(recs, surgery, k);
    }
  }

  /** Entry `k` of every list describes the `k`-th sorted folder that did
      not raise: that folder's outcome is the session with the entry's date,
      seconds since surgery and in-band impedances; the impedance count is
      the valid-channel count, and the mean is defined exactly when one
      impedance was kept. */
  lemma ImpedanceListsAligned(folders: seq<string>, surgery: int, decode: string -> Option<int>,
                              listDir: string -> seq<string>, readImp: string -> Option<seq<real>>)
    ensures var rs := SessionOutcomes(folders, decode, listDir, readImp);
            var a := ProcessOneAnimal(folders, Some(surgery), decode, listDir, readImp).value;
            var ok := TrueIndices(OkMask(rs));
            && |a.impSets| == CountTrue(OkMask(rs)) == |ok|
            && forall k :: 0 <= k < |ok| ==>
                 && rs[ok[k]].Ok?
                 && a.impSets[k] == rs[ok[k]].value.imps && a.timedeltas[k] == rs[ok[k]].value.seconds - surgery
                 && a.dateTexts[k] == rs[ok[k]].value.dateText
                 && a.validCounts[k] == |a.impSets[k]|
                 && (a.means[k].None? <==> a.validCounts[k] == 0)
  {
    var rs := SessionOutcomes(folders, decode, listDir, readImp);
    assert ProcessOneAnimal(folders, Some(surgery), decode, listDir, readImp) == Ok(Summarise(Successes(rs), surgery));
    SummaryOfOutcomes(rs, surgery);
  }

  /** Every impedance an animal's lists keep is in band. */
  lemma KeptImpedancesInBand(folders: seq<string>, surgery: int, decode: string -> Option<int>,
                             listDir: string -> seq<string>, readImp: string -> Option<seq<real>>)
    ensures var a := ProcessOneAnimal(folders, Some(surgery), decode, listDir, readImp).value;
            forall k, c :: 0 <= k < |a.impSets| && 0 <= c < |a.impSets[k]| ==> InBand(a.impSets[k][c])
  {
    var rs := SessionOutcomes(folders, decode, listDir, readImp);
    var sorted := SortedFolders(folders);
    var a := ProcessOneAnimal(folders, Some(surgery), decode, listDir, readImp).value;
    ImpedanceListsAligned(folders, surgery, decode, listDir, readImp);
    forall k, c | 0 <= k < |a.impSets| && 0 <= c < |a.impSets[k]|
      ensures InBand(a.impSets[k][c])
    {
      var i := TrueIndices(OkMask(rs))[k];
      assert rs[i] == ProcessSession(sorted[i], decode, listDir, readImp);
      assert GetSessionStat(StripOneSlash(sorted[i]), listDir, readImp) == Ok(a.impSets[k]);
    }
  }

  /** The `dayAfterSurgery` column of the saved table: each kept session's
      seconds since surgery, as whole days truncated toward zero. */
  function DaysAfterSurgery(a: AnimalImpedances): (days: seq<int>)
    ensures |days| == |a.timedeltas|
  {
    seq(|a.timedeltas|, k requires 0 <= k < |a.timedeltas| => Scatters.DayOf(a.timedeltas[k] as real))
  }

  /** Day `k` of an animal's saved table counts the days between the surgery
      and the `k`-th sorted folder that did not raise: a session after the
      surgery lies within that day, one before it within the day counted
      back from the surgery, and a session a whole number of days away,
      before or after, gets exactly that number. */
  lemma SessionDayAfterSurgery(folders: seq<string>, surgery: int, decode: string -> Option<int>,
                               listDir: string -> seq<string>, readImp: string -> Option<seq<real>>, k: nat, days: int)
    ensures var rs := SessionOutcomes(folders, decode, listDir, readImp);
            var a := ProcessOneAnimal(folders, Some(surgery), decode, listDir, readImp).value;
            var ok := TrueIndices(OkMask(rs));
            k < |ok| ==>
              && rs[ok[k]].Ok? && k < |DaysAfterSurgery(a)|
              && var x := (rs[ok[k]].value.seconds - surgery) as real;
                 var d := DaysAfterSurgery(a)[k];
                 && (x >= 0.0 ==> d >= 0 && d as real * Scatters.SECONDS_PER_DAY <= x < (d + 1) as real * Scatters.SECONDS_PER_DAY)
                 && (x < 0.0 ==> d <= 0 && (d - 1) as real * Scatters.SECONDS_PER_DAY < x <= d as real * Scatters.SECONDS_PER_DAY)
                 && (x == days as real * Scatters.SECONDS_PER_DAY ==> d == days)
  {
    var rs := SessionOutcomes(folders, decode, listDir, readImp);
    var a := ProcessOneAnimal(folders, Some(surgery), decode, listDir, readImp).value;
    var ok := TrueIndices(OkMask(rs));
    ImpedanceListsAligned(folders, surgery, decode, listDir, readImp);
    if k < |ok| {
      assert rs[ok[k]].Ok? && a.timedeltas[k] == rs[ok[k]].value.seconds - surgery;
      DayOfWholeDays((rs[ok[k]].value.seconds - surgery) as real, days);
    }
  }

  /** A time difference of a whole number of days reads back as that count. */
  lemma DayOfWholeDays(x: real, days: int)
    ensures x == days as real * Scatters.SECONDS_PER_DAY ==> Scatters.DayOf(x) == days
  {
    var d := Scatters.DayOf(x);
    if x == days as real * Scatters.SECONDS_PER_DAY {
      if x >= 0.0 {
        assert d as real <= days as real < (d + 1) as real;
      } else {
        assert (d - 1) as real < days as real <= d as real;
      }
    }
  }

  // ---------------------------------------------------------------------
  // Saved keys

  const KEY_PREFIX := "session"

  /** `"session%d" % i`. */
  function SessionKey(i: nat): (key: string)
    ensures StartsWith(key, KEY_PREFIX)
    ensures AllDigits(key[|KEY_PREFIX|..])
  {
    KEY_PREFIX + NatToDecimal(i)
  }

  /** The index is read back from its key. */
  lemma SessionKeyRoundTrip(i: nat)
    ensures DecimalValue(SessionKey(i)[|KEY_PREFIX|..]) == i
  {
    assert SessionKey(i)[|KEY_PREFIX|..] == NatToDecimal(i);
    DecimalRoundTrip(i);
  }

  lemma SessionKeysDistinct(i: nat, j: nat)
    requires i != j
    ensures SessionKey(i) != SessionKey(j)
  {
    SessionKeyRoundTrip(i);
    SessionKeyRoundTrip(j);
  }

  /** `dict(zip(keys, values))`: pairs are inserted in order, a later pair
      overriding an earlier one with the same key. */
  function Zip<V>(keys: seq<string>, values: seq<V>): (d: map<string, V>)
    requires |keys| == |values|
    ensures forall key :: key in d <==> key in keys
    decreases |keys|
  {
    if |keys| == 0 then map[]
    else
      var n := |keys| - 1;
      assert forall i :: 0 <= i < n ==> keys[..n][i] == keys[i];
      Zip(keys[..n], values[..n])[keys[n] := values[n]]
  }

  /** With distinct keys, every key maps to the value beside it. */
  lemma {:induction false} ZipDistinct<V>(keys: seq<string>, values: seq<V>)
    requires |keys| == |values|
    requires forall i, j :: 0 <= i < j < |keys| ==> keys[i] != keys[j]
    ensures forall i :: 0 <= i < |keys| ==> Zip(keys, values)[keys[i]] == values[i]
    decreases |keys|
  {
    if |keys| > 0 {
      var n := |keys| - 1;
      var ks, vs := keys[..n], values[..n];
      ZipDistinct(ks, vs);
      var prev := Zip(ks, vs);
      var d := Zip(keys, values);
      assert d == prev[keys[n] := values[n]];
      forall i | 0 <= i < |keys|
        ensures d[keys[i]] == values[i]
      {
        if i < n {
          assert keys[i] != keys[n];
          assert ks[i] == keys[i] && vs[i] == values[i];
          assert prev[ks[i]] == vs[i];
        }
      }
    }
  }

  function SessionKeys(n: nat): (keys: seq<string>)
    ensures |keys| == n && forall i :: 0 <= i < n ==> keys[i] == SessionKey(i)
  {
    seq(n, i requires 0 <= i < n => SessionKey(i))
  }

  /** The saved arrays: `session<i>` for the `i`-th kept impedance set. */
  function ImpedanceDict(impSets: seq<seq<real>>): (d: map<string, seq<real>>)
    ensures forall key :: key in d <==> key in SessionKeys(|impSets|)
  {
    Zip(SessionKeys(|impSets|), impSets)
  }

  /** Every impedance set is saved under its own position's key, and no
      other key is saved. */
  lemma ImpedanceDictKeys(impSets: seq<seq<real>>)
    ensures forall i :: 0 <= i < |impSets| ==> SessionKey(i) in ImpedanceDict(impSets) && ImpedanceDict(impSets)[SessionKey(i)] == impSets[i]
    ensures forall key :: key in ImpedanceDict(impSets) ==> exists i :: 0 <= i < |impSets| && key == SessionKey(i)
  {
    var keys := SessionKeys(|impSets|);
    forall i, j | 0 <= i < j < |keys|
      ensures keys[i] != keys[j]
    {
      SessionKeysDistinct(i, j);
    }
    ZipDistinct(keys, impSets);
  }
}

=== FILE: nwb.dfy ===
/** The parts of an NWB file the conversion scripts write, as plain records:
    the session header, the electrode groups and electrode table (with the
    optional `imp` column) and the single `ElectricalSeries` acquisition.

    Building the electrode table is shared by the two `initiate_nwb` variants
    (rhd_io_utils.py and nwb_utils.py); they differ only in the channel ids
    they look up and in their header defaults. */
module Nwb {
  import opened Wrappers
  import opened Text
  import opened Seqs
  import opened Dataset
  import opened Channels

  /** A session start time: decoded to integer seconds, or a placeholder
      string standing where no datetime was supplied. */
  datatype Stamp = At(seconds: int) | Placeholder(text: string)

  /** The `metadata` dict: every key may be absent. */
  datatype Metadata = Metadata(
    sessionDesc: Option<string>,
    identifier: Option<string>,
    identifierTop: Option<string>,
    startTime: Option<Stamp>,
    experimenter: Option<string>,
    lab: Option<string>,
    institution: Option<string>,
    expDesc: Option<string>,
    sessionId: Option<string>,
    subject: Option<string>)

  /** The session-header values written to the file. */
  datatype Header = Header(
    description: string,
    identifier: string,
    startTime: Stamp,
    experimenter: string,
    lab: string,
    institution: string,
    expDesc: string,
    sessionId: string,
    subject: Option<string>)

  /** The four defaults in which the two `initiate_nwb` variants differ. */
  datatype HeaderDefaults = HeaderDefaults(description: string, experimenter: string, lab: string, institution: string)

  const RHD_DEFAULTS := HeaderDefaults("NWB file for RHD data", "Mpty Field", "XL Lab", "Rice U")
  const SPINAL_DEFAULTS := HeaderDefaults("NWB file for spinal cord data", "BT", "Luan/Xie/Pfaff Labs", "Rice U & Salk Institute")

  const MANDATORY_PLACEHOLDER := "TODO MANDATORY"

  function OrElse<T>(v: Option<T>, default: T): (r: T)
    ensures v.Some? ==> r == v.value
    ensures v.None? ==> r == default
  {
    if v.Some? then v.value else default
  }

  /** `metadata.get(key, default)` for every header field: a supplied value
      always wins; an absent identifier or start time gets the mandatory
      placeholder, an absent session description the variant's default, and
      an absent experiment description or session id the string "None". */
  function MakeHeader(m: Metadata, d: HeaderDefaults): (h: Header)
    ensures h.description == OrElse(m.sessionDesc, d.description)
    ensures h.identifier == OrElse(m.identifier, MANDATORY_PLACEHOLDER)
    ensures m.startTime.Some? ==> h.startTime == m.startTime.value
    ensures m.startTime.None? ==> h.startTime == Placeholder(MANDATORY_PLACEHOLDER)
    ensures h.experimenter == OrElse(m.experimenter, d.experimenter)
    ensures h.lab == OrElse(m.lab, d.lab)
    ensures h.institution == OrElse(m.institution, d.institution)
    ensures h.expDesc == OrElse(m.expDesc, "None") && h.sessionId == OrElse(m.sessionId, "None")
    ensures h.subject == m.subject
  {
    Header(
      OrElse(m.sessionDesc, d.description),
      OrElse(m.identifier, MANDATORY_PLACEHOLDER),
      if m.startTime.Some? then m.startTime.value else Placeholder(MANDATORY_PLACEHOLDER),
      OrElse(m.experimenter, d.experimenter),
      OrElse(m.lab, d.lab),
      OrElse(m.institution, d.institution),
      OrElse(m.expDesc, "None"),
      OrElse(m.sessionId, "None"),
      m.subject)
  }

  /** The two variants write the same header whenever the metadata supplies
      the four fields whose defaults differ. */
  lemma HeaderDefaultsOnlyFillGaps(m: Metadata)
    requires m.sessionDesc.Some? && m.experimenter.Some? && m.lab.Some? && m.institution.Some?
    ensures MakeHeader(m, RHD_DEFAULTS) == MakeHeader(m, SPINAL_DEFAULTS)
  {
  }

  /** The `channel_map` argument. A bare array is wrapped in a list, which
      cannot be indexed by "map_style"; a dict may miss either key. */
  datatype ChannelMapArg =
    | BareArray(array: ChannelMapData)
    | MapDict(style: Option<string>, mapData: Option<ChannelMapData>)

  predicate MapArgValid(arg: ChannelMapArg) {
    match arg
    case BareArray(a) => a.Valid()
    case MapDict(_, d) => d.Some? ==> d.value.Valid()
  }

  /** The channel-map style dispatch: only "coordinates" maps are supported. */
  function CoordinateMap(arg: ChannelMapArg): (r: Result<ChannelMapData>)
    requires MapArgValid(arg)
    ensures r.Ok? <==> arg.MapDict? && arg.style == Some("coordinates") && arg.mapData.Some?
    ensures r.Ok? ==> r.value == arg.mapData.value && r.value.Valid()
    ensures arg.BareArray? ==> r == Err(TypeError)
    ensures arg.MapDict? && arg.style == Some("map_by_shank") ==> r == Err(NotImplementedError)
    ensures (arg.MapDict? && arg.style.Some? && arg.style.value != "coordinates" && arg.style.value != "map_by_shank")
              ==> r == Err(ValueError)
  {
    match arg
    case BareArray(_) => Err(TypeError)
    case MapDict(style, mapData) =>
      if style.None? then Err(KeyError)
      else if style.value == "coordinates" then
        if mapData.None? then Err(KeyError) else Ok(mapData.value)
      else if style.value == "map_by_shank" then Err(NotImplementedError)
      else Err(ValueError)
  }

  /** One row of the electrode table. `group` names the electrode group by
      its shank id (the group is called `shank{group}`). */
  datatype Electrode = Electrode(id: int, name: string, group: int, x: real, y: real)

  datatype ElectrodeTable = ElectrodeTable(groups: seq<int>, electrodes: seq<Electrode>)

  /** `(conversion, offset)` of the stored data. */
  datatype DataConv = DataConv(conversion: real, offset: real)

  const IDENTITY_CONV := DataConv(1.0, 0.0)

  function ConvOrDefault(c: Option<DataConv>): (r: DataConv)
    ensures c.None? ==> r == IDENTITY_CONV
    ensures c.Some? ==> r == c.value
  {
    if c.Some? then c.value else IDENTITY_CONV
  }

  datatype ElectricalSeries = ElectricalSeries(
    data: Grid<int>,
    rate: real,
    startingTime: real,
    conv: DataConv,
    region: seq<nat>)

  datatype NwbFile = NwbFile(header: Header, table: ElectrodeTable, imp: Option<seq<real>>, series: ElectricalSeries)

  /** `list(range(n))`. */
  function Range(n: nat): (r: seq<nat>)
    ensures |r| == n && forall i :: 0 <= i < n ==> r[i] == i
  {
    seq(n, i requires 0 <= i < n => i)
  }

  /** Electrode `k` is placed in the group of its shank, has the native order
      as id and carries the `native{n}_ovr{k}_shank{s}` label as its name. */
  predicate ElectrodeRowAt(e: Electrode, k: nat, native: int, shank: int, loc: seq<real>)
    requires |loc| >= 2
  {
    e == Electrode(native, ElectrodeLabel(native, k, shank), shank, loc[0], loc[1])
  }

  /** Electrode `k` of the table loop with `groupOf[k]` as its group. */
  function ElectrodeRows(natives: seq<int>, look: Lookup, groupOf: seq<int>): (es: seq<Electrode>)
    requires |look.shanks| == |look.locations| == |groupOf| == |natives|
    requires forall k :: 0 <= k < |natives| ==> |look.locations[k]| >= 2
    ensures |es| == |natives| && forall k :: 0 <= k < |natives| ==>
              es[k] == Electrode(natives[k], ElectrodeLabel(natives[k], k, look.shanks[k]), groupOf[k],
                                 look.locations[k][0], look.locations[k][1])
  {
    seq(|natives|, k requires 0 <= k < |natives| =>
      Electrode(natives[k], ElectrodeLabel(natives[k], k, look.shanks[k]), groupOf[k],
                look.locations[k][0], look.locations[k][1]))
  }

  /** The electrode groups and electrodes for the kept channels, each
      electrode placed in the group created for its own shank. `natives` are
      the electrode ids, `mapIds` the rows looked up in the map. The table
      loop reads the second location column, so a map narrower than two
      columns fails as soon as there is a channel. */
  function BuildElectrodes(natives: seq<int>, mapIds: seq<int>, m: ChannelMapData): (r: Result<ElectrodeTable>)
    requires |natives| == |mapIds| && m.Valid()
    ensures r.Ok? <==> m.ndim == 2 && AllIdsInRange(mapIds, m) && (|natives| == 0 || m.width >= 2)
    ensures r.Ok? ==> StrictlyIncreasing(r.value.groups)
    ensures r.Ok? ==> |r.value.electrodes| == |natives|
    ensures r.Ok? ==> forall s :: s in r.value.groups <==>
              exists k :: 0 <= k < |natives| && r.value.electrodes[k].group == s
    ensures r.Ok? ==> forall k :: 0 <= k < |natives| ==>
              var look := LookupCorstyle(IdArray(1, mapIds), m).value;
              |look.locations[k]| >= 2 &&
              ElectrodeRowAt(r.value.electrodes[k], k, natives[k], look.shanks[k], look.locations[k])
  {
    var look :- LookupCorstyle(IdArray(1, mapIds), m);
    if |natives| > 0 && m.width < 2 then Err(IndexError)
    else
      var n := |natives|;
      var groups := SortedUnique(look.shanks);
      var electrodes := ElectrodeRows(natives, look, look.shanks);
      assert forall s :: s in groups ==> exists k :: 0 <= k < n && electrodes[k].group == s by {
        forall s | s in groups ensures exists k :: 0 <= k < n && electrodes[k].group == s {
          var k :| 0 <= k < n && look.shanks[k] == s;
          assert electrodes[k].group == s;
        }
      }
      Ok(ElectrodeTable(groups, electrodes))
  }

  /** The electrode loop as written: electrode `k` goes to
      `electrode_groups[shanks[k]]`, a position in the ascending group list,
      and a position outside the list is an `IndexError`. */
  function BuildElectrodesAsWritten(natives: seq<int>, mapIds: seq<int>, m: ChannelMapData): (r: Result<ElectrodeTable>)
    requires |natives| == |mapIds| && m.Valid()
    ensures r.Ok? ==> |r.value.electrodes| == |natives| && LookupCorstyle(IdArray(1, mapIds), m).Ok?
    ensures r.Ok? ==> forall k :: 0 <= k < |natives| ==>
              var look := LookupCorstyle(IdArray(1, mapIds), m).value;
              Some(r.value.electrodes[k].group) == GroupAsWritten(r.value.groups, look.shanks[k])
  {
    var look :- LookupCorstyle(IdArray(1, mapIds), m);
    if |natives| > 0 && m.width < 2 then Err(IndexError)
    else
      var n := |natives|;
      var groups := SortedUnique(look.shanks);
      if exists k :: 0 <= k < n && GroupAsWritten(groups, look.shanks[k]).None? then Err(IndexError)
      else
        Ok(ElectrodeTable(groups, ElectrodeRows(natives, look, GroupsAsWritten(groups, look.shanks))))
  }

  /** The group position the loop as written reads for every shank id. */
  function GroupsAsWritten(groups: seq<int>, shanks: seq<int>): (r: seq<int>)
    requires forall k :: 0 <= k < |shanks| ==> GroupAsWritten(groups, shanks[k]).Some?
    ensures |r| == |shanks| && forall k :: 0 <= k < |shanks| ==> Some(r[k]) == GroupAsWritten(groups, shanks[k])
  {
    seq(|shanks|, k requires 0 <= k < |shanks| => GroupAsWritten(groups, shanks[k]).value)
  }

  /** When the shank ids in use are exactly 0..g-1 the loop as written builds
      the same table as the corrected one. */
  lemma AsWrittenAgreesOnDenseShanks(natives: seq<int>, mapIds: seq<int>, m: ChannelMapData, g: nat)
    requires |natives| == |mapIds| && m.Valid()
    requires BuildElectrodes(natives, mapIds, m).Ok?
    requires forall s :: s in LookupCorstyle(IdArray(1, mapIds), m).value.shanks <==> 0 <= s < g
    ensures BuildElectrodesAsWritten(natives, mapIds, m) == BuildElectrodes(natives, mapIds, m)
  {
    var look := LookupCorstyle(IdArray(1, mapIds), m).value;
    DenseGroupsAsWritten(look.shanks, g);
    var groups := SortedUnique(look.shanks);
    assert !(|natives| > 0 && m.width < 2);
    var t := ElectrodeTable(groups, ElectrodeRows(natives, look, look.shanks));
    assert BuildElectrodes(natives, mapIds, m) == Ok(t);
  }

  /** With dense shank ids every shank finds a group position, and the
      position read is the shank's own id. */
  lemma DenseGroupsAsWritten(shanks: seq<int>, g: nat)
    requires forall s :: s in shanks <==> 0 <= s < g
    ensures forall k :: 0 <= k < |shanks| ==> GroupAsWritten(SortedUnique(shanks), shanks[k]).Some?
    ensures GroupsAsWritten(SortedUnique(shanks), shanks) == shanks
  {
    GroupAsWrittenAgrees(shanks, g);
    var groups := SortedUnique(shanks);
    assert forall k :: 0 <= k < |shanks| ==> GroupAsWritten(groups, shanks[k]) == Some(shanks[k]);
  }

  /** A two-channel, three-column map whose rows sit on shanks 1 and 2: the
      loop as written fails, although every channel has a group. */
  lemma ShankGroupsMisassigned()
    ensures var m := ChannelMapData(2, 3, [[0.0, 0.0, 1.0], [0.0, 25.0, 2.0]]);
            && BuildElectrodesAsWritten([0, 1], [0, 1], m) == Err(IndexError)
            && BuildElectrodes([0, 1], [0, 1], m).Ok?
            && BuildElectrodes([0, 1], [0, 1], m).value.groups == [1, 2]
  {
    var m := ChannelMapData(2, 3, [[0.0, 0.0, 1.0], [0.0, 25.0, 2.0]]);
    var look := LookupCorstyle(IdArray(1, [0, 1]), m).value;
    assert Trunc(1.0) == 1 && Trunc(2.0) == 2;
    assert look.shanks == [1, 2];
    GroupAsWrittenMisplaces();
    assert GroupAsWritten(SortedUnique(look.shanks), look.shanks[1]).None?;
  }

  /** Every label in a table built from non-negative native orders and shank
      ids parses back to its electrode's id. */
  lemma LabelsRecoverIds(natives: seq<int>, mapIds: seq<int>, m: ChannelMapData)
    requires |natives| == |mapIds| && m.Valid()
    requires BuildElectrodes(natives, mapIds, m).Ok?
    requires forall k :: 0 <= k < |natives| ==> natives[k] >= 0
    requires forall k :: 0 <= k < |natives| ==> BuildElectrodes(natives, mapIds, m).value.electrodes[k].group >= 0
    ensures forall k :: 0 <= k < |natives| ==>
              var e := BuildElectrodes(natives, mapIds, m).value.electrodes[k];
              ParseLabelNative(e.name) == Some(e.id)
  {
    var t := BuildElectrodes(natives, mapIds, m).value;
    var look := LookupCorstyle(IdArray(1, mapIds), m).value;
    forall k | 0 <= k < |natives| ensures ParseLabelNative(t.electrodes[k].name) == Some(t.electrodes[k].id) {
      LabelRoundTrip(natives[k], k, look.shanks[k]);
    }
  }
}

=== FILE: nwb_convert.dfy ===
/** The NWB-to-NWB rewrite used before a DANDI upload: the session header is
    re-resolved against a metadata dict, devices, electrode groups and
    electrodes are copied (electrodes renumbered 0..n-1 through an identity
    index map), and only the electrical series are carried over, with their
    samples cast and everything else about them unchanged. The output file
    is named after the session folder the input lies in. */
module NwbConvert {
  import opened Wrappers
  import opened Text
  import opened Seqs
  import opened Nwb

  // ---------------------------------------------------------------------
  // Session header

  /** The start time the output file is created with: the metadata's, else
      the input file's. */
  function ResolveStart(md: Metadata, h: Header): (s: Stamp)
    ensures md.startTime.Some? ==> s == md.startTime.value
    ensures md.startTime.None? ==> s == h.startTime
  {
    OrElse(md.startTime, h.startTime)
  }

  /** The identifier precedence: a metadata identifier; else
      `identifier_top + "_" + start.strftime(...)`, where `fmt` stands for
      the strftime formatting and a placeholder string has no `strftime`;
      else the input file's identifier. */
  function ResolveIdentifier(md: Metadata, start: Stamp, current: string, fmt: int -> string): (r: Result<string>)
    ensures r.Err? <==> md.identifier.None? && md.identifierTop.Some? && start.Placeholder?
    ensures r.Err? ==> r.error == AttributeError
    ensures md.identifier.Some? ==> r == Ok(md.identifier.value)
    ensures md.identifier.None? && md.identifierTop.Some? && start.At? ==>
              r == Ok(md.identifierTop.value + "_" + fmt(start.seconds))
    ensures md.identifier.None? && md.identifierTop.None? ==> r == Ok(current)
  {
    if md.identifier.Some? then Ok(md.identifier.value)
    else if md.identifierTop.Some? then
      match start
      case At(seconds) => Ok(md.identifierTop.value + "_" + fmt(seconds))
      case Placeholder(_) => Err(AttributeError)
    else Ok(current)
  }

  /** The header of the new file: every field the metadata supplies wins,
      every other field is the input file's. The `NWBFile` constructor
      refuses a start time that is not a datetime. */
  function ResolveHeader(md: Metadata, h: Header, fmt: int -> string): (r: Result<Header>)
    ensures r.Ok? <==> ResolveStart(md, h).At?
    ensures r.Err? ==> r.error == (if md.identifier.None? && md.identifierTop.Some? then AttributeError else TypeError)
    ensures r.Ok? ==>
              && r.value.startTime == ResolveStart(md, h)
              && r.value.identifier == ResolveIdentifier(md, ResolveStart(md, h), h.identifier, fmt).value
    ensures r.Ok? ==>
              && (md.sessionDesc.Some? ==> r.value.description == md.sessionDesc.value)
              && (md.sessionDesc.None? ==> r.value.description == h.description)
              && (md.experimenter.Some? ==> r.value.experimenter == md.experimenter.value)
              && (md.experimenter.None? ==> r.value.experimenter == h.experimenter)
              && (md.lab.Some? ==> r.value.lab == md.lab.value)
              && (md.lab.None? ==> r.value.lab == h.lab)
              && (md.institution.Some? ==> r.value.institution == md.institution.value)
              && (md.institution.None? ==> r.value.institution == h.institution)
              && (md.expDesc.Some? ==> r.value.expDesc == md.expDesc.value)
              && (md.expDesc.None? ==> r.value.expDesc == h.expDesc)
              && (md.sessionId.Some? ==> r.value.sessionId == md.sessionId.value)
              && (md.sessionId.None? ==> r.value.sessionId == h.sessionId)
              && (md.subject.Some? ==> r.value.subject == md.subject)
              && (md.subject.None? ==> r.value.subject == h.subject)
  {
    var start := ResolveStart(md, h);
    var identifier :- ResolveIdentifier(md, start, h.identifier, fmt);
    if start.Placeholder? then Err(TypeError)
    else
      Ok(Header(
        OrElse(md.sessionDesc, h.description),
        identifier,
        start,
        OrElse(md.experimenter, h.experimenter),
        OrElse(md.lab, h.lab),
        OrElse(md.institution, h.institution),
        OrElse(md.expDesc, h.expDesc),
        OrElse(md.sessionId, h.sessionId),
        if md.subject.Some? then md.subject else h.subject))
  }

  /** A metadata dict with no keys. */
  const NO_METADATA := Metadata(None, None, None, None, None, None, None, None, None, None)

  /** With no metadata the input header is written back unchanged. */
  lemma EmptyMetadataKeepsHeader(h: Header, fmt: int -> string)
    requires h.startTime.At?
    ensures ResolveHeader(NO_METADATA, h, fmt) == Ok(h)
  {
  }

  /** Every header field as a metadata key. */
  function AsMetadata(h: Header): (md: Metadata)
    ensures md.identifier == Some(h.identifier) && md.startTime == Some(h.startTime)
  {
    Metadata(Some(h.description), Some(h.identifier), None, Some(h.startTime), Some(h.experimenter),
             Some(h.lab), Some(h.institution), Some(h.expDesc), Some(h.sessionId), h.subject)
  }

  /** A header turned into metadata is reproduced exactly, whatever the input
      file held, as long as the input file has a subject only when the header
      has one. */
  lemma HeaderFromItsMetadata(h: Header, other: Header, fmt: int -> string)
    requires h.startTime.At?
    requires h.subject.None? ==> other.subject.None?
    ensures ResolveHeader(AsMetadata(h), other, fmt) == Ok(h)
  {
  }

  /** Re-resolving a resolved header with the same metadata changes nothing. */
  lemma ResolveHeaderIdempotent(md: Metadata, h: Header, fmt: int -> string)
    requires ResolveHeader(md, h, fmt).Ok?
    ensures ResolveHeader(md, ResolveHeader(md, h, fmt).value, fmt) == ResolveHeader(md, h, fmt)
  {
  }

  /** The animal number the script's constants are written for. */
  const ANIMAL_ID := 2

  const IDENTIFIER_TOP := "Chronic Implant 2 - "
  const SUBJECT_ID := "Chronic Implant 2"

  /** The metadata dict the script passes: no identifier and no start time,
      so the identifier is derived from the input file's start time. */
  const SCRIPT_METADATA := Metadata(
    Some("Intan RHS data converted to NWB"), None, Some(IDENTIFIER_TOP), None, Some("JZ"),
    Some("Luan/Xie/Pfaff Labs"), Some("Rice U & Salk Institute"),
    Some("Intraspinal recording of mouse lumbar spinal cord"), None, Some(SUBJECT_ID))

  /** Under the script's metadata the identifier is the top string, an
      underscore and the input file's formatted start time, the session id
      and start time are the input's, and the rest is the script's. */
  lemma ScriptHeader(h: Header, fmt: int -> string)
    requires h.startTime.At?
    ensures ResolveHeader(SCRIPT_METADATA, h, fmt) ==
              Ok(Header("Intan RHS data converted to NWB", IDENTIFIER_TOP + "_" + fmt(h.startTime.seconds),
                        h.startTime, "JZ", "Luan/Xie/Pfaff Labs", "Rice U & Salk Institute",
                        "Intraspinal recording of mouse lumbar spinal cord", h.sessionId, Some(SUBJECT_ID)))
  {
  }

  // ---------------------------------------------------------------------
  // Devices and electrode groups

  /** An electrode group, naming its device. */
  datatype Group = Group(description: string, location: string, device: string)

  /** Each group is re-created on the copied device of the same name; a
      device name not among the input devices is a `KeyError`. */
  function CopyGroups(devices: map<string, string>, groups: map<string, Group>): (r: Result<map<string, Group>>)
    ensures r.Ok? <==> forall name :: name in groups ==> groups[name].device in devices
    ensures r.Err? ==> r.error == KeyError
    ensures r.Ok? ==> r.value == groups
  {
    if forall name :: name in groups ==> groups[name].device in devices then Ok(groups) else Err(KeyError)
  }

  // ---------------------------------------------------------------------
  // Electrodes

  datatype Coords = Coords(x: real, y: real, z: real)

  /** An electrode-table row of the input file. */
  datatype InRow = InRow(groupName: string, labelText: string, location: string, rel: Coords, pos: Coords, imp: Option<real>)

  /** An electrode added to the output file. */
  datatype OutRow = OutRow(id: nat, group: string, labelText: string, location: string, rel: Coords, pos: Coords, imp: Option<real>)

  const LOCATION := "Spinal cord"

  /** Row `idx` re-added with id `idx`, its location overwritten, and `imp`
      passed only when the input row has it. */
  function CopyRow(row: InRow, idx: nat): (o: OutRow)
    ensures o.id == idx && o.location == LOCATION
  {
    OutRow(idx, row.groupName, row.labelText, LOCATION, row.rel, row.pos, row.imp)
  }

  /** The input row an output row was copied from, given the location the
      copy overwrote. */
  function SourceRow(o: OutRow, location: string): (row: InRow)
    ensures row.location == location
  {
    InRow(o.group, o.labelText, location, o.rel, o.pos, o.imp)
  }

  /** The electrode loop: rows in input order, numbered from 0; a row whose
      group is not among the copied groups is a `KeyError`. */
  function CopyElectrodes(rows: seq<InRow>, groups: map<string, Group>): (r: Result<seq<OutRow>>)
    ensures r.Ok? <==> forall i :: 0 <= i < |rows| ==> rows[i].groupName in groups
    ensures r.Err? ==> r.error == KeyError
    ensures r.Ok? ==> |r.value| == |rows|
    ensures r.Ok? ==> forall i :: 0 <= i < |rows| ==>
              && r.value[i].id == i && r.value[i].location == LOCATION && r.value[i].group in groups
              && SourceRow(r.value[i], rows[i].location) == rows[i]
  {
    if forall i :: 0 <= i < |rows| ==> rows[i].groupName in groups then
      Ok(seq(|rows|, i requires 0 <= i < |rows| => CopyRow(rows[i], i)))
    else Err(KeyError)
  }

  /** An impedance is present in a copied row exactly when it was present
      in the input row, with the same value. */
  lemma ImpedanceCopiedWhenPresent(rows: seq<InRow>, groups: map<string, Group>, i: nat)
    requires CopyElectrodes(rows, groups).Ok? && i < |rows|
    ensures CopyElectrodes(rows, groups).value[i].imp.Some? <==> rows[i].imp.Some?
    ensures rows[i].imp.Some? ==> CopyElectrodes(rows, groups).value[i].imp == rows[i].imp
  {
    assert SourceRow(CopyElectrodes(rows, groups).value[i], rows[i].location) == rows[i];
  }

  /** `elec_idx_map` after `n` turns of the electrode loop, each of which
      maps its index to itself: every index below `n`, and nothing else,
      maps to itself. */
  function IdentityMap(n: nat): (m: map<int, int>)
    ensures forall i :: i in m <==> 0 <= i < n
    ensures forall i :: i in m ==> m[i] == i
  {
    if n == 0 then map[] else IdentityMap(n - 1)[n - 1 := n - 1]
  }

  /** `[elec_idx_map[i] for i in region]`: a `KeyError` for an index the map
      lacks. */
  function RemapRegion(m: map<int, int>, region: seq<int>): (r: Result<seq<int>>)
    ensures r.Ok? <==> forall k :: 0 <= k < |region| ==> region[k] in m
    ensures r.Err? ==> r.error == KeyError
    ensures r.Ok? ==> |r.value| == |region| && forall k :: 0 <= k < |region| ==> r.value[k] == m[region[k]]
  {
    if forall k :: 0 <= k < |region| ==> region[k] in m then
      Ok(seq(|region|, k requires 0 <= k < |region| => m[region[k]]))
    else Err(KeyError)
  }

  predicate InTable(region: seq<int>, n: nat) {
    forall k :: 0 <= k < |region| ==> 0 <= region[k] < n
  }

  /** Through the identity map a region is kept exactly when every index
      names an electrode, and is then unchanged. */
  lemma RegionUnchanged(n: nat, region: seq<int>)
    ensures RemapRegion(IdentityMap(n), region).Ok? <==> InTable(region, n)
    ensures InTable(region, n) ==> RemapRegion(IdentityMap(n), region) == Ok(region)
  {
    var r := RemapRegion(IdentityMap(n), region);
    if InTable(region, n) {
      assert r.value == region;
    }
  }

  // ---------------------------------------------------------------------
  // Acquisition

  /** An electrical series of the input file. */
  datatype InSeries = InSeries(
    data: seq<seq<real>>,
    region: seq<int>,
    regionDesc: string,
    startingTime: real,
    rate: Option<real>,
    conversion: real,
    offset: real)

  /** An acquisition entry: only electrical series are copied. */
  datatype Acquired = Electrical(series: InSeries) | OtherAcquired

  datatype NamedAcquired = NamedAcquired(name: string, item: Acquired)

  datatype OutSeries = OutSeries(
    name: string,
    data: seq<seq<int>>,
    region: seq<int>,
    regionDesc: string,
    startingTime: real,
    rate: Option<real>,
    conversion: real,
    offset: real)

  /** `data.astype(np.int16)`, with the per-sample cast as a parameter. */
  function CastData(data: seq<seq<real>>, cast: real -> int): (r: seq<seq<int>>)
    ensures |r| == |data|
    ensures forall t :: 0 <= t < |data| ==> |r[t]| == |data[t]| && forall c :: 0 <= c < |data[t]| ==> r[t][c] == cast(data[t][c])
  {
    seq(|data|, t requires 0 <= t < |data| => seq(|data[t]|, c requires 0 <= c < |data[t]| => cast(data[t][c])))
  }

  /** The acquisition loop: other entries are skipped, an electrical series
      is re-created with cast samples and a re-mapped region, and the first
      region that fails to map ends the copy with its `KeyError`. */
  function CopySeries(acq: seq<NamedAcquired>, m: map<int, int>, cast: real -> int): (r: Result<seq<OutSeries>>)
    ensures r.Ok? ==> |r.value| <= |acq|
    ensures r.Err? ==> r.error == KeyError
    decreases |acq|
  {
    if |acq| == 0 then Ok([])
    else
      match acq[0].item
      case OtherAcquired => CopySeries(acq[1..], m, cast)
      case Electrical(s) =>
        var region :- RemapRegion(m, s.region);
        var rest :- CopySeries(acq[1..], m, cast);
        Ok([OutSeries(acq[0].name, CastData(s.data, cast), region, s.regionDesc, s.startingTime, s.rate, s.conversion, s.offset)] + rest)
  }

  /** The electrical series among the acquisition entries, in order. */
  function ElectricalOnly(acq: seq<NamedAcquired>): (r: seq<NamedAcquired>)
    ensures |r| <= |acq|
    ensures forall k :: 0 <= k < |r| ==> r[k].item.Electrical? && r[k] in acq
    ensures forall i :: 0 <= i < |acq| && acq[i].item.Electrical? ==> acq[i] in r
    decreases |acq|
  {
    if |acq| == 0 then []
    else
      var rest := ElectricalOnly(acq[1..]);
      assert forall i :: 1 <= i < |acq| ==> acq[i] == acq[1..][i - 1];
      (if acq[0].item.Electrical? then [acq[0]] else []) + rest
  }

  predicate RegionsInTable(acq: seq<NamedAcquired>, n: nat) {
    forall i :: 0 <= i < |acq| && acq[i].item.Electrical? ==> InTable(acq[i].item.series.region, n)
  }

  /** `s` carried over: same name, timing, scaling, region and description;
      the samples cast. */
  predicate CarriedOver(o: OutSeries, a: NamedAcquired, cast: real -> int)
    requires a.item.Electrical?
  {
    var s := a.item.series;
    && o.name == a.name && o.data == CastData(s.data, cast) && o.region == s.region
    && o.regionDesc == s.regionDesc && o.startingTime == s.startingTime && o.rate == s.rate
    && o.conversion == s.conversion && o.offset == s.offset
  }

  /** When every region names electrodes of an `n`-row table, exactly the
      electrical series are copied, in order, each carried over with its
      region unchanged. */
  lemma {:induction false} SeriesCarriedOver(acq: seq<NamedAcquired>, n: nat, cast: real -> int)
    requires RegionsInTable(acq, n)
    ensures CopySeries(acq, IdentityMap(n), cast).Ok?
    ensures var r := CopySeries(acq, IdentityMap(n), cast).value;
            var e := ElectricalOnly(acq);
            |r| == |e| && forall k :: 0 <= k < |r| ==> CarriedOver(r[k], e[k], cast)
    decreases |acq|
  {
    if |acq| > 0 {
      assert RegionsInTable(acq[1..], n) by {
        forall i | 0 <= i < |acq[1..]| && acq[1..][i].item.Electrical?
          ensures InTable(acq[1..][i].item.series.region, n)
        {
          assert acq[1..][i] == acq[i + 1];
        }
      }
      SeriesCarriedOver(acq[1..], n, cast);
      var m := IdentityMap(n);
      var rest := CopySeries(acq[1..], m, cast).value;
      var e := ElectricalOnly(acq[1..]);
      if acq[0].item.Electrical? {
        var s := acq[0].item.series;
        RegionUnchanged(n, s.region);
        var head := OutSeries(acq[0].name, CastData(s.data, cast), s.region, s.regionDesc, s.startingTime, s.rate, s.conversion, s.offset);
        assert CopySeries(acq, m, cast) == Ok([head] + rest);
        assert ElectricalOnly(acq) == [acq[0]] + e;
        assert CarriedOver(head, acq[0], cast);
        forall k | 1 <= k <= |rest|
          ensures CarriedOver(([head] + rest)[k], ([acq[0]] + e)[k], cast)
        {
          assert ([head] + rest)[k] == rest[k - 1] && ([acq[0]] + e)[k] == e[k - 1];
        }
      } else {
        assert CopySeries(acq, m, cast) == Ok(rest);
        assert ElectricalOnly(acq) == e;
      }
    }
  }

  /** A region naming an electrode beyond the table stops the copy. */
  lemma {:induction false} RegionBeyondTableFails(acq: seq<NamedAcquired>, n: nat, cast: real -> int, i: nat)
    requires i < |acq| && acq[i].item.Electrical? && !InTable(acq[i].item.series.region, n)
    ensures CopySeries(acq, IdentityMap(n), cast) == Err(KeyError)
    decreases i
  {
    if i == 0 {
      RegionUnchanged(n, acq[0].item.series.region);
    } else {
      assert acq[1..][i - 1] == acq[i];
      RegionBeyondTableFails(acq[1..], n, cast, i - 1);
    }
  }

  // ---------------------------------------------------------------------
  // update_and_resize_nwb

  datatype InFile = InFile(
    header: Header,
    devices: map<string, string>,
    groups: map<string, Group>,
    electrodes: seq<InRow>,
    acquisition: seq<NamedAcquired>)

  datatype OutFile = OutFile(
    header: Header,
    devices: map<string, string>,
    groups: map<string, Group>,
    electrodes: seq<OutRow>,
    acquisition: seq<OutSeries>)

  /** What the copy needs of the input file's internal references: every
      group's device exists, every electrode's group exists, and every series
      region names electrodes of the table. */
  predicate Consistent(f: InFile) {
    && (forall name :: name in f.groups ==> f.groups[name].device in f.devices)
    && (forall i :: 0 <= i < |f.electrodes| ==> f.electrodes[i].groupName in f.groups)
    && RegionsInTable(f.acquisition, |f.electrodes|)
  }

  /** `update_and_resize_nwb`: header, devices, groups, electrodes, then the
      electrical series, each step failing as the script does. */
  function UpdateAndResize(f: InFile, md: Metadata, fmt: int -> string, cast: real -> int): (r: Result<OutFile>)
    ensures r.Ok? ==> ResolveHeader(md, f.header, fmt) == Ok(r.value.header)
    ensures r.Ok? ==> r.value.devices == f.devices && r.value.groups == f.groups
    ensures r.Ok? ==> |r.value.electrodes| == |f.electrodes|
  {
    var header :- ResolveHeader(md, f.header, fmt);
    var groups :- CopyGroups(f.devices, f.groups);
    var rows :- CopyElectrodes(f.electrodes, groups);
    var series :- CopySeries(f.acquisition, IdentityMap(|rows|), cast);
    Ok(OutFile(header, f.devices, groups, rows, series))
  }

  /** The rewrite succeeds exactly when the resolved start time is a datetime
      and the input is consistent; the copy then renumbers electrodes
      0..n-1 and keeps every electrical series, in order, with its region. */
  lemma ConsistentFilesConvert(f: InFile, md: Metadata, fmt: int -> string, cast: real -> int)
    ensures UpdateAndResize(f, md, fmt, cast).Ok? <==> ResolveStart(md, f.header).At? && Consistent(f)
    ensures var r := UpdateAndResize(f, md, fmt, cast);
            r.Ok? ==>
              && (forall i :: 0 <= i < |f.electrodes| ==>
                    r.value.electrodes[i].id == i && SourceRow(r.value.electrodes[i], f.electrodes[i].location) == f.electrodes[i])
              && |r.value.acquisition| == |ElectricalOnly(f.acquisition)|
              && (forall k :: 0 <= k < |r.value.acquisition| ==>
                    CarriedOver(r.value.acquisition[k], ElectricalOnly(f.acquisition)[k], cast))
  {
    var n := |f.electrodes|;
    if ResolveStart(md, f.header).At? && Consistent(f) {
      SeriesCarriedOver(f.acquisition, n, cast);
    } else if ResolveStart(md, f.header).At? && CopyGroups(f.devices, f.groups).Ok? && CopyElectrodes(f.electrodes, f.groups).Ok? {
      assert !RegionsInTable(f.acquisition, n);
      var i :| 0 <= i < |f.acquisition| && f.acquisition[i].item.Electrical? && !InTable(f.acquisition[i].item.series.region, n);
      RegionBeyondTableFails(f.acquisition, n, cast, i);
    }
  }

  // ---------------------------------------------------------------------
  // Output file name

  const SESSION_PREFIX := "ChronicImplant2-"

  /** `"ChronicImplant2-" + path.split("/")[-2]`. */
  function SessionIdentifier(path: string): (r: Result<string>)
    ensures r.Ok? <==> |Split(path, '/')| >= 2
    ensures r.Err? ==> r.error == IndexError
    ensures r.Ok? ==> var parts := Split(path, '/'); r.value == SESSION_PREFIX + parts[|parts| - 2]
  {
    var parts := Split(path, '/');
    match PyIndex(-2, |parts|)
    case None => Err(IndexError)
    case Some(i) => Ok(SESSION_PREFIX + parts[i])
  }

  /** The script's output name: the input must end in ".nwb"; the name is
      the session identifier plus ".nwb", joined onto the output folder. */
  function ExportPath(folderOut: string, path: string): (r: Result<string>)
    ensures !EndsWith(path, ".nwb") ==> r == Err(AssertionError)
    ensures r.Ok? ==> EndsWith(path, ".nwb") && SessionIdentifier(path).Ok?
    ensures r.Ok? ==> r.value == PathJoin(folderOut, SessionIdentifier(path).value + ".nwb")
  {
    var _ :- Need(EndsWith(path, ".nwb"), AssertionError);
    var identifier :- SessionIdentifier(path);
    Ok(PathJoin(folderOut, identifier + ".nwb"))
  }

  /** A file `<prefix>/<date>/<file>.nwb` is exported as
      `ChronicImplant2-<date>.nwb` in the output folder. */
  lemma ExportPathOfSessionFile(folderOut: string, prefix: string, date: string, file: string)
    requires Free(date, '/') && Free(file, '/') && EndsWith(file, ".nwb")
    ensures ExportPath(folderOut, prefix + "/" + date + "/" + file) ==
              Ok(PathJoin(folderOut, SESSION_PREFIX + date + ".nwb"))
  {
    var path := prefix + "/" + date + "/" + file;
    assert path[|path| - |file|..] == file;
    assert path[|path| - 4..] == file[|file| - 4..];
    SplitThenName(prefix, date);
    SplitThenName(prefix + "/" + date, file);
  }

  /** A bare file name has no folder to name the session after. */
  lemma BareFileHasNoSession(folderOut: string, file: string)
    requires Free(file, '/') && EndsWith(file, ".nwb")
    ensures ExportPath(folderOut, file) == Err(IndexError)
  {
    assert IndexOf(file, '/').None?;
  }
}

=== FILE: nwb_utils.dfy ===
/** nwb_utils.py `initiate_nwb`: the same electrode-table construction as the
    RHD path, applied to an in-memory (samples x channels) array whose
    channels are identified by their column positions. */
module NwbUtils {
  import opened Wrappers
  import opened Seqs
  import opened Dataset
  import opened Channels
  import opened Nwb
  import RhdIo

  /** `np.arange(n)`. */
  function Arange(n: nat): (r: seq<int>)
    ensures |r| == n && forall i :: 0 <= i < n ==> r[i] == i
  {
    seq(n, i requires 0 <= i < n => i)
  }

  /** `np.arange(n)[mask]` lists the positions of the true mask entries in
      ascending order. */
  lemma KeptColumnsAscending(mask: seq<bool>)
    ensures var ids := Select(Arange(|mask|), mask);
            && |ids| == CountTrue(mask) == |TrueIndices(mask)|
            && (forall k :: 0 <= k < |ids| ==> ids[k] == TrueIndices(mask)[k] && mask[ids[k]])
            && StrictlyIncreasing(ids)
  {
    SelectIsIndexed(Arange(|mask|), mask);
  }

  /** `initiate_nwb(path, data_array, recording_info, channel_map, metadata,
      mask, data_conv)`. The mask is checked first, then the sample rate is
      read, then the file object refuses a start time that is not a date and
      time (a TypeError), then the channel map is dispatched; the kept column
      positions serve both as electrode ids and as map rows. */
  function InitiateNwbFromArray(data: Grid<int>, sampleRate: Option<real>, mapArg: ChannelMapArg, md: Metadata,
                                maskArg: MaskArg, conv: Option<DataConv>): (r: Result<NwbFile>)
    requires data.Valid() && MapArgValid(mapArg)
    ensures ResolveMask(maskArg, data.nCols, ValueError).Err? ==> r == Err(ValueError)
    ensures ResolveMask(maskArg, data.nCols, ValueError).Ok? && sampleRate.None? ==> r == Err(KeyError)
    ensures (ResolveMask(maskArg, data.nCols, ValueError).Ok? && sampleRate.Some?
             && !MakeHeader(md, SPINAL_DEFAULTS).startTime.At?) ==> r == Err(TypeError)
    ensures r.Ok? <==>
              && ResolveMask(maskArg, data.nCols, ValueError).Ok? && sampleRate.Some?
              && MakeHeader(md, SPINAL_DEFAULTS).startTime.At? && CoordinateMap(mapArg).Ok?
              && var ids := Select(Arange(data.nCols), ResolveMask(maskArg, data.nCols, ValueError).value);
                 BuildElectrodes(ids, ids, CoordinateMap(mapArg).value).Ok?
    ensures r.Ok? ==>
              var mask := ResolveMask(maskArg, data.nCols, ValueError).value;
              var ids := Select(Arange(data.nCols), mask);
              && r.value.header == MakeHeader(md, SPINAL_DEFAULTS)
              && r.value.table == BuildElectrodes(ids, ids, CoordinateMap(mapArg).value).value
              && r.value.imp.None?
              && r.value.series.data == SelectCols(data, mask)
              && r.value.series.rate == sampleRate.value && r.value.series.startingTime == 0.0
              && r.value.series.conv == ConvOrDefault(conv)
              && r.value.series.region == Range(CountTrue(mask))
  {
    var mask :- ResolveMask(maskArg, data.nCols, ValueError);
    var rate :- if sampleRate.Some? then Ok(sampleRate.value) else Err(KeyError);
    var header := MakeHeader(md, SPINAL_DEFAULTS);
    if !header.startTime.At? then Err(TypeError)
    else
      var m :- CoordinateMap(mapArg);
      var ids := Select(Arange(data.nCols), mask);
      SelectIsIndexed(Arange(data.nCols), mask);
      var table :- BuildElectrodes(ids, ids, m);
      Ok(NwbFile(header, table, None,
        ElectricalSeries(SelectCols(data, mask), rate, 0.0, ConvOrDefault(conv), Range(|ids|))))
  }

  /** Electrode `k` is the `k`-th kept column: its id is that column's
      position and the stored column `k` is that column of the input. */
  lemma ArrayElectrodesMatchColumns(data: Grid<int>, sampleRate: Option<real>, mapArg: ChannelMapArg, md: Metadata,
                                    maskArg: MaskArg, conv: Option<DataConv>)
    requires data.Valid() && MapArgValid(mapArg)
    requires InitiateNwbFromArray(data, sampleRate, mapArg, md, maskArg, conv).Ok?
    ensures var f := InitiateNwbFromArray(data, sampleRate, mapArg, md, maskArg, conv).value;
            var kept := TrueIndices(ResolveMask(maskArg, data.nCols, ValueError).value);
            && |f.table.electrodes| == f.series.data.nCols == |kept| == |f.series.region|
            && forall k :: 0 <= k < |kept| ==>
                 && f.table.electrodes[k].id == kept[k]
                 && forall s :: 0 <= s < data.nRows ==> f.series.data.cells[s][k] == data.cells[s][kept[k]]
  {
    var mask := ResolveMask(maskArg, data.nCols, ValueError).value;
    KeptColumnsAscending(mask);
    forall s | 0 <= s < data.nRows {
      SelectIsIndexed(data.cells[s], mask);
    }
  }

  /** Given an RHD chunk's data as a (samples x channels) array, both
      variants store the same kept channels in the same layout. */
  lemma VariantsStoreSameData(p: RhdIo.ParsedRhd, mask: seq<bool>)
    requires p.Valid() && |mask| == p.amp.nRows
    ensures SelectCols(Transpose(p.amp), mask) == RhdIo.NwbChunk(p, mask)
  {
    SelectColsIsTransposedSelectRows(Transpose(p.amp), mask);
    TransposeTwice(p.amp);
  }
}

=== FILE: oe_convert.dfy ===
/** The Open Ephys to NWB converter: descending the loader's nested
    dictionaries to the one array they hold, reading the session date out of
    an Open Ephys folder name, picking a headstage's impedances out of the
    impedance XML, the shape bookkeeping of one session, the output file
    name, and the rule that an existing `imp` column is left alone. */
module OeConvert {
  import opened Wrappers
  import opened Text
  import opened Sessions

  // ---------------------------------------------------------------------
  // get_data

  /** A loader result: a dictionary whose values are dictionaries again or
      data. */
  datatype Tree<T> = Leaf(value: T) | Branch(items: seq<Item<T>>)
  datatype Item<T> = Item(key: string, node: Tree<T>)

  /** `get_data(d)`: follow the first entry of every level until a value
      that is not a dictionary; an empty dictionary on the way makes
      `list(d.items())[0]` raise an `IndexError`. */
  function GetData<T>(items: seq<Item<T>>): (r: Result<T>)
    ensures r.Err? ==> r.error == IndexError
    ensures |items| == 0 ==> r == Err(IndexError)
    ensures |items| > 0 && items[0].node.Leaf? ==> r == Ok(items[0].node.value)
    decreases items
  {
    if |items| == 0 then Err(IndexError)
    else
      var first := items[0];
      assert first in items;
      match first.node
      case Leaf(v) => Ok(v)
      case Branch(sub) => GetData(sub)
  }

  /** A chain of dictionaries whose first keys are `keys`, with `last`
      reached through the last of them; `siblings[i]` are the entries after
      the first one at level `i`. */
  function Chain<T>(keys: seq<string>, last: Tree<T>, siblings: seq<seq<Item<T>>>): (r: seq<Item<T>>)
    requires |keys| > 0 && |siblings| == |keys|
    ensures |r| > 0 && r[0].key == keys[0]
    decreases |keys|
  {
    var node := if |keys| == 1 then last else Branch(Chain(keys[1..], last, siblings[1..]));
    [Item(keys[0], node)] + siblings[0]
  }

  /** Whatever else the levels hold and whatever the keys are, the descent
      reaches the end of the first-entry chain: its value when it is data, an
      `IndexError` when it is an empty dictionary. */
  lemma {:induction false} GetDataFollowsFirstEntries<T>(keys: seq<string>, last: Tree<T>, siblings: seq<seq<Item<T>>>)
    requires |keys| > 0 && |siblings| == |keys|
    ensures last.Leaf? ==> GetData(Chain(keys, last, siblings)) == Ok(last.value)
    ensures last == Branch([]) ==> GetData(Chain(keys, last, siblings)) == Err(IndexError)
    decreases |keys|
  {
    if |keys| > 1 {
      GetDataFollowsFirstEntries(keys[1..], last, siblings[1..]);
    }
  }

  // ---------------------------------------------------------------------
  // get_oe_datestr

  /** `re.match(r"^[0-9][0-9][0-9]_(.*?)$", name)[1]`: three digits and an
      underscore, then a remainder in which `.` cannot match a newline; `$`
      also matches just before one final newline, which is then left out.
      Without a match, `None[0]` raises a `TypeError`. */
  function MatchOeName(name: string): (r: Result<string>)
    ensures r.Ok? ==> |name| >= 4 && AllDigits(name[..3]) && name[3] == '_'
    ensures r.Ok? ==> Free(r.value, '\n') && (name[4..] == r.value || name[4..] == r.value + "\n")
    ensures r.Err? ==> r.error == TypeError
  {
    if |name| >= 4 && AllDigits(name[..3]) && name[3] == '_' then
      var rest := name[4..];
      if Free(rest, '\n') then Ok(rest)
      else if Free(rest[..|rest| - 1], '\n') && rest[|rest| - 1] == '\n' then
        assert rest == rest[..|rest| - 1] + "\n";
        Ok(rest[..|rest| - 1])
      else Err(TypeError)
    else Err(TypeError)
  }

  /** `get_oe_datestr(folder)`: one trailing '/' is stripped and the last
      '/'-separated part is matched. */
  function GetOeDatestr(folder: string): (r: Result<string>)
    ensures r.Ok? ==> Free(r.value, '/')
  {
    var parts := Split(StripOneSlash(folder), '/');
    MatchOeName(parts[|parts| - 1])
  }

  /** Three digits, an underscore and a stamp without newlines match, and
      the stamp is what is returned. */
  lemma MatchOfOeName(ddd: string, stamp: string)
    requires |ddd| == 3 && AllDigits(ddd) && Free(stamp, '\n')
    ensures MatchOeName(ddd + "_" + stamp) == Ok(stamp)
  {
    var name := ddd + "_" + stamp;
    assert name[..3] == ddd && name[3] == '_' && name[4..] == stamp;
  }

  /** An OpenEphys folder name holds no '/' when its stamp holds none. */
  lemma OeNameIsSlashFree(ddd: string, stamp: string)
    requires |ddd| == 3 && AllDigits(ddd) && Free(stamp, '/')
    ensures Free(ddd + "_" + stamp, '/')
  {
    var name := ddd + "_" + stamp;
    forall j | 0 <= j < |name|
      ensures name[j] != '/'
    {
      if j < 3 {
        assert name[j] == ddd[j] && IsDigit(ddd[j]);
      } else if j >= 4 {
        assert name[j] == stamp[j - 4];
      }
    }
  }

  /** The date string of a folder is matched from its last path part. */
  lemma OeDatestrOfLastPart(parent: string, name: string, slash: bool)
    requires |name| > 0 && Free(name, '/')
    ensures GetOeDatestr(parent + "/" + name + (if slash then "/" else "")) == MatchOeName(name)
  {
    var folder := parent + "/" + name;
    assert folder[|folder| - 1] == name[|name| - 1];
    assert StripOneSlash(folder + (if slash then "/" else "")) == folder;
    SplitThenName(parent, name);
  }

  /** A folder `<parent>/<ddd>_<stamp>`, with or without a trailing '/',
      gives back `<stamp>` when the stamp holds no '/' and no newline. */
  lemma OeDatestrOfFolder(parent: string, ddd: string, stamp: string, slash: bool)
    requires |ddd| == 3 && AllDigits(ddd)
    requires Free(stamp, '/') && Free(stamp, '\n')
    ensures GetOeDatestr(parent + "/" + (ddd + "_" + stamp) + (if slash then "/" else "")) == Ok(stamp)
  {
    OeNameIsSlashFree(ddd, stamp);
    OeDatestrOfLastPart(parent, ddd + "_" + stamp, slash);
    MatchOfOeName(ddd, stamp);
  }

  /** A name with a newline before its end does not match. */
  lemma InnerNewlineDoesNotMatch(ddd: string, a: string, b: string)
    requires |ddd| == 3 && AllDigits(ddd) && |b| > 0
    ensures MatchOeName(ddd + "_" + a + "\n" + b) == Err(TypeError)
  {
    var name := ddd + "_" + a + "\n" + b;
    var rest := name[4..];
    assert rest == a + "\n" + b;
    assert rest[|a|] == '\n' && |a| < |rest| - 1;
    assert rest[..|rest| - 1][|a|] == '\n';
  }

  // ---------------------------------------------------------------------
  // read_impedance_xml

  /** One `<CHANNEL>` of a headstage: its `magnitude` attribute, already
      read as a number, when present. */
  datatype XmlChannel = XmlChannel(magnitude: Option<real>)

  /** One child of the XML root: its tag, its `name` attribute when present,
      and its children. */
  datatype XmlChild = XmlChild(tag: string, name: Option<string>, channels: seq<XmlChannel>)

  /** Whether the loop over the root's children passes over this one: the
      `or` only reads `name` for a `HEADSTAGE`. */
  predicate Skipped(c: XmlChild, headstage: string) {
    c.tag != "HEADSTAGE" || (c.name.Some? && c.name.value != headstage)
  }

  predicate Wanted(c: XmlChild, headstage: string) {
    c.tag == "HEADSTAGE" && c.name == Some(headstage)
  }

  /** `np.array([float(ch.attrib['magnitude']) for ch in headstage])`: a
      channel without the attribute raises a `KeyError`. */
  function Magnitudes(chs: seq<XmlChannel>): (r: Result<seq<real>>)
    ensures r.Ok? <==> forall c :: 0 <= c < |chs| ==> chs[c].magnitude.Some?
    ensures r.Ok? ==> |r.value| == |chs| && forall c :: 0 <= c < |chs| ==> chs[c].magnitude == Some(r.value[c])
    ensures r.Err? ==> r.error == KeyError
  {
    if forall c :: 0 <= c < |chs| ==> chs[c].magnitude.Some? then
      Ok(seq(|chs|, c requires 0 <= c < |chs| => chs[c].magnitude.value))
    else Err(KeyError)
  }

  /** `read_impedance_xml` on the parsed root: the magnitudes of the first
      `HEADSTAGE` named `headstage`, in channel order; a `HEADSTAGE` without
      a name raises a `KeyError` when it is reached; no match at all is a
      `ValueError`. */
  function ReadImpedanceXml(root: seq<XmlChild>, headstage: string): (r: Result<seq<real>>)
    ensures (forall j :: 0 <= j < |root| ==> Skipped(root[j], headstage)) <==> r == Err(ValueError)
    ensures r.Ok? ==> exists i :: 0 <= i < |root| && Wanted(root[i], headstage) && (forall j :: 0 <= j < i ==> Skipped(root[j], headstage)) &&
                        Magnitudes(root[i].channels) == r
    decreases |root|
  {
    if |root| == 0 then Err(ValueError)
    else if Skipped(root[0], headstage) then
      var r := ReadImpedanceXml(root[1..], headstage);
      assert forall j :: 1 <= j < |root| ==> root[j] == root[1..][j - 1];
      assert r.Ok? ==> exists i :: 0 <= i < |root| && Wanted(root[i], headstage) && (forall j :: 0 <= j < i ==> Skipped(root[j], headstage)) &&
                         Magnitudes(root[i].channels) == r by {
        if r.Ok? {
          var i :| 0 <= i < |root[1..]| && Wanted(root[1..][i], headstage) && (forall j :: 0 <= j < i ==> Skipped(root[1..][j], headstage)) &&
                   Magnitudes(root[1..][i].channels) == r;
          assert Wanted(root[i + 1], headstage) && forall j :: 0 <= j < i + 1 ==> Skipped(root[j], headstage);
        }
      }
      r
    else if root[0].name.None? then Err(KeyError)
    else
      var m := Magnitudes(root[0].channels);
      assert m.Err? ==> m.error == KeyError;
      m
  }

  /** The headstages before the wanted one, and what follows it, do not
      change the result. */
  lemma {:induction false} ImpedanceOfFirstWanted(before: seq<XmlChild>, target: XmlChild, after: seq<XmlChild>, headstage: string)
    requires forall j :: 0 <= j < |before| ==> Skipped(before[j], headstage)
    requires Wanted(target, headstage)
    ensures ReadImpedanceXml(before + [target] + after, headstage) == Magnitudes(target.channels)
    decreases |before|
  {
    var root := before + [target] + after;
    if |before| == 0 {
      assert root[0] == target;
    } else {
      assert root[0] == before[0];
      assert root[1..] == before[1..] + [target] + after;
      ImpedanceOfFirstWanted(before[1..], target, after, headstage);
    }
  }

  // ---------------------------------------------------------------------
  // convert_one_session

  /** The number of channels kept from an Open Ephys recording. */
  const N_CH: nat := 32

  /** A loaded recording, samples by channels. */
  datatype Matrix = Matrix(nRows: nat, nCols: nat, at: seq<seq<real>>) {
    predicate Valid() {
      |at| == nRows && forall i :: 0 <= i < nRows ==> |at[i]| == nCols
    }
  }

  type ValidMatrix = m: Matrix | m.Valid() witness Matrix(0, 0, [])

  /** `data[:, :k]`: the first `k` columns of every row, all of them when
      there are fewer. */
  function FirstColumns(m: ValidMatrix, k: nat): (r: ValidMatrix)
    ensures r.nRows == m.nRows && r.nCols == (if m.nCols < k then m.nCols else k)
    ensures forall i, j :: 0 <= i < m.nRows && 0 <= j < r.nCols ==> r.at[i][j] == m.at[i][j]
  {
    var w := if m.nCols < k then m.nCols else k;
    Matrix(m.nRows, w, seq(m.nRows, i requires 0 <= i < m.nRows => m.at[i][..w]))
  }

  /** `info_struct`: the sample rate and the sample count of a session. */
  datatype SessionInfo = SessionInfo(sampleFreq: real, nSamples: nat)

  /** What a conversion hands on: the bookkeeping and the data that is
      written to the NWB file. */
  datatype Converted = Converted(info: SessionInfo, stored: ValidMatrix)

  /** `convert_one_session` as written: an existing output skips the session;
      otherwise the data and the sample rate are taken out of the loader's
      dictionaries, the first 32 channels are kept, and `n_samples` is read
      as `shape[1]` of the kept data. */
  function ConvertOneSessionAsWritten(exists_: bool, data: seq<Item<ValidMatrix>>, fs: seq<Item<real>>): (r: Result<Option<Converted>>)
    ensures exists_ ==> r == Ok(None)
    ensures r.Ok? && r.value.Some? ==> r.value.value.info.nSamples == r.value.value.stored.nCols
  {
    if exists_ then Ok(None)
    else
      var full :- GetData(data);
      var kept := FirstColumns(full, N_CH);
      var rate :- GetData(fs);
      Ok(Some(Converted(SessionInfo(rate, kept.nCols), kept)))
  }

  /** `convert_one_session` with `n_samples` read as `shape[0]`, the number
      of samples of the `(n_samples, n_channels)` array. */
  function ConvertOneSession(exists_: bool, data: seq<Item<ValidMatrix>>, fs: seq<Item<real>>): (r: Result<Option<Converted>>)
    ensures exists_ ==> r == Ok(None)
    ensures !exists_ && GetData(data).Err? ==> r == Err(IndexError)
    ensures !exists_ && GetData(data).Ok? ==> r.Ok? == GetData(fs).Ok?
    ensures r.Ok? && r.value.Some? ==>
              var full := GetData(data).value;
              var c := r.value.value;
              && c.info == SessionInfo(GetData(fs).value, full.nRows)
              && c.stored.nRows == full.nRows
              && c.stored.nCols == (if full.nCols < N_CH then full.nCols else N_CH)
              && forall i, j :: 0 <= i < full.nRows && 0 <= j < c.stored.nCols ==> c.stored.at[i][j] == full.at[i][j]
  {
    if exists_ then Ok(None)
    else
      var full :- GetData(data);
      var kept := FirstColumns(full, N_CH);
      var rate :- GetData(fs);
      Ok(Some(Converted(SessionInfo(rate, kept.nRows), kept)))
  }

  /** As written, a recording of 1000 samples on 40 channels reports 32
      samples; with `shape[0]` it reports 1000. */
  lemma ReportedSamplesAreChannels(m: ValidMatrix, rate: real)
    requires m.nRows == 1000 && m.nCols == 40
    ensures var data := [Item("recording", Leaf(m))];
            var fs := [Item("recording", Leaf(rate))];
            && ConvertOneSessionAsWritten(false, data, fs).value.value.info.nSamples == 32
            && ConvertOneSession(false, data, fs).value.value.info.nSamples == 1000
  {
  }

  // ---------------------------------------------------------------------
  // Output name and impedance column

  /** `os.path.basename(folder) + ".nwb"`, with one trailing '/' stripped
      first. */
  function NwbFileName(folder: string): (r: string)
    ensures EndsWith(r, ".nwb") && Free(r, '/')
  {
    var r := SessionName(folder) + ".nwb";
    assert r[|r| - 4..] == ".nwb";
    r
  }

  /** The file is named after the session folder, whether or not the folder
      is given with a trailing '/'. */
  lemma NwbFileNameOfFolder(parent: string, name: string, slash: bool)
    requires |name| > 0 && Free(name, '/')
    ensures NwbFileName(parent + "/" + name + (if slash then "/" else "")) == name + ".nwb"
  {
    var folder := parent + "/" + name;
    assert StripOneSlash(folder + (if slash then "/" else "")) == folder;
    BasenameIsLastPart(folder);
    SplitThenName(parent, name);
  }

  /** The electrode table's columns, by name. */
  datatype Column = Column(name: string, values: seq<real>)

  predicate HasColumn(cols: seq<Column>, name: string) {
    exists i :: 0 <= i < |cols| && cols[i].name == name
  }

  /** `add_column(name="imp", data=imps)` unless an `imp` column is already
      there, in which case the table is left as it is. */
  function AddImpColumn(cols: seq<Column>, imps: seq<real>): (r: seq<Column>)
    ensures HasColumn(r, "imp")
    ensures HasColumn(cols, "imp") ==> r == cols
    ensures !HasColumn(cols, "imp") ==> r == cols + [Column("imp", imps)]
  {
    if HasColumn(cols, "imp") then cols
    else
      var r := cols + [Column("imp", imps)];
      assert r[|cols|].name == "imp";
      r
  }

  /** Adding the impedances a second time changes nothing. */
  lemma AddImpIdempotent(cols: seq<Column>, imps: seq<real>, again: seq<real>)
    ensures AddImpColumn(AddImpColumn(cols, imps), again) == AddImpColumn(cols, imps)
  {
  }

  /** The impedance step of a session: nothing without an XML file,
      otherwise the read impedances are attached unless already present. */
  function AttachImpedances(cols: seq<Column>, xml: Option<seq<XmlChild>>, headstage: string): (r: Result<seq<Column>>)
    ensures xml.None? ==> r == Ok(cols)
    ensures xml.Some? ==> (r.Ok? <==> ReadImpedanceXml(xml.value, headstage).Ok?)
    ensures r.Ok? && xml.Some? ==> HasColumn(r.value, "imp")
    ensures r.Ok? && HasColumn(cols, "imp") ==> r.value == cols
  {
    match xml
    case None => Ok(cols)
    case Some(root) =>
      var imps :- ReadImpedanceXml(root, headstage);
      Ok(AddImpColumn(cols, imps))
  }
}

=== FILE: periods.dfy ===
/** `group_by_period` and `stat_datapoints_by_period`: the sessions of an
    animal are cut to the first `duration` days after surgery and bucketed
    by `day // period`; each bucket's feature vectors, pooled over the
    animals, give one dataset per period, summarised by its mean and by
    whether a standard error is defined. */
module Periods {
  import opened Wrappers
  import opened Seqs
  import opened Sessions
  import opened Scatters

  // ---------------------------------------------------------------------
  // Integer division as Python does it

  /** Python's `a // b`: the quotient rounded toward minus infinity. */
  function FloorDiv(a: int, b: int): (q: int)
    requires b != 0
    ensures b > 0 ==> q * b <= a < q * b + b
    ensures b < 0 ==> q * b + b < a <= q * b
  {
    if b > 0 then a / b else (-a) / (-b)
  }

  /** `int(np.ceil(a / b))`: the quotient rounded toward plus infinity. */
  function CeilDiv(a: int, b: int): (c: int)
    requires b != 0
    ensures b > 0 ==> c * b - b < a <= c * b
    ensures b < 0 ==> c * b <= a < c * b - b
  {
    -FloorDiv(-a, b)
  }

  /** `len([[] for _ in range(int(np.ceil(duration / period)))])`, which is
      also the length of `np.arange(0, duration, period)`. */
  function NGroups(duration: int, period: int): (g: nat)
    requires period != 0
    ensures period > 0 && duration > 0 ==> (g - 1) * period < duration <= g * period
    ensures period > 0 && duration <= 0 ==> g == 0
  {
    var c := CeilDiv(duration, period);
    if c < 0 then 0 else c
  }

  /** A positive factor can be cancelled from a strict inequality. */
  lemma CancelFactor(x: int, y: int, c: int)
    requires c > 0 && x * c < y * c
    ensures x < y
  {
    assert (y - x) * c == y * c - x * c;
  }

  /** A day inside `[0, duration)` falls in one of the `NGroups` periods. */
  lemma PeriodOfDayInRange(day: int, duration: int, period: int)
    requires period > 0 && 0 <= day < duration
    ensures 0 <= FloorDiv(day, period) < NGroups(duration, period)
  {
    var q := FloorDiv(day, period);
    var g := NGroups(duration, period);
    assert q * period < g * period;
    CancelFactor(q, g, period);
    assert 0 * period < (q + 1) * period;
    CancelFactor(0, q + 1, period);
  }

  // ---------------------------------------------------------------------
  // itertools.groupby into the period slots

  /** The key `daysstamp[k] // period` of one session; a day that is not an
      integer gives a key that cannot index a list. */
  function CellKey(c: Cell, period: int): (r: Option<int>)
    requires period != 0
    ensures r.Some? <==> c.Int?
  {
    if c.Int? then Some(FloorDiv(c.i, period)) else None
  }

  function CellKeys(cells: seq<Cell>, period: int): (r: seq<Option<int>>)
    requires period != 0
    ensures |r| == |cells| && forall k :: 0 <= k < |cells| ==> r[k] == CellKey(cells[k], period)
  {
    seq(|cells|, k requires 0 <= k < |cells| => CellKey(cells[k], period))
  }

  /** Whether session `k` opens a new run of equal keys. */
  predicate RunStart(keys: seq<Option<int>>, k: nat)
    requires k < |keys|
  {
    k == 0 || keys[k - 1] != keys[k]
  }

  /** `[[] for _ in range(g)]`. */
  function EmptySlots(g: nat): (r: seq<seq<nat>>)
    ensures |r| == g && forall p :: 0 <= p < g ==> r[p] == []
  {
    seq(g, p => [])
  }

  /** `for period, inds in groupby(range(n), key): grouped[period] = list(inds)`
      over `g` empty slots, one session at a time: each run of equal keys
      overwrites the slot its key names, so a key that comes back after a
      different one discards the earlier run. The first run whose key is not
      an integer raises a `TypeError`, the first whose key is outside
      `[-g, g)` an `IndexError`. */
  function GroupIndices(keys: seq<Option<int>>, g: nat): (r: Result<seq<seq<nat>>>)
    ensures r.Ok? ==> |r.value| == g
    ensures r.Ok? ==> forall p, j :: 0 <= p < g && 0 <= j < |r.value[p]| ==> r.value[p][j] < |keys|
    ensures r.Err? ==> r.error == TypeError || r.error == IndexError
    decreases |keys|
  {
    if |keys| == 0 then Ok(EmptySlots(g))
    else
      var k := |keys| - 1;
      var prev :- GroupIndices(keys[..k], g);
      var key :- ToResult(keys[k], TypeError);
      var slot :- ToResult(PyIndex(key, g), IndexError);
      if RunStart(keys, k) then Ok(prev[slot := [k]])
      else Ok(prev[slot := prev[slot] + [k]])
  }

  /** The sessions whose key is `p`, in order: the reference the grouping
      should produce. */
  function IndicesWith(keys: seq<int>, p: int): (r: seq<nat>)
    ensures forall j :: 0 <= j < |r| ==> r[j] < |keys| && keys[r[j]] == p
    ensures forall j, l :: 0 <= j < l < |r| ==> r[j] < r[l]
    ensures forall k :: 0 <= k < |keys| && keys[k] == p ==> k in r
    decreases |keys|
  {
    if |keys| == 0 then []
    else
      var k := |keys| - 1;
      var rest := IndicesWith(keys[..k], p);
      assert forall j :: 0 <= j < |rest| ==> keys[rest[j]] == keys[..k][rest[j]];
      assert forall i :: 0 <= i < k ==> keys[i] == keys[..k][i];
      if keys[k] == p then rest + [k] else rest
  }

  /** No session has a key above all the keys. */
  lemma {:induction false} IndicesWithAbsent(keys: seq<int>, p: int)
    requires forall k :: 0 <= k < |keys| ==> keys[k] < p
    ensures IndicesWith(keys, p) == []
    decreases |keys|
  {
    if |keys| > 0 {
      IndicesWithAbsent(keys[..|keys| - 1], p);
    }
  }

  function SomeKeys(keys: seq<int>): (r: seq<Option<int>>)
    ensures |r| == |keys| && forall k :: 0 <= k < |keys| ==> r[k] == Some(keys[k])
  {
    seq(|keys|, k requires 0 <= k < |keys| => Some(keys[k]))
  }

  /** One more session: its run either opens the slot afresh or extends it. */
  lemma GroupIndicesStep(keys: seq<Option<int>>, g: nat)
    requires |keys| > 0 && GroupIndices(keys[..|keys| - 1], g).Ok?
    requires keys[|keys| - 1].Some? && 0 <= keys[|keys| - 1].value < g
    ensures var k := |keys| - 1;
            var prev := GroupIndices(keys[..k], g).value;
            var slot := keys[k].value;
            GroupIndices(keys, g) == Ok(if RunStart(keys, k) then prev[slot := [k]] else prev[slot := prev[slot] + [k]])
  {
    assert PyIndex(keys[|keys| - 1].value, g) == Some(keys[|keys| - 1].value);
  }

  lemma IndicesWithStep(keys: seq<int>, p: int)
    requires |keys| > 0
    ensures IndicesWith(keys, p) == IndicesWith(keys[..|keys| - 1], p) + (if keys[|keys| - 1] == p then [|keys| - 1] else [])
  {
  }

  /** The slots the sorted keys give, one session at a time. */
  lemma SortedGroupStep(keys: seq<int>, g: nat)
    requires |keys| > 0 && NonDecreasing(keys)
    requires forall k :: 0 <= k < |keys| ==> 0 <= keys[k] < g
    requires var front := keys[..|keys| - 1];
             GroupIndices(SomeKeys(front), g) == Ok(seq(g, p requires 0 <= p < g => IndicesWith(front, p)))
    ensures GroupIndices(SomeKeys(keys), g) == Ok(seq(g, p requires 0 <= p < g => IndicesWith(keys, p)))
  {
    var want := seq(g, p requires 0 <= p < g => IndicesWith(keys, p));
    var k := |keys| - 1;
    var front := keys[..k];
    var sk := SomeKeys(keys);
    assert sk[..k] == SomeKeys(front);
    GroupIndicesStep(sk, g);
    var key := keys[k];
    var r := GroupIndices(sk, g).value;
    if RunStart(sk, k) {
      IndicesWithAbsent(front, key) by {
        forall i | 0 <= i < k ensures front[i] < key {
          assert keys[i] <= keys[k - 1] && keys[k - 1] != key;
        }
      }
    }
    forall p | 0 <= p < g ensures r[p] == want[p] {
      IndicesWithStep(keys, p);
    }
    assert r == want;
  }

  /** For keys that never decrease and all name one of the `g` slots, slot
      `p` ends up holding exactly the sessions with key `p`, in order, and a
      slot no session names stays empty. */
  lemma {:induction false} GroupIndicesOfSortedKeys(keys: seq<int>, g: nat)
    requires NonDecreasing(keys)
    requires forall k :: 0 <= k < |keys| ==> 0 <= keys[k] < g
    ensures GroupIndices(SomeKeys(keys), g) == Ok(seq(g, p requires 0 <= p < g => IndicesWith(keys, p)))
    decreases |keys|
  {
    if |keys| > 0 {
      var front := keys[..|keys| - 1];
      assert NonDecreasing(front);
      GroupIndicesOfSortedKeys(front, g);
      SortedGroupStep(keys, g);
    } else {
      assert EmptySlots(g) == seq(g, p requires 0 <= p < g => IndicesWith(keys, p));
    }
  }

  /** Without sorted days an earlier run is lost: with keys `0, 1, 0` the
      first session ends up in no slot. */
  lemma UnsortedKeysLoseSessions()
    ensures var keys := [0, 1, 0];
            && GroupIndices(SomeKeys(keys), 2) == Ok([[2], [1]])
            && IndicesWith(keys, 0) == [0, 2]
  {
    var keys := [0, 1, 0];
    var k1, k2, k3 := [Some(0)], [Some(0), Some(1)], [Some(0), Some(1), Some(0)];
    assert SomeKeys(keys) == k3;
    assert k3[..2] == k2 && k2[..1] == k1 && k1[..0] == [];
    assert GroupIndices(k1[..0], 2) == Ok([[], []]) by {
      assert EmptySlots(2) == [[], []];
    }
    GroupIndicesStep(k1, 2);
    assert [[], []][0 := [0]] == [[0], []];
    assert GroupIndices(k1, 2) == Ok([[0], []]);
    GroupIndicesStep(k2, 2);
    assert [[0], []][1 := [1]] == [[0], [1]];
    assert GroupIndices(k2, 2) == Ok([[0], [1]]);
    GroupIndicesStep(k3, 2);
    assert [[0], [1]][0 := [2]] == [[2], [1]];
    assert keys[..2] == [0, 1] && [0, 1][..1] == [0] && [0][..0] == [];
    IndicesWithStep([0], 0);
    IndicesWithStep([0, 1], 0);
    IndicesWithStep(keys, 0);
  }
  // ---------------------------------------------------------------------
  // group_by_period

  /** `timeseries[inds]`: a list cannot be indexed by a list, and every
      index must lie inside the array. */
  function IndexColumn(c: Column, inds: seq<nat>): (r: Result<seq<Cell>>)
    ensures r.Ok? <==> c.isArray && forall j :: 0 <= j < |inds| ==> inds[j] < |c.cells|
    ensures r.Ok? ==> |r.value| == |inds| && forall j :: 0 <= j < |inds| ==> r.value[j] == c.cells[inds[j]]
    ensures r.Err? ==> r.error == (if c.isArray then IndexError else TypeError)
  {
    if !c.isArray then Err(TypeError)
    else if forall j :: 0 <= j < |inds| ==> inds[j] < |c.cells| then Ok(Pick(c.cells, inds))
    else Err(IndexError)
  }

  /** `[timeseries[inds] for inds in sess_inds_grouped]`. */
  function GroupColumn(c: Column, groups: seq<seq<nat>>): (r: Result<seq<seq<Cell>>>)
    ensures r.Ok? <==> forall p :: 0 <= p < |groups| ==> IndexColumn(c, groups[p]).Ok?
    ensures r.Ok? ==> |r.value| == |groups| && forall p :: 0 <= p < |groups| ==> r.value[p] == IndexColumn(c, groups[p]).value
  {
    var rs := seq(|groups|, p requires 0 <= p < |groups| => IndexColumn(c, groups[p]));
    assert forall p :: 0 <= p < |groups| ==> rs[p] == IndexColumn(c, groups[p]);
    Collect(rs)
  }

  /** One entry of the grouped dictionary: a column cut into periods. */
  datatype GroupedEntry = GroupedEntry(key: string, periods: seq<seq<Cell>>)

  type GroupedDict = seq<GroupedEntry>

  function GroupAll(t: AnimalDict, groups: seq<seq<nat>>): (r: Result<GroupedDict>)
    ensures r.Ok? <==> forall i :: 0 <= i < |t| ==> GroupColumn(t[i].col, groups).Ok?
    ensures r.Ok? ==> |r.value| == |t| && forall i :: 0 <= i < |t| ==> r.value[i] == GroupedEntry(t[i].key, GroupColumn(t[i].col, groups).value)
  {
    var rs := seq(|t|, i requires 0 <= i < |t| => GroupColumn(t[i].col, groups));
    assert forall i :: 0 <= i < |t| ==> rs[i] == GroupColumn(t[i].col, groups);
    var cols :- Collect(rs);
    Ok(seq(|t|, i requires 0 <= i < |t| => GroupedEntry(t[i].key, cols[i])))
  }

  /** `group_by_period(animal_dict, duration, period)`: the sessions are first
      cut to days `0 .. duration - 1`; a zero period divides by zero; the
      sessions are then grouped by `day // period` into `NGroups` slots and
      every column is cut the same way. */
  function GroupByPeriod(d: AnimalDict, duration: int, period: int): (r: Result<GroupedDict>)
    ensures TruncateTimeseries(d, 0, duration - 1).Err? ==> r == Err(TruncateTimeseries(d, 0, duration - 1).error)
    ensures TruncateTimeseries(d, 0, duration - 1).Ok? && period == 0 ==> r == Err(ZeroDivisionError)
    ensures r.Ok? ==> period != 0 && |r.value| == |d|
    ensures r.Ok? ==> forall i :: 0 <= i < |d| ==> r.value[i].key == d[i].key && |r.value[i].periods| == NGroups(duration, period)
  {
    var t :- TruncateTimeseries(d, 0, duration - 1);
    assert Keys(t) == Keys(d);
    match Get(t, DAY_KEY)
    case None => Err(KeyError)
    case Some(days) =>
    if period == 0 then Err(ZeroDivisionError)
    else
      var groups :- GroupIndices(CellKeys(days.cells, period), NGroups(duration, period));
      GroupAll(t, groups)
  }

  /** `day // period` for every session. */
  function PeriodKeys(days: seq<int>, period: int): (r: seq<int>)
    requires period != 0
    ensures |r| == |days| && forall k :: 0 <= k < |days| ==> r[k] == FloorDiv(days[k], period)
  {
    seq(|days|, k requires 0 <= k < |days| => FloorDiv(days[k], period))
  }

  lemma FloorDivMonotone(a: int, b: int, period: int)
    requires period > 0 && a <= b
    ensures FloorDiv(a, period) <= FloorDiv(b, period)
  {
    var qa, qb := FloorDiv(a, period), FloorDiv(b, period);
    assert qa * period < (qb + 1) * period;
    CancelFactor(qa, qb + 1, period);
  }

  /** Values picked at ascending positions of a non-decreasing sequence
      never decrease. */
  lemma PickedNonDecreasing(xs: seq<int>, at: seq<nat>, ys: seq<int>)
    requires NonDecreasing(xs) && |ys| == |at|
    requires forall k, l :: 0 <= k < l < |at| ==> at[k] < at[l]
    requires forall k :: 0 <= k < |at| ==> at[k] < |xs| && ys[k] == xs[at[k]]
    ensures NonDecreasing(ys)
  {
    forall k, l | 0 <= k <= l < |ys| ensures ys[k] <= ys[l] {
      if k < l {
        assert at[k] < at[l];
      }
    }
  }

  /** Truncating an animal whose days are whole and never decrease keeps
      them whole and ordered, inside the window, and one per session in
      every column. */
  lemma TruncatedDaysSorted(d: AnimalDict, first: int, last: int)
    requires Get(d, DAY_KEY).Some? && IntsOf(Get(d, DAY_KEY).value).Some?
    requires NonDecreasing(IntsOf(Get(d, DAY_KEY).value).value)
    ensures TruncateTimeseries(d, first, last).Ok? ==>
              var t := TruncateTimeseries(d, first, last).value;
              && Get(t, DAY_KEY).Some? && IntsOf(Get(t, DAY_KEY).value).Some?
              && var days := IntsOf(Get(t, DAY_KEY).value).value;
                 && NonDecreasing(days)
                 && (forall k :: 0 <= k < |days| ==> first <= days[k] <= last)
                 && Aligned(t, |days|)
  {
    if TruncateTimeseries(d, first, last).Ok? {
      var t := TruncateTimeseries(d, first, last).value;
      TruncateKeepsWindow(d, first, last);
      var kept := TrueIndices(InWindow(DayValues(d).value, first, last));
      var w := KeyIndex(Keys(d), DAY_KEY).value;
      assert Keys(t) == Keys(d);
      var ddays := IntsOf(d[w].col).value;
      var tc := t[w].col;
      assert Get(t, DAY_KEY) == Some(tc);
      forall k | 0 <= k < |tc.cells| ensures tc.cells[k] == Int(ddays[kept[k]]) {
      }
      var days := IntsOf(tc).value;
      forall k | 0 <= k < |days| ensures kept[k] < |ddays| && days[k] == ddays[kept[k]] {
        assert tc.cells[k] == Int(days[k]);
      }
      PickedNonDecreasing(ddays, kept, days);
      forall k | 0 <= k < |days| ensures first <= days[k] <= last {
        assert NumValue(tc.cells[k]) == days[k] as real;
      }
    }
  }

  /** With a positive period and whole, non-decreasing days, grouping
      succeeds; after the cut to `[0, duration)`, period `p` of every column
      holds exactly the sessions with `day // period == p`, in order, and a
      period without sessions is empty. */
  lemma GroupByPeriodOfSortedDays(d: AnimalDict, duration: int, period: int)
    requires period > 0
    requires TruncateTimeseries(d, 0, duration - 1).Ok?
    requires Get(d, DAY_KEY).Some? && IntsOf(Get(d, DAY_KEY).value).Some?
    requires NonDecreasing(IntsOf(Get(d, DAY_KEY).value).value)
    ensures var t := TruncateTimeseries(d, 0, duration - 1).value;
            && Get(t, DAY_KEY).Some? && IntsOf(Get(t, DAY_KEY).value).Some?
            && var days := IntsOf(Get(t, DAY_KEY).value).value;
               var keys := PeriodKeys(days, period);
               && Aligned(t, |days|)
               && (forall k :: 0 <= k < |days| ==> 0 <= days[k] < duration)
               && GroupByPeriod(d, duration, period).Ok?
               && var r := GroupByPeriod(d, duration, period).value;
                  && |r| == |t|
                  && forall i, p :: 0 <= i < |t| && 0 <= p < NGroups(duration, period) ==>
                       r[i].key == t[i].key && r[i].periods[p] == Pick(t[i].col.cells, IndicesWith(keys, p))
  {
    var t := TruncateTimeseries(d, 0, duration - 1).value;
    TruncatedDaysSorted(d, 0, duration - 1);
    var dc := Get(t, DAY_KEY).value;
    var days := IntsOf(dc).value;
    var keys := PeriodKeys(days, period);
    var g := NGroups(duration, period);
    SortedDaysGiveSortedKeys(days, duration, period);
    assert CellKeys(dc.cells, period) == SomeKeys(keys);
    GroupIndicesOfSortedKeys(keys, g);
    var groups := seq(g, p requires 0 <= p < g => IndicesWith(keys, p));
    GroupByPeriodUnfolds(d, duration, period);
    forall i | 0 <= i < |t| ensures GroupColumn(t[i].col, groups).Ok? && forall p :: 0 <= p < g ==> GroupColumn(t[i].col, groups).value[p] == Pick(t[i].col.cells, groups[p]) {
      GroupColumnOfGroups(t[i].col, groups);
    }
  }

  lemma SortedDaysGiveSortedKeys(days: seq<int>, duration: int, period: int)
    requires period > 0 && NonDecreasing(days)
    requires forall k :: 0 <= k < |days| ==> 0 <= days[k] < duration
    ensures NonDecreasing(PeriodKeys(days, period))
    ensures forall k :: 0 <= k < |days| ==> 0 <= PeriodKeys(days, period)[k] < NGroups(duration, period)
  {
    var keys := PeriodKeys(days, period);
    forall k | 0 <= k < |keys| ensures 0 <= keys[k] < NGroups(duration, period) {
      PeriodOfDayInRange(days[k], duration, period);
    }
    forall k, l | 0 <= k <= l < |keys| ensures keys[k] <= keys[l] {
      FloorDivMonotone(days[k], days[l], period);
    }
  }

  lemma GroupColumnOfGroups(c: Column, groups: seq<seq<nat>>)
    requires c.isArray
    requires forall p, j :: 0 <= p < |groups| && 0 <= j < |groups[p]| ==> groups[p][j] < |c.cells|
    ensures GroupColumn(c, groups).Ok?
    ensures forall p :: 0 <= p < |groups| ==> GroupColumn(c, groups).value[p] == Pick(c.cells, groups[p])
  {
  }

  lemma GroupByPeriodUnfolds(d: AnimalDict, duration: int, period: int)
    requires period != 0 && TruncateTimeseries(d, 0, duration - 1).Ok?
    ensures var t := TruncateTimeseries(d, 0, duration - 1).value;
            && Get(t, DAY_KEY).Some?
            && var keys := CellKeys(Get(t, DAY_KEY).value.cells, period);
               GroupByPeriod(d, duration, period) ==
                 match GroupIndices(keys, NGroups(duration, period))
                 case Err(e) => Err(e)
                 case Ok(groups) => GroupAll(t, groups)
  {
    var t := TruncateTimeseries(d, 0, duration - 1).value;
    TruncateKeepsWindow(d, 0, duration - 1);
  }

  // ---------------------------------------------------------------------
  // stat_datapoints_by_period

  /** One animal of `dict_animals`, in the dictionary's order. */
  datatype Animal = Animal(name: string, data: AnimalDict)

  /** `adict[key]` on a grouped dictionary. */
  function GroupedLookup(gd: GroupedDict, key: string): (r: Result<seq<seq<Cell>>>)
    ensures r.Err? <==> forall i :: 0 <= i < |gd| ==> gd[i].key != key
    ensures r.Err? ==> r.error == KeyError
    ensures r.Ok? ==> exists i :: 0 <= i < |gd| && gd[i] == GroupedEntry(key, r.value)
    decreases |gd|
  {
    if |gd| == 0 then Err(KeyError)
    else if gd[0].key == key then Ok(gd[0].periods)
    else
      var r := GroupedLookup(gd[1..], key);
      assert forall i :: 1 <= i < |gd| ==> gd[i] == gd[1..][i - 1];
      r
  }

  /** The number of values the vector sessions hold; anything else counts
      for nothing. */
  function VecTotal(cells: seq<Cell>): nat
    decreases |cells|
  {
    if |cells| == 0 then 0 else (if cells[0].Vec? then |cells[0].xs| else 0) + VecTotal(cells[1..])
  }

  lemma {:induction false} VecTotalAppend(a: seq<Cell>, b: seq<Cell>)
    ensures VecTotal(a + b) == VecTotal(a) + VecTotal(b)
    decreases |a|
  {
    if |a| > 0 {
      assert (a + b)[1..] == a[1..] + b;
      VecTotalAppend(a[1..], b);
    } else {
      assert a + b == b;
    }
  }

  /** `np.concatenate` of the sessions' feature vectors: a session that is a
      scalar is zero-dimensional and raises a `ValueError`. */
  function ConcatVecs(cells: seq<Cell>): (r: Result<seq<real>>)
    ensures r.Ok? <==> forall s :: 0 <= s < |cells| ==> cells[s].Vec?
    ensures r.Err? ==> r.error == ValueError
    ensures r.Ok? ==> |r.value| == VecTotal(cells)
    decreases |cells|
  {
    if |cells| == 0 then Ok([])
    else if !cells[0].Vec? then Err(ValueError)
    else
      assert forall s :: 1 <= s < |cells| ==> cells[s] == cells[1..][s - 1];
      var rest :- ConcatVecs(cells[1..]);
      Ok(cells[0].xs + rest)
  }

  /** Concatenating two runs of sessions concatenates their values. */
  lemma {:induction false} ConcatVecsAppend(a: seq<Cell>, b: seq<Cell>)
    requires ConcatVecs(a).Ok? && ConcatVecs(b).Ok?
    ensures ConcatVecs(a + b) == Ok(ConcatVecs(a).value + ConcatVecs(b).value)
    decreases |a|
  {
    if |a| > 0 {
      assert (a + b)[1..] == a[1..] + b && (a + b)[0] == a[0];
      ConcatVecsAppend(a[1..], b);
      var x, ra, rb := a[0].xs, ConcatVecs(a[1..]).value, ConcatVecs(b).value;
      assert x + (ra + rb) == (x + ra) + rb;
    } else {
      assert a + b == b;
      assert ConcatVecs(a).value + ConcatVecs(b).value == ConcatVecs(b).value;
    }
  }

  /** Period `p` of every animal's feature column, in animal order. */
  function PeriodParts(features: seq<seq<seq<Cell>>>, p: nat): (r: seq<seq<Cell>>)
    requires forall a :: 0 <= a < |features| ==> p < |features[a]|
    ensures |r| == |features| && forall a :: 0 <= a < |features| ==> r[a] == features[a][p]
  {
    seq(|features|, a requires 0 <= a < |features| => features[a][p])
  }

  /** One entry of `datasets`: `np.concatenate([np.array([])] + sessions)`
      over the sessions every animal has in period `p`. */
  function Dataset(features: seq<seq<seq<Cell>>>, p: nat): (r: Result<seq<real>>)
    ensures (exists a :: 0 <= a < |features| && p >= |features[a]|) ==> r == Err(IndexError)
    ensures r.Err? ==> r.error == IndexError || r.error == ValueError
  {
    if exists a :: 0 <= a < |features| && p >= |features[a]| then Err(IndexError)
    else ConcatVecs(Flatten(PeriodParts(features, p)))
  }

  function Totals(parts: seq<seq<Cell>>): (r: seq<nat>)
    ensures |r| == |parts| && forall a :: 0 <= a < |parts| ==> r[a] == VecTotal(parts[a])
  {
    seq(|parts|, a requires 0 <= a < |parts| => VecTotal(parts[a]))
  }

  lemma {:induction false} VecTotalFlatten(parts: seq<seq<Cell>>)
    ensures VecTotal(Flatten(parts)) == Sum(Totals(parts))
    decreases |parts|
  {
    if |parts| > 0 {
      VecTotalFlatten(parts[1..]);
      VecTotalAppend(parts[0], Flatten(parts[1..]));
      assert Totals(parts)[1..] == Totals(parts[1..]);
    }
  }

  /** A period's dataset holds as many values as the animals' sessions in
      that period hold together. */
  lemma DatasetSize(features: seq<seq<seq<Cell>>>, p: nat)
    requires Dataset(features, p).Ok?
    ensures forall a :: 0 <= a < |features| ==> p < |features[a]|
    ensures |Dataset(features, p).value| == Sum(Totals(PeriodParts(features, p)))
  {
    VecTotalFlatten(PeriodParts(features, p));
  }

  /** `np.arange(0, duration, period)`. */
  function DaysApprox(duration: int, period: int): (r: seq<int>)
    requires period != 0
    ensures |r| == NGroups(duration, period)
  {
    seq(NGroups(duration, period), i => i * period)
  }

  /** With a positive period the approximate days are the multiples of the
      period from zero, every one below `duration`, and the next multiple is
      not. */
  lemma DaysApproxAreMultiplesBelow(duration: int, period: int)
    requires period > 0
    ensures var r := DaysApprox(duration, period);
            && (forall i :: 0 <= i < |r| ==> r[i] == i * period && 0 <= r[i] < duration)
            && |r| * period >= duration
  {
    var r := DaysApprox(duration, period);
    var g := |r|;
    if duration > 0 {
      forall i | 0 <= i < g ensures 0 <= r[i] < duration {
        MulMonotone(i, g - 1, period);
      }
    }
  }

  /** Multiplying by a positive factor keeps the order of non-negatives. */
  lemma MulMonotone(i: int, j: int, c: int)
    requires 0 <= i <= j && c > 0
    ensures 0 <= i * c <= j * c
  {
    assert j * c == i * c + (j - i) * c;
  }

  /** What `stat_datapoints_by_period` returns, with the pooled datasets the
      summaries are taken from; a standard error is only recorded as
      defined or not. */
  datatype PeriodStats = PeriodStats(datasets: seq<seq<real>>, means: seq<Option<real>>, semDefined: seq<bool>, daysApprox: seq<int>)

  function Summarise(ds: seq<seq<real>>, duration: int, period: int): (r: PeriodStats)
    requires period != 0
    ensures r.datasets == ds && |r.means| == |r.semDefined| == |ds| && r.daysApprox == DaysApprox(duration, period)
    ensures forall p :: 0 <= p < |ds| ==> r.means[p] == Mean(ds[p])
    ensures forall p :: 0 <= p < |ds| ==> (r.semDefined[p] <==> |ds[p]| > 1)
  {
    PeriodStats(ds,
                seq(|ds|, p requires 0 <= p < |ds| => Mean(ds[p])),
                seq(|ds|, p requires 0 <= p < |ds| => |ds[p]| > 1),
                DaysApprox(duration, period))
  }

  /** The datasets of `g` periods: every animal's feature column is looked up
      first (a missing one is a `KeyError`), then each period is pooled. */
  function PeriodDatasets(grouped: seq<GroupedDict>, g: nat): (r: Result<seq<seq<real>>>)
    ensures r.Ok? ==> |r.value| == g
  {
    var features :- Collect(FeatureLookups(grouped));
    Collect(seq(g, p requires 0 <= p < g => Dataset(features, p)))
  }

  /** Every animal's grouping, in order. */
  function Groupings(animals: seq<Animal>, duration: int, period: int): (r: seq<Result<GroupedDict>>)
    ensures |r| == |animals| && forall a :: 0 <= a < |animals| ==> r[a] == GroupByPeriod(animals[a].data, duration, period)
  {
    seq(|animals|, a requires 0 <= a < |animals| => GroupByPeriod(animals[a].data, duration, period))
  }

  /** Every grouped animal's feature column, in order. */
  function FeatureLookups(grouped: seq<GroupedDict>): (r: seq<Result<seq<seq<Cell>>>>)
    ensures |r| == |grouped| && forall a :: 0 <= a < |grouped| ==> r[a] == GroupedLookup(grouped[a], FEATURE_KEY)
  {
    seq(|grouped|, a requires 0 <= a < |grouped| => GroupedLookup(grouped[a], FEATURE_KEY))
  }

  /** `stat_datapoints_by_period(dict_animals, duration, period)`: every
      animal is grouped first, in order, and the first failure is raised; a
      zero period divides by zero; with no periods nothing is looked up;
      otherwise each period pools its sessions over the animals. */
  function StatDatapointsByPeriod(animals: seq<Animal>, duration: int, period: int): (r: Result<PeriodStats>)
    ensures r.Ok? ==> period != 0
    ensures r.Ok? ==> var n := NGroups(duration, period);
                      && |r.value.datasets| == |r.value.means| == |r.value.semDefined| == |r.value.daysApprox| == n
                      && forall p :: 0 <= p < n ==>
                           && (r.value.means[p].None? <==> |r.value.datasets[p]| == 0)
                           && (r.value.semDefined[p] <==> |r.value.datasets[p]| > 1)
    ensures (forall a :: 0 <= a < |animals| ==> GroupByPeriod(animals[a].data, duration, period).Ok?) && period == 0 ==> r == Err(ZeroDivisionError)
    ensures r.Err? && period != 0 && NGroups(duration, period) == 0 ==>
              exists a :: 0 <= a < |animals| && GroupByPeriod(animals[a].data, duration, period) == Err(r.error)
  {
    var grouping := Groupings(animals, duration, period);
    var grouped :- Collect(grouping);
    if period == 0 then Err(ZeroDivisionError)
    else
      var g := NGroups(duration, period);
      var ds :- if g == 0 then Ok([]) else PeriodDatasets(grouped, g);
      Ok(Summarise(ds, duration, period))
  }

  /** The feature vectors animal `d` has in period `p`: none when its
      grouping or its feature column is missing. */
  function SessionsIn(d: AnimalDict, duration: int, period: int, p: nat): seq<Cell> {
    match GroupByPeriod(d, duration, period)
    case Err(_) => []
    case Ok(gd) =>
      match GroupedLookup(gd, FEATURE_KEY)
      case Err(_) => []
      case Ok(col) => if p < |col| then col[p] else []
  }

  function AnimalTotals(animals: seq<Animal>, duration: int, period: int, p: nat): (r: seq<nat>)
    ensures |r| == |animals| && forall a :: 0 <= a < |animals| ==> r[a] == VecTotal(SessionsIn(animals[a].data, duration, period, p))
  {
    seq(|animals|, a requires 0 <= a < |animals| => VecTotal(SessionsIn(animals[a].data, duration, period, p)))
  }

  /** Period `p`'s parts, taken from the looked-up feature columns, are the
      feature vectors each animal has in that period. */
  lemma PartsAreSessions(animals: seq<Animal>, duration: int, period: int, p: nat,
                         grouped: seq<GroupedDict>, features: seq<seq<seq<Cell>>>)
    requires forall a :: 0 <= a < |features| ==> p < |features[a]|
    ensures Collect(Groupings(animals, duration, period)) == Ok(grouped) &&
            Collect(FeatureLookups(grouped)) == Ok(features) ==>
              Totals(PeriodParts(features, p)) == AnimalTotals(animals, duration, period, p)
  {
    if Collect(Groupings(animals, duration, period)) == Ok(grouped) && Collect(FeatureLookups(grouped)) == Ok(features) {
      var parts := PeriodParts(features, p);
      forall a | 0 <= a < |animals| ensures parts[a] == SessionsIn(animals[a].data, duration, period, p) {
        assert Groupings(animals, duration, period)[a] == Ok(grouped[a]);
        assert FeatureLookups(grouped)[a] == Ok(features[a]);
      }
    }
  }

  /** Each period's dataset holds exactly as many values as the feature
      vectors of all the animals' sessions in that period together. */
  lemma PooledDatasetSize(animals: seq<Animal>, duration: int, period: int, p: nat)
    requires period != 0 && p < NGroups(duration, period)
    ensures StatDatapointsByPeriod(animals, duration, period).Ok? ==>
              |StatDatapointsByPeriod(animals, duration, period).value.datasets[p]| == Sum(AnimalTotals(animals, duration, period, p))
  {
    if StatDatapointsByPeriod(animals, duration, period).Ok? {
      var g := NGroups(duration, period);
      var grouped := Collect(Groupings(animals, duration, period)).value;
      var features := Collect(FeatureLookups(grouped)).value;
      var sets := seq(g, q requires 0 <= q < g => Dataset(features, q));
      assert sets[p] == Dataset(features, p);
      var ds := Collect(sets).value;
      assert StatDatapointsByPeriod(animals, duration, period).value.datasets == ds;
      DatasetSize(features, p);
      PartsAreSessions(animals, duration, period, p, grouped, features);
    }
  }
}

=== FILE: rhd_cat.dfy ===
/** rhd_folder.py `intans2nwb_cat`: several session folders, each listed and
    ordered by time, optionally ordered by their start times, streamed into
    one NWB file, while recording at which sample each session begins. */
module RhdCat {
  import opened Wrappers
  import opened Seqs
  import opened Dataset
  import opened Channels
  import opened Nwb
  import opened RhdIo
  import opened RhdNames
  import opened RhdFolder

  /** An `OrderedDict` from folder names to sample offsets, as its items. */
  type Offsets = seq<(string, nat)>

  function Keys(d: Offsets): (ks: seq<string>)
    ensures |ks| == |d| && forall i :: 0 <= i < |d| ==> ks[i] == d[i].0
  {
    seq(|d|, i requires 0 <= i < |d| => d[i].0)
  }

  /** `d[k]`, if present. */
  function Get(d: Offsets, k: string): Option<nat>
    decreases |d|
  {
    if |d| == 0 then None
    else if d[0].0 == k then Some(d[0].1)
    else Get(d[1..], k)
  }

  /** `d[k] = v`: a present key keeps its position, a new one goes last. */
  function Assign(d: Offsets, k: string, v: nat): (r: Offsets)
    ensures Get(r, k) == Some(v)
    ensures forall x :: x != k ==> Get(r, x) == Get(d, x)
    decreases |d|
  {
    if |d| == 0 then [(k, v)]
    else if d[0].0 == k then
      assert ([(k, v)] + d[1..])[1..] == d[1..];
      [(k, v)] + d[1..]
    else
      var rest := Assign(d[1..], k, v);
      assert ([d[0]] + rest)[1..] == rest;
      [d[0]] + rest
  }

  /** Assigning keeps the order of the keys and adds a new key last. */
  lemma {:induction false} AssignKeepsOrder(d: Offsets, k: string, v: nat)
    ensures Get(d, k).None? ==> Assign(d, k, v) == d + [(k, v)]
    ensures Get(d, k).Some? ==> Keys(Assign(d, k, v)) == Keys(d)
    decreases |d|
  {
    if |d| > 0 && d[0].0 != k {
      AssignKeepsOrder(d[1..], k, v);
      var rest := Assign(d[1..], k, v);
      assert Assign(d, k, v) == [d[0]] + rest;
      assert Get(d, k) == Get(d[1..], k);
      if Get(d, k).None? {
        assert [d[0]] + (d[1..] + [(k, v)]) == d + [(k, v)];
      } else {
        assert Keys(d) == [d[0].0] + Keys(d[1..]);
        assert Keys([d[0]] + rest) == [d[0].0] + Keys(rest);
      }
    } else if |d| > 0 {
      var r := [(k, v)] + d[1..];
      assert Assign(d, k, v) == r;
      forall i | 0 <= i < |d| ensures Keys(r)[i] == Keys(d)[i] {
        if i > 0 {
          assert r[i] == d[i];
        }
      }
      assert Keys(r) == Keys(d);
    } else {
      assert d + [(k, v)] == [(k, v)];
    }
  }

  /** One session folder after listing: its files in time order and the
      time of the first. */
  datatype SessionFiles = SessionFiles(dname: string, files: seq<ParsedRhd>, start: int)

  predicate SessionValid(s: SessionFiles) {
    |s.files| > 0 && AllValid(s.files)
  }

  /** Lists, orders and reads one folder; a folder without `.rhd` files
      cannot give a start time. */
  function ListSession(dname: string, listdir: string -> seq<string>, read: (string, string) -> ParsedRhd,
                       decode: string -> Option<int>): (r: Result<SessionFiles>)
    requires forall d, n :: read(d, n).Valid()
    ensures SortedRhdFiles(listdir(dname), decode).Err? ==> r == Err(SortedRhdFiles(listdir(dname), decode).error)
    ensures SortedRhdFiles(listdir(dname), decode) == Ok([]) ==> r == Err(IndexError)
    ensures r.Ok? ==>
              var sorted := SortedRhdFiles(listdir(dname), decode).value;
              && SessionValid(r.value) && r.value.dname == dname && |r.value.files| == |sorted|
              && (forall k :: 0 <= k < |sorted| ==> r.value.files[k] == read(dname, sorted[k].name))
              && r.value.start == sorted[0].stamp
              && (forall k :: 0 <= k < |sorted| ==> r.value.start <= sorted[k].stamp)
  {
    var sorted :- SortedRhdFiles(listdir(dname), decode);
    if |sorted| == 0 then Err(IndexError)
    else Ok(ReadSession(dname, sorted, read))
  }

  /** Reads the time-ordered files of one folder; the session starts at the
      first file's time. */
  function ReadSession(dname: string, sorted: seq<Stamped>, read: (string, string) -> ParsedRhd): (s: SessionFiles)
    requires forall d, n :: read(d, n).Valid()
    requires |sorted| > 0 && SortedBy(sorted, ByStamp)
    ensures SessionValid(s) && s.dname == dname && |s.files| == |sorted|
    ensures forall k :: 0 <= k < |sorted| ==> s.files[k] == read(dname, sorted[k].name)
    ensures s.start == sorted[0].stamp && forall k :: 0 <= k < |sorted| ==> s.start <= sorted[k].stamp
  {
    var files := seq(|sorted|, k requires 0 <= k < |sorted| => read(dname, sorted[k].name));
    assert forall k :: 0 < k < |sorted| ==> ByStamp(sorted[0], sorted[k]);
    SessionFiles(dname, files, sorted[0].stamp)
  }

  /** The outcome of listing each folder in turn. */
  function SessionListings(dnames: seq<string>, listdir: string -> seq<string>, read: (string, string) -> ParsedRhd,
                           decode: string -> Option<int>): (rs: seq<Result<SessionFiles>>)
    requires forall d, n :: read(d, n).Valid()
    ensures |rs| == |dnames| && forall j :: 0 <= j < |dnames| ==> rs[j] == ListSession(dnames[j], listdir, read, decode)
  {
    seq(|dnames|, j requires 0 <= j < |dnames| => ListSession(dnames[j], listdir, read, decode))
  }

  /** The listing loop: one entry per folder, stopping at the first folder
      that cannot be listed. */
  function ListSessions(dnames: seq<string>, listdir: string -> seq<string>, read: (string, string) -> ParsedRhd,
                        decode: string -> Option<int>): (r: Result<seq<SessionFiles>>)
    requires forall d, n :: read(d, n).Valid()
    ensures r.Ok? ==> |r.value| == |dnames|
    ensures r.Ok? ==> forall j :: 0 <= j < |dnames| ==> ListSession(dnames[j], listdir, read, decode) == Ok(r.value[j])
    ensures r.Err? <==> exists j :: 0 <= j < |dnames| && ListSession(dnames[j], listdir, read, decode).Err?
    ensures r.Err? ==> exists j :: 0 <= j < |dnames| && ListSession(dnames[j], listdir, read, decode) == Err(r.error) &&
                                   forall i :: 0 <= i < j ==> ListSession(dnames[i], listdir, read, decode).Ok?
  {
    Collect(SessionListings(dnames, listdir, read, decode))
  }

  lemma ListedSessionsValid(dnames: seq<string>, listdir: string -> seq<string>, read: (string, string) -> ParsedRhd,
                            decode: string -> Option<int>)
    requires forall d, n :: read(d, n).Valid()
    ensures ListSessions(dnames, listdir, read, decode).Ok? ==>
              AllSessionsValid(ListSessions(dnames, listdir, read, decode).value)
  {
    if ListSessions(dnames, listdir, read, decode).Ok? {
      var ss := ListSessions(dnames, listdir, read, decode).value;
      forall j | 0 <= j < |ss| ensures SessionValid(ss[j]) {
        assert ListSession(dnames[j], listdir, read, decode) == Ok(ss[j]);
      }
    }
  }

  predicate ByStart(a: SessionFiles, b: SessionFiles) {
    a.start <= b.start
  }

  lemma ByStartIsPreorder()
    ensures TotalPreorder(ByStart)
  {
  }

  /** With `sort_by_time`, sessions are stably ordered by start time. */
  function OrderSessions(ss: seq<SessionFiles>, sortByTime: bool): (r: seq<SessionFiles>)
    ensures multiset(r) == multiset(ss)
    ensures sortByTime ==> SortedBy(r, ByStart)
    ensures !sortByTime ==> r == ss
  {
    if sortByTime then
      ByStartIsPreorder();
      SortBy(ss, ByStart)
    else ss
  }

  lemma OrderedSessionsValid(ss: seq<SessionFiles>, sortByTime: bool)
    requires AllSessionsValid(ss)
    ensures AllSessionsValid(OrderSessions(ss, sortByTime))
  {
    var ordered := OrderSessions(ss, sortByTime);
    forall j | 0 <= j < |ordered| ensures SessionValid(ordered[j]) {
      assert ordered[j] in multiset(ss);
    }
  }

  /** `channel_masks[i]`: no list is a `TypeError`, a short one an `IndexError`. */
  function MaskAt(masks: Option<seq<MaskArg>>, i: nat): (r: Result<MaskArg>)
    ensures masks.None? ==> r == Err(TypeError)
    ensures masks.Some? ==> (r.Ok? <==> i < |masks.value|) && (r.Ok? ==> r.value == masks.value[i])
    ensures masks.Some? && r.Err? ==> r.error == IndexError
  {
    if masks.None? then Err(TypeError)
    else if i < |masks.value| then Ok(masks.value[i])
    else Err(IndexError)
  }

  /** The selection one later session uses for all its files: the default
      `initiate_nwb` would apply when no mask is given, else the given mask,
      checked as `append_nwb` checks it. */
  function SessionMask(p: ParsedRhd, maskArg: MaskArg): (r: Result<seq<bool>>)
    requires p.Valid()
    ensures maskArg.NoMask? ==> r == InitialMask(p, maskArg)
    ensures maskArg.GivenMask? ==> r == ResolveMask(maskArg, p.amp.nRows, AssertionError)
    ensures r.Ok? <==> InitialMask(p, maskArg).Ok?
    ensures r.Ok? ==> r.value == InitialMask(p, maskArg).value
  {
    if maskArg.NoMask? then InitialMask(p, maskArg)
    else ResolveMask(maskArg, p.amp.nRows, AssertionError)
  }

  /** The progress of the concatenation: the offsets recorded so far, the
      sample counter, and the NWB file once the first session created it. */
  datatype CatState = CatState(begins: Offsets, total: nat, file: Option<NwbFile>)

  /** The counter counts the rows of the NWB data. */
  predicate StateValid(st: CatState) {
    && (st.file.None? ==> st.total == 0)
    && (st.file.Some? ==> st.file.value.series.data.Valid() && st.file.value.series.data.nRows == st.total)
  }

  /** One session: its offset is the counter before it. The first session's
      first file initiates the file with the session's start time; every
      other file is appended with the session's selection. */
  function CatSession(st: CatState, s: SessionFiles, i: nat, masks: Option<seq<MaskArg>>, mapArg: ChannelMapArg,
                      md: Option<Metadata>, conv: Option<DataConv>): (r: Result<CatState>)
    requires SessionValid(s) && MapArgValid(mapArg) && StateValid(st)
    ensures MaskAt(masks, i).Err? ==> r == Err(MaskAt(masks, i).error)
    ensures st.file.None? && md.None? && MaskAt(masks, i).Ok? ==> r == Err(TypeError)
    ensures r.Ok? ==>
              && StateValid(r.value) && r.value.file.Some?
              && r.value.begins == Assign(st.begins, s.dname, st.total)
              && r.value.total == st.total + Sum(FileSamples(s.files))
    ensures r.Ok? && st.file.None? ==> r.value.file.value.header.startTime == At(s.start)
  {
    var maskArg :- MaskAt(masks, i);
    var begins := Assign(st.begins, s.dname, st.total);
    var total := st.total + Sum(FileSamples(s.files));
    if st.file.None? then
      if md.None? then Err(TypeError)
      else
        var f :- ConvertFiles(s.files, mapArg, md.value.(startTime := Some(At(s.start))), maskArg, conv);
        Ok(CatState(begins, total, Some(f)))
    else
      var mask :- SessionMask(s.files[0], maskArg);
      var f :- AppendNwbAll(st.file.value, s.files, GivenMask(true, mask));
      AppendAllRowCount(st.file.value, s.files, GivenMask(true, mask));
      Ok(CatState(begins, total, Some(f)))
  }

  predicate AllSessionsValid(ss: seq<SessionFiles>) {
    forall j :: 0 <= j < |ss| ==> SessionValid(ss[j])
  }

  /** Sessions `i0`, `i0 + 1`, ... in order; the first error stops. */
  function CatAll(st: CatState, ss: seq<SessionFiles>, i0: nat, masks: Option<seq<MaskArg>>, mapArg: ChannelMapArg,
                  md: Option<Metadata>, conv: Option<DataConv>): (r: Result<CatState>)
    requires AllSessionsValid(ss) && MapArgValid(mapArg) && StateValid(st)
    ensures r.Ok? ==> StateValid(r.value)
    decreases |ss|
  {
    if |ss| == 0 then Ok(st)
    else
      var st' :- CatSession(st, ss[0], i0, masks, mapArg, md, conv);
      CatAll(st', ss[1..], i0 + 1, masks, mapArg, md, conv)
  }

  /** The sample count of each session. */
  function SessionCounts(ss: seq<SessionFiles>): (r: seq<nat>)
    ensures |r| == |ss|
    decreases |ss|
  {
    if |ss| == 0 then [] else [Sum(FileSamples(ss[0].files))] + SessionCounts(ss[1..])
  }

  predicate DistinctNames(ss: seq<SessionFiles>) {
    forall i, j :: 0 <= i < j < |ss| ==> ss[i].dname != ss[j].dname
  }

  /** The counter ends at the total sample count, and a file exists once
      any session was processed. */
  lemma {:induction false} CatTotal(st: CatState, ss: seq<SessionFiles>, i0: nat, masks: Option<seq<MaskArg>>,
                                    mapArg: ChannelMapArg, md: Option<Metadata>, conv: Option<DataConv>)
    requires AllSessionsValid(ss) && MapArgValid(mapArg) && StateValid(st)
    requires CatAll(st, ss, i0, masks, mapArg, md, conv).Ok?
    ensures var r := CatAll(st, ss, i0, masks, mapArg, md, conv).value;
            && r.total == st.total + Sum(SessionCounts(ss))
            && (r.file.Some? <==> |ss| > 0 || st.file.Some?)
    decreases |ss|
  {
    if |ss| > 0 {
      var st' := CatSession(st, ss[0], i0, masks, mapArg, md, conv).value;
      CatTotal(st', ss[1..], i0 + 1, masks, mapArg, md, conv);
      assert SessionCounts(ss[1..]) == SessionCounts(ss)[1..];
    }
  }

  /** The offsets recorded for `ss`, starting from `begins` with the
      counter at `total`. */
  function BeginsOf(begins: Offsets, total: nat, ss: seq<SessionFiles>): Offsets
    decreases |ss|
  {
    if |ss| == 0 then begins
    else BeginsOf(Assign(begins, ss[0].dname, total), total + Sum(FileSamples(ss[0].files)), ss[1..])
  }

  lemma {:induction false} CatBegins(st: CatState, ss: seq<SessionFiles>, i0: nat, masks: Option<seq<MaskArg>>,
                                     mapArg: ChannelMapArg, md: Option<Metadata>, conv: Option<DataConv>)
    requires AllSessionsValid(ss) && MapArgValid(mapArg) && StateValid(st)
    requires CatAll(st, ss, i0, masks, mapArg, md, conv).Ok?
    ensures CatAll(st, ss, i0, masks, mapArg, md, conv).value.begins == BeginsOf(st.begins, st.total, ss)
    decreases |ss|
  {
    if |ss| > 0 {
      var st' := CatSession(st, ss[0], i0, masks, mapArg, md, conv).value;
      CatBegins(st', ss[1..], i0 + 1, masks, mapArg, md, conv);
    }
  }

  /** The offset of a folder none of the sessions names is left alone. */
  lemma {:induction false} BeginsKeepOthers(begins: Offsets, total: nat, ss: seq<SessionFiles>, x: string)
    requires forall j :: 0 <= j < |ss| ==> ss[j].dname != x
    ensures Get(BeginsOf(begins, total, ss), x) == Get(begins, x)
    decreases |ss|
  {
    if |ss| > 0 {
      assert forall j :: 0 <= j < |ss[1..]| ==> ss[1..][j] == ss[j + 1];
      BeginsKeepOthers(Assign(begins, ss[0].dname, total), total + Sum(FileSamples(ss[0].files)), ss[1..], x);
    }
  }

  /** When every folder is processed once, each begins at the samples of
      all sessions before it. */
  lemma {:induction false} BeginsAreSampleOffsets(begins: Offsets, total: nat, ss: seq<SessionFiles>)
    ensures DistinctNames(ss) ==> forall j :: 0 <= j < |ss| ==> Get(BeginsOf(begins, total, ss), ss[j].dname) == Some(total + Sum(SessionCounts(ss)[..j]))
    decreases |ss|
  {
    if |ss| > 0 && DistinctNames(ss) {
      var rest := ss[1..];
      var b' := Assign(begins, ss[0].dname, total);
      var t' := total + Sum(FileSamples(ss[0].files));
      assert forall j :: 0 <= j < |rest| ==> rest[j] == ss[j + 1];
      assert DistinctNames(rest);
      BeginsAreSampleOffsets(b', t', rest);
      BeginsKeepOthers(b', t', rest, ss[0].dname);
      var r := BeginsOf(begins, total, ss);
      assert r == BeginsOf(b', t', rest);
      var counts := SessionCounts(ss);
      assert SessionCounts(rest) == counts[1..];
      forall j | 0 <= j < |ss| - 1
        ensures Get(r, ss[j + 1].dname) == Some(total + counts[0] + Sum(counts[1..][..j]))
      {
        assert rest[j] == ss[j + 1];
      }
      ShiftOffsets(r, ss, counts, total);
    }
  }

  /** The offsets of a sequence of sessions from those of its tail. */
  lemma ShiftOffsets(begins: Offsets, ss: seq<SessionFiles>, counts: seq<nat>, base: nat)
    requires |ss| == |counts| > 0
    requires Get(begins, ss[0].dname) == Some(base)
    requires forall j :: 0 <= j < |ss| - 1 ==> Get(begins, ss[j + 1].dname) == Some(base + counts[0] + Sum(counts[1..][..j]))
    ensures forall j :: 0 <= j < |ss| ==> Get(begins, ss[j].dname) == Some(base + Sum(counts[..j]))
  {
    forall j | 0 <= j < |ss|
      ensures Get(begins, ss[j].dname) == Some(base + Sum(counts[..j]))
    {
      if j > 0 {
        assert Get(begins, ss[(j - 1) + 1].dname) == Some(base + counts[0] + Sum(counts[1..][..j - 1]));
        assert counts[..j][1..] == counts[1..][..j - 1];
      }
    }
  }

  /** What `intans2nwb_cat` returns, with the file it wrote (none when no
      folder was given). */
  datatype CatOutput = CatOutput(begins: Offsets, total: nat, file: Option<NwbFile>)

  /** `intans2nwb_cat`. The channel map is loaded first, then every folder
      is listed; the sessions are then ordered and streamed. */
  function IntansToNwbCat(dnames: seq<string>, listdir: string -> seq<string>, mapArg: ChannelMapArg,
                          csv: Option<CsvTable>, md: Option<Metadata>, sortByTime: bool, amplifierRawbits: bool,
                          masks: Option<seq<MaskArg>>, read: (string, string) -> ParsedRhd,
                          decode: string -> Option<int>): (r: Result<CatOutput>)
    requires forall d, n :: read(d, n).Valid()
    requires MapArgValid(mapArg) && (csv.Some? ==> csv.value.Valid())
    ensures LoadMapData(mapArg, csv).Err? ==> r == Err(LoadMapData(mapArg, csv).error)
    ensures r.Ok? ==> ListSessions(dnames, listdir, read, decode).Ok?
    ensures r.Ok? ==>
              var ordered := OrderSessions(ListSessions(dnames, listdir, read, decode).value, sortByTime);
              && (r.value.file.Some? <==> |dnames| > 0)
              && r.value.total == Sum(SessionCounts(ordered))
              && (r.value.file.Some? ==> r.value.file.value.series.data.nRows == r.value.total)
              && (r.value.file.Some? ==> r.value.file.value.series.conv == ConvOrDefault(ConvFor(amplifierRawbits)))
              && (DistinctNames(ordered) ==>
                    forall j :: 0 <= j < |ordered| ==> Get(r.value.begins, ordered[j].dname) == Some(Sum(SessionCounts(ordered)[..j])))
  {
    var loaded :- LoadMapData(mapArg, csv);
    var sessions :- ListSessions(dnames, listdir, read, decode);
    var ordered := OrderSessions(sessions, sortByTime);
    ListedSessionsValid(dnames, listdir, read, decode);
    OrderedSessionsValid(sessions, sortByTime);
    var st :- CatAll(CatState([], 0, None), ordered, 0, masks, loaded, md, ConvFor(amplifierRawbits));
    CatTotal(CatState([], 0, None), ordered, 0, masks, loaded, md, ConvFor(amplifierRawbits));
    CatBegins(CatState([], 0, None), ordered, 0, masks, loaded, md, ConvFor(amplifierRawbits));
    BeginsAreSampleOffsets([], 0, ordered);
    CatKeepsConv(CatState([], 0, None), ordered, 0, masks, loaded, md, ConvFor(amplifierRawbits));
    assert |ordered| == |dnames|;
    Ok(CatOutput(st.begins, st.total, st.file))
  }

  /** The conversion factor set by the first session is never changed. */
  lemma {:induction false} CatKeepsConv(st: CatState, ss: seq<SessionFiles>, i0: nat, masks: Option<seq<MaskArg>>,
                                        mapArg: ChannelMapArg, md: Option<Metadata>, conv: Option<DataConv>)
    requires AllSessionsValid(ss) && MapArgValid(mapArg) && StateValid(st)
    requires st.file.Some? ==> st.file.value.series.conv == ConvOrDefault(conv)
    ensures var r := CatAll(st, ss, i0, masks, mapArg, md, conv);
            r.Ok? && r.value.file.Some? ==> r.value.file.value.series.conv == ConvOrDefault(conv)
    decreases |ss|
  {
    if |ss| > 0 {
      var s := CatSession(st, ss[0], i0, masks, mapArg, md, conv);
      if s.Ok? {
        if st.file.Some? {
          var mask := SessionMask(ss[0].files[0], MaskAt(masks, i0).value).value;
          AppendAllKeepsRest(st.file.value, ss[0].files, GivenMask(true, mask));
        }
        CatKeepsConv(s.value, ss[1..], i0 + 1, masks, mapArg, md, conv);
      }
    }
  }
}

=== FILE: rhd_folder.dfy ===
/** rhd_folder.py: reading one Intan session folder into a temporary store
    or converting it to an NWB file, concatenating several session folders
    into one NWB file, and adding impedances to a written NWB file. Reading
    a file and decoding or formatting a time are parameters. */
module RhdFolder {
  import opened Wrappers
  import opened Text
  import opened Seqs
  import opened Dataset
  import opened Channels
  import opened Nwb
  import opened RhdIo
  import opened RhdNames

  /** Intan's raw amplifier code is offset binary with a 0.195 uV step. */
  const RHD_CONV_FACTOR := DataConv(0.195, -32768.0 * 0.195)

  /** What `get_data_in_units` reads back from a stored value. */
  function Readout(c: DataConv, stored: int): real {
    c.conversion * stored as real + c.offset
  }

  /** Raw codes read back in microvolts, with code 32768 as zero. */
  lemma RawCodesReadAsMicrovolts(raw: int)
    ensures Readout(RHD_CONV_FACTOR, raw) == 0.195 * (raw - 32768) as real
    ensures Readout(RHD_CONV_FACTOR, 32768) == 0.0
    ensures Readout(IDENTITY_CONV, raw) == raw as real
  {
  }

  /** The conversion recorded with the data: the Intan factor exactly when
      the amplifier data are kept as raw codes. */
  function ConvFor(amplifierRawbits: bool): (c: Option<DataConv>)
    ensures c.Some? <==> amplifierRawbits
    ensures c.Some? ==> c.value == RHD_CONV_FACTOR
  {
    if amplifierRawbits then Some(RHD_CONV_FACTOR) else None
  }

  datatype Mode = LoadMemmap | LoadRam | ConversionOnly

  /** Exposing to RAM with a memory map loads into the temporary store;
      exposing without one is the in-RAM mode; otherwise convert. */
  function SelectMode(exposeToRam: bool, useMemmap: bool): (m: Mode)
    ensures m == LoadMemmap <==> exposeToRam && useMemmap
    ensures m == LoadRam <==> exposeToRam && !useMemmap
    ensures m == ConversionOnly <==> !exposeToRam
  {
    if exposeToRam && useMemmap then LoadMemmap
    else if exposeToRam then LoadRam
    else ConversionOnly
  }

  /** The metadata written for a converted folder: the start time is the
      session start; a missing identifier is derived from `identifier_top`
      and the formatted start time, and when that is missing too only
      `identifier_top` is set, so the identifier stays missing. A missing
      metadata dict cannot be assigned to. `fmt` stands for
      `strftime("%y%m%d_%H%M%S")`. */
  function DeriveIdentifier(md: Option<Metadata>, start: int, fmt: int -> string): (r: Result<Metadata>)
    ensures r.Err? <==> md.None?
    ensures r.Err? ==> r.error == TypeError
    ensures r.Ok? ==> r.value.startTime == Some(At(start))
    ensures r.Ok? ==> r.value == md.value.(startTime := r.value.startTime, identifier := r.value.identifier,
                                          identifierTop := r.value.identifierTop)
    ensures r.Ok? && md.value.identifier.Some? ==>
              r.value.identifier == md.value.identifier && r.value.identifierTop == md.value.identifierTop
    ensures r.Ok? && md.value.identifier.None? && md.value.identifierTop.Some? ==>
              && r.value.identifier == Some(md.value.identifierTop.value + "_" + fmt(start))
              && r.value.identifierTop == md.value.identifierTop
    ensures r.Ok? && md.value.identifier.None? && md.value.identifierTop.None? ==>
              r.value.identifier.None? && r.value.identifierTop == Some("data_" + fmt(start))
  {
    if md.None? then Err(TypeError)
    else
      var m := md.value.(startTime := Some(At(start)));
      if m.identifier.Some? then Ok(m)
      else if m.identifierTop.Some? then Ok(m.(identifier := Some(m.identifierTop.value + "_" + fmt(start))))
      else Ok(m.(identifierTop := Some("data_" + fmt(start))))
  }

  /** The header of a converted folder starts at the session start; its
      identifier is the given one, else the derived one, else the mandatory
      placeholder (setting only `identifier_top` does not reach it). */
  lemma ConvertedHeaderIdentifier(md: Metadata, start: int, fmt: int -> string)
    ensures var h := MakeHeader(DeriveIdentifier(Some(md), start, fmt).value, RHD_DEFAULTS);
            && h.startTime == At(start)
            && h.identifier == (if md.identifier.Some? then md.identifier.value
                                else if md.identifierTop.Some? then md.identifierTop.value + "_" + fmt(start)
                                else MANDATORY_PLACEHOLDER)
  {
  }

  /** The cells of a map file as the CSV reader parses them, one row per
      non-blank line; the rows all have `width` fields. */
  datatype CsvTable = CsvTable(width: nat, cells: seq<seq<real>>) {
    predicate Valid() {
      forall i :: 0 <= i < |cells| ==> |cells[i]| == width
    }
  }

  /** `pd.read_csv(path, header=None).values.squeeze().astype(int)`. A file
      with no fields is an `EmptyDataError`, a kind of `ValueError`.
      `squeeze` drops every axis of extent 1, so a file of one row or one
      column gives fewer than two dimensions; `astype(int)` truncates every
      cell toward zero. */
  function ReadMapCsv(t: CsvTable): (r: Result<ChannelMapData>)
    requires t.Valid()
    ensures r.Err? <==> |t.cells| == 0 || t.width == 0
    ensures r.Err? ==> r.error == ValueError
    ensures r.Ok? ==> r.value.Valid() && r.value.width == t.width && |r.value.rows| == |t.cells|
    ensures r.Ok? ==> (r.value.ndim == 2 <==> |t.cells| > 1 && t.width > 1)
    ensures r.Ok? ==> forall i, j :: 0 <= i < |t.cells| && 0 <= j < t.width ==>
              r.value.rows[i][j] == Trunc(t.cells[i][j]) as real
  {
    if |t.cells| == 0 || t.width == 0 then Err(ValueError)
    else
      var ndim := (if |t.cells| > 1 then 1 else 0) + (if t.width > 1 then 1 else 0);
      Ok(ChannelMapData(ndim, t.width, seq(|t.cells|, i requires 0 <= i < |t.cells| =>
        seq(t.width, j requires 0 <= j < t.width => Trunc(t.cells[i][j]) as real))))
  }

  /** A whole number read as a real is its own truncation. */
  lemma TruncOfWhole(n: int)
    ensures Trunc(n as real) == n
  {
    if n < 0 {
      assert -(n as real) == (-n) as real;
    }
  }

  /** Reading a written map back changes nothing: every loaded cell is
      already a whole number, so truncating again keeps it. */
  lemma ReadMapCsvIdempotent(t: CsvTable)
    requires t.Valid() && ReadMapCsv(t).Ok?
    ensures var m := ReadMapCsv(t).value;
            ReadMapCsv(CsvTable(m.width, m.rows)) == Ok(m)
  {
    var m := ReadMapCsv(t).value;
    var again := ReadMapCsv(CsvTable(m.width, m.rows)).value;
    forall i, j | 0 <= i < |m.rows| && 0 <= j < m.width
      ensures again.rows[i][j] == m.rows[i][j]
    {
      TruncOfWhole(Trunc(t.cells[i][j]));
    }
    assert forall i :: 0 <= i < |m.rows| ==> again.rows[i] == m.rows[i];
    assert again.rows == m.rows && again.ndim == m.ndim;
  }

  /** A file of whole numbers with at least two rows and two columns loads
      as that very table. */
  lemma WholeTableLoadsUnchanged(t: CsvTable)
    requires t.Valid() && |t.cells| > 1 && t.width > 1
    requires forall i, j :: 0 <= i < |t.cells| && 0 <= j < t.width ==> t.cells[i][j] == Trunc(t.cells[i][j]) as real
    ensures ReadMapCsv(t) == Ok(ChannelMapData(2, t.width, t.cells))
  {
    var m := ReadMapCsv(t).value;
    assert forall i :: 0 <= i < |t.cells| ==> m.rows[i] == t.cells[i];
    assert m.rows == t.cells;
  }

  /** A map file of a single row or a single column squeezes to fewer than
      two dimensions, so every lookup of a 1-D id array into it is an
      `IndexError`. */
  lemma SqueezedMapFailsLookup(t: CsvTable, ids: seq<int>)
    requires t.Valid() && ReadMapCsv(t).Ok? && (|t.cells| == 1 || t.width == 1)
    ensures LookupCorstyle(IdArray(1, ids), ReadMapCsv(t).value) == Err(IndexError)
  {
  }

  /** Loading the channel map before converting: a dict without map data
      gets the table read from its `map_path` (absent: `KeyError`; a file
      with no fields: `ValueError`). `csv` stands for the parsed contents of
      that file. */
  function LoadMapData(mapArg: ChannelMapArg, csv: Option<CsvTable>): (r: Result<ChannelMapArg>)
    requires MapArgValid(mapArg) && (csv.Some? ==> csv.value.Valid())
    ensures r.Ok? ==> MapArgValid(r.value)
    ensures mapArg.MapDict? && mapArg.mapData.None? && csv.None? ==> r == Err(KeyError)
    ensures mapArg.MapDict? && mapArg.mapData.None? && csv.Some? ==>
              (r.Ok? <==> ReadMapCsv(csv.value).Ok?) &&
              (r.Ok? ==> r.value == MapDict(mapArg.style, Some(ReadMapCsv(csv.value).value))) &&
              (r.Err? ==> r == Err(ValueError))
    ensures !(mapArg.MapDict? && mapArg.mapData.None?) ==> r == Ok(mapArg)
  {
    match mapArg
    case MapDict(style, None) =>
      if csv.None? then Err(KeyError)
      else
        var m :- ReadMapCsv(csv.value);
        Ok(MapDict(style, Some(m)))
    case _ => Ok(mapArg)
  }

  /** The files of one folder, read in the order given. */
  function ReadAll(names: seq<string>, read: string -> ParsedRhd): (files: seq<ParsedRhd>)
    requires forall name :: read(name).Valid()
    ensures |files| == |names| && AllValid(files)
    ensures forall k :: 0 <= k < |names| ==> files[k] == read(names[k])
  {
    seq(|names|, k requires 0 <= k < |names| => read(names[k]))
  }

  /** The conversion of rhd_folder.py lines 142 and 162 as written: the
      first file initiates the NWB file with the caller's mask and every
      later file is appended with the same mask argument, even though a
      missing mask means the 32-on-64 default to the first and "keep all"
      to the rest. */
  function ConvertFilesAsWritten(files: seq<ParsedRhd>, mapArg: ChannelMapArg, md: Metadata,
                                 maskArg: MaskArg, conv: Option<DataConv>): (r: Result<NwbFile>)
    requires |files| > 0 && AllValid(files) && MapArgValid(mapArg)
    ensures r.Ok? ==> InitiateNwb(files[0], mapArg, md, maskArg, conv).Ok?
  {
    var f :- InitiateNwb(files[0], mapArg, md, maskArg, conv);
    AppendNwbAll(f, files[1..], maskArg)
  }

  /** With no mask, a 33..64-channel recording whose first file has
      channels both inside and outside the native block [16, 48) cannot be
      converted once it spans two files and the second has samples: that
      append meets a file narrower than itself. */
  lemma UnmaskedHotfixBreaksAppend(files: seq<ParsedRhd>, mapArg: ChannelMapArg, md: Metadata,
                                   conv: Option<DataConv>, i: nat, j: nat)
    requires |files| >= 2 && AllValid(files) && MapArgValid(mapArg)
    requires 32 < files[0].amp.nRows <= 64 && files[1].amp.nRows == files[0].amp.nRows && files[1].amp.nCols > 0
    requires i < files[0].amp.nRows && !InHotfixBlock(files[0].channels[i].nativeOrder)
    requires j < files[0].amp.nRows && InHotfixBlock(files[0].channels[j].nativeOrder)
    ensures InitiateNwb(files[0], mapArg, md, NoMask, conv).Ok? ==>
              ConvertFilesAsWritten(files, mapArg, md, NoMask, conv).Err?
  {
    var r := InitiateNwb(files[0], mapArg, md, NoMask, conv);
    if r.Ok? {
      DefaultMasksDisagree(files[0], files[1], mapArg, md, conv, i, j);
      assert files[1..][0] == files[1];
      FirstAppendFails(r.value, files[1..], NoMask);
    }
  }

  /** Streaming stops at the first append that fails. */
  lemma FirstAppendFails(f: NwbFile, files: seq<ParsedRhd>, maskArg: MaskArg)
    requires f.series.data.Valid() && AllValid(files) && |files| > 0
    requires AppendNwb(f, files[0], maskArg).Err?
    ensures AppendNwbAll(f, files, maskArg).Err?
  {
  }

  /** The sample count of each file. */
  function FileSamples(files: seq<ParsedRhd>): (r: seq<nat>)
    ensures |r| == |files|
    decreases |files|
  {
    if |files| == 0 then [] else [files[0].amp.nCols] + FileSamples(files[1..])
  }

  /** Each append adds one row per sample of the file. */
  lemma {:induction false} AppendAllRowCount(f: NwbFile, files: seq<ParsedRhd>, maskArg: MaskArg)
    requires f.series.data.Valid() && AllValid(files)
    ensures var r := AppendNwbAll(f, files, maskArg);
            r.Ok? ==> r.value.series.data.Valid() && r.value.series.data.nRows == f.series.data.nRows + Sum(FileSamples(files))
    decreases |files|
  {
    if |files| > 0 {
      var g := AppendNwb(f, files[0], maskArg);
      if g.Ok? {
        var mask := ResolveMask(maskArg, files[0].amp.nRows, AssertionError).value;
        assert |NwbChunk(files[0], mask).cells| == files[0].amp.nCols;
        assert g.value.series.data.nRows == f.series.data.nRows + files[0].amp.nCols;
        AppendAllRowCount(g.value, files[1..], maskArg);
        assert FileSamples(files)[1..] == FileSamples(files[1..]);
      }
    }
  }

  /** A file holding the first file's samples, with the others appended,
      holds the samples of all of them. */
  lemma RowCountAfterFirst(f: NwbFile, files: seq<ParsedRhd>, maskArg: MaskArg)
    requires |files| > 0 && AllValid(files)
    requires f.series.data.Valid() && f.series.data.nRows == files[0].amp.nCols
    ensures var r := AppendNwbAll(f, files[1..], maskArg);
            r.Ok? ==> r.value.series.data.Valid() && r.value.series.data.nRows == Sum(FileSamples(files))
  {
    AppendAllRowCount(f, files[1..], maskArg);
    assert FileSamples(files) == [files[0].amp.nCols] + FileSamples(files[1..]);
  }

  /** The conversion with one channel selection for the whole recording:
      the mask `initiate_nwb` applies to the first file (the given one, or
      the 32-on-64 default) is passed explicitly to every append. */
  function ConvertFiles(files: seq<ParsedRhd>, mapArg: ChannelMapArg, md: Metadata,
                        maskArg: MaskArg, conv: Option<DataConv>): (r: Result<NwbFile>)
    requires |files| > 0 && AllValid(files) && MapArgValid(mapArg)
    ensures InitiateNwb(files[0], mapArg, md, maskArg, conv).Err? ==>
              r == Err(InitiateNwb(files[0], mapArg, md, maskArg, conv).error)
    ensures r.Ok? ==> InitialMask(files[0], maskArg).Ok?
    ensures r.Ok? ==> var f0 := InitiateNwb(files[0], mapArg, md, maskArg, conv).value;
                      OnlyDataDiffers(f0, r.value)
    ensures r.Ok? ==> r.value.series.data.Valid() && r.value.series.data.nRows == Sum(FileSamples(files))
  {
    var f :- InitiateNwb(files[0], mapArg, md, maskArg, conv);
    var mask := InitialMask(files[0], maskArg).value;
    AppendAllKeepsRest(f, files[1..], GivenMask(true, mask));
    RowCountAfterFirst(f, files, GivenMask(true, mask));
    AppendNwbAll(f, files[1..], GivenMask(true, mask))
  }

  /** Appending only ever changes the stored data. */
  lemma {:induction false} AppendAllKeepsRest(f: NwbFile, files: seq<ParsedRhd>, maskArg: MaskArg)
    requires f.series.data.Valid() && AllValid(files)
    ensures var r := AppendNwbAll(f, files, maskArg);
            r.Ok? ==> r.value.series.data.Valid() && OnlyDataDiffers(f, r.value)
    decreases |files|
  {
    if |files| > 0 {
      var g := AppendNwb(f, files[0], maskArg);
      if g.Ok? {
        AppendAllKeepsRest(g.value, files[1..], maskArg);
      }
    }
  }

  /** A recording whose files agree on the channel count converts whenever
      its first file initiates, and the NWB data are every file's kept
      channels, transposed, one file after another; the header and the
      electrode table are those of the first file. */
  lemma ConvertFilesIsConcat(files: seq<ParsedRhd>, mapArg: ChannelMapArg, md: Metadata,
                             maskArg: MaskArg, conv: Option<DataConv>, n: nat)
    requires |files| > 0 && Uniform(files, n) && MapArgValid(mapArg)
    requires InitiateNwb(files[0], mapArg, md, maskArg, conv).Ok?
    ensures AllValid(files) && ConvertFiles(files, mapArg, md, maskArg, conv).Ok?
    ensures var f0 := InitiateNwb(files[0], mapArg, md, maskArg, conv).value;
            var r := ConvertFiles(files, mapArg, md, maskArg, conv).value;
            var mask := InitialMask(files[0], maskArg).value;
            && OnlyDataDiffers(f0, r)
            && r.series.data.cells == NwbChunk(files[0], mask).cells + Flatten(NwbChunks(files[1..], mask))
  {
    UniformTail(files, n);
    var f0 := InitiateNwb(files[0], mapArg, md, maskArg, conv).value;
    var mask := InitialMask(files[0], maskArg).value;
    assert ResolveMask(GivenMask(true, mask), n, AssertionError) == Ok(mask);
    NwbStreamingIsConcat(f0, files[1..], GivenMask(true, mask), n);
  }

  /** Two mask arguments that resolve alike on `n` channels append alike. */
  lemma {:induction false} AppendAllSameMask(f: NwbFile, files: seq<ParsedRhd>, a: MaskArg, b: MaskArg, n: nat)
    requires f.series.data.Valid() && AllValid(files)
    requires forall k :: 0 <= k < |files| ==> files[k].amp.nRows == n
    requires ResolveMask(a, n, AssertionError) == ResolveMask(b, n, AssertionError)
    ensures AppendNwbAll(f, files, a) == AppendNwbAll(f, files, b)
    decreases |files|
  {
    if |files| > 0 {
      var r := AppendNwb(f, files[0], a);
      if r.Ok? {
        assert AppendNwb(f, files[0], b) == r;
        AppendAllSameMask(r.value, files[1..], a, b, n);
      }
    }
  }

  /** The two conversions differ only on a missing mask with 33..64
      channels: a given mask, or a channel count outside that range, gives
      the same outcome as written. */
  lemma ConvertFilesAgreesOutsideHotfix(files: seq<ParsedRhd>, mapArg: ChannelMapArg, md: Metadata,
                                        maskArg: MaskArg, conv: Option<DataConv>, n: nat)
    requires |files| > 0 && AllValid(files) && MapArgValid(mapArg)
    requires forall k :: 0 <= k < |files| ==> files[k].amp.nRows == n
    requires maskArg.GivenMask? || !(32 < n <= 64)
    ensures ConvertFiles(files, mapArg, md, maskArg, conv) == ConvertFilesAsWritten(files, mapArg, md, maskArg, conv)
  {
    var init := InitiateNwb(files[0], mapArg, md, maskArg, conv);
    if init.Ok? {
      var mask := InitialMask(files[0], maskArg).value;
      assert ResolveMask(maskArg, n, AssertionError) == Ok(mask);
      AppendAllSameMask(init.value, files[1..], GivenMask(true, mask), maskArg, n);
    }
  }

  /** What `read_rhd_folder` returns: the temporary store, or the session
      start and the sorted file names of a converted folder together with
      the NWB file it wrote. */
  datatype FolderOutput =
    | MemmapStore(store: TempStore)
    | Converted(startTime: int, rhdNames: seq<string>, rhdPaths: seq<string>, file: NwbFile)

  function FolderPaths(folder: string, names: seq<string>): (paths: seq<string>)
    ensures |paths| == |names| && forall k :: 0 <= k < |names| ==> paths[k] == PathJoin(folder, names[k])
  {
    seq(|names|, k requires 0 <= k < |names| => PathJoin(folder, names[k]))
  }

  /** The memory-mapped mode: a temporary folder must be set; every file is
      streamed into the store with the caller's mask. */
  function LoadToStore(files: seq<ParsedRhd>, maskArg: MaskArg, tempFolder: Option<string>): (r: Result<TempStore>)
    requires |files| > 0 && AllValid(files)
    ensures tempFolder.None? ==> r == Err(AssertionError)
    ensures r.Ok? ==> InitiateTemp(files[0], maskArg).Ok?
                      && r == AppendTempAll(InitiateTemp(files[0], maskArg).value, files[1..], maskArg)
  {
    if tempFolder.None? then Err(AssertionError)
    else
      var store :- InitiateTemp(files[0], maskArg);
      AppendTempAll(store, files[1..], maskArg)
  }

  /** The conversion mode: the export path and the channel map must be
      given; the map is loaded, the metadata completed, and the files
      converted with one channel selection. */
  function ConvertFolder(files: seq<ParsedRhd>, start: int, exportPath: Option<string>, mapArg: Option<ChannelMapArg>,
                         csv: Option<CsvTable>, md: Option<Metadata>, maskArg: MaskArg, amplifierRawbits: bool,
                         fmt: int -> string): (r: Result<NwbFile>)
    requires |files| > 0 && AllValid(files)
    requires mapArg.Some? ==> MapArgValid(mapArg.value)
    requires csv.Some? ==> csv.value.Valid()
    ensures exportPath.None? || mapArg.None? ==> r == Err(AssertionError)
    ensures r.Ok? ==>
              && exportPath.Some? && mapArg.Some? && md.Some?
              && r.value.header.startTime == At(start)
              && r.value.series.conv == ConvOrDefault(ConvFor(amplifierRawbits))
  {
    if exportPath.None? || mapArg.None? then Err(AssertionError)
    else
      var loaded :- LoadMapData(mapArg.value, csv);
      var m :- DeriveIdentifier(md, start, fmt);
      var f :- ConvertFiles(files, loaded, m, maskArg, ConvFor(amplifierRawbits));
      ConvertedHeaderIdentifier(md.value, start, fmt);
      Ok(f)
  }

  /** The modes of `read_rhd_folder` once the listing has given a
      non-empty, time-ordered list of files; the earliest file's time is the
      session start. */
  function LoadSorted(folder: string, sorted: seq<Stamped>, exposeToRam: bool, useMemmap: bool,
                      exportPath: Option<string>, mapArg: Option<ChannelMapArg>, csv: Option<CsvTable>,
                      md: Option<Metadata>, maskArg: MaskArg, amplifierRawbits: bool,
                      tempFolder: Option<string>, read: string -> ParsedRhd, fmt: int -> string): (r: Result<FolderOutput>)
    requires |sorted| > 0 && SortedBy(sorted, ByStamp)
    requires forall name :: read(name).Valid()
    requires mapArg.Some? ==> MapArgValid(mapArg.value)
    requires csv.Some? ==> csv.value.Valid()
    ensures SelectMode(exposeToRam, useMemmap) == LoadRam ==> r.Err?
    ensures r.Ok? && r.value.MemmapStore? ==> SelectMode(exposeToRam, useMemmap) == LoadMemmap && tempFolder.Some?
    ensures r.Ok? && r.value.Converted? ==>
              && SelectMode(exposeToRam, useMemmap) == ConversionOnly
              && exportPath.Some? && mapArg.Some? && md.Some?
              && (forall k :: 0 <= k < |sorted| ==> r.value.startTime <= sorted[k].stamp)
              && r.value.rhdNames == Names(sorted)
              && r.value.rhdPaths == FolderPaths(folder, Names(sorted))
              && r.value.file.header.startTime == At(r.value.startTime)
              && r.value.file.series.conv == ConvOrDefault(ConvFor(amplifierRawbits))
  {
    var start := sorted[0].stamp;
    var names := Names(sorted);
    var files := ReadAll(names, read);
    match SelectMode(exposeToRam, useMemmap)
    case LoadMemmap =>
      var store :- LoadToStore(files, maskArg, tempFolder);
      Ok(MemmapStore(store))
    case LoadRam => Err(NotImplementedError)
    case ConversionOnly =>
      var f :- ConvertFolder(files, start, exportPath, mapArg, csv, md, maskArg, amplifierRawbits, fmt);
      Ok(Converted(start, names, FolderPaths(folder, names), f))
  }

  /** `read_rhd_folder`. The listing, the file reader, the temporary folder,
      the map file's contents and the time decoding and formatting are
      parameters; the in-RAM mode is not implemented and fails once the
      files are listed. */
  function ReadRhdFolder(folder: string, listing: seq<string>, exposeToRam: bool, useMemmap: bool,
                         exportPath: Option<string>, mapArg: Option<ChannelMapArg>, csv: Option<CsvTable>,
                         md: Option<Metadata>, maskArg: MaskArg, amplifierRawbits: bool,
                         tempFolder: Option<string>, read: string -> ParsedRhd,
                         decode: string -> Option<int>, fmt: int -> string): (r: Result<FolderOutput>)
    requires forall name :: read(name).Valid()
    requires mapArg.Some? ==> MapArgValid(mapArg.value)
    requires csv.Some? ==> csv.value.Valid()
    ensures SortedRhdFiles(listing, decode).Err? ==> r == Err(SortedRhdFiles(listing, decode).error)
    ensures SortedRhdFiles(listing, decode) == Ok([]) ==> r == Err(IndexError)
    ensures SelectMode(exposeToRam, useMemmap) == LoadRam ==> r.Err?
    ensures r.Ok? ==> SortedRhdFiles(listing, decode).Ok? && |SortedRhdFiles(listing, decode).value| > 0
    ensures r.Ok? && r.value.MemmapStore? ==> SelectMode(exposeToRam, useMemmap) == LoadMemmap && tempFolder.Some?
    ensures r.Ok? ==>
              r == LoadSorted(folder, SortedRhdFiles(listing, decode).value, exposeToRam, useMemmap, exportPath, mapArg,
                              csv, md, maskArg, amplifierRawbits, tempFolder, read, fmt)
  {
    var sorted :- SortedRhdFiles(listing, decode);
    if |sorted| == 0 then Err(IndexError)
    else LoadSorted(folder, sorted, exposeToRam, useMemmap, exportPath, mapArg, csv, md, maskArg, amplifierRawbits,
                    tempFolder, read, fmt)
  }
}

=== FILE: rhd_imp.dfy ===
/** rhd_folder.py `add_imp_to_nwb`: impedances from an Intan CSV export or an
    RHD header, attached to a written NWB file's electrodes by parsing each
    electrode's native channel number back out of its label. Reading the
    CSV, the header and the NWB file are parameters. */
module RhdImp {
  import opened Wrappers
  import opened Text
  import opened Seqs
  import opened Channels
  import opened Nwb
  import opened RhdIo

  /** The argument: a path (".csv" or ".rhd"), an RHD header's amplifier
      channels, or anything else. */
  datatype ImpSource = PathArg(path: string) | HeaderArg(channels: seq<AmpChannel>) | OtherArg

  /** One row of the CSV export: the "Channel Number" and the "Impedance
      Magnitude at 1000 Hz (ohms)" columns. */
  datatype CsvRow = CsvRow(channelNumber: string, ohms: real)

  predicate IsPort(c: char) {
    c == 'A' || c == 'B' || c == 'C' || c == 'D'
  }

  /** The channel number of `[ABCD]-([0-9][0-9][0-9])` matched at the start
      (anything may follow). */
  function ParseCsvChannel(s: string): Option<nat> {
    if |s| >= 5 && IsPort(s[0]) && s[1] == '-' && AllDigits(s[2..5]) then Some(DecimalValue(s[2..5])) else None
  }

  /** The CSV export's zero-padded channel name. */
  function CsvChannelName(port: char, n: nat): (s: string)
    requires n < 1000
    ensures |s| == 5 && s[0] == port && s[1] == '-' && AllDigits(s[2..])
  {
    [port, '-', DigitChar(n / 100), DigitChar(n / 10 % 10), DigitChar(n % 10)]
  }

  /** The channel number is read back from an exported name; the port
      letter is dropped, so channels of different ports share numbers. */
  lemma CsvChannelRoundTrip(port: char, n: nat, rest: string)
    requires IsPort(port) && n < 1000
    ensures ParseCsvChannel(CsvChannelName(port, n) + rest) == Some(n)
  {
    var s := CsvChannelName(port, n) + rest;
    var d := s[2..5];
    var a, b, c := n / 100, n / 10 % 10, n % 10;
    assert d == [DigitChar(a), DigitChar(b), DigitChar(c)];
    assert d[..2] == [DigitChar(a), DigitChar(b)];
    assert d[..2][..1] == [DigitChar(a)];
    assert d[..2][..1][..0] == [];
    assert DecimalValue(d[..2][..1]) == a;
    assert DecimalValue(d[..2]) == a * 10 + b;
    assert DecimalValue(d) == a * 100 + b * 10 + c;
  }

  /** The native ids of all rows, parsed eagerly: the first row whose name
      does not match makes `int(None[1])` a `TypeError`. */
  function CsvNatives(rows: seq<CsvRow>): (r: Result<seq<int>>)
    ensures r.Ok? ==>
              && |r.value| == |rows|
              && forall k :: 0 <= k < |rows| ==>
                   ParseCsvChannel(rows[k].channelNumber).Some? && ParseCsvChannel(rows[k].channelNumber).value == r.value[k]
    ensures r.Err? <==> exists k :: 0 <= k < |rows| && ParseCsvChannel(rows[k].channelNumber).None?
    ensures r.Err? ==> r.error == TypeError
    decreases |rows|
  {
    if |rows| == 0 then Ok([])
    else
      match ParseCsvChannel(rows[0].channelNumber)
      case None => Err(TypeError)
      case Some(n) =>
        var rest :- CsvNatives(rows[1..]);
        assert forall k :: 1 <= k < |rows| ==> rows[k] == rows[1..][k - 1];
        Ok([n as int] + rest)
  }

  /** Native ids and their impedances, position by position. */
  datatype ImpTable = ImpTable(ids: seq<int>, ohms: seq<real>) {
    predicate Valid() {
      |ids| == |ohms|
    }
  }

  predicate AllZero(xs: seq<real>) {
    forall k :: 0 <= k < |xs| ==> xs[k] == 0.0
  }

  function CsvOhms(rows: seq<CsvRow>): (r: seq<real>)
    ensures |r| == |rows| && forall k :: 0 <= k < |rows| ==> r[k] == rows[k].ohms
  {
    seq(|rows|, k requires 0 <= k < |rows| => rows[k].ohms)
  }

  /** From a header: an all-zero impedance column (including an empty one)
      means nothing was measured. */
  function FromHeader(chs: seq<AmpChannel>): (r: Result<ImpTable>)
    ensures r.Ok? <==> !AllZero(Impedances(ParsedRhd(0.0, chs, Dataset.Grid(0, 0, []), [])))
    ensures r.Err? ==> r.error == ValueError
    ensures r.Ok? ==>
              && r.value.Valid() && |r.value.ids| == |chs|
              && forall k :: 0 <= k < |chs| ==> r.value.ids[k] == chs[k].nativeOrder && r.value.ohms[k] == chs[k].impedance
  {
    var p := ParsedRhd(0.0, chs, Dataset.Grid(0, 0, []), []);
    var ohms := Impedances(p);
    if AllZero(ohms) then Err(ValueError) else Ok(ImpTable(NativeOrders(p), ohms))
  }

  /** The impedance source dispatch. A CSV export is not checked for
      all-zero values; a header is. Any other argument is a `ValueError`. */
  function ReadImpedances(src: ImpSource, readCsv: string -> seq<CsvRow>, readHeader: string -> seq<AmpChannel>): (r: Result<ImpTable>)
    ensures r.Ok? ==> r.value.Valid()
    ensures src.OtherArg? ==> r == Err(ValueError)
    ensures src.PathArg? && !EndsWith(src.path, ".csv") && !EndsWith(src.path, ".rhd") ==> r == Err(ValueError)
    ensures src.HeaderArg? ==> r == FromHeader(src.channels)
    ensures src.PathArg? && !EndsWith(src.path, ".csv") && EndsWith(src.path, ".rhd") ==> r == FromHeader(readHeader(src.path))
    ensures src.PathArg? && EndsWith(src.path, ".csv") ==>
              var rows := readCsv(src.path);
              (r.Ok? <==> CsvNatives(rows).Ok?) && (r.Ok? ==> r.value == ImpTable(CsvNatives(rows).value, CsvOhms(rows)))
  {
    match src
    case PathArg(p) =>
      if EndsWith(p, ".csv") then
        var rows := readCsv(p);
        var ids :- CsvNatives(rows);
        Ok(ImpTable(ids, CsvOhms(rows)))
      else if EndsWith(p, ".rhd") then FromHeader(readHeader(p))
      else Err(ValueError)
    case HeaderArg(chs) => FromHeader(chs)
    case OtherArg => Err(ValueError)
  }

  /** `xs.index(x)`: the first position holding `x`. */
  function FirstIndex(xs: seq<int>, x: int): (r: Option<nat>)
    ensures r.Some? ==> r.value < |xs| && xs[r.value] == x && forall j :: 0 <= j < r.value ==> xs[j] != x
    ensures r.None? <==> x !in xs
    decreases |xs|
  {
    if |xs| == 0 then None
    else if xs[0] == x then Some(0)
    else match FirstIndex(xs[1..], x)
      case None => None
      case Some(k) => Some(k + 1)
  }

  /** The impedance of one electrode: the native id parsed from its label
      (no match: `TypeError`), then the first entry of the table with that
      id (none: `ValueError`). */
  function ElectrodeImpedance(e: Electrode, t: ImpTable): (r: Result<real>)
    requires t.Valid()
    ensures ParseLabelNative(e.name).None? ==> r == Err(TypeError)
    ensures ParseLabelNative(e.name).Some? && ParseLabelNative(e.name).value as int !in t.ids ==> r == Err(ValueError)
    ensures r.Ok? ==>
              && ParseLabelNative(e.name).Some?
              && var j := FirstIndex(t.ids, ParseLabelNative(e.name).value).value;
                 r.value == t.ohms[j]
  {
    match ParseLabelNative(e.name)
    case None => Err(TypeError)
    case Some(n) =>
      match FirstIndex(t.ids, n)
      case None => Err(ValueError)
      case Some(j) => Ok(t.ohms[j])
  }

  /** The error of the first electrode that has no impedance, if any. */
  function FirstFailure(es: seq<Electrode>, t: ImpTable): (r: Option<PyError>)
    requires t.Valid()
    ensures r.None? <==> forall k :: 0 <= k < |es| ==> ElectrodeImpedance(es[k], t).Ok?
    decreases |es|
  {
    if |es| == 0 then None
    else if ElectrodeImpedance(es[0], t).Err? then Some(ElectrodeImpedance(es[0], t).error)
    else
      assert forall k :: 1 <= k < |es| ==> es[k] == es[1..][k - 1];
      FirstFailure(es[1..], t)
  }

  /** The loop over the electrodes: the first failing one raises. */
  function ElectrodeImpedances(es: seq<Electrode>, t: ImpTable): (r: Result<seq<real>>)
    requires t.Valid()
    ensures r.Ok? <==> forall k :: 0 <= k < |es| ==> ElectrodeImpedance(es[k], t).Ok?
    ensures r.Err? ==> r.error == FirstFailure(es, t).value
    ensures r.Ok? ==> |r.value| == |es| && forall k :: 0 <= k < |es| ==> r.value[k] == ElectrodeImpedance(es[k], t).value
  {
    match FirstFailure(es, t)
    case Some(e) => Err(e)
    case None => Ok(seq(|es|, k requires 0 <= k < |es| => ElectrodeImpedance(es[k], t).value))
  }

  /** `add_imp_to_nwb`: the impedance source is read first; a file that
      already has an `imp` column is refused; otherwise every electrode
      gets the impedance of its native channel and nothing else changes. */
  function AddImpToNwb(src: ImpSource, f: NwbFile, readCsv: string -> seq<CsvRow>,
                       readHeader: string -> seq<AmpChannel>): (r: Result<NwbFile>)
    ensures ReadImpedances(src, readCsv, readHeader).Err? ==> r == Err(ReadImpedances(src, readCsv, readHeader).error)
    ensures ReadImpedances(src, readCsv, readHeader).Ok? && f.imp.Some? ==> r == Err(AssertionError)
    ensures r.Ok? ==>
              && f.imp.None? && r.value.header == f.header && r.value.table == f.table && r.value.series == f.series && r.value.imp.Some?
              && var t := ReadImpedances(src, readCsv, readHeader).value;
                 ElectrodeImpedances(f.table.electrodes, t) == Ok(r.value.imp.value)
  {
    var t :- ReadImpedances(src, readCsv, readHeader);
    if f.imp.Some? then Err(AssertionError)
    else
      var imps :- ElectrodeImpedances(f.table.electrodes, t);
      Ok(f.(imp := Some(imps)))
  }

  predicate DistinctIds(xs: seq<int>) {
    forall i, j :: 0 <= i < j < |xs| ==> xs[i] != xs[j]
  }

  /** With distinct ids, the first position of an id is its only one. */
  lemma FirstIndexOfDistinct(xs: seq<int>, i: nat)
    requires DistinctIds(xs) && i < |xs|
    ensures FirstIndex(xs, xs[i]) == Some(i)
  {
    var j := FirstIndex(xs, xs[i]).value;
    assert !(j < i) && !(i < j);
  }

  /** Electrodes whose labels carry their ids, all present in the table, all
      get an impedance: that of the id's first entry. */
  lemma ImpedancesByLabel(es: seq<Electrode>, t: ImpTable)
    requires t.Valid()
    requires forall k :: 0 <= k < |es| ==> ParseLabelNative(es[k].name) == Some(es[k].id) && es[k].id in t.ids
    ensures ElectrodeImpedances(es, t).Ok?
    ensures forall k :: 0 <= k < |es| ==>
              ElectrodeImpedances(es, t).value[k] == t.ohms[FirstIndex(t.ids, es[k].id).value]
  {
  }

  /** Electrodes standing for channels `kept` of a header, each labelled
      with its channel's distinct native order, get those channels'
      impedances from the header. */
  lemma ImpedancesFromOwnHeader(es: seq<Electrode>, chs: seq<AmpChannel>, kept: seq<nat>)
    requires FromHeader(chs).Ok? && DistinctIds(FromHeader(chs).value.ids)
    requires |es| == |kept| && forall k :: 0 <= k < |kept| ==> kept[k] < |chs|
    requires forall k :: 0 <= k < |es| ==>
               ParseLabelNative(es[k].name) == Some(es[k].id) && es[k].id == chs[kept[k]].nativeOrder
    ensures var r := ElectrodeImpedances(es, FromHeader(chs).value);
            r.Ok? && forall k :: 0 <= k < |kept| ==> r.value[k] == chs[kept[k]].impedance
  {
    var t := FromHeader(chs).value;
    forall k | 0 <= k < |es|
      ensures es[k].id in t.ids && t.ohms[FirstIndex(t.ids, es[k].id).value] == chs[kept[k]].impedance
    {
      assert t.ids[kept[k]] == es[k].id;
      FirstIndexOfDistinct(t.ids, kept[k]);
    }
    ImpedancesByLabel(es, t);
  }

  /** The electrodes of a file initiated from an RHD chunk with non-negative
      native orders and shanks are labelled with their kept channels' native
      orders. */
  lemma InitiatedLabels(p: ParsedRhd, mapArg: ChannelMapArg, md: Metadata, maskArg: MaskArg, conv: Option<DataConv>)
    requires p.Valid() && MapArgValid(mapArg)
    requires InitiateNwb(p, mapArg, md, maskArg, conv).Ok?
    requires forall i :: 0 <= i < |p.channels| ==> p.channels[i].nativeOrder >= 0
    requires var es := InitiateNwb(p, mapArg, md, maskArg, conv).value.table.electrodes;
             forall k :: 0 <= k < |es| ==> es[k].group >= 0
    ensures var es := InitiateNwb(p, mapArg, md, maskArg, conv).value.table.electrodes;
            var kept := TrueIndices(InitialMask(p, maskArg).value);
            && |es| == |kept|
            && forall k :: 0 <= k < |es| ==>
                 && kept[k] < |p.channels|
                 && ParseLabelNative(es[k].name) == Some(es[k].id)
                 && es[k].id == p.channels[kept[k]].nativeOrder
  {
    var mask := InitialMask(p, maskArg).value;
    InitiatedElectrodesMatchColumns(p, mapArg, md, maskArg, conv);
    var natives := Select(NativeOrders(p), mask);
    SelectIsIndexed(NativeOrders(p), mask);
    assert forall k :: 0 <= k < |natives| ==> natives[k] >= 0;
    LabelsRecoverIds(natives, MapIds(natives), CoordinateMap(mapArg).value);
  }

  /** A file initiated from an RHD chunk, given that chunk's own header:
      with distinct non-negative native orders, non-negative shanks and
      some non-zero impedance, every electrode gets its own channel's
      impedance. */
  lemma ImpedanceOfOwnChannel(p: ParsedRhd, mapArg: ChannelMapArg, md: Metadata, maskArg: MaskArg, conv: Option<DataConv>,
                              readCsv: string -> seq<CsvRow>, readHeader: string -> seq<AmpChannel>)
    requires p.Valid() && MapArgValid(mapArg)
    requires InitiateNwb(p, mapArg, md, maskArg, conv).Ok?
    requires DistinctIds(NativeOrders(p)) && forall i :: 0 <= i < |p.channels| ==> p.channels[i].nativeOrder >= 0
    requires var es := InitiateNwb(p, mapArg, md, maskArg, conv).value.table.electrodes;
             forall k :: 0 <= k < |es| ==> es[k].group >= 0
    requires !AllZero(Impedances(p))
    ensures var f := InitiateNwb(p, mapArg, md, maskArg, conv).value;
            var r := AddImpToNwb(HeaderArg(p.channels), f, readCsv, readHeader);
            var kept := TrueIndices(InitialMask(p, maskArg).value);
            && r.Ok? && |r.value.imp.value| == |kept|
            && forall k :: 0 <= k < |kept| ==> r.value.imp.value[k] == p.channels[kept[k]].impedance
  {
    var f := InitiateNwb(p, mapArg, md, maskArg, conv).value;
    var kept := TrueIndices(InitialMask(p, maskArg).value);
    InitiatedLabels(p, mapArg, md, maskArg, conv);
    LabelledFileGetsOwnImpedances(p, f, kept, readCsv, readHeader);
  }

  /** The step of ImpedanceOfOwnChannel after the labels: a file whose
      electrodes carry the native orders of the kept channels, as labels
      and ids, gets those channels' impedances from their own header. */
  lemma LabelledFileGetsOwnImpedances(p: ParsedRhd, f: NwbFile, kept: seq<nat>,
                                      readCsv: string -> seq<CsvRow>, readHeader: string -> seq<AmpChannel>)
    requires p.Valid() && DistinctIds(NativeOrders(p)) && !AllZero(Impedances(p))
    requires f.imp.None? && |f.table.electrodes| == |kept|
    requires forall k :: 0 <= k < |kept| ==>
               && kept[k] < |p.channels|
               && ParseLabelNative(f.table.electrodes[k].name) == Some(f.table.electrodes[k].id)
               && f.table.electrodes[k].id == p.channels[kept[k]].nativeOrder
    ensures var r := AddImpToNwb(HeaderArg(p.channels), f, readCsv, readHeader);
            && r.Ok? && |r.value.imp.value| == |kept|
            && forall k :: 0 <= k < |kept| ==> r.value.imp.value[k] == p.channels[kept[k]].impedance
  {
    assert Impedances(ParsedRhd(0.0, p.channels, Dataset.Grid(0, 0, []), [])) == Impedances(p);
    assert FromHeader(p.channels).value.ids == NativeOrders(p);
    ImpedancesFromOwnHeader(f.table.electrodes, p.channels, kept);
    assert ReadImpedances(HeaderArg(p.channels), readCsv, readHeader) == FromHeader(p.channels);
  }
}

=== FILE: rhd_io.dfy ===
/** rhd_io_utils.py: writing parsed Intan RHD chunks into a temporary HDF5
    store (channels x samples) or into an NWB file (samples x channels), one
    chunk at a time. */
module RhdIo {
  import opened Wrappers
  import opened Seqs
  import opened Dataset
  import opened Channels
  import opened Nwb

  /** One amplifier channel of an RHD header. */
  datatype AmpChannel = AmpChannel(nativeOrder: int, impedance: real)

  /** What the RHD reader returns for one file: the amplifier sample rate,
      the channel descriptions, the (channels x samples) amplifier data and
      the sample times. */
  datatype ParsedRhd = ParsedRhd(sampleRate: real, channels: seq<AmpChannel>, amp: Grid<int>, t: seq<real>) {
    predicate Valid() {
      amp.Valid() && |channels| == amp.nRows && |t| == amp.nCols
    }
  }

  function NativeOrders(p: ParsedRhd): (r: seq<int>)
    ensures |r| == |p.channels| && forall i :: 0 <= i < |r| ==> r[i] == p.channels[i].nativeOrder
  {
    seq(|p.channels|, i requires 0 <= i < |p.channels| => p.channels[i].nativeOrder)
  }

  function Impedances(p: ParsedRhd): (r: seq<real>)
    ensures |r| == |p.channels| && forall i :: 0 <= i < |r| ==> r[i] == p.channels[i].impedance
  {
    seq(|p.channels|, i requires 0 <= i < |p.channels| => p.channels[i].impedance)
  }

  /** The temporary store: constant channel information plus the two
      growable datasets `amplifier_data` and `t`. */
  datatype TempStore = TempStore(nativeOrders: seq<int>, impedances: seq<real>, sampleRate: real, amp: Grid<int>, t: seq<real>)

  /** `initiate_temp_hdf5`: the kept channels' native orders, impedances and
      amplifier rows, in order, and all sample times. */
  function InitiateTemp(p: ParsedRhd, maskArg: MaskArg): (r: Result<TempStore>)
    requires p.Valid()
    ensures r.Ok? <==> ResolveMask(maskArg, p.amp.nRows, AssertionError).Ok?
    ensures r.Err? ==> r.error == AssertionError
    ensures r.Ok? ==>
              var mask := ResolveMask(maskArg, p.amp.nRows, AssertionError).value;
              && r.value.amp.Valid() && r.value.amp.nRows == CountTrue(mask) == |TrueIndices(mask)|
              && r.value.amp.nCols == |r.value.t|
              && |r.value.nativeOrders| == |r.value.impedances| == r.value.amp.nRows
              && (forall k :: 0 <= k < r.value.amp.nRows ==>
                    var c := TrueIndices(mask)[k];
                    && r.value.nativeOrders[k] == p.channels[c].nativeOrder
                    && r.value.impedances[k] == p.channels[c].impedance
                    && r.value.amp.cells[k] == p.amp.cells[c])
              && r.value.t == p.t && r.value.sampleRate == p.sampleRate
  {
    var mask :- ResolveMask(maskArg, p.amp.nRows, AssertionError);
    KeptChannels(p, mask);
    Ok(TempStore(Select(NativeOrders(p), mask), Select(Impedances(p), mask), p.sampleRate, SelectRows(p.amp, mask), p.t))
  }

  /** Item `k` of the kept native orders, impedances and amplifier rows
      belongs to the `k`-th kept channel. */
  lemma KeptChannels(p: ParsedRhd, mask: seq<bool>)
    requires p.Valid() && |mask| == p.amp.nRows
    ensures var natives, imps, amp := Select(NativeOrders(p), mask), Select(Impedances(p), mask), SelectRows(p.amp, mask);
            && |natives| == |imps| == amp.nRows == CountTrue(mask) == |TrueIndices(mask)|
            && forall k :: 0 <= k < amp.nRows ==>
                 var c := TrueIndices(mask)[k];
                 && natives[k] == p.channels[c].nativeOrder
                 && imps[k] == p.channels[c].impedance
                 && amp.cells[k] == p.amp.cells[c]
  {
    var natives, imps, rows := Select(NativeOrders(p), mask), Select(Impedances(p), mask), Select(p.amp.cells, mask);
    var idx := TrueIndices(mask);
    SelectIsIndexed(NativeOrders(p), mask);
    SelectIsIndexed(Impedances(p), mask);
    SelectIsIndexed(p.amp.cells, mask);
    forall k | 0 <= k < |idx|
      ensures natives[k] == p.channels[idx[k]].nativeOrder && imps[k] == p.channels[idx[k]].impedance
              && rows[k] == p.amp.cells[idx[k]]
    {
      assert natives[k] == NativeOrders(p)[idx[k]] && imps[k] == Impedances(p)[idx[k]];
    }
  }

  /** `append_temp_hdf5`: the kept amplifier rows grow along the sample axis
      and the sample times along theirs, by the same chunk. Both writes follow
      h5py: an empty store takes any chunk, a single kept channel is repeated
      into every stored row, and a chunk without samples selects the whole
      sample axis, so it is refused unless that axis is empty. */
  function AppendTemp(store: TempStore, p: ParsedRhd, maskArg: MaskArg): (r: Result<TempStore>)
    requires p.Valid() && store.amp.Valid()
    ensures r.Ok? <==>
              && ResolveMask(maskArg, p.amp.nRows, AssertionError).Ok?
              && var kept := CountTrue(ResolveMask(maskArg, p.amp.nRows, AssertionError).value);
                 var n := store.amp.nRows;
                 && (n == 0 || (if p.amp.nCols > 0 then Broadcasts(kept, n) else store.amp.nCols == 0))
                 && (p.amp.nCols > 0 || |store.t| == 0)
    ensures r.Ok? ==> r.value.amp.Valid() && r.value.amp.nRows == store.amp.nRows
    ensures r.Ok? ==> r.value.nativeOrders == store.nativeOrders && r.value.impedances == store.impedances
                      && r.value.sampleRate == store.sampleRate
    ensures r.Ok? ==> r.value.t == store.t + p.t && r.value.amp.nCols == store.amp.nCols + p.amp.nCols
    ensures r.Ok? ==> forall i :: 0 <= i < store.amp.nRows ==> r.value.amp.cells[i][..store.amp.nCols] == store.amp.cells[i]
    ensures r.Ok? ==>
              var mask := ResolveMask(maskArg, p.amp.nRows, AssertionError).value;
              var n, m := store.amp.nRows, store.amp.nCols;
              forall i, s :: 0 <= i < n && m <= s < r.value.amp.nCols ==>
                r.value.amp.cells[i][s] == SelectRows(p.amp, mask).cells[if CountTrue(mask) == n then i else 0][s - m]
    ensures (ResolveMask(maskArg, p.amp.nRows, AssertionError).Ok?
             && CountTrue(ResolveMask(maskArg, p.amp.nRows, AssertionError).value) == store.amp.nRows
             && p.amp.nCols > 0) ==>
              r.Ok? && forall i :: 0 <= i < store.amp.nRows ==>
                r.value.amp.cells[i] == store.amp.cells[i]
                  + SelectRows(p.amp, ResolveMask(maskArg, p.amp.nRows, AssertionError).value).cells[i]
  {
    var mask :- ResolveMask(maskArg, p.amp.nRows, AssertionError);
    var amp :- AppendCols(store.amp, SelectRows(p.amp, mask), 0);
    var t :- AppendVec(store.t, p.t, 0.0);
    Ok(store.(amp := amp, t := t))
  }

  predicate AllValid(files: seq<ParsedRhd>) {
    forall k :: 0 <= k < |files| ==> files[k].Valid()
  }

  /** Every file has `n` channels and at least one sample. */
  predicate Uniform(files: seq<ParsedRhd>, n: nat) {
    forall k :: 0 <= k < |files| ==> files[k].Valid() && files[k].amp.nRows == n && files[k].amp.nCols > 0
  }

  lemma UniformTail(files: seq<ParsedRhd>, n: nat)
    requires |files| > 0 && Uniform(files, n)
    ensures Uniform(files[1..], n) && files[0].Valid() && files[0].amp.nRows == n && files[0].amp.nCols > 0
  {
    assert forall k :: 0 <= k < |files[1..]| ==> files[1..][k] == files[k + 1];
  }

  function AppendTempAll(store: TempStore, files: seq<ParsedRhd>, maskArg: MaskArg): Result<TempStore>
    requires store.amp.Valid() && AllValid(files)
    decreases |files|
  {
    if |files| == 0 then Ok(store)
    else
      var s :- AppendTemp(store, files[0], maskArg);
      AppendTempAll(s, files[1..], maskArg)
  }

  function Times(files: seq<ParsedRhd>): (r: seq<seq<real>>)
    ensures |r| == |files| && forall k :: 0 <= k < |files| ==> r[k] == files[k].t
  {
    seq(|files|, k requires 0 <= k < |files| => files[k].t)
  }

  /** Row `i` of every file's kept amplifier data. */
  function RowPieces(files: seq<ParsedRhd>, mask: seq<bool>, i: nat): (r: seq<seq<int>>)
    requires Uniform(files, |mask|) && i < CountTrue(mask)
    ensures |r| == |files|
    ensures forall k :: 0 <= k < |files| ==> r[k] == SelectRows(files[k].amp, mask).cells[i]
  {
    seq(|files|, k requires 0 <= k < |files| => SelectRows(files[k].amp, mask).cells[i])
  }

  /** `r` is `store` after streaming `files` with `mask`: every kept row is
      the old row followed by that row of every file, in order; the times are
      the old times followed by every file's times; the channel information
      is unchanged. */
  predicate Streamed(store: TempStore, r: TempStore, files: seq<ParsedRhd>, mask: seq<bool>)
    requires store.amp.Valid() && Uniform(files, |mask|) && store.amp.nRows == CountTrue(mask)
  {
    && r.amp.Valid() && r.amp.nRows == store.amp.nRows
    && r.nativeOrders == store.nativeOrders && r.impedances == store.impedances
    && TimesStreamed(store, r, files)
    && RowsStreamed(store, r, files, mask)
  }

  predicate TimesStreamed(store: TempStore, r: TempStore, files: seq<ParsedRhd>) {
    && r.t == store.t + Flatten(Times(files))
    && r.amp.nCols - |r.t| == store.amp.nCols - |store.t|
  }

  predicate RowsStreamed(store: TempStore, r: TempStore, files: seq<ParsedRhd>, mask: seq<bool>)
    requires Uniform(files, |mask|) && store.amp.nRows == CountTrue(mask) && store.amp.Valid()
  {
    r.amp.Valid() && r.amp.nRows == store.amp.nRows &&
    forall i :: 0 <= i < r.amp.nRows ==> r.amp.cells[i] == store.amp.cells[i] + Flatten(RowPieces(files, mask, i))
  }

  /** Streaming files that agree on the channel count into the temporary
      store with one valid mask builds the in-order concatenation, and the
      amplifier data and the times keep growing by the same amount. */
  lemma {:induction false} TempStreamingIsConcat(store: TempStore, files: seq<ParsedRhd>, mask: seq<bool>)
    requires store.amp.Valid() && Uniform(files, |mask|) && store.amp.nRows == CountTrue(mask)
    ensures AllValid(files) && AppendTempAll(store, files, GivenMask(true, mask)).Ok?
    ensures Streamed(store, AppendTempAll(store, files, GivenMask(true, mask)).value, files, mask)
    decreases |files|
  {
    if |files| == 0 {
      assert store.t + Flatten(Times(files)) == store.t;
      forall i | 0 <= i < store.amp.nRows ensures store.amp.cells[i] == store.amp.cells[i] + Flatten(RowPieces(files, mask, i)) {
        assert Flatten(RowPieces(files, mask, i)) == [];
      }
    } else {
      UniformTail(files, |mask|);
      var s := AppendTemp(store, files[0], GivenMask(true, mask)).value;
      TempStreamingIsConcat(s, files[1..], mask);
      var r := AppendTempAll(s, files[1..], GivenMask(true, mask)).value;
      TimesStep(store, s, r, files);
      RowsStep(store, s, r, files, mask);
    }
  }

  lemma TimesStep(store: TempStore, s: TempStore, r: TempStore, files: seq<ParsedRhd>)
    requires |files| > 0
    requires s.t == store.t + files[0].t && s.amp.nCols == store.amp.nCols + files[0].amp.nCols
    requires |files[0].t| == files[0].amp.nCols
    requires TimesStreamed(s, r, files[1..])
    ensures TimesStreamed(store, r, files)
  {
    assert Times(files)[1..] == Times(files[1..]);
    assert Flatten(Times(files)) == files[0].t + Flatten(Times(files[1..]));
  }

  lemma RowsStep(store: TempStore, s: TempStore, r: TempStore, files: seq<ParsedRhd>, mask: seq<bool>)
    requires |files| > 0 && Uniform(files, |mask|) && Uniform(files[1..], |mask|)
    requires store.amp.Valid() && store.amp.nRows == CountTrue(mask)
    requires s.amp.Valid() && s.amp.nRows == store.amp.nRows
    requires forall i :: 0 <= i < s.amp.nRows ==> s.amp.cells[i] == store.amp.cells[i] + SelectRows(files[0].amp, mask).cells[i]
    requires RowsStreamed(s, r, files[1..], mask)
    ensures RowsStreamed(store, r, files, mask)
  {
    forall i | 0 <= i < r.amp.nRows ensures r.amp.cells[i] == store.amp.cells[i] + Flatten(RowPieces(files, mask, i)) {
      RowPiecesStep(files, mask, i);
      AppendAssoc(store.amp.cells[i], SelectRows(files[0].amp, mask).cells[i], Flatten(RowPieces(files[1..], mask, i)));
    }
  }

  lemma RowPiecesStep(files: seq<ParsedRhd>, mask: seq<bool>, i: nat)
    requires |files| > 0 && Uniform(files, |mask|) && Uniform(files[1..], |mask|) && i < CountTrue(mask)
    ensures Flatten(RowPieces(files, mask, i))
         == SelectRows(files[0].amp, mask).cells[i] + Flatten(RowPieces(files[1..], mask, i))
  {
    assert RowPieces(files, mask, i)[1..] == RowPieces(files[1..], mask, i);
  }

  /** The mask `initiate_nwb` applies: the 32-on-64 hot-fix default when none
      is given, else the given one, which must be boolean and of the
      channel count. */
  function InitialMask(p: ParsedRhd, maskArg: MaskArg): (r: Result<seq<bool>>)
    requires p.Valid()
    ensures r.Ok? ==> |r.value| == p.amp.nRows
    ensures maskArg.NoMask? && !(32 < p.amp.nRows <= 64) ==> r == Ok(AllTrue(p.amp.nRows))
    ensures maskArg.NoMask? && 32 < p.amp.nRows <= 64 ==>
              r.Ok? && forall i :: 0 <= i < p.amp.nRows ==> (r.value[i] <==> InHotfixBlock(p.channels[i].nativeOrder))
    ensures maskArg.GivenMask? ==> r == ResolveMask(maskArg, p.amp.nRows, ValueError)
  {
    if maskArg.NoMask? then DefaultMask(p.amp.nRows, NativeOrders(p))
    else ResolveMask(maskArg, p.amp.nRows, ValueError)
  }

  /** The NWB data of a chunk: its kept amplifier rows, transposed to
      (samples x channels). */
  function NwbChunk(p: ParsedRhd, mask: seq<bool>): (g: Grid<int>)
    requires p.Valid() && |mask| == p.amp.nRows
    ensures g.Valid() && g.nRows == p.amp.nCols && g.nCols == CountTrue(mask) == |TrueIndices(mask)|
    ensures forall s, c :: 0 <= s < g.nRows && 0 <= c < g.nCols ==>
              g.cells[s][c] == p.amp.cells[TrueIndices(mask)[c]][s]
  {
    SelectIsIndexed(p.amp.cells, mask);
    Transpose(SelectRows(p.amp, mask))
  }

  /** rhd_io_utils.py `initiate_nwb` with an RHD chunk: the header from the
      metadata and the RHD defaults, one electrode per kept channel with id
      its native order, looked up at map row native - 16, and the kept
      channels' data as (samples x channels), starting at time 0. The file
      object refuses a start time that is not a date and time (a TypeError),
      which happens after the mask is checked and before the map is read. */
  function InitiateNwb(p: ParsedRhd, mapArg: ChannelMapArg, md: Metadata, maskArg: MaskArg, conv: Option<DataConv>): (r: Result<NwbFile>)
    requires p.Valid() && MapArgValid(mapArg)
    ensures r.Ok? <==>
              && InitialMask(p, maskArg).Ok? && MakeHeader(md, RHD_DEFAULTS).startTime.At? && CoordinateMap(mapArg).Ok?
              && var natives := Select(NativeOrders(p), InitialMask(p, maskArg).value);
                 BuildElectrodes(natives, MapIds(natives), CoordinateMap(mapArg).value).Ok?
    ensures InitialMask(p, maskArg).Err? ==> r == Err(InitialMask(p, maskArg).error)
    ensures InitialMask(p, maskArg).Ok? && !MakeHeader(md, RHD_DEFAULTS).startTime.At? ==> r == Err(TypeError)
    ensures r.Ok? ==>
              var mask := InitialMask(p, maskArg).value;
              var natives := Select(NativeOrders(p), mask);
              && r.value.header == MakeHeader(md, RHD_DEFAULTS)
              && r.value.table == BuildElectrodes(natives, MapIds(natives), CoordinateMap(mapArg).value).value
              && r.value.imp.None?
              && r.value.series.data == NwbChunk(p, mask)
              && r.value.series.rate == p.sampleRate && r.value.series.startingTime == 0.0
              && r.value.series.conv == ConvOrDefault(conv)
              && r.value.series.region == Range(CountTrue(mask))
  {
    var mask :- InitialMask(p, maskArg);
    var header := MakeHeader(md, RHD_DEFAULTS);
    if !header.startTime.At? then Err(TypeError)
    else
      var m :- CoordinateMap(mapArg);
      var natives := Select(NativeOrders(p), mask);
      SelectIsIndexed(NativeOrders(p), mask);
      var table :- BuildElectrodes(natives, MapIds(natives), m);
      Ok(NwbFile(header, table, None,
        ElectricalSeries(NwbChunk(p, mask), p.sampleRate, 0.0, ConvOrDefault(conv), Range(|natives|))))
  }

  /** Electrode `k` of a freshly initiated file is the `k`-th kept channel:
      its id is that channel's native order, and the data column `k` is that
      channel's samples. */
  lemma InitiatedElectrodesMatchColumns(p: ParsedRhd, mapArg: ChannelMapArg, md: Metadata, maskArg: MaskArg, conv: Option<DataConv>)
    requires p.Valid() && MapArgValid(mapArg)
    ensures InitiateNwb(p, mapArg, md, maskArg, conv).Ok? ==>
              var f := InitiateNwb(p, mapArg, md, maskArg, conv).value;
              var kept := TrueIndices(InitialMask(p, maskArg).value);
              && |f.table.electrodes| == f.series.data.nCols == |kept| == |f.series.region|
              && forall k :: 0 <= k < |kept| ==>
                   && f.table.electrodes[k].id == p.channels[kept[k]].nativeOrder
                   && forall s :: 0 <= s < f.series.data.nRows ==> f.series.data.cells[s][k] == p.amp.cells[kept[k]][s]
  {
    if InitiateNwb(p, mapArg, md, maskArg, conv).Ok? {
      var mask := InitialMask(p, maskArg).value;
      SelectIsIndexed(NativeOrders(p), mask);
    }
  }

  /** `b` is `a` with other stored data: the header, the electrode table,
      the impedances and every other field of the series agree. */
  predicate OnlyDataDiffers(a: NwbFile, b: NwbFile) {
    && b.header == a.header && b.table == a.table && b.imp == a.imp
    && b.series.rate == a.series.rate && b.series.startingTime == a.series.startingTime
    && b.series.conv == a.series.conv && b.series.region == a.series.region
  }

  /** `append_nwb`: the chunk's kept channels, transposed, go after the rows
      already in the file; nothing else in the file changes. A missing mask
      keeps every channel (no hot-fix here). The write follows h5py: it
      passes unchecked when the file has no channel column, and otherwise
      the kept channels must match the file's width or be a single channel,
      which is then repeated across every column. */
  function AppendNwb(f: NwbFile, p: ParsedRhd, maskArg: MaskArg): (r: Result<NwbFile>)
    requires p.Valid() && f.series.data.Valid()
    ensures r.Ok? <==>
              && ResolveMask(maskArg, p.amp.nRows, AssertionError).Ok?
              && var kept := CountTrue(ResolveMask(maskArg, p.amp.nRows, AssertionError).value);
                 var width := f.series.data.nCols;
                 width == 0 || (if p.amp.nCols > 0 then Broadcasts(kept, width) else f.series.data.nRows == 0)
    ensures r.Ok? ==> OnlyDataDiffers(f, r.value)
    ensures r.Ok? ==>
              && r.value.series.data.Valid() && r.value.series.data.nCols == f.series.data.nCols
              && r.value.series.data.nRows == f.series.data.nRows + p.amp.nCols
              && r.value.series.data.cells[..f.series.data.nRows] == f.series.data.cells
    ensures r.Ok? ==>
              var mask := ResolveMask(maskArg, p.amp.nRows, AssertionError).value;
              var n, width := f.series.data.nRows, f.series.data.nCols;
              forall s, c :: n <= s < r.value.series.data.nRows && 0 <= c < width ==>
                r.value.series.data.cells[s][c] == NwbChunk(p, mask).cells[s - n][if CountTrue(mask) == width then c else 0]
    ensures r.Ok? && CountTrue(ResolveMask(maskArg, p.amp.nRows, AssertionError).value) == f.series.data.nCols ==>
              r.value.series.data.cells
              == f.series.data.cells + NwbChunk(p, ResolveMask(maskArg, p.amp.nRows, AssertionError).value).cells
  {
    var mask :- ResolveMask(maskArg, p.amp.nRows, AssertionError);
    var data :- AppendRows(f.series.data, NwbChunk(p, mask), 0);
    Ok(f.(series := f.series.(data := data)))
  }

  function AppendNwbAll(f: NwbFile, files: seq<ParsedRhd>, maskArg: MaskArg): Result<NwbFile>
    requires f.series.data.Valid() && AllValid(files)
    decreases |files|
  {
    if |files| == 0 then Ok(f)
    else
      var g :- AppendNwb(f, files[0], maskArg);
      AppendNwbAll(g, files[1..], maskArg)
  }

  function NwbChunks(files: seq<ParsedRhd>, mask: seq<bool>): (r: seq<seq<seq<int>>>)
    requires Uniform(files, |mask|)
    ensures |r| == |files| && forall k :: 0 <= k < |files| ==> r[k] == NwbChunk(files[k], mask).cells
  {
    seq(|files|, k requires 0 <= k < |files| => NwbChunk(files[k], mask).cells)
  }

  /** Streaming files that agree on the channel count into an NWB file with
      one valid mask: the stored rows are the old rows followed by every
      file's transposed kept data, in order, and nothing else changes. */
  lemma {:induction false} NwbStreamingIsConcat(f: NwbFile, files: seq<ParsedRhd>, maskArg: MaskArg, n: nat)
    requires f.series.data.Valid() && Uniform(files, n)
    requires ResolveMask(maskArg, n, AssertionError).Ok?
    requires f.series.data.nCols == CountTrue(ResolveMask(maskArg, n, AssertionError).value)
    ensures AllValid(files) && AppendNwbAll(f, files, maskArg).Ok?
    ensures var r := AppendNwbAll(f, files, maskArg).value;
            && OnlyDataDiffers(f, r)
            && r.series.data.Valid() && r.series.data.nCols == f.series.data.nCols
            && r.series.data.cells
               == f.series.data.cells + Flatten(NwbChunks(files, ResolveMask(maskArg, n, AssertionError).value))
    decreases |files|
  {
    var mask := ResolveMask(maskArg, n, AssertionError).value;
    if |files| == 0 {
      assert f.series.data.cells + Flatten(NwbChunks(files, mask)) == f.series.data.cells;
    } else {
      UniformTail(files, n);
      AppendNwbStep(f, files[0], maskArg);
      var g := AppendNwb(f, files[0], maskArg).value;
      NwbStreamingIsConcat(g, files[1..], maskArg, n);
      var r := AppendNwbAll(g, files[1..], maskArg).value;
      assert AppendNwbAll(f, files, maskArg) == Ok(r);
      assert NwbChunks(files, mask)[1..] == NwbChunks(files[1..], mask);
      StackTwice(f, g, r, NwbChunk(files[0], mask).cells, Flatten(NwbChunks(files[1..], mask)));
    }
  }

  /** Two appends in a row stack both chunks, in order, under the old rows. */
  lemma StackTwice(f: NwbFile, g: NwbFile, r: NwbFile, b: seq<seq<int>>, c: seq<seq<int>>)
    requires OnlyDataDiffers(f, g) && OnlyDataDiffers(g, r)
    requires g.series.data.cells == f.series.data.cells + b && r.series.data.cells == g.series.data.cells + c
    ensures OnlyDataDiffers(f, r) && r.series.data.cells == f.series.data.cells + (b + c)
  {
    assert (f.series.data.cells + b) + c == f.series.data.cells + (b + c);
  }

  /** One append of a chunk with samples whose kept channels match the
      file's width stacks the chunk under the stored rows. */
  lemma AppendNwbStep(f: NwbFile, p: ParsedRhd, maskArg: MaskArg)
    requires p.Valid() && f.series.data.Valid() && p.amp.nCols > 0
    requires ResolveMask(maskArg, p.amp.nRows, AssertionError).Ok?
    requires CountTrue(ResolveMask(maskArg, p.amp.nRows, AssertionError).value) == f.series.data.nCols
    ensures AppendNwb(f, p, maskArg).Ok?
    ensures var g := AppendNwb(f, p, maskArg).value;
            && OnlyDataDiffers(f, g)
            && g.series.data.Valid() && g.series.data.nCols == f.series.data.nCols
            && g.series.data.cells == f.series.data.cells + NwbChunk(p, ResolveMask(maskArg, p.amp.nRows, AssertionError).value).cells
  {
  }

  /** One chunk written to the temporary store and to an NWB file that
      holds the store's transpose leaves the two in the same relation. */
  lemma TempAndNwbAgree(store: TempStore, f: NwbFile, p: ParsedRhd, maskArg: MaskArg)
    requires p.Valid() && store.amp.Valid() && f.series.data.Valid()
    requires f.series.data == Transpose(store.amp)
    requires ResolveMask(maskArg, p.amp.nRows, AssertionError).Ok?
    requires CountTrue(ResolveMask(maskArg, p.amp.nRows, AssertionError).value) == store.amp.nRows
    requires p.amp.nCols > 0
    ensures AppendTemp(store, p, maskArg).Ok? && AppendNwb(f, p, maskArg).Ok?
    ensures AppendNwb(f, p, maskArg).value.series.data == Transpose(AppendTemp(store, p, maskArg).value.amp)
  {
    var mask := ResolveMask(maskArg, p.amp.nRows, AssertionError).value;
    AppendColsIsTransposedAppendRows(store.amp, SelectRows(p.amp, mask), 0);
  }

  /** With no mask, a 33..64-channel chunk with channels both inside and
      outside the native block [16, 48) initiates a file narrower than the
      chunk but not empty, so appending the next chunk of the same recording
      without a mask fails once that chunk has samples. */
  lemma DefaultMasksDisagree(p0: ParsedRhd, p1: ParsedRhd, mapArg: ChannelMapArg, md: Metadata, conv: Option<DataConv>,
                             i: nat, j: nat)
    requires p0.Valid() && p1.Valid() && MapArgValid(mapArg)
    requires 32 < p0.amp.nRows <= 64 && p1.amp.nRows == p0.amp.nRows && p1.amp.nCols > 0
    requires i < p0.amp.nRows && !InHotfixBlock(p0.channels[i].nativeOrder)
    requires j < p0.amp.nRows && InHotfixBlock(p0.channels[j].nativeOrder)
    ensures InitiateNwb(p0, mapArg, md, NoMask, conv).Ok? ==>
              && InitiateNwb(p0, mapArg, md, NoMask, conv).value.series.data.Valid()
              && AppendNwb(InitiateNwb(p0, mapArg, md, NoMask, conv).value, p1, NoMask).Err?
  {
    if InitiateNwb(p0, mapArg, md, NoMask, conv).Ok? {
      var mask := InitialMask(p0, NoMask).value;
      CountTrueBelowLength(mask, i);
      CountTruePositive(mask, j);
      var f := InitiateNwb(p0, mapArg, md, NoMask, conv).value;
      assert f.series.data.nCols == CountTrue(mask);
      assert ResolveMask(NoMask, p1.amp.nRows, AssertionError) == Ok(AllTrue(p1.amp.nRows));
      assert CountTrue(AllTrue(p1.amp.nRows)) == p1.amp.nRows by {
        SelectAll(p1.amp.cells, AllTrue(p1.amp.nRows));
      }
    }
  }
}

=== FILE: rhd_names.dfy ===
/** rhd_folder.py name rules: recognising an Intan session folder, taking
    the `yymmdd_HHMMSS` text out of an `.rhd` file name, and ordering a
    folder's `.rhd` files by the time decoded from that text. */
module RhdNames {
  import opened Wrappers
  import opened Text
  import opened Seqs

  /** The character class `[a-zA-Z0-9_\-]`. */
  predicate NameChar(c: char) {
    ('a' <= c <= 'z') || ('A' <= c <= 'Z') || IsDigit(c) || c == '_' || c == '-'
  }

  predicate AllNameChars(s: string) {
    forall j :: 0 <= j < |s| ==> NameChar(s[j])
  }

  /** The pattern `([a-zA-Z0-9_\-]+)_(\d{6}_\d{6})` matches at the start of
      `s` with the first group ending just before position `i`. */
  predicate EphysAt(s: string, i: int) {
    && 1 <= i && i + 14 <= |s|
    && AllNameChars(s[..i])
    && s[i] == '_' && AllDigits(s[i + 1..i + 7]) && s[i + 7] == '_' && AllDigits(s[i + 8..i + 14])
  }

  /** `is_ephys_folder`: `re.match` anchors the pattern at the start only, so
      anything may follow the second six-digit field. */
  ghost predicate IsEphysFolder(s: string) {
    exists i :: EphysAt(s, i)
  }

  /** Tries every end position of the first group, stopping once a character
      outside the class closes it off. */
  method MatchEphysFolder(s: string) returns (b: bool)
    ensures b <==> IsEphysFolder(s)
  {
    var i := 1;
    while i + 14 <= |s| && NameChar(s[i - 1])
      invariant 1 <= i <= |s| + 1
      invariant AllNameChars(s[..i - 1])
      invariant forall k :: 1 <= k < i ==> !EphysAt(s, k)
      decreases |s| - i
    {
      if EphysAt(s, i) {
        return true;
      }
      assert s[..i] == s[..i - 1] + [s[i - 1]];
      i := i + 1;
    }
    forall k | i <= k
      ensures !EphysAt(s, k)
    {
      if k + 14 <= |s| {
        assert s[..k][i - 1] == s[i - 1];
      }
    }
    return false;
  }

  /** A recognised folder name: a session prefix, then date and time. */
  lemma EphysFolderExample()
    ensures IsEphysFolder("mouse-A_230115_093000_extra")
  {
    var s := "mouse-A_230115_093000_extra";
    assert s[..7] == "mouse-A";
    assert s[8..14] == "230115";
    assert s[15..21] == "093000";
    assert EphysAt(s, 7);
  }

  /** The longest prefix of `s` drawn from the class. */
  function NameRun(s: string): (r: string)
    ensures r <= s && AllNameChars(r)
    ensures |r| == |s| || !NameChar(s[|r|])
    decreases |s|
  {
    if |s| == 0 || !NameChar(s[0]) then [] else [s[0]] + NameRun(s[1..])
  }

  lemma {:induction false} NameRunOf(a: string, b: string)
    requires AllNameChars(a)
    requires |b| == 0 || !NameChar(b[0])
    ensures NameRun(a + b) == a
    decreases |a|
  {
    if |a| > 0 {
      assert (a + b)[1..] == a[1..] + b;
      NameRunOf(a[1..], b);
    } else {
      assert a + b == b;
    }
  }

  /** The match of `([a-zA-Z0-9_\-]+)_([0-9]+_[0-9]+)\.rhd` at the start of
      `f` with groups `g1` and `d1 + "_" + d2`. */
  ghost predicate TimestampMatch(f: string, g1: string, d1: string, d2: string) {
    && |g1| > 0 && AllNameChars(g1)
    && |d1| > 0 && AllDigits(d1) && |d2| > 0 && AllDigits(d2)
    && StartsWith(f, g1 + "_" + d1 + "_" + d2 + ".rhd")
  }

  /** `get_rhd_timestamp`'s second group, `None` where the pattern fails.
      Every character of the match up to ".rhd" lies in the class and '.'
      does not, so the stem is the longest class run; the greedy first group
      leaves the last two '_'-separated fields of the stem to the second. */
  function RhdTimestampText(f: string): Option<string> {
    var stem := NameRun(f);
    if !StartsWith(f[|stem|..], ".rhd") then None
    else
      var parts := Split(stem, '_');
      if |parts| < 3 then None
      else
        var d1 := parts[|parts| - 2];
        var d2 := parts[|parts| - 1];
        if |d1| == 0 || |d2| == 0 || !AllDigits(d1) || !AllDigits(d2) then None
        else if |Join(parts[..|parts| - 2], '_')| == 0 then None
        else Some(d1 + "_" + d2)
  }

  lemma {:induction false} JoinSnoc(ps: seq<string>, x: string, sep: char)
    requires |ps| > 0
    ensures Join(ps + [x], sep) == Join(ps, sep) + [sep] + x
    decreases |ps|
  {
    if |ps| > 1 {
      assert (ps + [x])[1..] == ps[1..] + [x];
      JoinSnoc(ps[1..], x, sep);
    }
  }

  /** The text is taken exactly when the pattern matches, and then it is the
      second group of the match; since digits never contain '_', the match
      is unique. */
  lemma RhdTimestampTextIsMatch(f: string)
    ensures RhdTimestampText(f).Some? <==> exists g1, d1, d2 :: TimestampMatch(f, g1, d1, d2)
    ensures forall g1, d1, d2 :: TimestampMatch(f, g1, d1, d2) ==> RhdTimestampText(f) == Some(d1 + "_" + d2)
  {
    forall g1, d1, d2 | TimestampMatch(f, g1, d1, d2)
      ensures RhdTimestampText(f) == Some(d1 + "_" + d2)
    {
      TimestampComplete(f, g1, d1, d2);
    }
    if RhdTimestampText(f).Some? {
      var g1, d1, d2 := TimestampSound(f);
    }
  }

  lemma DigitsHaveNoSeparator(d: string)
    requires AllDigits(d)
    ensures Free(d, '_') && Split(d, '_') == [d]
  {
    assert IndexOf(d, '_') == None;
  }

  /** The stem of a match lies wholly in the name class. */
  lemma StemNameChars(g1: string, d1: string, d2: string)
    requires AllNameChars(g1) && AllDigits(d1) && AllDigits(d2)
    ensures AllNameChars(g1 + "_" + d1 + "_" + d2)
  {
    var stem := g1 + "_" + d1 + "_" + d2;
    forall j | 0 <= j < |stem| ensures NameChar(stem[j]) {
      if j < |g1| {
        assert stem[j] == g1[j];
      } else if j == |g1| || j == |g1| + 1 + |d1| {
      } else if j < |g1| + 1 + |d1| {
        assert stem[j] == d1[j - |g1| - 1];
      } else {
        assert stem[j] == d2[j - |g1| - 2 - |d1|];
      }
    }
  }

  /** The stem of a match splits back into its first group's fields and the
      two digit fields. */
  lemma StemFields(g1: string, d1: string, d2: string)
    requires AllDigits(d1) && AllDigits(d2)
    ensures var parts := Split(g1 + "_" + d1 + "_" + d2, '_');
            && |parts| >= 3 && parts[|parts| - 2] == d1 && parts[|parts| - 1] == d2
            && Join(parts[..|parts| - 2], '_') == g1
  {
    DigitsHaveNoSeparator(d1);
    DigitsHaveNoSeparator(d2);
    SplitAppend(g1 + "_" + d1, d2, '_');
    SplitAppend(g1, d1, '_');
    var parts := Split(g1 + "_" + d1 + "_" + d2, '_');
    assert parts == Split(g1, '_') + [d1] + [d2];
    assert parts[..|parts| - 2] == Split(g1, '_');
    JoinSplit(g1, '_');
  }

  lemma TimestampComplete(f: string, g1: string, d1: string, d2: string)
    requires TimestampMatch(f, g1, d1, d2)
    ensures RhdTimestampText(f) == Some(d1 + "_" + d2)
  {
    var stem := g1 + "_" + d1 + "_" + d2;
    assert f[..|stem| + 4] == stem + ".rhd";
    assert f == stem + f[|stem|..];
    StemNameChars(g1, d1, d2);
    assert f[|stem|] == '.';
    NameRunOf(stem, f[|stem|..]);
    assert f[|stem|..][..4] == ".rhd";
    StemFields(g1, d1, d2);
  }

  lemma TimestampSound(f: string) returns (g1: string, d1: string, d2: string)
    requires RhdTimestampText(f).Some?
    ensures TimestampMatch(f, g1, d1, d2)
  {
    var stem := NameRun(f);
    var parts := Split(stem, '_');
    var n := |parts|;
    d1 := parts[n - 2];
    d2 := parts[n - 1];
    g1 := Join(parts[..n - 2], '_');
    assert parts == parts[..n - 2] + [d1] + [d2];
    JoinSnoc(parts[..n - 2], d1, '_');
    assert parts[..n - 2] + [d1] == parts[..n - 1];
    JoinSnoc(parts[..n - 1], d2, '_');
    assert parts[..n - 1] + [d2] == parts;
    JoinSplit(stem, '_');
    assert stem == g1 + "_" + d1 + "_" + d2;
    assert AllNameChars(g1) by {
      forall j | 0 <= j < |g1| ensures NameChar(g1[j]) {
        assert g1[j] == stem[j];
      }
    }
    assert f == stem + f[|stem|..];
    assert f[..|stem| + 4] == stem + ".rhd";
  }

  /** A file name paired with the time decoded from its name. */
  datatype Stamped = Stamped(name: string, stamp: int)

  predicate ByStamp(a: Stamped, b: Stamped) {
    a.stamp <= b.stamp
  }

  lemma ByStampIsPreorder()
    ensures TotalPreorder(ByStamp)
  {
  }

  /** The sort key of one file: a name the pattern rejects makes the key
      function index `None` (`TypeError`); a text `strptime` rejects is a
      `ValueError`. `decode` stands for `strptime(text, "%y%m%d_%H%M%S")`
      in seconds. */
  function FileStamp(f: string, decode: string -> Option<int>): (r: Result<int>)
    ensures RhdTimestampText(f).None? ==> r == Err(TypeError)
    ensures RhdTimestampText(f).Some? ==>
              (r.Ok? <==> decode(RhdTimestampText(f).value).Some?)
    ensures r.Ok? ==> r.value == decode(RhdTimestampText(f).value).value
    ensures r.Err? && RhdTimestampText(f).Some? ==> r.error == ValueError
  {
    match RhdTimestampText(f)
    case None => Err(TypeError)
    case Some(text) => if decode(text).Some? then Ok(decode(text).value) else Err(ValueError)
  }

  /** Every key, in list order; the first failing key is the error. */
  function StampAll(files: seq<string>, decode: string -> Option<int>): (r: Result<seq<Stamped>>)
    ensures r.Ok? ==> |r.value| == |files|
    ensures r.Ok? ==> forall k :: 0 <= k < |files| ==>
              FileStamp(files[k], decode) == Ok(r.value[k].stamp) && r.value[k].name == files[k]
    ensures r.Err? <==> exists k :: 0 <= k < |files| && FileStamp(files[k], decode).Err?
    decreases |files|
  {
    if |files| == 0 then Ok([])
    else
      var s :- FileStamp(files[0], decode);
      var rest :- StampAll(files[1..], decode);
      assert forall k :: 1 <= k < |files| ==> files[k] == files[1..][k - 1];
      Ok([Stamped(files[0], s)] + rest)
  }

  predicate IsRhd(name: string) {
    EndsWith(name, ".rhd")
  }

  /** `sorted(filter(lambda x: x.endswith(".rhd"), listing), key=get_rhd_timestamp)`:
      the `.rhd` entries, stably ordered by decoded time. */
  function SortedRhdFiles(listing: seq<string>, decode: string -> Option<int>): (r: Result<seq<Stamped>>)
    ensures r.Ok? <==> StampAll(Filter(listing, IsRhd), decode).Ok?
    ensures r.Ok? ==> SortedBy(r.value, ByStamp)
    ensures r.Ok? ==> multiset(r.value) == multiset(StampAll(Filter(listing, IsRhd), decode).value)
  {
    ByStampIsPreorder();
    var stamped :- StampAll(Filter(listing, IsRhd), decode);
    Ok(SortBy(stamped, ByStamp))
  }

  /** Only `.rhd` entries of the listing are kept, each with its own time. */
  lemma SortedRhdFilesFromListing(listing: seq<string>, decode: string -> Option<int>)
    requires SortedRhdFiles(listing, decode).Ok?
    ensures var sorted := SortedRhdFiles(listing, decode).value;
            forall k :: 0 <= k < |sorted| ==>
              && IsRhd(sorted[k].name) && sorted[k].name in listing
              && FileStamp(sorted[k].name, decode) == Ok(sorted[k].stamp)
  {
    var files := Filter(listing, IsRhd);
    var stamped := StampAll(files, decode).value;
    var sorted := SortedRhdFiles(listing, decode).value;
    forall k | 0 <= k < |sorted|
      ensures IsRhd(sorted[k].name) && sorted[k].name in listing
      ensures FileStamp(sorted[k].name, decode) == Ok(sorted[k].stamp)
    {
      assert sorted[k] in multiset(sorted);
      assert sorted[k] in stamped;
      var j :| 0 <= j < |stamped| && stamped[j] == sorted[k];
      assert stamped[j].name == files[j];
    }
  }

  /** The session start is the earliest file's time. */
  lemma SessionStartIsEarliest(listing: seq<string>, decode: string -> Option<int>)
    requires SortedRhdFiles(listing, decode).Ok? && |SortedRhdFiles(listing, decode).value| > 0
    ensures var sorted := SortedRhdFiles(listing, decode).value;
            forall k :: 0 <= k < |sorted| ==> sorted[0].stamp <= sorted[k].stamp
  {
  }

  function Names(files: seq<Stamped>): (r: seq<string>)
    ensures |r| == |files| && forall k :: 0 <= k < |files| ==> r[k] == files[k].name
  {
    seq(|files|, k requires 0 <= k < |files| => files[k].name)
  }
}

=== FILE: scatters.dfy ===
/** The data preparation of the chronic scatter plots: one animal's saved
    session arrays are read back and reduced to the valid sessions, cut to a
    window of days, curated, grouped into periods of a fixed number of days,
    and pooled across animals into one dataset per period. */
module Scatters {
  import opened Wrappers
  import opened Text
  import opened Seqs
  import opened Sessions

  /** One element of a saved array: a float, an integer, or (in the object
      arrays holding per-session unit values) a whole vector. */
  datatype Cell = Num(x: real) | Int(i: int) | Vec(xs: seq<real>)

  /** A value of the animal dictionary: a numpy array, or a plain Python list
      when a caller passes one. */
  datatype Column = Column(isArray: bool, cells: seq<Cell>)

  datatype Entry = Entry(key: string, col: Column)

  /** An insertion-ordered dictionary from key to column. */
  type AnimalDict = seq<Entry>

  const DAY_KEY: string := "day_after_surgery"
  const TIMEDELTA_KEY: string := "timedelta_floats"
  const VALID_TIMEDELTA_KEY: string := "valid_timedelta_floats"
  const UNITS_PER_CHANNEL_KEY: string := "units_per_channel"
  /** `"%s_all" % FEATURESET_OF_INTEREST`, with the feature set to `snrs`. */
  const FEATURE_KEY: string := "snrs_all"
  /** `24*3600`. */
  const SECONDS_PER_DAY: real := 86400.0

  // ---------------------------------------------------------------------
  // The dictionary

  /** The keys, in insertion order. */
  function Keys(d: AnimalDict): (r: seq<string>)
    ensures |r| == |d| && forall i :: 0 <= i < |d| ==> r[i] == d[i].key
  {
    seq(|d|, i requires 0 <= i < |d| => d[i].key)
  }

  /** The position of `key` among `keys`. */
  function KeyIndex(keys: seq<string>, key: string): (r: Option<nat>)
    ensures r.None? <==> key !in keys
    ensures r.Some? ==> r.value < |keys| && keys[r.value] == key
    decreases |keys|
  {
    if |keys| == 0 then None
    else if keys[0] == key then Some(0)
    else
      assert keys == [keys[0]] + keys[1..];
      match KeyIndex(keys[1..], key)
      case None => None
      case Some(i) => Some(i + 1)
  }

  /** Appending a key does not move the keys already present. */
  lemma {:induction false} KeyIndexAppend(keys: seq<string>, extra: string, key: string)
    ensures KeyIndex(keys + [extra], key) ==
              if key in keys then KeyIndex(keys, key) else if key == extra then Some(|keys|) else None
    decreases |keys|
  {
    if |keys| > 0 {
      assert (keys + [extra])[1..] == keys[1..] + [extra];
      assert keys == [keys[0]] + keys[1..];
      KeyIndexAppend(keys[1..], extra, key);
    }
  }

  /** `d.get(key)`: the column stored under `key`. */
  function Get(d: AnimalDict, key: string): (r: Option<Column>)
    ensures r.Some? <==> key in Keys(d)
    ensures r.Some? ==> r.value == d[KeyIndex(Keys(d), key).value].col
  {
    match KeyIndex(Keys(d), key)
    case None => None
    case Some(i) => Some(d[i].col)
  }

  /** `d[key]`, which raises a `KeyError` for a missing key. */
  function Lookup(d: AnimalDict, key: string): (r: Result<Column>)
    ensures r.Err? <==> key !in Keys(d)
    ensures r.Err? ==> r.error == KeyError
    ensures r.Ok? ==> Get(d, key) == Some(r.value)
  {
    match Get(d, key)
    case None => Err(KeyError)
    case Some(c) => Ok(c)
  }

  /** `d[key] = col`: an existing key keeps its place, a new one goes last. */
  function Put(d: AnimalDict, key: string, col: Column): (r: AnimalDict)
    ensures Get(r, key) == Some(col)
    ensures key in Keys(d) ==> Keys(r) == Keys(d)
    ensures key !in Keys(d) ==> Keys(r) == Keys(d) + [key]
  {
    match KeyIndex(Keys(d), key)
    case Some(i) =>
      var r := d[i := Entry(key, col)];
      assert Keys(r) == Keys(d);
      r
    case None =>
      var r := d + [Entry(key, col)];
      assert Keys(r) == Keys(d) + [key];
      KeyIndexAppend(Keys(d), key, key);
      r
  }

  /** Storing under one key leaves every other key's column alone. */
  lemma GetPutOther(d: AnimalDict, key: string, col: Column, other: string)
    requires other != key
    ensures Get(Put(d, key, col), other) == Get(d, other)
  {
    if key !in Keys(d) {
      KeyIndexAppend(Keys(d), key, other);
    }
  }

  /** The value of a scalar cell as a float. */
  function NumValue(c: Cell): real
    requires !c.Vec?
  {
    match c
    case Num(x) => x
    case Int(i) => i as real
  }

  /** A column read as a float vector; `None` when a cell is itself a vector. */
  function RealsOf(c: Column): (r: Option<seq<real>>)
    ensures r.Some? <==> forall i :: 0 <= i < |c.cells| ==> !c.cells[i].Vec?
    ensures r.Some? ==> |r.value| == |c.cells| && forall i :: 0 <= i < |c.cells| ==> r.value[i] == NumValue(c.cells[i])
  {
    if forall i :: 0 <= i < |c.cells| ==> !c.cells[i].Vec? then
      Some(seq(|c.cells|, i requires 0 <= i < |c.cells| => NumValue(c.cells[i])))
    else None
  }

  /** A column read as an integer vector; `None` when a cell is not an integer. */
  function IntsOf(c: Column): (r: Option<seq<int>>)
    ensures r.Some? <==> forall i :: 0 <= i < |c.cells| ==> c.cells[i].Int?
    ensures r.Some? ==> |r.value| == |c.cells| && forall i :: 0 <= i < |c.cells| ==> c.cells[i] == Int(r.value[i])
  {
    if forall i :: 0 <= i < |c.cells| ==> c.cells[i].Int? then
      Some(seq(|c.cells|, i requires 0 <= i < |c.cells| => c.cells[i].i))
    else None
  }

  function ToResult<T>(o: Option<T>, e: PyError): (r: Result<T>)
    ensures r.Ok? <==> o.Some?
    ensures r.Ok? ==> r.value == o.value
    ensures r.Err? ==> r.error == e
  {
    match o
    case None => Err(e)
    case Some(v) => Ok(v)
  }

  /** `d[key]` used as a float vector: a `KeyError` when absent, a
      `TypeError` when it holds vectors. */
  function NumericColumn(d: AnimalDict, key: string): (r: Result<seq<real>>)
    ensures key !in Keys(d) ==> r == Err(KeyError)
    ensures key in Keys(d) ==> r == ToResult(RealsOf(Get(d, key).value), TypeError)
    ensures r.Ok? ==> Get(d, key).Some? && RealsOf(Get(d, key).value) == Some(r.value)
  {
    var c :- Lookup(d, key);
    ToResult(RealsOf(c), TypeError)
  }

  /** `for kname, v in d.items(): new[kname] = f(v)`, stopping at the first
      column that raises. */
  function MapColumns(d: AnimalDict, f: Column -> Result<Column>): (r: Result<AnimalDict>)
    ensures r.Ok? <==> forall i :: 0 <= i < |d| ==> f(d[i].col).Ok?
    ensures r.Ok? ==> Keys(r.value) == Keys(d) && forall i :: 0 <= i < |d| ==> r.value[i] == Entry(d[i].key, f(d[i].col).value)
    ensures r.Err? ==> exists i :: 0 <= i < |d| && f(d[i].col) == Err(r.error)
  {
    var rs := seq(|d|, i requires 0 <= i < |d| => f(d[i].col));
    assert forall i :: 0 <= i < |d| ==> rs[i] == f(d[i].col);
    match Collect(rs)
    case Err(e) => Err(e)
    case Ok(cols) =>
      var r := seq(|d|, i requires 0 <= i < |d| => Entry(d[i].key, cols[i]));
      assert Keys(r) == Keys(d);
      Ok(r)
  }

  // ---------------------------------------------------------------------
  // read_chronic_animal_npz

  predicate StrictlyIncreasing(xs: seq<real>) {
    forall i :: 0 <= i < |xs| - 1 ==> xs[i] < xs[i + 1]
  }

  predicate NonDecreasing(xs: seq<int>) {
    forall i, j :: 0 <= i <= j < |xs| ==> xs[i] <= xs[j]
  }

  /** `(seconds / (24*3600)).astype(int)`: whole days, truncated toward zero. */
  function DayOf(seconds: real): (r: int)
    ensures seconds >= 0.0 ==> r >= 0 && r as real * SECONDS_PER_DAY <= seconds < (r + 1) as real * SECONDS_PER_DAY
    ensures seconds < 0.0 ==> r <= 0 && (r - 1) as real * SECONDS_PER_DAY < seconds <= r as real * SECONDS_PER_DAY
  {
    Trunc(seconds / SECONDS_PER_DAY)
  }

  lemma DayOfMonotone(x: real, y: real)
    requires x <= y
    ensures DayOf(x) <= DayOf(y)
  {
    assert x / SECONDS_PER_DAY <= y / SECONDS_PER_DAY;
  }

  function DayColumn(ts: seq<real>): (c: Column)
    ensures c.isArray && |c.cells| == |ts|
    ensures forall i :: 0 <= i < |ts| ==> c.cells[i] == Int(DayOf(ts[i]))
  {
    Column(true, seq(|ts|, i requires 0 <= i < |ts| => Int(DayOf(ts[i]))))
  }

  lemma {:induction false} IncreasingBetween(xs: seq<real>, i: nat, j: nat)
    requires StrictlyIncreasing(xs) && i <= j < |xs|
    ensures xs[i] <= xs[j]
    decreases j - i
  {
    if i < j {
      IncreasingBetween(xs, i + 1, j);
    }
  }

  /** Strictly increasing times give non-decreasing days. */
  lemma DaysNonDecreasing(ts: seq<real>)
    requires StrictlyIncreasing(ts)
    ensures IntsOf(DayColumn(ts)).Some? && NonDecreasing(IntsOf(DayColumn(ts)).value)
  {
    var days := IntsOf(DayColumn(ts)).value;
    forall i, j | 0 <= i <= j < |ts| ensures days[i] <= days[j] {
      IncreasingBetween(ts, i, j);
      DayOfMonotone(ts[i], ts[j]);
    }
  }

  /** `if len(v) > len(valid_session_ids): v = v[valid_session_ids]`. */
  function KeepValid(c: Column, ids: seq<nat>): (r: Result<Column>)
    ensures |c.cells| <= |ids| ==> r == Ok(c)
    ensures |c.cells| > |ids| ==>
              (r.Ok? <==> c.isArray && forall k :: 0 <= k < |ids| ==> ids[k] < |c.cells|)
    ensures |c.cells| > |ids| && r.Ok? ==> r.value == Column(true, Pick(c.cells, ids))
    ensures r.Err? ==> r.error == (if c.isArray then IndexError else TypeError)
  {
    if |c.cells| <= |ids| then Ok(c)
    else if !c.isArray then Err(TypeError)
    else if exists k :: 0 <= k < |ids| && ids[k] >= |c.cells| then Err(IndexError)
    else Ok(Column(true, Pick(c.cells, ids)))
  }

  /** The loop over every column of the valid-session filter. */
  function KeepValidSessions(d: AnimalDict, ids: seq<nat>): (r: Result<AnimalDict>)
    ensures r.Ok? <==> forall i :: 0 <= i < |d| ==> KeepValid(d[i].col, ids).Ok?
    ensures r.Ok? ==> Keys(r.value) == Keys(d) && forall i :: 0 <= i < |d| ==> KeepValid(d[i].col, ids) == Ok(r.value[i].col)
    ensures r.Err? ==> exists i :: 0 <= i < |d| && KeepValid(d[i].col, ids) == Err(r.error)
  {
    MapColumns(d, c => KeepValid(c, ids))
  }

  /** The positions of the sessions with a positive unit yield. */
  function PositiveIds(ups: seq<real>): (ids: seq<nat>)
    ensures forall k :: 0 <= k < |ids| ==> ids[k] < |ups| && ups[ids[k]] > 0.0
    ensures forall k, l :: 0 <= k < l < |ids| ==> ids[k] < ids[l]
    ensures forall i :: 0 <= i < |ups| && ups[i] > 0.0 ==> i in ids
  {
    TrueIndices(seq(|ups|, i requires 0 <= i < |ups| => ups[i] > 0.0))
  }

  /** The time column the reader checks: the valid sessions' or all of them. */
  function TimesKey(keepValidOnly: bool): string {
    if keepValidOnly then VALID_TIMEDELTA_KEY else TIMEDELTA_KEY
  }

  function WithDays(d: AnimalDict, ts: seq<real>): (r: AnimalDict)
    ensures Get(r, DAY_KEY) == Some(DayColumn(ts))
  {
    Put(d, DAY_KEY, DayColumn(ts))
  }

  /** `read_chronic_animal_npz(npzpath, keep_valid_only)` after `np.load`.
      The session times must be strictly increasing, `day_after_surgery` is
      added, and with `keep_valid_only` every column longer than the number
      of valid sessions is cut down to the sessions whose units per channel
      are positive. */
  function ReadChronicAnimal(d: AnimalDict, keepValidOnly: bool): (r: Result<AnimalDict>)
    ensures NumericColumn(d, TimesKey(keepValidOnly)).Err? ==> r == Err(NumericColumn(d, TimesKey(keepValidOnly)).error)
    ensures NumericColumn(d, TimesKey(keepValidOnly)).Ok? && !StrictlyIncreasing(NumericColumn(d, TimesKey(keepValidOnly)).value) ==>
              r == Err(AssertionError)
    ensures r.Ok? ==> NumericColumn(d, TimesKey(keepValidOnly)).Ok? && StrictlyIncreasing(NumericColumn(d, TimesKey(keepValidOnly)).value)
    ensures r.Ok? ==> Get(r.value, DAY_KEY).Some?
    ensures && keepValidOnly && NumericColumn(d, VALID_TIMEDELTA_KEY).Ok?
            && StrictlyIncreasing(NumericColumn(d, VALID_TIMEDELTA_KEY).value)
            && NumericColumn(d, UNITS_PER_CHANNEL_KEY).Err?
            ==> r == Err(NumericColumn(d, UNITS_PER_CHANNEL_KEY).error)
  {
    var ts :- NumericColumn(d, TimesKey(keepValidOnly));
    if !StrictlyIncreasing(ts) then Err(AssertionError)
    else if keepValidOnly then
      var ups :- NumericColumn(d, UNITS_PER_CHANNEL_KEY);
      var r := KeepValidSessions(WithDays(d, ts), PositiveIds(ups));
      assert r.Ok? ==> DAY_KEY in Keys(r.value);
      r
    else Ok(WithDays(d, ts))
  }

  /** What a successful read with `keep_valid_only` returns. */
  lemma ReadValidUnfolds(d: AnimalDict)
    ensures ReadChronicAnimal(d, true).Ok? ==>
              NumericColumn(d, UNITS_PER_CHANNEL_KEY).Ok?
    ensures ReadChronicAnimal(d, true).Ok? ==>
              ReadChronicAnimal(d, true) ==
                KeepValidSessions(WithDays(d, NumericColumn(d, VALID_TIMEDELTA_KEY).value),
                                  PositiveIds(NumericColumn(d, UNITS_PER_CHANNEL_KEY).value))
  {
  }

  /** `np.where(mask)[0]` is at most as long as the mask, and exactly as long
      only when every entry is `true`. */
  lemma TrueIndicesFull(mask: seq<bool>)
    ensures |TrueIndices(mask)| <= |mask|
    ensures |TrueIndices(mask)| == |mask| ==> forall i :: 0 <= i < |mask| ==> mask[i]
  {
    SelectIsIndexed(mask, mask);
    CountTrueAtMostLength(mask);
    forall i | 0 <= i < |mask| && !mask[i] ensures CountTrue(mask) < |mask| {
      CountTrueBelowLength(mask, i);
    }
  }

  /** After reading with `keep_valid_only`, the units-per-channel column holds
      one positive value per valid session: a column with non-positive
      entries is cut down to its positive ones, in order, and a column that
      is left alone was positive throughout. */
  lemma ValidSessionsHavePositiveYield(d: AnimalDict)
    ensures ReadChronicAnimal(d, true).Ok? ==>
              NumericColumn(d, UNITS_PER_CHANNEL_KEY).Ok?
    ensures ReadChronicAnimal(d, true).Ok? ==>
              var r := ReadChronicAnimal(d, true).value;
              var ucol := Get(d, UNITS_PER_CHANNEL_KEY).value;
              var ids := PositiveIds(NumericColumn(d, UNITS_PER_CHANNEL_KEY).value);
              && Get(r, UNITS_PER_CHANNEL_KEY).Some?
              && var kept := Get(r, UNITS_PER_CHANNEL_KEY).value.cells;
                 && |kept| == |ids|
                 && (forall k :: 0 <= k < |kept| ==> !kept[k].Vec? && NumValue(kept[k]) > 0.0)
                 && (|ucol.cells| > |ids| ==> kept == Pick(ucol.cells, ids))
  {
    if ReadChronicAnimal(d, true).Ok? {
      ReadValidUnfolds(d);
      var ts := NumericColumn(d, VALID_TIMEDELTA_KEY).value;
      var ucol := Get(d, UNITS_PER_CHANNEL_KEY).value;
      var ups := NumericColumn(d, UNITS_PER_CHANNEL_KEY).value;
      var ids := PositiveIds(ups);
      var withDay := WithDays(d, ts);
      var r := ReadChronicAnimal(d, true).value;
      GetPutOther(d, DAY_KEY, DayColumn(ts), UNITS_PER_CHANNEL_KEY);
      var i := KeyIndex(Keys(withDay), UNITS_PER_CHANNEL_KEY).value;
      assert withDay[i].col == ucol;
      assert Get(r, UNITS_PER_CHANNEL_KEY) == Some(r[i].col);
      assert KeepValid(ucol, ids) == Ok(r[i].col);
      KeptYieldsPositive(ucol, ups, r[i].col);
    }
  }

  /** Cutting a units-per-channel column down to its positive entries leaves
      only positive entries, one per positive position. */
  lemma KeptYieldsPositive(ucol: Column, ups: seq<real>, c: Column)
    requires RealsOf(ucol) == Some(ups)
    requires KeepValid(ucol, PositiveIds(ups)) == Ok(c)
    ensures |c.cells| == |PositiveIds(ups)|
    ensures forall k :: 0 <= k < |c.cells| ==> !c.cells[k].Vec? && NumValue(c.cells[k]) > 0.0
    ensures |ucol.cells| > |PositiveIds(ups)| ==> c.cells == Pick(ucol.cells, PositiveIds(ups))
  {
    var ids := PositiveIds(ups);
    var kept := c.cells;
    if |ucol.cells| <= |ids| {
      var mask := seq(|ups|, j requires 0 <= j < |ups| => ups[j] > 0.0);
      TrueIndicesFull(mask);
      assert kept == ucol.cells;
      forall k | 0 <= k < |kept| ensures !kept[k].Vec? && NumValue(kept[k]) > 0.0 {
        assert mask[k];
      }
    } else {
      assert kept == Pick(ucol.cells, ids);
      forall k | 0 <= k < |kept| ensures !kept[k].Vec? && NumValue(kept[k]) > 0.0 {
        assert kept[k] == ucol.cells[ids[k]];
      }
    }
  }

  /** Whatever the mode, the day column of a read animal holds whole days in
      non-decreasing order. */
  lemma ReadDaysNonDecreasing(d: AnimalDict, keepValidOnly: bool)
    requires ReadChronicAnimal(d, keepValidOnly).Ok?
    ensures var r := ReadChronicAnimal(d, keepValidOnly).value;
            && Get(r, DAY_KEY).Some? && IntsOf(Get(r, DAY_KEY).value).Some?
            && NonDecreasing(IntsOf(Get(r, DAY_KEY).value).value)
  {
    var ts := NumericColumn(d, TimesKey(keepValidOnly)).value;
    DaysNonDecreasing(ts);
    if keepValidOnly {
      ValidDaysNonDecreasing(d);
    } else {
      assert ReadChronicAnimal(d, false) == Ok(WithDays(d, ts));
    }
  }

  lemma ValidDaysNonDecreasing(d: AnimalDict)
    ensures ReadChronicAnimal(d, true).Ok? ==>
              var r := ReadChronicAnimal(d, true).value;
              && Get(r, DAY_KEY).Some? && IntsOf(Get(r, DAY_KEY).value).Some?
              && NonDecreasing(IntsOf(Get(r, DAY_KEY).value).value)
  {
    if ReadChronicAnimal(d, true).Ok? {
      ReadValidUnfolds(d);
      var ts := NumericColumn(d, VALID_TIMEDELTA_KEY).value;
      var dayCol := DayColumn(ts);
      DaysNonDecreasing(ts);
      var days := IntsOf(dayCol).value;
      var ids := PositiveIds(NumericColumn(d, UNITS_PER_CHANNEL_KEY).value);
      var withDay := WithDays(d, ts);
      var r := ReadChronicAnimal(d, true).value;
      var i := KeyIndex(Keys(withDay), DAY_KEY).value;
      assert withDay[i].col == dayCol;
      assert Get(r, DAY_KEY) == Some(r[i].col);
      assert KeepValid(dayCol, ids) == Ok(r[i].col);
      KeepValidNonDecreasing(dayCol, ids);
    }
  }

  /** The valid-session filter keeps an integer column non-decreasing. */
  lemma KeepValidNonDecreasing(c: Column, ids: seq<nat>)
    requires KeepValid(c, ids).Ok? && IntsOf(c).Some? && NonDecreasing(IntsOf(c).value)
    requires forall k, l :: 0 <= k < l < |ids| ==> ids[k] < ids[l]
    ensures IntsOf(KeepValid(c, ids).value).Some? && NonDecreasing(IntsOf(KeepValid(c, ids).value).value)
  {
    var days := IntsOf(c).value;
    if |c.cells| > |ids| {
      var cells := KeepValid(c, ids).value.cells;
      assert forall k :: 0 <= k < |cells| ==> cells[k] == Int(days[ids[k]]);
      var v := IntsOf(KeepValid(c, ids).value).value;
      forall k, l | 0 <= k <= l < |v| ensures v[k] <= v[l] {
        assert v[k] == days[ids[k]] && v[l] == days[ids[l]];
      }
    }
  }

  // ---------------------------------------------------------------------
  // truncate_timeseries_in_dict

  /** `(days >= first) & (days <= last)`. */
  function InWindow(days: seq<real>, first: int, last: int): (m: seq<bool>)
    ensures |m| == |days| && forall i :: 0 <= i < |days| ==> (m[i] <==> first as real <= days[i] <= last as real)
  {
    seq(|days|, i requires 0 <= i < |days| => first as real <= days[i] <= last as real)
  }

  /** `v[mask]`: a list cannot be indexed by an array, and an array must be
      as long as the mask. */
  function MaskColumn(c: Column, mask: seq<bool>): (r: Result<Column>)
    ensures r.Ok? <==> c.isArray && |c.cells| == |mask|
    ensures r.Ok? ==> r.value == Column(true, Select(c.cells, mask))
    ensures r.Err? ==> r.error == (if c.isArray then IndexError else TypeError)
  {
    if !c.isArray then Err(TypeError)
    else if |c.cells| != |mask| then Err(IndexError)
    else Ok(Column(true, Select(c.cells, mask)))
  }

  /** Every column is an array with one entry per session. */
  predicate Aligned(d: AnimalDict, n: nat) {
    forall i :: 0 <= i < |d| ==> d[i].col.isArray && |d[i].col.cells| == n
  }

  function MaskAll(d: AnimalDict, mask: seq<bool>): (r: Result<AnimalDict>)
    ensures r.Ok? <==> Aligned(d, |mask|)
    ensures r.Ok? ==> Keys(r.value) == Keys(d) && forall i :: 0 <= i < |d| ==> r.value[i].col == Column(true, Select(d[i].col.cells, mask))
    ensures r.Err? ==> r.error == IndexError || r.error == TypeError
  {
    MapColumns(d, c => MaskColumn(c, mask))
  }

  /** The sessions' days as floats. */
  function DayValues(d: AnimalDict): (r: Result<seq<real>>)
    ensures DAY_KEY !in Keys(d) ==> r == Err(KeyError)
    ensures r.Ok? ==> Get(d, DAY_KEY).Some? && RealsOf(Get(d, DAY_KEY).value) == Some(r.value)
    ensures DAY_KEY in Keys(d) && r.Err? ==> r.error == TypeError
  {
    NumericColumn(d, DAY_KEY)
  }

  /** `truncate_timeseries_in_dict(d, first_day, last_day)`: one mask, the
      sessions whose day lies in `[first_day, last_day]`, applied to every
      column; each must be an array with one entry per session. */
  function TruncateTimeseries(d: AnimalDict, first: int, last: int): (r: Result<AnimalDict>)
    ensures DayValues(d).Err? ==> r == Err(DayValues(d).error)
    ensures DayValues(d).Ok? ==> (r.Ok? <==> Aligned(d, |DayValues(d).value|))
    ensures r.Ok? ==> Keys(r.value) == Keys(d)
  {
    var days :- DayValues(d);
    MaskAll(d, InWindow(days, first, last))
  }

  /** Each truncated column holds exactly the in-window sessions, in order,
      and every day left lies in the window. */
  lemma TruncateKeepsWindow(d: AnimalDict, first: int, last: int)
    requires TruncateTimeseries(d, first, last).Ok?
    ensures var r := TruncateTimeseries(d, first, last).value;
            var mask := InWindow(DayValues(d).value, first, last);
            var kept := TrueIndices(mask);
            && Aligned(r, |kept|)
            && (forall i, k :: 0 <= i < |d| && 0 <= k < |kept| ==>
                  kept[k] < |d[i].col.cells| && r[i].col.cells[k] == d[i].col.cells[kept[k]])
            && DayValues(r).Ok?
            && forall k :: 0 <= k < |DayValues(r).value| ==> first as real <= DayValues(r).value[k] <= last as real
  {
    var r := TruncateTimeseries(d, first, last).value;
    var days := DayValues(d).value;
    var mask := InWindow(days, first, last);
    assert r == MaskAll(d, mask).value;
    forall i | 0 <= i < |d|
      ensures |r[i].col.cells| == |TrueIndices(mask)|
      ensures forall k :: 0 <= k < |TrueIndices(mask)| ==> r[i].col.cells[k] == d[i].col.cells[TrueIndices(mask)[k]]
    {
      SelectIsIndexed(d[i].col.cells, mask);
    }
    var w := KeyIndex(Keys(d), DAY_KEY).value;
    var dc := d[w].col;
    assert Get(r, DAY_KEY) == Some(r[w].col);
    var kept := r[w].col.cells;
    forall k | 0 <= k < |kept| ensures !kept[k].Vec? && first as real <= NumValue(kept[k]) <= last as real {
      var j := TrueIndices(mask)[k];
      assert kept[k] == dc.cells[j];
    }
  }

  /** Truncating twice to the same window is truncating once. */
  lemma TruncateIdempotent(d: AnimalDict, first: int, last: int)
    requires TruncateTimeseries(d, first, last).Ok?
    ensures TruncateTimeseries(TruncateTimeseries(d, first, last).value, first, last) == TruncateTimeseries(d, first, last)
  {
    var r := TruncateTimeseries(d, first, last).value;
    TruncateKeepsWindow(d, first, last);
    var days := DayValues(r).value;
    var mask := InWindow(days, first, last);
    forall i | 0 <= i < |r| ensures MaskColumn(r[i].col, mask) == Ok(r[i].col) {
      SelectAll(r[i].col.cells, mask);
    }
    var again := MaskAll(r, mask).value;
    assert again == r;
  }

  // ---------------------------------------------------------------------
  // remove_datapoints and custom_curation

  /** Whether `inds_mask[inds_to_remove] = 0` clears position `i`. */
  predicate Listed(inds: seq<int>, n: nat, i: nat)
    decreases |inds|
  {
    |inds| > 0 && (PyIndex(inds[0], n) == Some(i) || Listed(inds[1..], n, i))
  }

  /** A position is cleared exactly when some listed index names it. */
  lemma {:induction false} ListedMeansNamed(inds: seq<int>, n: nat, i: nat)
    ensures Listed(inds, n, i) <==> exists j :: 0 <= j < |inds| && PyIndex(inds[j], n) == Some(i)
    decreases |inds|
  {
    if |inds| > 0 {
      ListedMeansNamed(inds[1..], n, i);
      if Listed(inds[1..], n, i) {
        var j :| 0 <= j < |inds[1..]| && PyIndex(inds[1..][j], n) == Some(i);
        assert inds[j + 1] == inds[1..][j];
      }
      if exists j :: 0 <= j < |inds| && PyIndex(inds[j], n) == Some(i) {
        var j :| 0 <= j < |inds| && PyIndex(inds[j], n) == Some(i);
        if j > 0 {
          assert inds[1..][j - 1] == inds[j];
        }
      }
    }
  }

  lemma {:induction false} ListedAppend(a: seq<int>, b: seq<int>, n: nat, i: nat)
    ensures Listed(a + b, n, i) <==> Listed(a, n, i) || Listed(b, n, i)
    decreases |a|
  {
    if |a| > 0 {
      assert (a + b)[1..] == a[1..] + b;
      ListedAppend(a[1..], b, n, i);
    } else {
      assert a + b == b;
    }
  }

  /** `inds_mask`: `true` for the sessions that stay. */
  function KeepMask(inds: seq<int>, n: nat): (m: seq<bool>)
    ensures |m| == n && forall i :: 0 <= i < n ==> (m[i] <==> !Listed(inds, n, i))
  {
    seq(n, i requires 0 <= i < n => !Listed(inds, n, i))
  }

  /** One column of `remove_datapoints`: an array is indexed by the mask and
      must match its length; a list keeps the items whose mask entry is set
      and raises once it runs past the mask. */
  function DropFromColumn(c: Column, mask: seq<bool>): (r: Result<Column>)
    ensures r.Ok? <==> (if c.isArray then |c.cells| == |mask| else |c.cells| <= |mask|)
    ensures r.Ok? ==> r.value == Column(c.isArray, Select(c.cells, mask[..|c.cells|]))
    ensures r.Err? ==> r.error == IndexError
  {
    if c.isArray then
      if |c.cells| != |mask| then Err(IndexError)
      else
        assert mask[..|c.cells|] == mask;
        Ok(Column(true, Select(c.cells, mask)))
    else if |c.cells| > |mask| then Err(IndexError)
    else Ok(Column(false, Select(c.cells, mask[..|c.cells|])))
  }

  /** Every index names one of `n` sessions, counting from the end when
      negative. */
  predicate IndicesInRange(inds: seq<int>, n: nat) {
    forall j :: 0 <= j < |inds| ==> -(n as int) <= inds[j] < n
  }

  /** Every array has one entry per session, and no list has more. */
  predicate ColumnsFit(d: AnimalDict, n: nat) {
    forall i :: 0 <= i < |d| ==> if d[i].col.isArray then |d[i].col.cells| == n else |d[i].col.cells| <= n
  }

  /** The number of sessions, read off the day column. */
  function SessionCount(d: AnimalDict): nat
    requires Get(d, DAY_KEY).Some?
  {
    |Get(d, DAY_KEY).value.cells|
  }

  /** `remove_datapoints(d, inds_to_remove)`: the session count is the length
      of the day column; a missing day column is a `KeyError`, an index
      outside `[-n, n)` or a column that does not fit the mask an
      `IndexError`. */
  function RemoveDatapoints(d: AnimalDict, inds: seq<int>): (r: Result<AnimalDict>)
    ensures Get(d, DAY_KEY).None? ==> r == Err(KeyError)
    ensures Get(d, DAY_KEY).Some? ==>
              && (r.Ok? <==> IndicesInRange(inds, SessionCount(d)) && ColumnsFit(d, SessionCount(d)))
              && (r.Err? ==> r.error == IndexError)
  {
    match Get(d, DAY_KEY)
    case None => Err(KeyError)
    case Some(dc) =>
      if forall j :: 0 <= j < |inds| ==> PyIndex(inds[j], |dc.cells|).Some? then DropAll(d, KeepMask(inds, |dc.cells|))
      else Err(IndexError)
  }

  /** Every column loses exactly the listed sessions and keeps the others in
      order; a short list is cut by the leading part of the mask. */
  lemma RemoveDropsListed(d: AnimalDict, inds: seq<int>)
    requires RemoveDatapoints(d, inds).Ok?
    ensures Get(d, DAY_KEY).Some?
    ensures var r := RemoveDatapoints(d, inds).value;
            var mask := KeepMask(inds, SessionCount(d));
            && |r| == |d|
            && forall i :: 0 <= i < |d| ==>
                 r[i] == Entry(d[i].key, Column(d[i].col.isArray, Select(d[i].col.cells, mask[..|d[i].col.cells|])))
  {
  }

  function DropAll(d: AnimalDict, mask: seq<bool>): (r: Result<AnimalDict>)
    ensures r.Ok? <==> forall i :: 0 <= i < |d| ==> DropFromColumn(d[i].col, mask).Ok?
    ensures r.Ok? ==> |r.value| == |d| && forall i :: 0 <= i < |d| ==> r.value[i] == Entry(d[i].key, DropFromColumn(d[i].col, mask).value)
    ensures r.Err? ==> r.error == IndexError
  {
    MapColumns(d, c => DropFromColumn(c, mask))
  }

  /** Listing an index twice removes it once. */
  lemma RemoveIgnoresDuplicates(d: AnimalDict, inds: seq<int>)
    ensures RemoveDatapoints(d, inds + inds) == RemoveDatapoints(d, inds)
  {
    if Get(d, DAY_KEY).Some? {
      var n := |Get(d, DAY_KEY).value.cells|;
      forall i | 0 <= i < n ensures Listed(inds + inds, n, i) == Listed(inds, n, i) {
        ListedAppend(inds, inds, n, i);
      }
      assert KeepMask(inds + inds, n) == KeepMask(inds, n);
      var twice := inds + inds;
      if forall j :: 0 <= j < |inds| ==> PyIndex(inds[j], n).Some? {
        forall j | 0 <= j < |twice| ensures PyIndex(twice[j], n).Some? {
          assert twice[j] == inds[if j < |inds| then j else j - |inds|];
        }
      } else {
        var j :| 0 <= j < |inds| && PyIndex(inds[j], n).None?;
        assert twice[j] == inds[j];
      }
    }
  }

  /** The indices rewritten as counts from the start. */
  function FromStart(inds: seq<int>, n: nat): (r: seq<int>)
    requires IndicesInRange(inds, n)
    ensures |r| == |inds| && IndicesInRange(r, n)
    ensures forall j :: 0 <= j < |inds| ==> 0 <= r[j] < n && r[j] == (if inds[j] < 0 then inds[j] + n else inds[j])
  {
    seq(|inds|, j requires 0 <= j < |inds| => PyIndex(inds[j], n).value as int)
  }

  lemma {:induction false} ListedFromStart(inds: seq<int>, n: nat, i: nat)
    requires IndicesInRange(inds, n)
    ensures Listed(FromStart(inds, n), n, i) == Listed(inds, n, i)
    decreases |inds|
  {
    if |inds| > 0 {
      assert FromStart(inds, n)[1..] == FromStart(inds[1..], n);
      ListedFromStart(inds[1..], n, i);
    }
  }

  /** A negative index names the same session as its count from the start. */
  lemma RemoveCountsFromTheEnd(d: AnimalDict, inds: seq<int>)
    requires Get(d, DAY_KEY).Some? && IndicesInRange(inds, SessionCount(d))
    ensures RemoveDatapoints(d, inds) == RemoveDatapoints(d, FromStart(inds, SessionCount(d)))
  {
    var n := SessionCount(d);
    forall i | 0 <= i < n ensures Listed(FromStart(inds, n), n, i) == Listed(inds, n, i) {
      ListedFromStart(inds, n, i);
    }
    assert KeepMask(FromStart(inds, n), n) == KeepMask(inds, n);
    RemoveIsDropAll(d, inds);
    RemoveIsDropAll(d, FromStart(inds, n));
  }

  lemma RemoveIsDropAll(d: AnimalDict, inds: seq<int>)
    requires Get(d, DAY_KEY).Some?
    requires IndicesInRange(inds, SessionCount(d))
    ensures RemoveDatapoints(d, inds) == DropAll(d, KeepMask(inds, SessionCount(d)))
  {
  }

  /** Masking with `i < m` keeps the first `m` items. */
  lemma {:induction false} SelectPrefix<T>(xs: seq<T>, mask: seq<bool>, m: nat)
    requires |xs| == |mask| && m <= |xs|
    requires forall i :: 0 <= i < |mask| ==> (mask[i] <==> i < m)
    ensures Select(xs, mask) == xs[..m]
    decreases |xs|
  {
    if |xs| > 0 {
      if m > 0 {
        SelectPrefix(xs[1..], mask[1..], m - 1);
        assert xs[..m] == [xs[0]] + xs[1..][..m - 1];
      } else {
        SelectPrefix(xs[1..], mask[1..], 0);
      }
    }
  }

  /** The sessions `custom_curation` drops, by animal name, ignoring case. */
  function CuratedTail(animal: string): (k: nat)
    ensures k == 0 || k == 1 || k == 3
  {
    if LowerAscii(animal) == "tacoma" then 1
    else if LowerAscii(animal) == "yogurt" then 3
    else 0
  }

  /** `[-1, -2, ..., -k]`. */
  function TailIndices(k: nat): (r: seq<int>)
    ensures |r| == k && forall j :: 0 <= j < k ==> r[j] == -(j + 1)
  {
    seq(k, j requires 0 <= j < k => -(j + 1))
  }

  /** The two index lists the curation passes. */
  lemma TailIndicesOfCuratedAnimals()
    ensures TailIndices(1) == [-1]
    ensures TailIndices(3) == [-1, -2, -3]
  {
  }

  /** `custom_curation(animal_name, d)`: `remove_datapoints(d, [-1])` for
      "tacoma", `remove_datapoints(d, [-1, -2, -3])` for "yogurt", and every
      other animal is left as it is. */
  function CustomCuration(animal: string, d: AnimalDict): (r: Result<AnimalDict>)
    ensures CuratedTail(animal) == 0 ==> r == Ok(d)
  {
    var k := CuratedTail(animal);
    if k == 0 then Ok(d) else RemoveDatapoints(d, TailIndices(k))
  }

  /** `[-1, ..., -k]` clears exactly the last `k` of `n >= k` sessions. */
  lemma ListedTail(k: nat, n: nat, i: nat)
    requires k <= n
    ensures Listed(TailIndices(k), n, i) <==> n - k <= i < n
  {
    var inds := TailIndices(k);
    ListedMeansNamed(inds, n, i);
    if n - k <= i < n {
      var j := n - 1 - i;
      assert PyIndex(inds[j], n) == Some(i);
    }
  }

  /** Removing `[-1, ..., -k]` from an animal whose columns are arrays of one
      entry per session cuts every column to all but its last `k` entries;
      with fewer than `k` sessions it raises an `IndexError`. */
  lemma RemoveTail(d: AnimalDict, k: nat)
    requires k > 0
    requires Get(d, DAY_KEY).Some? && Aligned(d, SessionCount(d))
    ensures SessionCount(d) < k ==> RemoveDatapoints(d, TailIndices(k)) == Err(IndexError)
    ensures SessionCount(d) >= k ==>
              (RemoveDatapoints(d, TailIndices(k)) ==
               Ok(seq(|d|, i requires 0 <= i < |d| => Entry(d[i].key, Column(true, d[i].col.cells[..SessionCount(d) - k])))))
  {
    var n := SessionCount(d);
    var inds := TailIndices(k);
    if n >= k {
      var mask := KeepMask(inds, n);
      forall i | 0 <= i < n ensures mask[i] <==> i < n - k {
        ListedTail(k, n, i);
      }
      assert IndicesInRange(inds, n);
      assert ColumnsFit(d, n);
      RemoveIsDropAll(d, inds);
      var r := DropAll(d, mask).value;
      var want := seq(|d|, i requires 0 <= i < |d| => Entry(d[i].key, Column(true, d[i].col.cells[..n - k])));
      forall i | 0 <= i < |d| ensures r[i] == want[i] {
        SelectPrefix(d[i].col.cells, mask, n - k);
      }
      assert r == want;
    } else {
      assert !IndicesInRange(inds, n) by {
        assert inds[k - 1] == -(k as int);
      }
    }
  }

  /** For a curated animal whose columns are arrays of one entry per session,
      curation cuts every column to all but its last one or three sessions;
      with fewer sessions than that it raises an `IndexError`. */
  lemma CurationDropsTail(animal: string, d: AnimalDict)
    requires Get(d, DAY_KEY).Some? && Aligned(d, SessionCount(d))
    ensures var n := SessionCount(d);
            var k := CuratedTail(animal);
            && (0 < k && n < k ==> CustomCuration(animal, d) == Err(IndexError))
            && (n >= k ==>
                  CustomCuration(animal, d) == Ok(seq(|d|, i requires 0 <= i < |d| => Entry(d[i].key, Column(true, d[i].col.cells[..n - k])))))
  {
    var n := SessionCount(d);
    var k := CuratedTail(animal);
    if k > 0 {
      RemoveTail(d, k);
    } else {
      assert Aligned(d, n);
      var same := seq(|d|, i requires 0 <= i < |d| => Entry(d[i].key, Column(true, d[i].col.cells[..n])));
      forall i | 0 <= i < |d| ensures same[i] == d[i] {
        assert d[i].col.cells[..n] == d[i].col.cells;
      }
      assert same == d;
    }
  }
}

=== FILE: seqs.dfy ===
/** The array idioms the scripts use, on sequences: boolean-mask indexing
    (`a[mask]`), `np.where(mask)[0]`, Python's count-from-the-end indexing,
    `np.concatenate`, `np.max`/`np.min`, list comprehensions with a filter, and
    `sorted(..., key=...)`. */
module Seqs {
  import opened Wrappers

  /** `a[mask]` for a boolean mask of the same length: the kept items, in order. */
  function Select<T>(xs: seq<T>, mask: seq<bool>): (r: seq<T>)
    requires |xs| == |mask|
    ensures |r| <= |xs|
    decreases |xs|
  {
    if |xs| == 0 then []
    else (if mask[0] then [xs[0]] else []) + Select(xs[1..], mask[1..])
  }

  /** `int(np.sum(mask))`. */
  function CountTrue(mask: seq<bool>): nat
    decreases |mask|
  {
    if |mask| == 0 then 0 else (if mask[0] then 1 else 0) + CountTrue(mask[1..])
  }

  /** Every position in `ps` moved one step right. */
  function ShiftUp(ps: seq<nat>): (r: seq<nat>)
    ensures |r| == |ps| && forall k :: 0 <= k < |ps| ==> r[k] == ps[k] + 1
  {
    if |ps| == 0 then [] else [ps[0] + 1] + ShiftUp(ps[1..])
  }

  /** `r` lists, ascending, exactly the positions where `mask` holds. */
  predicate IsTrueIndices(r: seq<nat>, mask: seq<bool>) {
    && (forall k :: 0 <= k < |r| ==> r[k] < |mask| && mask[r[k]])
    && (forall k, l :: 0 <= k < l < |r| ==> r[k] < r[l])
    && (forall i :: 0 <= i < |mask| && mask[i] ==> i in r)
  }

  /** The positions of `mask` past its head, ascending and complete. */
  predicate TailIndices(r: seq<nat>, mask: seq<bool>) {
    && (forall k :: 0 <= k < |r| ==> 0 < r[k] < |mask| && mask[r[k]])
    && (forall k, l :: 0 <= k < l < |r| ==> r[k] < r[l])
    && (forall i :: 0 < i < |mask| && mask[i] ==> i in r)
  }

  /** Positions for the tail of a mask, moved one step right, are the
      positions of the mask past its head. */
  lemma ShiftedIndices(mask: seq<bool>, rest: seq<nat>)
    requires |mask| > 0 && IsTrueIndices(rest, mask[1..])
    ensures TailIndices(ShiftUp(rest), mask)
  {
    ShiftedInRange(mask, rest);
    ShiftedComplete(mask, rest);
    ShiftedAscending(rest);
  }

  lemma ShiftedInRange(mask: seq<bool>, rest: seq<nat>)
    requires |mask| > 0
    requires forall k :: 0 <= k < |rest| ==> rest[k] < |mask[1..]| && mask[1..][rest[k]]
    ensures forall k :: 0 <= k < |rest| ==> 0 < ShiftUp(rest)[k] < |mask| && mask[ShiftUp(rest)[k]]
  {
    var shifted := ShiftUp(rest);
    forall k | 0 <= k < |shifted| ensures 0 < shifted[k] < |mask| && mask[shifted[k]] {
      assert mask[1..][rest[k]] == mask[shifted[k]];
    }
  }

  lemma ShiftedComplete(mask: seq<bool>, rest: seq<nat>)
    requires |mask| > 0
    requires forall i :: 0 <= i < |mask[1..]| && mask[1..][i] ==> i in rest
    ensures forall i :: 0 < i < |mask| && mask[i] ==> i in ShiftUp(rest)
  {
    var tail := mask[1..];
    var shifted := ShiftUp(rest);
    forall i | 0 < i < |mask| && mask[i] ensures i in shifted {
      assert tail[i - 1];
      var k :| 0 <= k < |rest| && rest[k] == i - 1;
      assert shifted[k] == i;
    }
  }

  lemma ShiftedAscending(rest: seq<nat>)
    requires forall k, l :: 0 <= k < l < |rest| ==> rest[k] < rest[l]
    ensures forall k, l :: 0 <= k < l < |rest| ==> ShiftUp(rest)[k] < ShiftUp(rest)[l]
  {
  }

  /** Prefixing 0 to the positions past a true head gives all positions. */
  lemma ConsZeroIndices(mask: seq<bool>, shifted: seq<nat>)
    requires |mask| > 0 && mask[0] && TailIndices(shifted, mask)
    ensures IsTrueIndices([0] + shifted, mask)
  {
    var r := [0] + shifted;
    forall k | 0 < k < |r| ensures r[k] == shifted[k - 1] && 0 < r[k] < |mask| && mask[r[k]] {
    }
    forall k, l | 0 <= k < l < |r| ensures r[k] < r[l] {
      assert r[l] == shifted[l - 1];
    }
    forall i | 0 < i < |mask| && mask[i] ensures i in r {
      var j :| 0 <= j < |shifted| && shifted[j] == i;
      assert r[j + 1] == i;
    }
  }

  /** Positions for the tail of a mask, moved one step right and preceded by
      0 when the head holds, are the positions for the whole mask. */
  lemma TrueIndicesStep(mask: seq<bool>, rest: seq<nat>)
    requires |mask| > 0 && IsTrueIndices(rest, mask[1..])
    ensures IsTrueIndices(if mask[0] then [0] + ShiftUp(rest) else ShiftUp(rest), mask)
  {
    ShiftedIndices(mask, rest);
    if mask[0] {
      ConsZeroIndices(mask, ShiftUp(rest));
    } else {
      assert TailIndices(ShiftUp(rest), mask);
    }
  }

  /** `np.where(mask)[0]`: the positions holding `true`, ascending. */
  function TrueIndices(mask: seq<bool>): (r: seq<nat>)
    ensures forall k :: 0 <= k < |r| ==> r[k] < |mask| && mask[r[k]]
    ensures forall k, l :: 0 <= k < l < |r| ==> r[k] < r[l]
    ensures forall i :: 0 <= i < |mask| && mask[i] ==> i in r
    decreases |mask|
  {
    if |mask| == 0 then []
    else
      var rest := TrueIndices(mask[1..]);
      TrueIndicesStep(mask, rest);
      if mask[0] then [0] + ShiftUp(rest) else ShiftUp(rest)
  }

  /** Mask selection, the true-count and the true positions describe the same
      subsequence: item `k` of `xs[mask]` is `xs` at the `k`-th true position. */
  lemma {:induction false} SelectIsIndexed<T>(xs: seq<T>, mask: seq<bool>)
    requires |xs| == |mask|
    ensures |Select(xs, mask)| == CountTrue(mask) == |TrueIndices(mask)|
    ensures forall k :: 0 <= k < |Select(xs, mask)| ==>
              Select(xs, mask)[k] == xs[TrueIndices(mask)[k]]
    decreases |xs|
  {
    if |xs| > 0 {
      SelectIsIndexed(xs[1..], mask[1..]);
      IndexedStep(xs, Select(xs[1..], mask[1..]), TrueIndices(mask[1..]), mask[0]);
    }
  }

  /** One step of `SelectIsIndexed`: items picked from the tail at positions
      `t` are the items of the whole at the shifted positions, and a kept head
      sits at position 0. */
  lemma IndexedStep<T>(xs: seq<T>, s: seq<T>, t: seq<nat>, head: bool)
    requires |xs| > 0 && |s| == |t|
    requires forall k :: 0 <= k < |t| ==> t[k] < |xs| - 1 && s[k] == xs[1..][t[k]]
    ensures var r := (if head then [xs[0]] else []) + s;
            var u := if head then [0] + ShiftUp(t) else ShiftUp(t);
            |r| == |u| && forall k :: 0 <= k < |r| ==> u[k] < |xs| && r[k] == xs[u[k]]
  {
    var sh := ShiftUp(t);
    forall k | 0 <= k < |s| ensures sh[k] < |xs| && s[k] == xs[sh[k]] {
      assert xs[1..][t[k]] == xs[sh[k]];
    }
    if head {
      var r := [xs[0]] + s;
      var u := [0] + sh;
      forall k | 0 < k < |r| ensures u[k] < |xs| && r[k] == xs[u[k]] {
        assert r[k] == s[k - 1] && u[k] == sh[k - 1];
      }
    }
  }

  /** A mask with a `false` entry keeps fewer items than it has entries. */
  lemma {:induction false} CountTrueBelowLength(mask: seq<bool>, i: nat)
    requires i < |mask| && !mask[i]
    ensures CountTrue(mask) < |mask|
    decreases |mask|
  {
    if i > 0 {
      CountTrueBelowLength(mask[1..], i - 1);
    } else {
      CountTrueAtMostLength(mask[1..]);
    }
  }

  /** A mask with a `true` entry keeps at least one item. */
  lemma {:induction false} CountTruePositive(mask: seq<bool>, i: nat)
    requires i < |mask| && mask[i]
    ensures CountTrue(mask) > 0
    decreases |mask|
  {
    if i > 0 && !mask[0] {
      CountTruePositive(mask[1..], i - 1);
    }
  }

  lemma {:induction false} CountTrueAtMostLength(mask: seq<bool>)
    ensures CountTrue(mask) <= |mask|
    decreases |mask|
  {
    if |mask| > 0 {
      CountTrueAtMostLength(mask[1..]);
    }
  }

  /** Selecting with a mask of all `true` keeps everything. */
  lemma {:induction false} SelectAll<T>(xs: seq<T>, mask: seq<bool>)
    requires |xs| == |mask|
    requires forall i :: 0 <= i < |mask| ==> mask[i]
    ensures Select(xs, mask) == xs
    ensures CountTrue(mask) == |xs|
    decreases |xs|
  {
    if |xs| > 0 {
      SelectAll(xs[1..], mask[1..]);
    }
  }

  /** Selection commutes with applying a function to every item. */
  lemma {:induction false} SelectMap<T, U>(xs: seq<T>, mask: seq<bool>, f: T -> U)
    requires |xs| == |mask|
    ensures Select(seq(|xs|, i requires 0 <= i < |xs| => f(xs[i])), mask)
         == seq(|Select(xs, mask)|, k requires 0 <= k < |Select(xs, mask)| => f(Select(xs, mask)[k]))
    decreases |xs|
  {
    if |xs| > 0 {
      var ys := seq(|xs|, i requires 0 <= i < |xs| => f(xs[i]));
      assert ys[1..] == seq(|xs[1..]|, i requires 0 <= i < |xs[1..]| => f(xs[1..][i]));
      SelectMap(xs[1..], mask[1..], f);
    }
  }

  /** Selecting with the mask `[p(x) for x in xs]` is filtering by `p`. */
  lemma {:induction false} SelectByPredicate<T>(xs: seq<T>, mask: seq<bool>, p: T -> bool)
    requires |mask| == |xs|
    requires forall i :: 0 <= i < |xs| ==> mask[i] == p(xs[i])
    ensures Select(xs, mask) == Filter(xs, p)
    decreases |xs|
  {
    if |xs| > 0 {
      SelectByPredicate(xs[1..], mask[1..], p);
    }
  }

  /** A sequence of `n` copies of `true`: `np.ones(n, dtype=bool)`. */
  function AllTrue(n: nat): (m: seq<bool>)
    ensures |m| == n && forall i :: 0 <= i < n ==> m[i]
  {
    seq(n, _ => true)
  }

  /** Python's `a[i]` position on a length-`n` axis: negatives count from the
      end; anything outside `[-n, n)` is an `IndexError` (`None`). */
  function PyIndex(i: int, n: nat): (r: Option<nat>)
    ensures r.Some? <==> -(n as int) <= i < n
    ensures r.Some? ==> r.value < n && r.value as int == (if i < 0 then i + n else i)
  {
    if 0 <= i < n then Some(i) else if -(n as int) <= i < 0 then Some(i + n) else None
  }

  /** `int(x)` / `astype(int)` on a float: truncation toward zero. */
  function Trunc(x: real): (r: int)
    ensures x >= 0.0 ==> r as real <= x < r as real + 1.0
    ensures x < 0.0 ==> r as real - 1.0 < x <= r as real
  {
    if x >= 0.0 then x.Floor else -((-x).Floor)
  }

  /** Concatenation regroups freely; stated once so that proofs about long
      concatenations need not rediscover it. */
  lemma AppendAssoc<T>(a: seq<T>, b: seq<T>, c: seq<T>)
    ensures (a + b) + c == a + (b + c)
  {
  }

  function Sum(ns: seq<nat>): nat
    decreases |ns|
  {
    if |ns| == 0 then 0 else ns[0] + Sum(ns[1..])
  }

  lemma {:induction false} SumAppend(a: seq<nat>, b: seq<nat>)
    ensures Sum(a + b) == Sum(a) + Sum(b)
    decreases |a|
  {
    if |a| > 0 {
      assert (a + b)[1..] == a[1..] + b;
      SumAppend(a[1..], b);
    } else {
      assert a + b == b;
    }
  }

  function Lengths<T>(xss: seq<seq<T>>): (r: seq<nat>)
    ensures |r| == |xss| && forall i :: 0 <= i < |xss| ==> r[i] == |xss[i]|
  {
    seq(|xss|, i requires 0 <= i < |xss| => |xss[i]|)
  }

  /** `np.concatenate(xss)`: the parts one after another. */
  function Flatten<T>(xss: seq<seq<T>>): seq<T>
    decreases |xss|
  {
    if |xss| == 0 then [] else xss[0] + Flatten(xss[1..])
  }

  /** The concatenation is as long as its parts together. */
  lemma {:induction false} FlattenLength<T>(xss: seq<seq<T>>)
    ensures |Flatten(xss)| == Sum(Lengths(xss))
    decreases |xss|
  {
    if |xss| > 0 {
      assert Lengths(xss)[1..] == Lengths(xss[1..]);
      FlattenLength(xss[1..]);
    }
  }

  lemma {:induction false} FlattenAppend<T>(a: seq<seq<T>>, b: seq<seq<T>>)
    ensures Flatten(a + b) == Flatten(a) + Flatten(b)
    decreases |a|
  {
    if |a| > 0 {
      assert (a + b)[1..] == a[1..] + b;
      FlattenAppend(a[1..], b);
    } else {
      assert a + b == b;
    }
  }

  /** `np.max` over a non-empty vector: attained, and an upper bound. */
  function Max(xs: seq<real>): (m: real)
    requires |xs| > 0
    ensures exists i :: 0 <= i < |xs| && xs[i] == m
    ensures forall i :: 0 <= i < |xs| ==> xs[i] <= m
    decreases |xs|
  {
    if |xs| == 1 then xs[0]
    else
      var rest := Max(xs[1..]);
      assert forall i :: 1 <= i < |xs| ==> xs[i] == xs[1..][i - 1];
      if xs[0] >= rest then xs[0] else rest
  }

  /** `np.min` over a non-empty vector: attained, and a lower bound. */
  function Min(xs: seq<real>): (m: real)
    requires |xs| > 0
    ensures exists i :: 0 <= i < |xs| && xs[i] == m
    ensures forall i :: 0 <= i < |xs| ==> m <= xs[i]
    decreases |xs|
  {
    if |xs| == 1 then xs[0]
    else
      var rest := Min(xs[1..]);
      assert forall i :: 1 <= i < |xs| ==> xs[i] == xs[1..][i - 1];
      if xs[0] <= rest then xs[0] else rest
  }

  function SumReal(xs: seq<real>): real
    decreases |xs|
  {
    if |xs| == 0 then 0.0 else xs[0] + SumReal(xs[1..])
  }

  /** `np.mean`, with `None` standing for the NaN of an empty vector. */
  function Mean(xs: seq<real>): (m: Option<real>)
    ensures m.None? <==> |xs| == 0
  {
    if |xs| == 0 then None else Some(SumReal(xs) / |xs| as real)
  }

  /** `[x for x in xs if p(x)]`. */
  function Filter<T>(xs: seq<T>, p: T -> bool): (r: seq<T>)
    ensures |r| <= |xs|
    ensures forall k :: 0 <= k < |r| ==> p(r[k]) && r[k] in xs
    decreases |xs|
  {
    if |xs| == 0 then []
    else (if p(xs[0]) then [xs[0]] else []) + Filter(xs[1..], p)
  }

  ghost predicate TotalPreorder<T(!new)>(le: (T, T) -> bool) {
    && (forall a, b :: le(a, b) || le(b, a))
    && (forall a, b, c :: le(a, b) && le(b, c) ==> le(a, c))
  }

  predicate SortedBy<T>(xs: seq<T>, le: (T, T) -> bool) {
    forall i, j :: 0 <= i < j < |xs| ==> le(xs[i], xs[j])
  }

  /** An item below every item of a sorted sequence can go in front of it. */
  lemma ConsSorted<T>(y: T, rest: seq<T>, le: (T, T) -> bool)
    requires SortedBy(rest, le) && forall k :: 0 <= k < |rest| ==> le(y, rest[k])
    ensures SortedBy([y] + rest, le)
  {
    var r := [y] + rest;
    forall i, j | 0 <= i < j < |r| ensures le(r[i], r[j]) {
      assert r[j] == rest[j - 1];
      if i > 0 {
        assert r[i] == rest[i - 1];
      }
    }
  }

  /** A lower bound of `tail` and of `x` bounds any permutation of both. */
  lemma BoundOfPermutation<T>(y: T, x: T, tail: seq<T>, rest: seq<T>, le: (T, T) -> bool)
    requires le(y, x) && forall k :: 0 <= k < |tail| ==> le(y, tail[k])
    requires multiset(rest) == multiset(tail) + multiset{x}
    ensures forall k :: 0 <= k < |rest| ==> le(y, rest[k])
  {
    forall k | 0 <= k < |rest| ensures le(y, rest[k]) {
      assert rest[k] in multiset(rest);
      if rest[k] != x {
        assert rest[k] in multiset(tail);
        var j :| 0 <= j < |tail| && tail[j] == rest[k];
      }
    }
  }

  /** Inserts `x` after every item that is not greater than it (keeps ties in
      arrival order). */
  function InsertSorted<T(!new)>(x: T, xs: seq<T>, le: (T, T) -> bool): (r: seq<T>)
    requires TotalPreorder(le) && SortedBy(xs, le)
    ensures SortedBy(r, le)
    ensures multiset(r) == multiset(xs) + multiset{x}
    decreases |xs|
  {
    if |xs| == 0 then [x]
    else
      var tail := xs[1..];
      assert xs == [xs[0]] + tail;
      assert forall k :: 0 <= k < |tail| ==> le(xs[0], tail[k]) by {
        forall k | 0 <= k < |tail| ensures le(xs[0], tail[k]) {
          assert tail[k] == xs[k + 1];
        }
      }
      if le(xs[0], x) then
        var rest := InsertSorted(x, tail, le);
        BoundOfPermutation(xs[0], x, tail, rest, le);
        ConsSorted(xs[0], rest, le);
        [xs[0]] + rest
      else
        assert le(x, xs[0]);
        assert forall k :: 0 <= k < |xs| ==> le(x, xs[k]);
        ConsSorted(x, xs, le);
        [x] + xs
  }

  /** `sorted(xs, key=...)` as a stable insertion sort under a total preorder:
      the result is ordered and is a permutation of the input. */
  function SortBy<T(!new)>(xs: seq<T>, le: (T, T) -> bool): (r: seq<T>)
    requires TotalPreorder(le)
    ensures SortedBy(r, le)
    ensures multiset(r) == multiset(xs)
    ensures |r| == |xs|
    decreases |xs|
  {
    if |xs| == 0 then []
    else
      var init := xs[..|xs| - 1];
      assert xs == init + [xs[|xs| - 1]];
      assert multiset(xs) == multiset(init) + multiset{xs[|xs| - 1]};
      var r := InsertSorted(xs[|xs| - 1], SortBy(init, le), le);
      assert |r| == |multiset(r)| == |multiset(xs)| == |xs|;
      r
  }

  /** In a non-empty sorted permutation of `xs`, the first item is a least one. */
  lemma SortedHeadIsLeast<T(!new)>(xs: seq<T>, le: (T, T) -> bool)
    requires TotalPreorder(le) && |xs| > 0
    ensures forall i :: 0 <= i < |xs| ==> le(SortBy(xs, le)[0], xs[i])
  {
    var r := SortBy(xs, le);
    forall i | 0 <= i < |xs| ensures le(r[0], xs[i]) {
      assert xs[i] in multiset(r);
      var j :| 0 <= j < |r| && r[j] == xs[i];
      if j > 0 {
        assert le(r[0], r[j]);
      }
    }
  }

  /** The first failure of a loop over `rs`, in order; `None` when every
      step succeeds. */
  function FirstErr<T>(rs: seq<Result<T>>): (r: Option<PyError>)
    ensures r.None? <==> forall k :: 0 <= k < |rs| ==> rs[k].Ok?
    ensures r.Some? ==> exists k :: 0 <= k < |rs| && rs[k] == Err(r.value) && forall j :: 0 <= j < k ==> rs[j].Ok?
    decreases |rs|
  {
    if |rs| == 0 then None
    else if rs[0].Err? then Some(rs[0].error)
    else
      var rest := FirstErr(rs[1..]);
      assert forall k :: 1 <= k < |rs| ==> rs[k] == rs[1..][k - 1];
      if rest.Some? then
        var k :| 0 <= k < |rs[1..]| && rs[1..][k] == Err(rest.value) && forall j :: 0 <= j < k ==> rs[1..][j].Ok?;
        assert rs[k + 1] == Err(rest.value);
        rest
      else rest
  }

  /** A loop that builds a list and stops at the first step that raises. */
  function Collect<T>(rs: seq<Result<T>>): (r: Result<seq<T>>)
    ensures r.Ok? <==> forall k :: 0 <= k < |rs| ==> rs[k].Ok?
    ensures r.Ok? ==> |r.value| == |rs| && forall k :: 0 <= k < |rs| ==> rs[k] == Ok(r.value[k])
    ensures r.Err? ==> exists k :: 0 <= k < |rs| && rs[k] == Err(r.error) && forall j :: 0 <= j < k ==> rs[j].Ok?
  {
    match FirstErr(rs)
    case Some(e) => Err(e)
    case None => Ok(seq(|rs|, k requires 0 <= k < |rs| => rs[k].value))
  }
}

=== FILE: sessions.dfy ===
/** The session loop shared by the counting and impedance scripts: folders
    are visited in sorted order, a session's date is the eight-digit prefix
    of its folder name, a session that raises is skipped, and the sessions
    that matter downstream are the ones with a positive count. */
module Sessions {
  import opened Wrappers
  import opened Text
  import opened Seqs

  /** `sorted(folders)`: ascending in Python's string order, and a
      permutation of the input. */
  function SortedFolders(folders: seq<string>): (r: seq<string>)
    ensures |r| == |folders| && multiset(r) == multiset(folders)
    ensures forall i, j :: 0 <= i < j < |r| ==> StrLe(r[i], r[j])
  {
    StrLeTotalOrder();
    SortBy(folders, StrLe)
  }

  /** The number of digits in a session date, `YYYYMMDD`. */
  const DATE_DIGITS: nat := 8

  /** `re.match("([0-9]{8})", name)[1]`: the leading eight digits. When the
      name does not start with them, `None[1]` raises a `TypeError`. */
  function SessionDateText(name: string): (r: Result<string>)
    ensures r.Ok? <==> |name| >= DATE_DIGITS && AllDigits(name[..DATE_DIGITS])
    ensures r.Err? ==> r.error == TypeError
    ensures r.Ok? ==> StartsWith(name, r.value) && |r.value| == DATE_DIGITS
  {
    if |name| >= DATE_DIGITS && AllDigits(name[..DATE_DIGITS]) then Ok(name[..DATE_DIGITS]) else Err(TypeError)
  }

  /** Eight digits followed by anything are read back as those digits. */
  lemma DateTextOfName(date: string, rest: string)
    requires |date| == DATE_DIGITS && AllDigits(date)
    ensures SessionDateText(date + rest) == Ok(date)
  {
    assert (date + rest)[..DATE_DIGITS] == date;
  }

  /** The folder's own name as the newer scripts take it: one trailing '/'
      is stripped before `os.path.basename`. */
  function SessionName(folder: string): (r: string)
    ensures Free(r, '/')
    ensures EndsWith(StripOneSlash(folder), r)
  {
    Basename(StripOneSlash(folder))
  }

  /** A folder given with a trailing '/' has the same session name as
      without it. */
  lemma TrailingSlashIgnored(folder: string)
    requires !EndsWith(folder, "/")
    ensures SessionName(folder + "/") == SessionName(folder)
  {
    assert StripOneSlash(folder + "/") == folder;
  }

  /** Without the strip, a folder given with a trailing '/' has an empty
      base name, so its date cannot be read. */
  lemma UnstrippedTrailingSlashHasNoDate(folder: string)
    requires EndsWith(folder, "/")
    ensures Basename(folder) == []
    ensures SessionDateText(Basename(folder)) == Err(TypeError)
  {
    var b := Basename(folder);
    var last := folder[|folder| - 1];
    assert |b| > 0 ==> last in b;
  }

  /** The entries of a directory listing whose names begin with eight
      digits, joined onto the folder, in listing order. */
  function DatedEntries(folder: string, listing: seq<string>): (r: seq<string>)
    ensures |r| <= |listing|
    decreases |listing|
  {
    if |listing| == 0 then []
    else
      var rest := DatedEntries(folder, listing[1..]);
      if SessionDateText(listing[0]).Ok? then [PathJoin(folder, listing[0])] + rest else rest
  }

  lemma {:induction false} DatedEntriesIsSelect(folder: string, listing: seq<string>)
    ensures DatedEntries(folder, listing) ==
              Select(seq(|listing|, i requires 0 <= i < |listing| => PathJoin(folder, listing[i])),
                     seq(|listing|, i requires 0 <= i < |listing| => SessionDateText(listing[i]).Ok?))
    decreases |listing|
  {
    if |listing| > 0 {
      DatedEntriesIsSelect(folder, listing[1..]);
      var paths := seq(|listing|, i requires 0 <= i < |listing| => PathJoin(folder, listing[i]));
      var dated := seq(|listing|, i requires 0 <= i < |listing| => SessionDateText(listing[i]).Ok?);
      assert paths[1..] == seq(|listing| - 1, i requires 0 <= i < |listing| - 1 => PathJoin(folder, listing[1..][i]));
      assert dated[1..] == seq(|listing| - 1, i requires 0 <= i < |listing| - 1 => SessionDateText(listing[1..][i]).Ok?);
    }
  }

  /** Exactly the dated entries are listed, in order, each joined onto the
      folder. */
  lemma DatedEntriesAreDated(folder: string, listing: seq<string>)
    ensures var r := DatedEntries(folder, listing);
            var dated := seq(|listing|, i requires 0 <= i < |listing| => SessionDateText(listing[i]).Ok?);
            && |r| == CountTrue(dated) == |TrueIndices(dated)|
            && forall k :: 0 <= k < |r| ==> r[k] == PathJoin(folder, listing[TrueIndices(dated)[k]])
  {
    var paths := seq(|listing|, i requires 0 <= i < |listing| => PathJoin(folder, listing[i]));
    var dated := seq(|listing|, i requires 0 <= i < |listing| => SessionDateText(listing[i]).Ok?);
    DatedEntriesIsSelect(folder, listing);
    SelectIsIndexed(paths, dated);
  }

  /** Joining a '/'-free entry onto a folder and taking the base name gives
      the entry back. */
  lemma BasenameOfJoin(folder: string, entry: string)
    requires Free(entry, '/')
    ensures Basename(PathJoin(folder, entry)) == entry
  {
    var p := PathJoin(folder, entry);
    if |folder| > 0 && |p| > |entry| {
      assert p[|p| - |entry| - 1] == '/';
    }
    BasenameOfSlashSuffix(p, entry);
  }

  /** A '/'-free suffix that starts the path or follows a '/' is the base
      name. */
  lemma BasenameOfSlashSuffix(p: string, entry: string)
    requires Free(entry, '/') && EndsWith(p, entry)
    requires |p| == |entry| || p[|p| - |entry| - 1] == '/'
    ensures Basename(p) == entry
  {
    var r := Basename(p);
    var a := |p| - |r|;
    var b := |p| - |entry|;
    assert p[a..] == r && p[b..] == entry;
  }

  /** A listed session folder's base name is its directory entry, so its
      date is the one the listing filter saw. */
  lemma DatedEntriesHaveDates(folder: string, listing: seq<string>)
    requires forall i :: 0 <= i < |listing| ==> Free(listing[i], '/')
    ensures forall k :: 0 <= k < |DatedEntries(folder, listing)| ==>
              SessionDateText(Basename(DatedEntries(folder, listing)[k])).Ok?
  {
    var dated := seq(|listing|, i requires 0 <= i < |listing| => SessionDateText(listing[i]).Ok?);
    DatedEntriesAreDated(folder, listing);
    forall k | 0 <= k < |DatedEntries(folder, listing)|
      ensures SessionDateText(Basename(DatedEntries(folder, listing)[k])).Ok?
    {
      BasenameOfJoin(folder, listing[TrueIndices(dated)[k]]);
    }
  }

  /** The values of the sessions that did not raise, in order: every
      per-session list built inside the `try` grows by one entry for exactly
      these sessions. */
  function Successes<T>(rs: seq<Result<T>>): (r: seq<T>)
    ensures |r| <= |rs|
    decreases |rs|
  {
    if |rs| == 0 then []
    else (if rs[0].Ok? then [rs[0].value] else []) + Successes(rs[1..])
  }

  function OkMask<T>(rs: seq<Result<T>>): (m: seq<bool>)
    ensures |m| == |rs| && forall i :: 0 <= i < |rs| ==> m[i] == rs[i].Ok?
  {
    seq(|rs|, i requires 0 <= i < |rs| => rs[i].Ok?)
  }

  /** The `k`-th kept value is the value of the `k`-th session that did not
      raise; there are as many as sessions that did not raise. */
  lemma {:induction false} SuccessesAreTheOkSessions<T>(rs: seq<Result<T>>)
    ensures |Successes(rs)| == CountTrue(OkMask(rs)) == |TrueIndices(OkMask(rs))|
    ensures forall k :: 0 <= k < |Successes(rs)| ==> rs[TrueIndices(OkMask(rs))[k]] == Ok(Successes(rs)[k])
    decreases |rs|
  {
    if |rs| > 0 {
      SuccessesAreTheOkSessions(rs[1..]);
      var m := OkMask(rs);
      assert m[1..] == OkMask(rs[1..]);
      OkStep(rs, Successes(rs[1..]), TrueIndices(m[1..]));
      assert CountTrue(m) == (if m[0] then 1 else 0) + CountTrue(m[1..]);
    }
  }

  /** One step of `SuccessesAreTheOkSessions`: values found in the tail at
      positions `t` are found in the whole at the shifted positions, and a
      successful head sits at position 0. */
  lemma OkStep<T>(rs: seq<Result<T>>, s: seq<T>, t: seq<nat>)
    requires |rs| > 0 && |s| == |t|
    requires forall k :: 0 <= k < |t| ==> t[k] < |rs| - 1 && rs[1..][t[k]] == Ok(s[k])
    ensures var r := (if rs[0].Ok? then [rs[0].value] else []) + s;
            var u := if rs[0].Ok? then [0] + ShiftUp(t) else ShiftUp(t);
            |r| == |u| && forall k :: 0 <= k < |r| ==> u[k] < |rs| && rs[u[k]] == Ok(r[k])
  {
    var sh := ShiftUp(t);
    forall k | 0 <= k < |s| ensures sh[k] < |rs| && rs[sh[k]] == Ok(s[k]) {
      assert rs[1..][t[k]] == rs[sh[k]];
    }
    if rs[0].Ok? {
      var r := [rs[0].value] + s;
      var u := [0] + sh;
      forall k | 0 < k < |r| ensures u[k] < |rs| && rs[u[k]] == Ok(r[k]) {
        assert r[k] == s[k - 1] && u[k] == sh[k - 1];
      }
    }
  }

  /** `np.where(np.array(counts) > 0)[0]`: the positions of the positive
      counts, ascending, and all of them. */
  function ValidIds(counts: seq<nat>): (ids: seq<nat>)
    ensures forall k :: 0 <= k < |ids| ==> ids[k] < |counts| && counts[ids[k]] > 0
    ensures forall k, l :: 0 <= k < l < |ids| ==> ids[k] < ids[l]
    ensures forall i :: 0 <= i < |counts| && counts[i] > 0 ==> i in ids
  {
    TrueIndices(seq(|counts|, i requires 0 <= i < |counts| => counts[i] > 0))
  }

  /** `[xs[i] for i in ids]`. */
  function Pick<T>(xs: seq<T>, ids: seq<nat>): (r: seq<T>)
    requires forall k :: 0 <= k < |ids| ==> ids[k] < |xs|
    ensures |r| == |ids| && forall k :: 0 <= k < |ids| ==> r[k] == xs[ids[k]]
  {
    seq(|ids|, k requires 0 <= k < |ids| => xs[ids[k]])
  }
}

=== FILE: templates.dfy ===
/** The per-cluster peak-to-peak amplitude both counting scripts compute from
    `templates_average.npy`, a (clusters x samples x channels) array: per
    channel the largest sample minus the smallest, then the largest channel. */
module Templates {
  import opened Wrappers
  import opened Seqs

  datatype Waveforms = Waveforms(nClus: nat, nSamp: nat, nCh: nat, w: seq<seq<seq<real>>>) {
    predicate Valid() {
      && |w| == nClus
      && forall c :: 0 <= c < nClus ==>
           && |w[c]| == nSamp
           && forall s :: 0 <= s < nSamp ==> |w[c][s]| == nCh
    }
  }

  /** A loaded `.npy` array is rectangular. */
  type ValidWaveforms = t: Waveforms | t.Valid() witness Waveforms(0, 0, 0, [])

  /** Cluster `c`'s template on channel `ch`, over the samples. */
  function Trace(t: Waveforms, c: nat, ch: nat): (r: seq<real>)
    requires t.Valid() && c < t.nClus && ch < t.nCh
    ensures |r| == t.nSamp && forall s :: 0 <= s < t.nSamp ==> r[s] == t.w[c][s][ch]
  {
    seq(t.nSamp, s requires 0 <= s < t.nSamp => t.w[c][s][ch])
  }

  /** `peaks - troughs` on one channel. */
  function ChannelP2P(t: Waveforms, c: nat, ch: nat): (m: real)
    requires t.Valid() && c < t.nClus && ch < t.nCh && t.nSamp > 0
    ensures m >= 0.0
  {
    var tr := Trace(t, c, ch);
    Max(tr) - Min(tr)
  }

  /** One channel's peak-to-peak value is the largest swing between two of
      its samples, and some pair of samples attains it. */
  lemma ChannelSwing(t: Waveforms, c: nat, ch: nat)
    requires t.Valid() && c < t.nClus && ch < t.nCh && t.nSamp > 0
    ensures forall s1, s2 :: 0 <= s1 < t.nSamp && 0 <= s2 < t.nSamp ==> t.w[c][s1][ch] - t.w[c][s2][ch] <= ChannelP2P(t, c, ch)
    ensures exists s1, s2 :: 0 <= s1 < t.nSamp && 0 <= s2 < t.nSamp && t.w[c][s1][ch] - t.w[c][s2][ch] == ChannelP2P(t, c, ch)
  {
    var tr := Trace(t, c, ch);
    var s1 :| 0 <= s1 < |tr| && tr[s1] == Max(tr);
    var s2 :| 0 <= s2 < |tr| && tr[s2] == Min(tr);
    assert t.w[c][s1][ch] - t.w[c][s2][ch] == ChannelP2P(t, c, ch);
  }

  /** `peaks - troughs` of one cluster, channel by channel. */
  function ChannelP2Ps(t: Waveforms, c: nat): (r: seq<real>)
    requires t.Valid() && c < t.nClus && t.nSamp > 0
    ensures |r| == t.nCh && forall ch :: 0 <= ch < t.nCh ==> r[ch] == ChannelP2P(t, c, ch)
  {
    seq(t.nCh, ch requires 0 <= ch < t.nCh => ChannelP2P(t, c, ch))
  }

  /** The largest channel swing of one cluster: bounds every channel's
      peak-to-peak value and is one of them. */
  function ClusterP2P(t: Waveforms, c: nat): (m: real)
    requires t.Valid() && c < t.nClus && t.nCh > 0 && t.nSamp > 0
    ensures m >= 0.0
    ensures forall ch :: 0 <= ch < t.nCh ==> ChannelP2Ps(t, c)[ch] <= m
    ensures exists ch :: 0 <= ch < t.nCh && ChannelP2Ps(t, c)[ch] == m
  {
    var chs := ChannelP2Ps(t, c);
    var m := Max(chs);
    assert chs[0] <= m;
    m
  }

  /** `np.max(np.max(w, 1) - np.min(w, 1), 1)`. `max` and `min` have no
      identity, and numpy refuses to reduce along an axis of length 0 even
      when the result would be empty: no samples fail the first reduction
      and no channels the last, each with a `ValueError`. No clusters, with
      samples and channels, give an empty result. */
  function P2PAmplitudes(t: Waveforms): (r: Result<seq<real>>)
    requires t.Valid()
    ensures r.Err? <==> t.nSamp == 0 || t.nCh == 0
    ensures r.Err? ==> r.error == ValueError
    ensures r.Ok? ==> |r.value| == t.nClus && forall c :: 0 <= c < t.nClus ==> r.value[c] >= 0.0
  {
    if t.nSamp == 0 || t.nCh == 0 then Err(ValueError)
    else Ok(seq(t.nClus, c requires 0 <= c < t.nClus => ClusterP2P(t, c)))
  }

  /** A cluster's amplitude bounds every swing between two samples of one
      channel, and some channel attains it. */
  lemma P2PIsLargestSwing(t: Waveforms, c: nat)
    requires t.Valid() && P2PAmplitudes(t).Ok? && c < t.nClus
    ensures var a := P2PAmplitudes(t).value[c];
            && (forall ch, s1, s2 :: 0 <= ch < t.nCh && 0 <= s1 < t.nSamp && 0 <= s2 < t.nSamp ==>
                  t.w[c][s1][ch] - t.w[c][s2][ch] <= a)
            && exists ch, s1, s2 :: 0 <= ch < t.nCh && 0 <= s1 < t.nSamp && 0 <= s2 < t.nSamp &&
                  t.w[c][s1][ch] - t.w[c][s2][ch] == a
  {
    var a := P2PAmplitudes(t).value[c];
    assert a == ClusterP2P(t, c);
    var ch :| 0 <= ch < t.nCh && ChannelP2Ps(t, c)[ch] == a;
    ChannelSwing(t, c, ch);
    forall ch', s1, s2 | 0 <= ch' < t.nCh && 0 <= s1 < t.nSamp && 0 <= s2 < t.nSamp
      ensures t.w[c][s1][ch'] - t.w[c][s2][ch'] <= a
    {
      ChannelSwing(t, c, ch');
      assert ChannelP2Ps(t, c)[ch'] <= a;
    }
  }
}

=== FILE: text.dfy ===
/** The small string rules the scripts rely on: decimal digits and `str(int)`,
    `str.split`, `os.path.basename`, prefix/suffix/substring tests, ASCII
    lower-casing and Python's ordering of `str` values. Strings are sequences of
    code points (`seq<char>`). */
module Text {
  import opened Wrappers

  predicate IsDigit(c: char) {
    '0' <= c <= '9'
  }

  predicate AllDigits(s: string) {
    forall i :: 0 <= i < |s| ==> IsDigit(s[i])
  }

  function DigitChar(d: nat): (c: char)
    requires d < 10
    ensures IsDigit(c)
  {
    (d + '0' as int) as char
  }

  function DigitValue(c: char): (d: nat)
    requires IsDigit(c)
    ensures d < 10
  {
    c as int - '0' as int
  }

  /** `str(n)` for a non-negative integer: decimal digits, no leading zero. */
  function NatToDecimal(n: nat): (r: string)
    ensures |r| > 0 && AllDigits(r)
    ensures r[0] == '0' ==> n == 0
    decreases n
  {
    if n < 10 then [DigitChar(n)] else NatToDecimal(n / 10) + [DigitChar(n % 10)]
  }

  /** `str(i)` for any integer: a leading '-' for negative values. */
  function IntToDecimal(i: int): (r: string)
    ensures |r| > 0
    ensures i >= 0 <==> AllDigits(r)
    ensures i < 0 ==> r[0] == '-'
  {
    if i < 0 then
      var r := "-" + NatToDecimal(-i);
      assert !IsDigit(r[0]);
      r
    else NatToDecimal(i)
  }

  /** `int(s)` for a string of decimal digits (leading zeros allowed). */
  function DecimalValue(s: string): nat
    requires AllDigits(s)
    decreases |s|
  {
    if |s| == 0 then 0 else DecimalValue(s[..|s| - 1]) * 10 + DigitValue(s[|s| - 1])
  }

  /** `int(str(n)) == n`. */
  lemma {:induction false} DecimalRoundTrip(n: nat)
    ensures DecimalValue(NatToDecimal(n)) == n
    decreases n
  {
    if n >= 10 {
      var p := NatToDecimal(n / 10);
      var r := NatToDecimal(n);
      assert r == p + [DigitChar(n % 10)];
      assert r[..|r| - 1] == p;
      DecimalRoundTrip(n / 10);
    }
  }

  /** The longest prefix of `s` made of digits: what a greedy `[0-9]*` matches. */
  function DigitRun(s: string): (r: string)
    ensures r <= s && AllDigits(r)
    ensures |r| == |s| || !IsDigit(s[|r|])
    decreases |s|
  {
    if |s| == 0 || !IsDigit(s[0]) then [] else [s[0]] + DigitRun(s[1..])
  }

  /** A digit string followed by a non-digit is exactly what the greedy run takes. */
  lemma {:induction false} DigitRunOfDigits(a: string, b: string)
    requires AllDigits(a)
    requires |b| == 0 || !IsDigit(b[0])
    ensures DigitRun(a + b) == a
    decreases |a|
  {
    if |a| > 0 {
      assert (a + b)[1..] == a[1..] + b;
      DigitRunOfDigits(a[1..], b);
    } else {
      assert a + b == b;
    }
  }

  predicate StartsWith(s: string, prefix: string) {
    |prefix| <= |s| && s[..|prefix|] == prefix
  }

  predicate EndsWith(s: string, suffix: string) {
    |suffix| <= |s| && s[|s| - |suffix|..] == suffix
  }

  predicate OccursAt(s: string, sub: string, i: int) {
    0 <= i && i + |sub| <= |s| && s[i..i + |sub|] == sub
  }

  /** Python's `sub in s` for strings. */
  predicate Contains(s: string, sub: string) {
    exists i | 0 <= i <= |s| - |sub| :: OccursAt(s, sub, i)
  }

  /** `s.find(c)` as an option: the first position holding `c`. */
  function IndexOf(s: string, c: char): (r: Option<nat>)
    ensures r.Some? ==> r.value < |s| && s[r.value] == c
    ensures r.Some? ==> forall j :: 0 <= j < r.value ==> s[j] != c
    ensures r.None? ==> forall j :: 0 <= j < |s| ==> s[j] != c
    decreases |s|
  {
    if |s| == 0 then None
    else if s[0] == c then Some(0)
    else match IndexOf(s[1..], c)
      case None => None
      case Some(k) => Some(k + 1)
  }

  predicate Free(s: string, c: char) {
    forall j :: 0 <= j < |s| ==> s[j] != c
  }

  /** `s.split(sep)`: never empty; no part contains the separator. */
  function Split(s: string, sep: char): (parts: seq<string>)
    ensures |parts| > 0
    ensures forall i :: 0 <= i < |parts| ==> Free(parts[i], sep)
    decreases |s|
  {
    match IndexOf(s, sep)
    case None => [s]
    case Some(k) => [s[..k]] + Split(s[k + 1..], sep)
  }

  /** `sep.join(parts)`. */
  function Join(parts: seq<string>, sep: char): string
    decreases |parts|
  {
    if |parts| == 0 then ""
    else if |parts| == 1 then parts[0]
    else parts[0] + [sep] + Join(parts[1..], sep)
  }

  /** Splitting loses nothing: joining the parts back gives the input. */
  lemma {:induction false} JoinSplit(s: string, sep: char)
    ensures Join(Split(s, sep), sep) == s
    decreases |s|
  {
    match IndexOf(s, sep)
    case None =>
    case Some(k) =>
      JoinSplit(s[k + 1..], sep);
      var rest := Split(s[k + 1..], sep);
      assert Split(s, sep) == [s[..k]] + rest;
      assert (Split(s, sep))[1..] == rest;
      assert s == s[..k] + [sep] + s[k + 1..];
  }

  /** Appending after the first occurrence does not move it. */
  lemma {:induction false} IndexOfExtend(a: string, x: string, c: char)
    requires IndexOf(a, c).Some?
    ensures IndexOf(a + x, c) == IndexOf(a, c)
    decreases |a|
  {
    if a[0] != c {
      assert (a + x)[1..] == a[1..] + x;
      IndexOfExtend(a[1..], x, c);
    }
  }

  /** With no occurrence in `a`, the first one in `a + x` is `x`'s first. */
  lemma {:induction false} IndexOfAfterFree(a: string, x: string, c: char)
    requires IndexOf(a, c).None? && |x| > 0 && x[0] == c
    ensures IndexOf(a + x, c) == Some(|a|)
    decreases |a|
  {
    if |a| > 0 {
      assert (a + x)[1..] == a[1..] + x;
      IndexOfAfterFree(a[1..], x, c);
    } else {
      assert a + x == x;
    }
  }

  /** Splitting at a separator splits each side independently. */
  lemma {:induction false} SplitAppend(a: string, b: string, sep: char)
    ensures Split(a + [sep] + b, sep) == Split(a, sep) + Split(b, sep)
    decreases |a|
  {
    var s := a + [sep] + b;
    assert s == a + ([sep] + b);
    match IndexOf(a, sep)
    case None =>
      IndexOfAfterFree(a, [sep] + b, sep);
      assert s[..|a|] == a;
      assert s[|a| + 1..] == b;
    case Some(k) =>
      IndexOfExtend(a, [sep] + b, sep);
      assert s[..k] == a[..k];
      assert s[k + 1..] == a[k + 1..] + [sep] + b;
      SplitAppend(a[k + 1..], b, sep);
  }

  /** A separator-free part appended after a separator is the last part. */
  lemma SplitThenName(a: string, name: string)
    requires Free(name, '/')
    ensures Split(a + "/" + name, '/') == Split(a, '/') + [name]
  {
    SplitAppend(a, name, '/');
    assert IndexOf(name, '/').None?;
  }

  /** `os.path.basename(p)`: the part after the last '/', or all of `p`. */
  function Basename(p: string): (r: string)
    ensures |r| <= |p| && p[|p| - |r|..] == r
    ensures Free(r, '/')
    ensures |r| == |p| || p[|p| - |r| - 1] == '/'
    decreases |p|
  {
    match IndexOf(p, '/')
    case None => p
    case Some(k) => Basename(p[k + 1..])
  }

  /** `os.path.basename(p) == p.split("/")[-1]`. */
  lemma {:induction false} BasenameIsLastPart(p: string)
    ensures var parts := Split(p, '/'); Basename(p) == parts[|parts| - 1]
    decreases |p|
  {
    match IndexOf(p, '/')
    case None =>
    case Some(k) =>
      BasenameIsLastPart(p[k + 1..]);
  }

  /** `os.path.join(folder, name)`: an absolute name (one starting with '/')
      discards the folder; otherwise the name follows the folder with one
      slash between them. */
  function PathJoin(folder: string, name: string): (r: string)
    ensures EndsWith(r, name)
    ensures StartsWith(name, "/") ==> r == name
    ensures !StartsWith(name, "/") && |folder| > 0 ==> StartsWith(r, folder)
    ensures !StartsWith(name, "/") ==>
              |r| == |folder| + |name| + (if |folder| == 0 || folder[|folder| - 1] == '/' then 0 else 1)
  {
    if |name| > 0 && name[0] == '/' then
      assert name[..1] == "/";
      name
    else
      var r := if |folder| == 0 || folder[|folder| - 1] == '/' then folder + name else folder + "/" + name;
      assert r[|r| - |name|..] == name;
      assert |folder| > 0 ==> r[..|folder|] == folder;
      r
  }

  /** Removes exactly one trailing '/', when there is one. */
  function StripOneSlash(p: string): (r: string)
    ensures EndsWith(p, "/") ==> r + "/" == p
    ensures !EndsWith(p, "/") ==> r == p
  {
    if |p| > 0 && p[|p| - 1] == '/' then p[..|p| - 1] else p
  }

  function LowerChar(c: char): char {
    if 'A' <= c <= 'Z' then (c as int + 32) as char else c
  }

  /** `s.lower()` restricted to the ASCII letters. */
  function LowerAscii(s: string): (r: string)
    ensures |r| == |s|
    ensures forall i :: 0 <= i < |s| ==> r[i] == LowerChar(s[i])
  {
    seq(|s|, i requires 0 <= i < |s| => LowerChar(s[i]))
  }

  /** Python's `a < b` on strings: code-point lexicographic order. */
  predicate StrLess(a: string, b: string)
    decreases |a|
  {
    if |a| == 0 then |b| > 0
    else if |b| == 0 then false
    else if a[0] != b[0] then a[0] < b[0]
    else StrLess(a[1..], b[1..])
  }

  predicate StrLe(a: string, b: string) {
    a == b || StrLess(a, b)
  }

  lemma {:induction false} StrLessIrreflexive(a: string)
    ensures !StrLess(a, a)
    decreases |a|
  {
    if |a| > 0 {
      StrLessIrreflexive(a[1..]);
    }
  }

  lemma {:induction false} StrLessTotal(a: string, b: string)
    ensures a == b || StrLess(a, b) || StrLess(b, a)
    decreases |a|
  {
    if |a| > 0 && |b| > 0 && a[0] == b[0] {
      StrLessTotal(a[1..], b[1..]);
      if a[1..] == b[1..] {
        assert a == [a[0]] + a[1..] && b == [b[0]] + b[1..];
      }
    }
  }

  lemma {:induction false} StrLessTransitive(a: string, b: string, c: string)
    requires StrLess(a, b) && StrLess(b, c)
    ensures StrLess(a, c)
    decreases |a|
  {
    if |a| > 0 && a[0] == b[0] && b[0] == c[0] {
      StrLessTransitive(a[1..], b[1..], c[1..]);
    }
  }

  /** `StrLe` is a total order, so sorting folder names by it is well defined. */
  lemma StrLeTotalOrder()
    ensures forall a, b :: StrLe(a, b) || StrLe(b, a)
    ensures forall a, b, c :: StrLe(a, b) && StrLe(b, c) ==> StrLe(a, c)
    ensures forall a, b :: StrLe(a, b) && StrLe(b, a) ==> a == b
  {
    forall a, b ensures StrLe(a, b) || StrLe(b, a) {
      StrLessTotal(a, b);
    }
    forall a, b, c | StrLe(a, b) && StrLe(b, c) ensures StrLe(a, c) {
      if a != b && b != c {
        StrLessTransitive(a, b, c);
      }
    }
    forall a, b | StrLe(a, b) && StrLe(b, a) ensures a == b {
      if a != b {
        StrLessTransitive(a, b, a);
        StrLessIrreflexive(a);
      }
    }
  }
}

=== FILE: wrappers.dfy ===
/** Failure-compatible wrappers shared by every module of the model.

    The scripts signal failure by raising Python exceptions; the model returns
    `Err(kind)` instead, with the exception class named by `PyError`. */
module Wrappers {

  /** The Python exception classes the modelled code can raise. */
  datatype PyError =
    | ValueError
    | AssertionError
    | NotImplementedError
    | IndexError
    | KeyError
    | TypeError
    | ZeroDivisionError
    | UnboundLocalError
    | AttributeError
    | StopIteration

  datatype Option<+T> = None | Some(value: T) {
    predicate IsFailure() {
      None?
    }

    function PropagateFailure<U>(): Option<U>
      requires None?
    {
      None
    }

    function Extract(): T
      requires Some?
    {
      value
    }
  }

  datatype Result<+T> = Ok(value: T) | Err(error: PyError) {
    predicate IsFailure() {
      Err?
    }

    function PropagateFailure<U>(): Result<U>
      requires Err?
    {
      Err(error)
    }

    function Extract(): T
      requires Ok?
    {
      value
    }
  }

  /** `Ok(())` when the condition holds, otherwise the given failure. */
  function Need(condition: bool, error: PyError): (r: Result<()>)
  {
    if condition then Ok(()) else Err(error)
  }
}
